=== FILE: README.md ===
# vue-router core, modelled in Dafny

This project models the route-resolution and navigation core of vue-router
(the 2.x line) and proves properties of the model. Every operation is a pure
function over immutable values. Every property is an `ensures` clause or a
lemma.

What the model covers, file by file:

- `path.dfy` (`Path`): `resolvePath`, `parsePath` and `cleanPath` from
  `src/util/path.js`.
- `query.dfy` (`Query`) and `query_round_trip.dfy` (`QueryRoundTrip`):
  - `parseQuery`, `stringifyQuery` and `resolveQuery` from
    `src/util/query.js`, over a multi-valued query (a single value, `null`,
    `undefined`, or an array);
  - the round trip `parseQuery(stringifyQuery(q))`, for a codec whose
    decoder inverts its encoder.
- `route.dfy` (`RouteOps`), from `src/util/route.js`:
  - `createRoute`, `formatMatch`, `getFullPath` and `START`;
  - `isSameRoute`, `isObjectEqual` and `isIncludedRoute`.
- `location.dfy` (`LocationOps`): `normalizeLocation` from
  `src/util/location.js`.
- `route_map.dfy` (`RouteMap`), from `src/create-route-map.js`:
  - `createRouteMap`, `addRouteRecord` and `normalizePath`;
  - the loop that moves wildcards to the end, as a method with loop
    invariants.
- `matcher.dfy` (`Matcher`), from `src/create-matcher.js`:
  - `match`, `redirect`, `alias`, `_createRoute`, `matchRoute`,
    `resolveRecordPath` and `addRoutes`;
  - a fuel parameter bounds the redirect/alias recursion.
- `async_queue.dfy` (`AsyncQueue`): `runQueue` from `src/util/async.js`.
  Every entry either calls its continuation or never does.
- `guards.dfy` (`Guards`), the pure parts of `src/history/base.js`:
  - `resolveQueue` and guard extraction and binding;
  - the order of the guard queues;
  - what the guard callback does with the value passed to `next`;
  - `normalizeBase`.
- `history.dfy`, `history_cases.dfy` and `history_props.dfy`, the
  transition engine of `src/history/base.js` together with the in-memory
  history of `src/history/abstract.js`:
  - The engine is a state machine. A guard calling `next` or throwing
    arrives as an event, so several transitions can be in flight and a
    stale one can be observed.
  - Calls the engine makes into user code are appended to an effect log.
  - `HistoryProps` proves an invariant kept by every event: the stack, the
    index and the runs in flight stay coherent, and the log only grows.
    Readiness is reached at most once. The history changes only through
    `updateRoute`.
- `components.dfy` (`Components`), from `src/util/resolve-components.js`:
  - `flatten` and `flatMapComponents`;
  - the pending counter and the first-error-only protocol of
    `resolveAsyncComponents`. Factory settlements are an input sequence.
- `router.dfy` (`Router`): the facade in `src/index.js`. It covers
  `registerHook`, `createHref`, mode selection, `init`,
  `getMatchedComponents`, `resolve`, `addRoutes`, and `push`, `replace`,
  `go`, `back` and `forward`.
- `view.dfy` (`View`), from `src/components/view.js`:
  - `resolveProps`;
  - the instance registration rule and `prepatch`;
  - the lookup of the record at the view's depth;
  - the split of props into attributes.
- Support modules:
  - `wrappers.dfy` (`Option`);
  - `strings.dfy`: `split`, `join`, `indexOf`, `trim` and single-character
    `replace`;
  - `dict.dfy`: plain JavaScript objects, as ordered key/value lists;
  - `types.dfy`: shared records. It also holds the two abstract
    parameters, the URI codec and the path pattern engine.

Some things the source takes from outside become parameters of the model:

- `encodeURIComponent`/`decodeURIComponent` are a `Codec`. A decoder
  result of `None` stands for a thrown `URIError`.
- `path-to-regexp` is a `PatternEngine`: a key list with optional flags, a
  matcher returning the captures, and a filler that may fail.
- User functions (guards, redirect functions, props functions, factories)
  are identified by number. What they do arrives as input.

## Model

| member | source | states |
|---|---|---|
| Path.BaseStack | src/util/path.js:22-31 | the walk starts from the base's `/`-separated parts; the last part is dropped unless appending to a base that does not end in `/`, and what is kept joins back to the base up to its last `/` |
| Path.ResolvePath | src/util/path.js:5-57 | a relative path starting with `/` is returned as is; one starting with `?` or `#` is appended to the base; any other resolves to `""` or to a string starting with `/` |
| Path.ResolveRelative | src/util/path.js:11-56 | a relative path starting with none of `/`, `?`, `#` is resolved by the segment walk over the base's directories |
| Path.ResolveSegments | src/util/path.js:35-56 | after the walk a leading empty segment is ensured, so the joined result is `""` or starts with `/` |
| Path.ResolveSiblingExample | src/util/path.js:5-57 | `../sibling` against `/a/b/c` without appending resolves to `/a/sibling` |
| Path.ParsePath | src/util/path.js:59-90 | the hash starts at the first `#` and the query after the first `?` before it; neither the path nor the query holds a `#`, the path holds no `?`, and the parts reassemble into the input |
| Path.SplitQuery | src/util/path.js:76-83 | the part before the first `?` and the part after it reassemble into the `#`-free input; with no `?` the whole input is the path |
| Path.ParsePathOfParts | src/util/path.js:59-90 | parsing the assembly of a path, an optional `?query` and a hash gives back exactly those three parts |
| Path.CleanPath | src/util/path.js:93-95 | `cleanPath` never lengthens a string |
| Path.CleanPathFacts | src/util/path.js:93-95 | `cleanPath` keeps every character other than `/` in order, keeps the first character, and leaves a string without `//` unchanged |
| Path.CleanPathRemovesDoubles | src/util/path.js:93-95 | a string with no run of three slashes has no `//` left after `cleanPath` |
| Path.CleanPathNotIdempotent | src/util/path.js:93-95 | the single left-to-right replacement is not idempotent: `///` becomes `//`, which becomes `/` |
| Path.DropLast | src/util/path.js:28-31 | the last part is kept only when appending to a non-empty last part; otherwise the kept parts joined with `/`, then `/` and the dropped part, give back the whole |
| Path.SplitQueryOf | src/util/path.js:77-83 | a path without `?` or `#`, followed by `?` and a query, splits back into that path and query |
| Dict.Get | src/util/query.js:72 | reading a key of the object gives a value exactly when the key is present, and the value stored under it |
| Dict.Put | src/util/query.js:74 | an assignment stores the value under the key, leaves every other key alone, keeps the position of an existing key and appends a new key last |
| Dict.Assign | src/util/query.js:40-42 | after copying every key of `b` onto `a`, a key of `b` reads `b`'s value and any other key reads `a`'s |
| Query.ParseQuery | src/util/query.js:48-85 | `parseQuery`; `QueryRoundTrip.RoundTrip` shows it inverts `stringifyQuery` for every query with non-empty, non-inherited keys and values other than `undefined` and one-element arrays, and `QueryRoundTrip.SingletonArrayCollapses` gives the one-element case |
| Query.ParseSegments | src/util/query.js:60-82 | the `forEach` over the `&`-separated segments; `QueryRoundTrip.ParseSegmentsAppend` shows it folds left to right and stops at the first throw, and `QueryRoundTrip.ParseAll` that it appends exactly the entries whose pairs it reads |
| Query.ResolveQuery | src/util/query.js:22-44 | `resolveQuery`; `Query.Overlay` states that every extra key reads its extra value and every other key its parsed value, with `{}` when the parse throws |
| Query.Render | src/util/query.js:91-125 | the rendering of one entry; `Query.ArrayPairs` and `Query.Rendered` state what it contributes, and `QueryRoundTrip.Prepared` that the pieces join to the serialised pairs |
| Query.SplitAtFirst | src/util/query.js:63-70 | splitting at `=`, taking the first part as the key and re-joining the rest with `=` gives the text before and after the first `=`; with no `=` the whole segment is the key |
| Query.ParsePair | src/util/query.js:63-70 | after `+` becomes a space, a segment without `=` decodes to a key with a `null` value, and one with `=` to the decoded key before the first `=` and the decoded value after it; a decoding that throws fails the parse |
| Query.AddValue | src/util/query.js:72-81 | a new key is appended with the value; a second value turns a plain value into a two-element array; later values are pushed onto the array; no other key changes |
| Query.Overlay | src/util/query.js:22-44 | `resolveQuery` reads every extra key from `extraQuery` and every other key from the parsed query, or from `{}` when the parse threw |
| Query.ArrayPairs | src/util/query.js:105-123 | for an array without `undefined` elements, each element renders in order as `key` (for `null`) or `key=value` |
| Query.Rendered | src/util/query.js:91-127 | empty renderings are filtered out, so at most one non-empty piece per key is kept |
| Query.StringifyQuery | src/util/query.js:88-130 | no rendered pieces give `""`; otherwise `?` followed by the pieces joined with `&` |
| Query.JoinNonEmpty | src/util/query.js:127-129 | non-empty pieces join to the empty string exactly when there are none, which is what decides between `""` and `?…` |
| QueryRoundTrip.ParsePairOfPair | src/util/query.js:63-70 | with a codec whose decoder inverts its encoder, a rendered `key` or `key=value` parses back to exactly that key and value |
| QueryRoundTrip.AddOntoSingle | src/util/query.js:80 | a second value under a key with a plain value makes the two-element array in the key's position |
| QueryRoundTrip.AddOntoMulti | src/util/query.js:77 | a further value under a key holding an array is pushed at its end |
| QueryRoundTrip.ParseSegmentsAppend | src/util/query.js:60-82 | parsing the segments of `a + b` is parsing `a` and then folding `b` into the result, stopping at the first throw |
| QueryRoundTrip.ParseAll | src/util/query.js:60-82 | parsing the pairs of an entry list with non-empty keys, reproducible values and keys new to the accumulator appends exactly those entries, in order |
| QueryRoundTrip.TrimQuestion | src/util/query.js:52 | trimming and dropping one leading `?` from `?` plus a string without white space, `+`, `?` or `#` gives back that string |
| QueryRoundTrip.Prepared | src/util/query.js:52-57 | the stringified form of a non-empty query, after trimming and dropping its `?`, is the non-empty `&`-join of its pairs |
| QueryRoundTrip.RoundTrip | src/util/query.js:48-130 | with a sound codec, parsing the stringified form of a query whose keys are non-empty and not inherited from `Object.prototype`, and whose values are strings, `null`s or arrays of at least two of them gives back the same query, in the same key order |
| QueryRoundTrip.SingletonArrayCollapses | src/util/query.js:72-74 | a one-element array does not survive the round trip: it comes back as a plain value |
| LocationOps.RelativeParams | src/util/location.js:26-47 | a path-less target with params is marked normalised, its params are the current route's overwritten by its own; it takes the current route's name when there is one, otherwise the path of the last matched record filled with those params, otherwise it stays as it is |
| LocationOps.BasePath | src/util/location.js:52 | the base is never empty: the current route's path when it has a non-empty one, and `/` in every other case, including no current route |
| LocationOps.ResolveHash | src/util/location.js:68-71 | the explicit hash wins over the parsed one, a `#` is prefixed when missing, and the result is empty only when both are |
| LocationOps.PathBranch | src/util/location.js:50-79 | the path is the base when the parsed path is empty and the parsed path resolved against the base otherwise; the query is the parsed query with the target's query written over it; the hash as `ResolveHash` gives it; the result carries no name, no params and the normalised mark |
| LocationOps.NormalizeLocation | src/util/location.js:9-80 | the result is always final (named or normalised); a final target is returned as it is; a path-less target with params and a current route goes the relative-params way; every other target goes the path way |
| LocationOps.NormalizeIdempotent | src/util/location.js:19-21 | normalising an already normalised location, against any current route and append flag, gives it back unchanged |
| LocationOps.StringTarget | src/util/location.js:16 | a string target is normalised as the location whose path is that string |
| LocationOps.AbsolutePathTarget | src/util/location.js:50-79 | an absolute path without `?` or `#` normalises to itself, with an empty query and hash |
| RouteOps.IsSameRoute | src/util/route.js:86-109 | `isSameRoute` as written; `RouteOps.SameRouteReflexive` and `RouteOps.StartOnlyByIdentity` characterise it, and `RouteOps.SameRouteAsWrittenCounterexample` shows it is not symmetric |
| RouteOps.IsSameRouteIntended | src/util/route.js:86-109 | `isSameRoute` with the intended object comparison; `RouteOps.SameRouteSymmetric` proves it symmetric and `RouteOps.SameRouteIntendedNarrows` that it implies the test as written |
| RouteOps.ObjectEqualAsWritten | src/util/route.js:111-128 | `isObjectEqual` as written; `RouteOps.ObjectEqualAsWrittenCounterexample` shows its asymmetry |
| RouteOps.ObjectEqual | src/util/route.js:111-128 | the intended `isObjectEqual`; `RouteOps.ObjectEqualReflexive`, `RouteOps.ObjectEqualSymmetric` and `RouteOps.ObjectEqualKeys` characterise it |
| RouteOps.IsIncludedRoute | src/util/route.js:130-137 | `isIncludedRoute`; `RouteOps.IncludedReflexive` and `RouteOps.SameRouteIncluded` characterise it |
| RouteOps.QueryIncludes | src/util/route.js:139-146 | `queryIncludes` over own keys; `RouteOps.IncludedReflexive` uses that every query includes itself |
| RouteOps.FormatMatch | src/util/route.js:66-75 | the matched list ends with the record itself and each entry is the parent of the next, the first having no parent |
| RouteOps.ChainUnique | src/util/route.js:66-75 | any parent chain ending in a record is exactly that record's matched list, so `formatMatch` is determined by its last record |
| RouteOps.CreateRoute | src/util/route.js:9-40 | the route is not `START`, its `fullPath` is path, stringified query and hash; `matched` is empty exactly without a record and ends with it otherwise; the path defaults to `/`; hash, query and params come from the location; the location's name wins over the record's; `redirectedFrom` is present exactly when given and holds its full path |
| RouteOps.StartShape | src/util/route.js:60-63 | `START` is the route created from no record and the path `/`, marked as the start route |
| RouteOps.FullPathSplits | src/util/route.js:78-84 | with a sound codec, parsing a route's `fullPath` gives back its path and hash, and its stringified query without the `?` |
| RouteOps.ObjectEqualAsWrittenCounterexample | src/util/route.js:111-128 | as written, `{x: 'undefined'}` equals `{y: '1'}` but not the other way round, while the intended comparison rejects both |
| RouteOps.ValueEqualFacts | src/util/route.js:119-127 | comparing two values, nested or as strings, is reflexive and symmetric |
| RouteOps.ObjectEqualReflexive | src/util/route.js:111-128 | with the intended key test, every query equals itself |
| RouteOps.ObjectEqualSymmetric | src/util/route.js:111-128 | with the intended key test, object equality is symmetric |
| RouteOps.ObjectEqualKeys | src/util/route.js:111-128 | with the intended key test, equal queries have the same key set |
| RouteOps.StripTrailingSlash | src/util/route.js:94 | removing the optional trailing `/` removes exactly one `/` at the end, or nothing |
| RouteOps.EnsureTrailingSlash | src/util/route.js:132-133 | replacing the optional trailing `/` by `/` leaves exactly one more `/` at the end, or nothing added |
| RouteOps.SameRouteIntendedNarrows | src/util/route.js:86-109 | whatever the intended `isSameRoute` accepts, the one as written accepts too |
| RouteOps.SameRouteReflexive | src/util/route.js:86-109 | a route with a path or a name, or `START`, is the same as itself |
| RouteOps.SameRouteSymmetric | src/util/route.js:86-109 | with the intended object comparison, `isSameRoute` is symmetric between routes other than `START` |
| RouteOps.SameRouteAsWrittenCounterexample | src/util/route.js:91-97 | as written, a route with query `{x: 'undefined'}` is the same as one with `{y: '1'}` on the same path and hash, but not the other way round |
| RouteOps.StartOnlyByIdentity | src/util/route.js:87-88 | `START` is the same only as itself: a route built just like it is not the same when compared against `START`, though `START` compared against it passes the path test |
| RouteOps.IncludedReflexive | src/util/route.js:130-147 | every route includes itself |
| RouteOps.SameRouteIncluded | src/util/route.js:130-147 | two routes with paths that are the same route under the intended comparison include each other (under the comparison as written they need not, as `{x: 'undefined'}` against `{y: '1'}` shows) |
| RouteMap.NormalizeUnderParent | src/create-route-map.js:225-235 | a relative child path without a trailing `/` whose join with its parent has no `//` normalises to exactly `parent/child` |
| RouteMap.Register | src/create-route-map.js:182-203 | a new path is appended to `pathList` and mapped to the record; an existing path keeps its first record; a new name is mapped to the record and an existing one keeps its first record |
| RouteMap.RecordIndexed | src/create-route-map.js:57-204 | after `addRouteRecord` the normalised path is in `pathMap` and a non-empty name is in `nameMap` |
| RouteMap.RecordRegistered | src/create-route-map.js:182-188 | when the record under the normalised path is the one just created, it is exactly the record built from the route and its path is the last entry of `pathList` — children and aliases were registered before it |
| RouteMap.RegisterWins | src/create-route-map.js:182-188 | registering after the children and aliases, the record lands under its path last in `pathList` whenever it is the one stored there |
| RouteMap.AliasMatchAs | src/create-route-map.js:177 | an alias matches as the record's path, or `/` for an empty one |
| RouteMap.ChildMatchAs | src/create-route-map.js:144-146 | a child gets a `matchAs` exactly when its parent has one |
| RouteMap.RecordKeepsGood | src/create-route-map.js:57-204 | `addRouteRecord` keeps the indexes coherent: `pathList` lists the keys of `pathMap` once each, every record sits under its own path and name, and ids stay below the next fresh one |
| RouteMap.DescendantsKeepGood | src/create-route-map.js:122-180 | adding the children and the aliases keeps the indexes coherent |
| RouteMap.ChildrenKeepGood | src/create-route-map.js:142-150 | adding the children one after the other keeps the indexes coherent |
| RouteMap.AliasesKeepGood | src/create-route-map.js:162-179 | adding the aliases one after the other keeps the indexes coherent |
| RouteMap.RecordExtends | src/create-route-map.js:57-204 | `addRouteRecord` only adds: the old `pathList` is a prefix of the new one, existing paths and names keep their records, and every new entry holds a record created by this call |
| RouteMap.ChildrenExtend | src/create-route-map.js:142-150 | adding children only adds to the indexes |
| RouteMap.AliasesExtend | src/create-route-map.js:162-179 | adding aliases only adds to the indexes |
| RouteMap.DescendantsExtend | src/create-route-map.js:122-180 | children and aliases only add entries created after the record's own id |
| RouteMap.ExtendsTrans | src/create-route-map.js:31-34 | one extension after another is an extension |
| RouteMap.AddAllKeepsGood | src/create-route-map.js:22-34 | adding a list of routes onto coherent (possibly old) indexes keeps them coherent |
| RouteMap.AddAllIndexes | src/create-route-map.js:31-34 | every top-level route ends up under its normalised path, and under its name when it has one |
| RouteMap.AddAllExtends | src/create-route-map.js:22-34 | adding routes to old indexes keeps every old path and name with its record |
| RouteMap.ScanStar | src/create-route-map.js:42-46 | a `*` under the cursor is spliced out and pushed to the end while the cursor and the bound step back |
| RouteMap.ScanOther | src/create-route-map.js:38-47 | any other entry is passed over |
| RouteMap.MoveWildcards | src/create-route-map.js:36-47 | the scan leaves the non-`*` entries in their order followed by all the `*` entries |
| RouteMap.WildcardsLast | src/create-route-map.js:36-47 | after the move, nothing but `*` follows a `*` |
| RouteMap.MovePermutes | src/create-route-map.js:36-47 | the move is a permutation of `pathList` |
| RouteMap.MoveIsStable | src/create-route-map.js:36-47 | the move keeps the relative order of the non-`*` entries |
| RouteMap.DistinctCounts | src/create-route-map.js:36-47 | a list has no repeats exactly when every entry occurs at most once in its multiset, so a permutation of a repeat-free list is repeat-free |
| RouteMap.MoveKeepsGood | src/create-route-map.js:36-47 | moving the wildcards keeps the indexes coherent |
| RouteMap.CreateRouteMap | src/create-route-map.js:8-55 | the returned indexes are coherent, hold the maps that adding every route builds, list the same paths as that build with the non-`*` ones in the same order and every `*` at the end, and keep every old path and name with its old record |
| RouteMap.AddRouteRecord | src/create-route-map.js:57-204 | each call uses up at least one identity: the next fresh identity is strictly larger afterwards (that every added record holds such a fresh identity is `RouteMap.RecordExtends`) |
| RouteMap.AddAll | src/create-route-map.js:31-34 | adding a list of routes never moves the next fresh identity back (which records the list adds, and that old entries stay, is `RouteMap.AddAllExtends`) |
| Matcher.Match | src/create-matcher.js:33-94 | `match`; `Matcher.MatchSettles` states every route it returns is settled, and `Matcher.FuelIrrelevant` that the recursion bound does not change a finished result |
| Matcher.MatchLocation | src/create-matcher.js:43-93 | the body of `match` after normalisation; `Matcher.MatchLocationSettles`, `Matcher.NamedTarget`, `Matcher.PathTarget` and `Matcher.Unmatched` characterise its three branches |
| Matcher.CreateRouteFor | src/create-matcher.js:178-190 | `_createRoute`; `Matcher.CreateRouteForSettles` and `Matcher.TerminalCreates` characterise it |
| Matcher.Redirect | src/create-matcher.js:96-156 | `redirect`; `Matcher.RedirectSettles`, `Matcher.StringRedirect`, `Matcher.NamedRedirect` and `Matcher.InvalidRedirect` characterise it |
| Matcher.RedirectTo | src/create-matcher.js:118-155 | the re-match of a redirect target; `Matcher.RedirectToSettles` characterises it |
| Matcher.Alias | src/create-matcher.js:158-175 | `alias`; `Matcher.AliasStep`, `Matcher.AliasSettles` and `Matcher.AliasedRoute` characterise it |
| Matcher.AliasOf | src/create-matcher.js:168-174 | the alias route built on the inner match; `Matcher.AliasOfSettles` and `Matcher.AliasOfRoute` characterise it |
| Matcher.MatchRoute | src/create-matcher.js:200-227 | `matchRoute`; `Matcher.MatchRouteFacts`, `Matcher.StoreLast` and `Matcher.StoreKeeps` characterise it |
| Matcher.FirstMatch | src/create-matcher.js:79-88 | the scan of `pathList`; `Matcher.FirstMatchFacts` and `Matcher.FirstMatchAt` characterise it |
| Matcher.Inherit | src/create-matcher.js:63-69 | inheriting required params from the current route; `Matcher.InheritFacts` characterises it |
| Matcher.Bound | src/create-matcher.js:218-224 | the number of captures stored under a key is the shorter of the key list and the capture list |
| Matcher.StoreFails | src/create-matcher.js:218-224 | storing the captures fails exactly when some capture from `j` on cannot be decoded (`decodeURIComponent` throws) |
| Matcher.StoreKeeps | src/create-matcher.js:218-224 | a key that no stored capture is named after keeps the value it had before the loop |
| Matcher.StoreLast | src/create-matcher.js:218-224 | a key holds the decoded capture at the last index named after it: later captures overwrite earlier ones |
| Matcher.MatchRouteFacts | src/create-matcher.js:200-227 | no match exactly when the pattern does not match; an error exactly when a capture does not decode; on a match every capture is stored under its key (last one wins) and every other key keeps its value |
| Matcher.FirstMatchFacts | src/create-matcher.js:79-88 | the scan of the path list returns the first entry whose pattern matches, having passed only misses; "not found" means every entry missed; a throw comes from the first entry that is missing from the path map or fails to decode |
| Matcher.RequiredNames | src/create-matcher.js:55-57 | the names of exactly the non-optional keys of the record's pattern |
| Matcher.InheritFacts | src/create-matcher.js:63-69 | after inheriting, a key holds the given value when it was given or is not a required name, and the current route's value otherwise |
| Matcher.NamedParams | src/create-matcher.js:59-69 | the params of a named match: the location's own (none meaning `{}`), with the current route's value for each required name the location does not give |
| Matcher.ResolveRecordPath | src/create-matcher.js:230-233 | an absolute redirect path is kept as is; a relative one resolves to an absolute path (or empty) under the parent's path |
| Matcher.NormalisedTarget | src/util/location.js:16-21 | matching an already normalised or named location object is matching that location itself |
| Matcher.NamedLocation | src/create-matcher.js:59-73 | the location a named match creates its route from always carries params |
| Matcher.AliasStep | src/create-matcher.js:163-174 | an alias is the match of its target without current route or redirect source, finished by building the route from the deepest matched record |
| Matcher.MatchSettles | src/create-matcher.js:33-94 | every route `match` returns is well formed, not `START`, ends in a record without redirect or alias, and its `redirectedFrom` is absent or names the given source |
| Matcher.MatchLocationSettles | src/create-matcher.js:43-93 | the same for the body of `match` after normalisation |
| Matcher.CreateRouteForSettles | src/create-matcher.js:178-190 | the same for `_createRoute` |
| Matcher.RedirectSettles | src/create-matcher.js:96-156 | a redirect yields a settled route whose `redirectedFrom` is absent or names the redirected location |
| Matcher.RedirectToSettles | src/create-matcher.js:118-155 | the same for the re-match of each kind of redirect target |
| Matcher.AliasSettles | src/create-matcher.js:158-175 | an alias yields a settled route without `redirectedFrom` |
| Matcher.AliasOfSettles | src/create-matcher.js:168-174 | building the alias route from a settled inner match yields a settled route without `redirectedFrom` |
| Matcher.TerminalCreates | src/create-matcher.js:183-189 | a missing record or one without redirect and alias goes straight to `createRoute`, whose matched list is the record's chain |
| Matcher.Unmatched | src/create-matcher.js:43-93 | an unknown name, an empty path, or a path no entry matches gives the route with nothing matched, the location's name, query and hash, and the path defaulting to `/` |
| Matcher.FirstMatchNone | src/create-matcher.js:79-89 | when every entry misses, the scan finds nothing |
| Matcher.NamedTarget | src/create-matcher.js:43-75 | a named location whose record is terminal matches that record, with the name kept and the params inherited for required names only |
| Matcher.NamedMatch | src/create-matcher.js:45-74 | the same for an already normalised named location |
| Matcher.FirstMatchAt | src/create-matcher.js:79-88 | when the entries before `i` all miss and entry `i` matches, the scan returns entry `i` with its params |
| Matcher.FirstMatchSkips | src/create-matcher.js:84 | a missing entry passes the scan on to the next |
| Matcher.FirstMatchStops | src/create-matcher.js:84-86 | a matching entry stops the scan |
| Matcher.PathTarget | src/create-matcher.js:76-88 | an unnamed location whose first matching entry is terminal gets that record's chain, the captured params, its own path, query and hash, and a `redirectedFrom` exactly when one was given |
| Matcher.PathBranchCreates | src/create-matcher.js:76-88 | the path branch builds the route from the first matching record and its captured params |
| Matcher.AliasedRoute | src/create-matcher.js:163-174 | an alias whose target matches takes the inner route's records and params, but keeps the location's path, query and hash, and has no `redirectedFrom` |
| Matcher.AliasOfRoute | src/create-matcher.js:168-172 | the same for any settled inner route |
| Matcher.InvalidRedirect | src/create-matcher.js:109-155 | a redirect target that is not an object, or an object with neither name nor path, gives the route with nothing matched at the redirected location |
| Matcher.StringRedirect | src/create-matcher.js:105-149 | a non-empty string redirect re-matches its resolved path with the location's own query and hash, reporting the location as the source |
| Matcher.NamedRedirect | src/create-matcher.js:119-137 | a named redirect to a terminal record ends on that record and name, with the target's query and hash when it has them and the location's otherwise, and reports the location as the source |
| Matcher.MatchMoreFuel | src/create-matcher.js:33-94 | a match that finishes within a recursion bound gives the same route with one more level |
| Matcher.FuelIrrelevant | src/create-matcher.js:33-94 | a match that finishes within a recursion bound gives the same route under every larger bound |
| Matcher.CreateMatcher | src/create-matcher.js:18-23 | the route map built from the routes is well formed, keeps `*` entries last, and has the maps of adding every route in order |
| Matcher.AddRoutes | src/create-matcher.js:26-28 | adding routes keeps the map well formed, keeps every existing path and name entry unchanged, and keeps `*` entries last |
| Matcher.StoreStep | src/create-matcher.js:218-224 | a capture that decodes is stored and the loop carries on with the next |
| AsyncQueue.RunQueue | src/util/async.js:4-26 | `runQueue`; `AsyncQueue.RunQueueFacts` relates it to the independent `AsyncQueue.Present` |
| AsyncQueue.NextEntry | src/util/async.js:13-22 | the next entry `step` runs from index `i`: the first present one at or after `i`, every entry passed on the way being empty |
| AsyncQueue.Present | src/util/async.js:4-26 | the indices of the queue's present entries from `i` on, each in range and present |
| AsyncQueue.PresentAscending | src/util/async.js:4-26 | those indices are strictly ascending, so entries run in queue order and none twice |
| AsyncQueue.VisitsResumed | src/util/async.js:15-18 | an entry that calls its continuation hands the run on to the rest of the queue |
| AsyncQueue.VisitsStopped | src/util/async.js:15-18 | an entry that never calls its continuation ends the run there |
| AsyncQueue.StepVisits | src/util/async.js:5-24 | the run from `i` visits a prefix of the present entries, every visited entry but the last resumed, and a run that does not complete stops at an entry that did not resume |
| AsyncQueue.StepCompletes | src/util/async.js:8-10 | the final callback runs exactly when every present entry resumes, and then every present entry was visited |
| AsyncQueue.RunQueueFacts | src/util/async.js:4-26 | `runQueue` visits present entries only, in ascending order, each visited entry but the last having resumed, and calls `cb` exactly when every present entry resumes |
| AsyncQueue.EmptyQueue | src/util/async.js:8-22 | a queue of empty entries calls `cb` without visiting anything |
| AsyncQueue.NoPresent | src/util/async.js:19-22 | a tail of empty entries has nothing to run |
| AsyncQueue.SkipEmpty | src/util/async.js:19-22 | empty entries are skipped without effect: the run from `i` is the run from the next present entry |
| Guards.ResolveQueue | src/history/base.js:267-293 | `resolveQueue`; `Guards.ResolveQueueFacts` characterises it |
| Guards.ExtractGuards | src/history/base.js:296-324 | `extractGuards`; `Guards.ExtractSnoc`, `Guards.ExtractedAll` and `Guards.BoundToInstances` characterise it |
| Guards.Checks | src/history/base.js:144-157 | the guards of the first queue; `Guards.ChecksOrder` gives their order |
| Guards.Decide | src/history/base.js:169-199 | what `next(value)` does; `Guards.DecideCases` gives every case |
| Guards.NormalizeBase | src/history/base.js:247-265 | `normalizeBase`; `Guards.NormalizeBaseFacts` characterises it |
| Guards.FirstDifferenceFacts | src/history/base.js:277-284 | the loop stops at the first position where the records differ (or one list ends), all records before it being identical |
| Guards.ResolveQueueFacts | src/history/base.js:267-293 | `updated` is the longest common prefix of identical records, `updated + activated` is the next route's records, and `deactivated` is the rest of the current route's records |
| Guards.DescendOne | src/history/base.js:267-293 | navigating from a parent to its child keeps the parent's records as updated, activates the child only and deactivates nothing |
| Guards.ReverseAppend | src/history/base.js:323 | reversing a concatenation reverses the order of the parts |
| Guards.ExtractSnoc | src/history/base.js:296-324 | leave guards (reversed) put one more record's guards, outlet order reversed, in front; the others put them at the end in outlet order |
| Guards.FlattenMember | src/util/resolve-components.js:110-112 | every element of a flattened array comes from one of its values |
| Guards.ReverseIndex | src/history/base.js:323 | every element of a reversed sequence is an element of the original |
| Guards.FlatMapOrigin | src/util/resolve-components.js:86-107 | every result of `flatMapComponents` is the callback's result for some outlet of some record |
| Guards.OutletExtracted | src/history/base.js:303-319 | whatever one outlet contributes is `undefined` or a guard of the requested kind, never the resolver |
| Guards.ExtractedAll | src/history/base.js:296-324 | every entry `extractGuards` returns is `undefined` or a guard of the requested kind |
| Guards.BoundToInstances | src/history/base.js:348-355 | leave and update guards exist only bound to registered instances |
| Guards.ResolverLast | src/history/base.js:144-160 | the async component resolver is the last entry of the first queue and appears nowhere else in it |
| Guards.ChecksOrder | src/history/base.js:144-157 | the first queue's checks are, in this order and nothing else: leave guards of deactivated records, `beforeEach` hooks, update guards of updated records, `beforeEnter` of activated records |
| Guards.DecideCases | src/history/base.js:169-199 | `next` aborts exactly on `false`, an `Error` or `null` (as a `TypeError`), redirects exactly on a string or an object with a string `path` or `name` (replacing only when the object asks), and proceeds on everything else |
| Guards.NormalizeBaseFacts | src/history/base.js:247-265 | outside a browser the base is empty or starts with `/`; it is the given base with a `/` put in front when missing and one trailing `/` removed |
| Guards.NormalizeBaseExamples | src/history/base.js:247-265 | `app` becomes `/app`, `/app/` becomes `/app`, and `//` becomes `/` |
| Components.Flatten | src/util/resolve-components.js:110-112 | `flatten`; `Components.FlattenAppend`, `Components.FlattenOne` and `Components.FlattenLength` characterise it |
| Components.FlatMapComponents | src/util/resolve-components.js:86-107 | `flatMapComponents`; `Components.FlatMapSnoc` and `Components.FlatMapLength` characterise it |
| Components.Settle | src/util/resolve-components.js:27-57 | one `resolve` or `reject`; `Components.SettleCounts`, `Components.SettleErrors`, `Components.SettleStores` and `Components.OnceTakesEffectOnce` characterise it |
| Components.ResolveAsync | src/util/resolve-components.js:7-83 | `resolveAsyncComponents` as written; `Components.QuietResolution` and `Components.EarlyProceed` characterise it |
| Components.ResolveAsyncCounted | src/util/resolve-components.js:7-83 | the corrected resolver; `Components.CountedResolution` characterises it |
| Components.FlattenAppend | src/util/resolve-components.js:110-112 | flattening a concatenation is concatenating the flattenings, so `flatten` keeps order |
| Components.FlattenOne | src/util/resolve-components.js:110-112 | a single value contributes exactly its elements |
| Components.FlattenLength | src/util/resolve-components.js:110-112 | the flattened length is the sum of what each value contributes |
| Components.PerRecord | src/util/resolve-components.js:96-105 | one result per outlet of the record |
| Components.FlatMapSnoc | src/util/resolve-components.js:86-107 | `flatMapComponents` over one more record appends that record's results, the `k`-th being `fn` of its `k`-th outlet's definition, the record and the outlet key |
| Components.FlatMapEmpty | src/util/resolve-components.js:86-107 | no records give no results |
| Components.FlatMapLength | src/util/resolve-components.js:86-107 | one result per outlet of every record |
| Components.Called | src/util/resolve-components.js:128-137 | the number of wrappers already called is at most their number |
| Components.CalledSet | src/util/resolve-components.js:133-134 | calling an uncalled wrapper raises the count by one |
| Components.CalledAll | src/util/resolve-components.js:128-137 | every wrapper has been called exactly when the count equals their number |
| Components.CountSnoc | src/util/resolve-components.js:41-55 | one more `next` call adds one to the count of its kind |
| Components.OnceTakesEffectOnce | src/util/resolve-components.js:128-137 | a second `resolve` (or `reject`) of the same factory changes nothing |
| Components.SettleErrors | src/util/resolve-components.js:46-57 | `next(error)` is called once, with the first rejection's error, and later rejections keep that error |
| Components.SettleCounts | src/util/resolve-components.js:27-44 | once all factories are counted, `pending` stays the number of unresolved factories and `next()` is called once, when the last resolves |
| Components.SettleStores | src/util/resolve-components.js:27-37 | a first `resolve` writes the unwrapped definition at its slot, leaves every other slot alone and marks its wrapper called |
| Components.SettleAllKeeps | src/util/resolve-components.js:27-57 | repeated settlements of one factory keep the error and counting protocols |
| Components.SettleLaterKeeps | src/util/resolve-components.js:27-57 | later settlements of any factories keep both protocols |
| Components.StartCountedKeeps | src/util/resolve-components.js:59-76 | calling the factories in order after all are counted keeps both protocols |
| Components.StartQuiet | src/util/resolve-components.js:21-25 | when no factory settles while being called, the loop only counts them |
| Components.InitialProtocols | src/util/resolve-components.js:9-11 | the state before the loop has no error, no `next(error)` and no `resolve` called |
| Components.CalledNone | src/util/resolve-components.js:128-137 | no wrapper called gives a count of zero |
| Components.NoFactories | src/util/resolve-components.js:81 | without async factories the guard calls `next()` once and nothing else |
| Components.NoSettlement | src/util/resolve-components.js:27-57 | with no factories, later settlements change nothing |
| Components.CountedResolution | src/util/resolve-components.js:7-83 | with every factory counted first, `next()` is called at most once, and exactly when every factory resolved; `next(error)` at most once, with the recorded error |
| Components.QuietResolution | src/util/resolve-components.js:7-83 | as written, when no factory settles synchronously, the same holds |
| Components.EarlyProceed | src/util/resolve-components.js:21-43 | as written, a first factory that resolves synchronously makes `pending` reach zero and `next()` run before the second factory is counted, and the second factory's later `resolve` calls `next()` a second time |
| History.Step | src/history/base.js:46-99 | the history's reaction to one call; `HistoryProps.StepKeeps`, `HistoryProps.ReplayKeeps` and `HistoryProps.ReadyOnce` state what it keeps |
| History.Replay | src/history/base.js:46-99 | a sequence of calls; `HistoryProps.ReplayKeeps`, `HistoryProps.IndexInStack` and `HistoryProps.ReadyOnce` characterise it |
| History.Navigate | src/history/base.js:69-99 | `transitionTo` after the match; `HistoryProps.Threw`, `HistoryProps.Matched` and `HistoryProps.NavigateKeeps` characterise it |
| History.Confirm | src/history/base.js:101-229 | `confirmTransition`; `HistoryCases.SameRouteAborts`, `HistoryCases.Confirmed`, `HistoryCases.ConfirmWaits` and `HistoryProps.ConfirmKeeps` characterise it |
| History.Walk | src/util/async.js:13-22 | `step` over the run's queue; `HistoryCases.WalkVisits` and `HistoryProps.WalkKeeps` characterise it |
| History.Visit | src/history/base.js:165-200 | the iterator calling one guard; `HistoryCases.StaleVisitAborts` and `HistoryProps.VisitKeeps` characterise it |
| History.Finish | src/history/base.js:215-227 | the end of the second queue; `HistoryCases.Finished`, `HistoryCases.StaleFinishAborts` and `HistoryProps.FinishKeeps` characterise it |
| History.Complete | src/history/abstract.js:17-54 | completion of a transition; `HistoryProps.CompleteFacts`, `HistoryProps.CompleteCallsOrder` and `HistoryProps.CompleteValid` characterise it |
| History.Abort | src/history/base.js:89-116 | `abort(err)`; `HistoryProps.AbortCallsOrder`, `HistoryProps.AbortFacts` and `HistoryProps.AbortKeeps` characterise it |
| History.GoTo | src/history/abstract.js:39-54 | `go(n)`; `HistoryProps.GoOutOfRange`, `HistoryProps.GoInRange` and `HistoryProps.GoToKeeps` characterise it |
| History.Carry | src/history/base.js:171-194 | carrying out what `next` decided; `HistoryProps.Called`, `HistoryProps.Stopped`, `HistoryProps.Rerouted`, `HistoryProps.Continued` and `HistoryProps.CarryKeeps` characterise it |
| History.Resolved | src/util/resolve-components.js:37 | writing resolved async components into a record keeps its identity, its `beforeEnter` and its outlet keys |
| HistoryCases.PushMoves | src/history/abstract.js:21-23 | `push` drops the entries after the index, appends the route and moves the index onto it |
| HistoryCases.ReplaceMoves | src/history/abstract.js:33 | `replace` drops the entry at the index and everything after it, and puts the route there, keeping the index |
| HistoryCases.ReplaceBeforeFirst | src/history/abstract.js:33 | `replace` at index -1 slices off the last entry (`slice(0, -1)`) before appending, and leaves the index at -1 |
| HistoryCases.ReplaceThenPush | src/history/abstract.js:21-33 | a `replace` on a fresh history leaves the index at -1, so a following `push` overwrites the replaced entry |
| HistoryCases.Finished | src/history/base.js:215-221 | the end of the second queue completes the transition when it is still the pending one |
| HistoryCases.PushCompletes | src/history/abstract.js:17-27 | a completed `push` makes the route current, clears pending, makes the history ready, and leaves the stack with the route on top at the new index, which `getCurrentLocation` reports |
| HistoryCases.ReplaceCompletes | src/history/abstract.js:30-36 | a completed `replace` makes the route current and ready and puts it at the current index, which becomes the top |
| HistoryCases.GoCompletes | src/history/abstract.js:39-54 | a completed `go` makes the target route current at the target index, keeps the stack and readiness, and calls only `updateRoute`'s listener and `afterEach` hooks |
| HistoryCases.GoLog | src/history/abstract.js:48-53 | completing a `go` makes exactly the calls of `updateRoute` |
| HistoryCases.UpdateCallsShape | src/history/base.js:231-244 | `updateRoute` first switches the route, then calls only the listener and `afterEach` hooks |
| HistoryCases.PlainCompletes | src/history/base.js:78-88 | a completed `transitionTo` makes the route current and ready and leaves the stack alone |
| HistoryCases.ReadyNow | src/history/base.js:50-52 | `onReady` on a ready history calls the callback at once and changes nothing else |
| HistoryCases.ReadyLater | src/history/base.js:53-58 | `onReady` before readiness queues the callback, and the error callback only when given, calling nothing |
| HistoryCases.SilentAbort | src/history/base.js:89-116 | `abort()` without a reason calls no error callback and no ready-error callback, only the caller's `onAbort` |
| HistoryCases.SameRouteAborts | src/history/base.js:119-129 | confirming a route the same as the current one, with as many matched records, aborts silently |
| HistoryCases.StaleVisitAborts | src/history/base.js:165-168 | a guard entry reached after another navigation took over aborts silently |
| HistoryCases.StaleFinishAborts | src/history/base.js:215-218 | a second queue that ends after another navigation took over aborts silently |
| HistoryCases.FirstEntry | src/util/async.js:8-22 | a queue whose last entry is present has a first present entry |
| HistoryCases.WalkVisits | src/util/async.js:13-22 | the walk reaches the next present entry without any effect |
| HistoryCases.BeginWaits | src/history/base.js:162-204 | starting a queue makes the route pending and calls its first guard with the route and the current route, touching nothing else |
| HistoryCases.Confirmed | src/history/base.js:136-204 | a route not the same as the current one runs the first queue built from the records' split |
| HistoryCases.ConfirmWaits | src/history/base.js:101-204 | confirming a different route leaves it pending and waiting on its first guard |
| HistoryProps.AbortCallsFacts | src/history/base.js:89-116 | an abort calls the error callbacks (first, all of them) only for an `Error`, the caller's `onAbort` only outside `go` and with the reason, ready-error callbacks only before readiness, outside `go` and for a truthy reason, and never completes or updates anything |
| HistoryProps.AbortCallsOrder | src/history/base.js:89-116 | the abort calls are exactly: every error callback (for an `Error`), then the caller's `onAbort`, then every ready-error callback (for a truthy reason before readiness), each with the reason and in registration order |
| HistoryProps.AbortFacts | src/history/base.js:89-116 | an abort changes only readiness and the log, becomes ready exactly for a truthy reason outside `go` (or when it already was), and keeps the log's guarantees |
| HistoryProps.UpdateCallsFacts | src/history/base.js:231-244 | `updateRoute` switches the route, calls the listener when there is one, then every `afterEach` hook with the new and previous route, and fires no readiness callback |
| HistoryProps.CompleteCallsFacts | src/history/base.js:78-88 | readiness callbacks fire on completion only before readiness and never for `go` |
| HistoryProps.CompleteCallsOrder | src/history/base.js:78-88 | completion calls the caller's `onComplete` with the route, then (before readiness) every ready callback with the route |
| HistoryProps.CompleteFacts | src/history/abstract.js:17-54 | completion makes the route current, clears pending, moves the stack and index as the kind says, and makes the history ready unless it was a `go` |
| HistoryProps.CompleteFollows | src/history/base.js:78-88 | completion extends the log, updates the route first, and fires readiness callbacks only when becoming ready |
| HistoryProps.GoTargetInStack | src/history/abstract.js:41-50 | a pending `go` still finds its route object at the target index |
| HistoryProps.CompleteValid | src/history/abstract.js:17-54 | the history stays coherent after a completion: the index within the stack, stack entries distinct, and runs in flight consistent with the stack |
| HistoryProps.AbortKeeps | src/history/base.js:105-116 | an abort of a run in flight keeps the history coherent and its log guarantees |
| HistoryProps.VisitKeeps | src/history/base.js:165-200 | visiting a guard keeps the history coherent |
| HistoryProps.FinishKeeps | src/history/base.js:215-227 | the end of the second queue keeps the history coherent |
| HistoryProps.WalkKeeps | src/history/base.js:204-228 | walking the queues keeps the history coherent |
| HistoryProps.ConfirmKeeps | src/history/base.js:101-229 | `confirmTransition` keeps the history coherent |
| HistoryProps.NavigateKeeps | src/history/base.js:69-99 | `push`, `replace` and `transitionTo` keep the history coherent |
| HistoryProps.Threw | src/history/base.js:75 | a `match` that throws ends the navigation with nothing but the throw |
| HistoryProps.Matched | src/history/base.js:75-78 | a matched route gets a new identity and is confirmed |
| HistoryProps.GoToKeeps | src/history/abstract.js:39-54 | `go` keeps the history coherent |
| HistoryProps.GoOutOfRange | src/history/abstract.js:41-44 | `go` to a target outside the stack does nothing |
| HistoryProps.GoInRange | src/history/abstract.js:45-48 | `go` within the stack confirms the stored route object |
| HistoryProps.ResumeKeeps | src/history/base.js:165-200 | a guard calling `next` or throwing keeps the history coherent |
| HistoryProps.Ignored | src/util/async.js:15-18 | a continuation of a run no longer waiting does nothing |
| HistoryProps.Thrown | src/history/base.js:196-199 | a throwing guard aborts with the thrown value |
| HistoryProps.Called | src/history/base.js:171-194 | a guard's `next(value)` does what the value decides |
| HistoryProps.Rerouted | src/history/base.js:176-189 | a redirect aborts without a reason, then pushes (or replaces) the target matched against the current route, without callbacks |
| HistoryProps.Continued | src/history/base.js:190-194 | proceeding moves on to the following entry |
| HistoryProps.CarryKeeps | src/history/base.js:171-194 | whatever `next` decides keeps the history coherent |
| HistoryProps.StepKeeps | src/history/base.js:46-99 | every call into the history keeps it coherent and its log guarantees |
| HistoryProps.InitialValid | src/history/abstract.js:10-14 | a new history is coherent |
| HistoryProps.ReplayKeeps | src/history/base.js:46-99 | any sequence of calls keeps the history coherent and its log guarantees |
| HistoryProps.IndexInStack | src/history/abstract.js:7-13 | after any sequence of calls from a new history, the index is -1 or points into the stack |
| HistoryProps.ReadyOnce | src/history/base.js:85-97 | once ready, a history stays ready and never fires a ready or ready-error callback again |
| HistoryProps.Taking | src/history/base.js:165-171 | a continuation of a waiting run takes the run off the waiting list and reacts |
| HistoryProps.Stopped | src/history/base.js:172-175 | `next(false)` or `next(error)` aborts with that value |
| Router.Push | src/index.js:181-183 | `router.push`; `Router.NavigateIsStep` and `Router.NavigateKeeps` characterise it |
| Router.Replace | src/index.js:185-187 | `router.replace`; `Router.NavigateIsStep` and `Router.NavigateKeeps` characterise it |
| Router.Go | src/index.js:190-192 | `router.go`; `Router.GoKeeps`, `Router.BackToPrevious`, `Router.BackAtStart` and `Router.ForwardAtEnd` characterise it |
| Router.Resolve | src/index.js:224-256 | `router.resolve`; `Router.ResolveFacts` characterises it |
| Router.Init | src/index.js:99-153 | `router.init`; `Router.InitFacts` and `Router.InitOnce` characterise it |
| Router.CreateHref | src/index.js:282-287 | `createHref`; `Router.HrefFacts` and `Router.HrefExamples` characterise it |
| Router.GetMatchedComponents | src/index.js:205-221 | `getMatchedComponents`, read through the async components resolved so far; `Router.CurrentComponents`, `Router.ResolvedComponentShown` and `Router.OutletComponentsAsFlatMap` characterise it |
| Router.IndexOf | src/index.js:276 | `indexOf`: the first position holding the hook, or -1 exactly when it is absent |
| Router.Unregister | src/index.js:275-278 | the remover takes out the first occurrence of the hook when present, keeping the order of the others, and changes nothing otherwise |
| Router.RegisterUndone | src/index.js:270-279 | registering a new hook and calling its remover gives back the list |
| Router.RegisterAgainUndone | src/index.js:270-279 | for a hook already registered, the remover takes out the first occurrence, leaving the newly appended one |
| Router.IndexOfPrefix | src/index.js:276 | hooks appended later do not change the position of an earlier one |
| Router.RemoverTwice | src/index.js:275-278 | calling a remover twice is calling it once |
| Router.WithList | src/index.js:41-43 | the three hook lists are independent: replacing one leaves the others alone |
| Router.HookRoundTrip | src/index.js:159-170 | `beforeEach`, `beforeResolve` and `afterEach` append to their own list only, and the returned remover undoes the registration |
| Router.HrefFacts | src/index.js:282-287 | `createHref` prefixes `#` in hash mode; without a base the href is that path; with one it starts like the base and, when nothing collapses, is the base, `/` and the path |
| Router.HrefExamples | src/index.js:282-287 | `/foo` in hash mode is `#/foo` without a base and `/app/#/foo` with base `/app` |
| Router.SelectMode | src/index.js:48-59 | outside a browser the mode is `abstract`; otherwise the option (default `hash`), with `history` falling back to `hash` exactly when push state is unsupported and `fallback` is not `false` |
| Router.SelectModeSettles | src/index.js:48-59 | choosing again from the chosen mode keeps it and does not fall back, and every valid option ends in a valid mode |
| Router.OutletComponentsAsFlatMap | src/index.js:216-220 | `getMatchedComponents` is `flatMapComponents` returning each outlet's definition: one entry per outlet of every matched record |
| Router.OutletComponentsSnoc | src/index.js:216-220 | one more matched record appends its outlets' definitions |
| Router.MatchOfCoherent | src/index.js:83-91 | the router's `match` is the matcher's `match` on the router's route map |
| Router.Create | src/index.js:37-80 | a new router has no apps and no hooks, a fresh history at `START`, a normalised base, the fallback flag as the options decide, and a well-formed route map built from the routes |
| Router.InitFacts | src/index.js:99-153 | `init` records the app; only the first app becomes the router's app and starts listening; nothing else changes |
| Router.InitOnce | src/index.js:110-116 | a second `init` only records the app |
| Router.NavigateIsStep | src/index.js:181-187 | `push` and `replace` hand the location and callbacks to the history |
| Router.NavigateKeeps | src/index.js:181-187 | navigating keeps the history coherent and changes nothing else in the router |
| Router.GoKeeps | src/index.js:190-192 | `go` keeps the history coherent and changes nothing else in the router |
| Router.BackAtStart | src/index.js:195-197 | `back` at the first entry (or before) does nothing |
| Router.ForwardAtEnd | src/index.js:200-202 | `forward` at the last entry does nothing |
| Router.BackToPrevious | src/index.js:195-197 | `back` confirms the previous stack entry as a `go` to its index |
| Router.ResolveFacts | src/index.js:224-256 | `resolve` normalises against the given or the current route, matches, and builds the href from `redirectedFrom` when non-empty, else from the route's full path |
| Router.CurrentComponents | src/index.js:205-221 | without a target, the components are those of the current route's matched records with every resolved async component written into its outlet, one per outlet |
| Router.ResolvedComponentShown | src/util/resolve-components.js:27-37 | once an outlet's async component resolves, the current route is unchanged, that outlet's record carries the resolved definition, and `getMatchedComponents` returns it |
| Router.OverlaidOutletCount | src/util/resolve-components.js:37 | writing resolved definitions into records keeps the number of outlets |
| Router.AddRoutes | src/index.js:259-266 | adding routes keeps the route map well formed and every existing entry, and re-runs `transitionTo` on the current location unless the history is still at `START` |
| View.ResolveProps | src/components/view.js:111-130 | `resolveProps`; `View.ResolvedByKind` and `View.ParamsProps` characterise it |
| View.Render | src/components/view.js:13-107 | the render function, given a route whose records carry the resolved async components; `View.RenderAtDepth`, `View.RenderInactive`, `View.RenderSplits`, `View.RenderFalsyProps`, `View.RenderNoEntries` and `View.RenderThrows` characterise it |
| View.RegisterInstance | src/components/view.js:71-81 | `registerRouteInstance`; `View.RegisterHolds`, `View.UnregisterOwnOnly` and `View.NewerSurvives` characterise it |
| View.SplitProps | src/components/view.js:91-103 | the split of resolved props; `View.SplitFacts` and `View.SplitPropsFacts` characterise it |
| View.DepthCountsViews | src/components/view.js:30-44 | the depth of an outlet is the number of `router-view` ancestors |
| View.RenderNoEntries | src/components/view.js:91-107 | a truthy props value without entries (a function, `true`, a non-zero number, `{}`) renders with empty props and the attributes untouched, with or without a component |
| View.RenderThrows | src/components/view.js:91-103 | rendering throws exactly when an active outlet at a matched depth has no component and a truthy props value with at least one entry |
| View.RenderFalsyProps | src/components/view.js:91-103 | a falsy resolved props value, `0` and `NaN` included, is passed on as it is with the attributes untouched, even for an outlet without a component |
| View.ParamsProps | src/components/view.js:119-120 | `props: true` passes the route's params: the same keys, each value as a scalar prop |
| View.ResolvedByKind | src/components/view.js:91-130 | an outlet gets nothing for a missing, falsy or unsupported props option, the params for `true`, the function's result for a function, and an object (or `null`) as it is; and only an object, `true` or a function can give an object |
| View.PropsTrueDefaultOutlet | src/components/view.js:91-120 | `props: true` on a single-component route gives the default outlet the params and any other outlet nothing |
| View.SplitFacts | src/components/view.js:96-102 | each key the component does not declare leaves the props and goes to the attributes with its value; declared keys stay; other attributes are kept |
| View.SplitPropsFacts | src/components/view.js:91-103 | every resolved prop lands in exactly one place: the props when the component declares it, the attributes otherwise, existing attributes kept unless overwritten |
| View.Store | src/components/view.js:79-86 | writing an instance slot sets it (or clears it for `undefined`) and leaves every other slot alone |
| View.RegisterHolds | src/components/view.js:71-81 | registering an instance stores it in its outlet's slot and touches no other slot |
| View.UnregisterOwnOnly | src/components/view.js:71-81 | unregistering clears the slot only when it holds that instance, and changes nothing otherwise |
| View.NewerSurvives | src/components/view.js:71-81 | a stale instance unregistering after a newer one registered leaves the newer one in place |
| View.RenderAtDepth | src/components/view.js:30-65 | without an inactive ancestor, a view deeper than the matched records renders nothing and clears the cache; otherwise it renders the record at its depth with that record's component for its name, and caches it |
| View.RenderInactive | src/components/view.js:49-51 | below an inactive (kept-alive) ancestor, the view renders the cached component |
| View.RenderSplits | src/components/view.js:91-107 | when the resolved props are truthy, the rendered component gets as props exactly the declared entries, and every undeclared entry as an attribute |
| Strings.Split | src/util/query.js:60 | `split(c)` gives at least one part, no part contains `c`, joining the parts with `c` gives back the string, and a string without `c` is its own single part |
| Strings.JoinAppend | src/util/query.js:69 | joining two lists of parts is joining each and putting `c` between |
| Strings.SplitJoin | src/util/query.js:60-69 | splitting the join of parts without `c` gives back the parts |
| Strings.SplitPrefix | src/util/query.js:60 | a part followed by `c` splits off as the first part |
| Strings.IndexOf | src/util/path.js:68 | `indexOf(c)`: -1 exactly when `c` is absent, otherwise the first position holding `c` |
| Strings.CutAt | src/util/path.js:68-82 | cutting at the first `c` splits the string into a part without `c` and a rest that is empty or starts with `c` |
| Strings.CutAtOf | src/util/path.js:68-82 | cutting `a + b`, with `a` free of `c` and `b` starting with `c` or empty, gives back `a` and `b` |
| Strings.Trim | src/util/query.js:52 | `trim()` leaves neither end white space, keeps a string without white space, and returns a contiguous part of its input with only white space before and after it |
| Strings.TrimInfix | src/util/query.js:52 | the trimmed part ends where the end-trimmed string ends |
| Strings.TrimStart | src/util/query.js:52 | removing leading white space leaves a suffix starting with a non-space, and every character removed is white space |
| Strings.TrimEnd | src/util/query.js:52 | removing trailing white space leaves a prefix ending with a non-space, and every character removed is white space |
| Strings.ReplaceChar | src/util/query.js:63 | `replace(/\+/g, ' ')` keeps the length and changes nothing in a string without `+` |
| Strings.ReplaceCharAt | src/util/query.js:63 | every occurrence of the character is replaced and every other character is kept |

## Left out

- Browser histories. `src/history/hash.js`, `src/history/html5.js`, `src/util/push-state.js` and `src/util/scroll.js` read and write `window`, `document` and the browser history. They are not part of this model. The model runs the in-memory history only: `Router.Create` takes the non-browser path and always ends in `abstract` mode. `Router.SelectMode` still models the mode choice for every environment.
- `ensureURL` is a no-op in the in-memory history, so the model calls nothing for it.
- `src/install.js` and Vue itself are not part of this model. This covers the mixins, `$route`, `_Vue.extend` in `extractGuard`, and the `$nextTick` that runs post-enter callbacks. `poll`, with its `setTimeout`, is left out too. A function passed to `next` in `beforeRouteEnter` is treated as "proceed", and its callback is never run.
- Development-mode `warn` calls print nothing and are left out. The model follows the production build, where `assert` is also skipped. In a development build, `redirect` to an unknown name throws from `assert` (`src/create-matcher.js:128-130`). The model instead goes on to match the unknown name, which gives the empty-match route.
- `path-to-regexp` and `encodeURIComponent`/`decodeURIComponent` are the abstract parameters `PatternEngine` and `Codec`. Their own behaviour is not modelled. The route-map builder takes the compiled pattern from the engine, and so does `compileRouteRegex`. The compile cache of `src/util/params.js` is left out.
- `Object.freeze`, `clone` and `assign` are left out. Routes and locations are immutable values, so freezing and deep copying change nothing observable.
- `Matcher.Match`: the source recurses through redirects and aliases with no bound. A redirect cycle there ends in a stack overflow. The model takes a `fuel` bound and returns `Exhausted` when the bound is used up. `Matcher.FuelIrrelevant` shows that any result reached within a bound stays the same for every larger bound. The router treats `Exhausted` like a thrown match.
- `Dict.Keys`: `Object.keys` lists integer-like keys first, in ascending numeric order, and then the other keys in insertion order (`src/util/query.js:91`). The model keeps insertion order for all keys. So `Query.StringifyQuery` can order the pieces of a query with numeric keys differently from the source, for example `{b: 1, 2: 3}`. Every property stated about sets of keys or values is unaffected.
- `Query.ParseQuery` and `Query.StringifyQuery` are the router's default parser and serialiser. The `parseQuery` and `stringifyQuery` router options that replace them are left out (`src/util/location.js:63`, `src/util/route.js:15`, `src/util/query.js:28`).
- `Dict.Get` and `Dict.Has` see own keys only. In JavaScript, `d[k]` and `k in d` also see the names every plain object inherits from `Object.prototype`, collected in `Dict.ObjectPrototypeNames` (`constructor`, `toString`, `__proto__` and the like). Where the source reads such a name the model differs, as the next three lines say.
- `Query.AddValue`: for `?constructor=a`, `parseQuery` finds the inherited function in `res['constructor']`, which is neither `undefined` nor an array, and stores `[Object, 'a']` (`src/util/query.js:72-80`); for `__proto__` it replaces the result's prototype. The model stores `'a'`.
- `QueryRoundTrip.RoundTrip` and `QueryRoundTrip.SingletonArrayCollapses` are stated only for keys outside `Dict.ObjectPrototypeNames`, because for those names the source's round trip fails as the line above shows.
- `RouteOps.QueryIncludes` and `Matcher.Inherit`: `key in current` (`src/util/route.js:142`) and `key in location.params` (`src/create-matcher.js:65`) are true for an inherited name. So in the source a target query key such as `toString` is always included, and a current param named `constructor` is never inherited. The model looks at own keys only.
- `History.Carry` and `HistoryProps.Rerouted`: when a guard calls `next('/x')` before returning and the resulting `router.match` throws (a malformed escape, a redirect cycle), the guard's `try` (`src/history/base.js:170-201`) catches the error and calls `abort(e)` a second time. That second abort runs the error callbacks, `onAbort` and, before readiness, the ready-error callbacks. The model only logs `MatchThrew`. Likewise, a user callback that throws while a synchronous `next` completes the transition (`onComplete`, an `afterEach` hook, a ready callback, the listener) is caught and aborts after completion has happened. The model assumes callbacks return normally. `Resumed` events do not say whether `next` was called before the guard returned, so the model cannot tell these cases apart.
- `Guards.HooksOf`: for an async factory that has not resolved yet, `extractGuard` reads `def.options[key]` of the factory's extension and throws a `TypeError` (`src/history/base.js:326-337`). The model gives such an outlet no guards. This is reachable through the early `next()` of the second row under "## Findings".
- `HistoryProps.StepKeeps`: a guard that calls `next` a second time is ignored once its run has moved on. The `Resumed` event names the run, not the guard. In the source each call of the continuation runs `step(index + 1)` again (`src/util/async.js:15-18`), which restarts the rest of the queue. The model promises nothing about a second call.
- History: the async component resolver sits in the first queue as a guard like any other, and its `next` arrives as an event. The counting protocol of `resolveAsyncComponents` is modelled and proved separately, in `Components`.
- `View.SplitProps`: the model spreads only object props into props and attributes. A props function that returns a non-empty string yields nothing there. In the source, `for (key in str)` would spread the string's character indices into the attributes (`src/components/view.js:97-101`).
- `Strings.Trim` treats a string as a sequence of Unicode scalar values, where JavaScript uses UTF-16 code units. The white-space set is the one `String.prototype.trim` uses.
- `def.resolved` is left out. This is the cached constructor written back onto an async factory (`src/util/resolve-components.js:33-35`), and nothing in the core reads it.
- `router.app`'s `_route` assignment is left out: it hands the route to Vue's reactivity. `meta` is carried from the route configuration into records and routes as opaque data, and `currentRoute` is `Router.CurrentRoute`, the history's current route.

## Findings

| source | as written | input that shows it | evidently intended | confidence | as-written member | corrected member |
|---|---|---|---|---|---|---|
| src/util/route.js:111-128 | `isObjectEqual` checks equal key counts and then only the keys of `a`; a key missing from `b` reads as `undefined`, whose string is `'undefined'` | `isObjectEqual({x: 'undefined'}, {y: '1'})` is true, but with the arguments swapped it is false. So `isSameRoute` on two routes with path `/p` and these queries is not symmetric | equal key sets and equal values, a symmetric relation | not executed | RouteOps.ObjectEqualAsWritten, RouteOps.ObjectEqualAsWrittenCounterexample, RouteOps.SameRouteAsWrittenCounterexample | RouteOps.ObjectEqual, RouteOps.ObjectEqualSymmetric, RouteOps.IsSameRouteIntended, RouteOps.SameRouteSymmetric |
| src/util/resolve-components.js:21-43 | `pending` is raised just before each factory is called, so a factory that resolves synchronously brings `pending` to 0 and calls `next()` before the next factory is counted | two async factories: the first resolves synchronously, the second resolves later. `next()` runs twice, the first time before the second component has resolved | count every factory before calling any, so `next()` runs once, after all have resolved | not executed | Components.ResolveAsync, Components.EarlyProceed | Components.ResolveAsyncCounted, Components.CountedResolution |

=== FILE: async_queue.dfy ===
/** The guard queue runner (`src/util/async.js`): `runQueue(queue, fn, cb)`
    walks the queue in index order, skips empty entries, hands each other
    entry to `fn` together with a continuation, and calls `cb` once the
    walk runs off the end.  Whether `fn` calls the continuation is the
    caller's choice; here it is the parameter `resumes`. */
module AsyncQueue {
  import opened Wrappers

  /** The index `step` next hands to `fn` from position `i`: the first
      non-empty entry at or after `i`, or the queue length when none is
      left (the point where `cb` runs). */
  function NextEntry<T>(queue: seq<Option<T>>, i: nat): (j: nat)
    requires i <= |queue|
    ensures i <= j <= |queue|
    ensures j < |queue| ==> queue[j].Some?
    ensures forall k :: i <= k < j ==> queue[k].None?
    decreases |queue| - i
  {
    if i == |queue| then i
    else if queue[i].Some? then i
    else NextEntry(queue, i + 1)
  }

  /** What one run of the queue does: the indices handed to `fn`, in
      order, and whether `cb` was called. */
  datatype Trace = Trace(visited: seq<nat>, completed: bool)

  /** `step(i)`: past the end `cb` runs; an empty entry is skipped; any
      other entry goes to `fn`, and the walk goes on only if `fn` calls its
      continuation. */
  function Step<T>(queue: seq<Option<T>>, resumes: (nat, T) -> bool, i: nat): Trace
    requires i <= |queue|
    decreases |queue| - i
  {
    if i == |queue| then Trace([], true)
    else if queue[i].None? then Step(queue, resumes, i + 1)
    else if resumes(i, queue[i].value) then
      var rest := Step(queue, resumes, i + 1);
      Trace([i] + rest.visited, rest.completed)
    else Trace([i], false)
  }

  /** `runQueue(queue, fn, cb)`: `step(0)`. */
  function RunQueue<T>(queue: seq<Option<T>>, resumes: (nat, T) -> bool): Trace
  {
    Step(queue, resumes, 0)
  }

  /** The non-empty positions at or after `i`, ascending: the reference
      order in which entries reach `fn`. */
  function Present<T>(queue: seq<Option<T>>, i: nat): (r: seq<nat>)
    requires i <= |queue|
    ensures forall k :: 0 <= k < |r| ==> i <= r[k] < |queue| && queue[r[k]].Some?
    decreases |queue| - i
  {
    if i == |queue| then []
    else if queue[i].Some? then [i] + Present(queue, i + 1)
    else Present(queue, i + 1)
  }

  /** Every entry from `i` on, when present, calls its continuation. */
  ghost predicate AllResume<T>(queue: seq<Option<T>>, resumes: (nat, T) -> bool, i: nat) {
    forall k :: i <= k < |queue| && queue[k].Some? ==> resumes(k, queue[k].value)
  }

  /** Strictly increasing positions. */
  predicate Ascending(s: seq<nat>) {
    forall a, b :: 0 <= a < b < |s| ==> s[a] < s[b]
  }

  /** `Present` lists positions in strictly ascending order. */
  lemma {:induction false} PresentAscending<T>(queue: seq<Option<T>>, i: nat)
    requires i <= |queue|
    ensures Ascending(Present(queue, i))
    decreases |queue| - i
  {
    if i < |queue| {
      PresentAscending(queue, i + 1);
      var rest := Present(queue, i + 1);
      if queue[i].Some? {
        var r := [i] + rest;
        assert Present(queue, i) == r;
        forall a, b | 0 <= a < b < |r| ensures r[a] < r[b] {
          assert r[b] == rest[b - 1] && i + 1 <= rest[b - 1];
          if a > 0 {
            assert r[a] == rest[a - 1];
            assert rest[a - 1] < rest[b - 1];
          } else {
            assert r[a] == i;
          }
        }
      }
    }
  }

  /** What a walk from `i` visits: a prefix of the non-empty positions,
      every visited entry but the last called its continuation, and the
      last did not unless the walk completed. */
  ghost predicate Visits<T>(queue: seq<Option<T>>, resumes: (nat, T) -> bool, i: nat)
    requires i <= |queue|
  {
    var t := Step(queue, resumes, i);
    && |t.visited| <= |Present(queue, i)|
    && t.visited == Present(queue, i)[..|t.visited|]
    && (forall k :: 0 <= k < |t.visited| - 1 ==> resumes(t.visited[k], queue[t.visited[k]].value))
    && (!t.completed ==> |t.visited| > 0 && !resumes(t.visited[|t.visited| - 1], queue[t.visited[|t.visited| - 1]].value))
  }

  /** An entry whose `fn` resumes puts itself in front of the rest of the
      walk. */
  lemma VisitsResumed<T>(queue: seq<Option<T>>, resumes: (nat, T) -> bool, i: nat)
    requires i < |queue| && queue[i].Some? && resumes(i, queue[i].value)
    requires Visits(queue, resumes, i + 1)
    ensures Visits(queue, resumes, i)
  {
    var rest := Step(queue, resumes, i + 1);
    var t := Step(queue, resumes, i);
    var p := Present(queue, i + 1);
    assert t.visited == [i] + rest.visited && t.completed == rest.completed;
    assert Present(queue, i) == [i] + p;
    assert Present(queue, i)[..|t.visited|] == [i] + p[..|rest.visited|];
    forall k | 0 <= k < |t.visited| - 1
      ensures resumes(t.visited[k], queue[t.visited[k]].value)
    {
      if k > 0 {
        assert t.visited[k] == rest.visited[k - 1];
      }
    }
    if !t.completed {
      assert t.visited[|t.visited| - 1] == rest.visited[|rest.visited| - 1];
    }
  }

  /** An entry whose `fn` does not resume ends the walk with itself. */
  lemma VisitsStopped<T>(queue: seq<Option<T>>, resumes: (nat, T) -> bool, i: nat)
    requires i < |queue| && queue[i].Some? && !resumes(i, queue[i].value)
    ensures Visits(queue, resumes, i)
  {
    assert Step(queue, resumes, i) == Trace([i], false);
    assert Present(queue, i) == [i] + Present(queue, i + 1);
    assert Present(queue, i)[..1] == [i];
  }

  /** A walk from `i` visits a prefix of the non-empty positions, every
      visited entry but the last called its continuation, and the last did
      not unless the walk completed. */
  lemma {:induction false} StepVisits<T>(queue: seq<Option<T>>, resumes: (nat, T) -> bool, i: nat)
    requires i <= |queue|
    ensures var t := Step(queue, resumes, i);
      && |t.visited| <= |Present(queue, i)|
      && t.visited == Present(queue, i)[..|t.visited|]
      && (forall k :: 0 <= k < |t.visited| - 1 ==> resumes(t.visited[k], queue[t.visited[k]].value))
      && (!t.completed ==> |t.visited| > 0 && !resumes(t.visited[|t.visited| - 1], queue[t.visited[|t.visited| - 1]].value))
    decreases |queue| - i
  {
    if i < |queue| {
      if queue[i].None? {
        StepVisits(queue, resumes, i + 1);
        assert Step(queue, resumes, i) == Step(queue, resumes, i + 1);
        assert Present(queue, i) == Present(queue, i + 1);
      } else if resumes(i, queue[i].value) {
        StepVisits(queue, resumes, i + 1);
        VisitsResumed(queue, resumes, i);
      } else {
        VisitsStopped(queue, resumes, i);
      }
    }
  }

  /** A walk from `i` completes exactly when every present entry from `i`
      on resumes, and then it has visited all of them. */
  lemma {:induction false} StepCompletes<T>(queue: seq<Option<T>>, resumes: (nat, T) -> bool, i: nat)
    requires i <= |queue|
    ensures var t := Step(queue, resumes, i);
      && (t.completed <==> AllResume(queue, resumes, i))
      && (t.completed ==> t.visited == Present(queue, i))
    decreases |queue| - i
  {
    if i < |queue| {
      StepCompletes(queue, resumes, i + 1);
      if queue[i].Some? && !resumes(i, queue[i].value) {
        assert !AllResume(queue, resumes, i);
      }
    }
  }

  /** The queue runner as a whole: entries reach `fn` in ascending order
      and empty entries never do; entry `i + 1` is reached only after entry
      `i` resumed; `cb` runs exactly when every present entry resumes. */
  lemma RunQueueFacts<T>(queue: seq<Option<T>>, resumes: (nat, T) -> bool)
    ensures var t := RunQueue(queue, resumes);
      && (forall k :: 0 <= k < |t.visited| ==> t.visited[k] < |queue| && queue[t.visited[k]].Some?)
      && Ascending(t.visited)
      && (forall k :: 0 <= k < |t.visited| - 1 ==> resumes(t.visited[k], queue[t.visited[k]].value))
      && (t.completed <==> forall k :: 0 <= k < |queue| && queue[k].Some? ==> resumes(k, queue[k].value))
  {
    StepVisits(queue, resumes, 0);
    StepCompletes(queue, resumes, 0);
    PresentAscending(queue, 0);
    var t := RunQueue(queue, resumes);
    var p := Present(queue, 0);
    forall k | 0 <= k < |t.visited|
      ensures t.visited[k] < |queue| && queue[t.visited[k]].Some?
    {
      assert t.visited[k] == p[k];
    }
    forall a, b | 0 <= a < b < |t.visited|
      ensures t.visited[a] < t.visited[b]
    {
      assert t.visited[a] == p[a] && t.visited[b] == p[b];
    }
  }

  /** An empty queue, or one holding only empty entries, calls `cb` at once
      and never calls `fn`. */
  lemma EmptyQueue<T>(queue: seq<Option<T>>, resumes: (nat, T) -> bool)
    requires forall k :: 0 <= k < |queue| ==> queue[k].None?
    ensures RunQueue(queue, resumes) == Trace([], true)
  {
    StepVisits(queue, resumes, 0);
    StepCompletes(queue, resumes, 0);
    NoPresent(queue, 0);
  }

  /** Without non-empty entries there are no present positions. */
  lemma {:induction false} NoPresent<T>(queue: seq<Option<T>>, i: nat)
    requires i <= |queue|
    requires forall k :: i <= k < |queue| ==> queue[k].None?
    ensures Present(queue, i) == []
    decreases |queue| - i
  {
    if i < |queue| {
      NoPresent(queue, i + 1);
    }
  }

  /** The walk from `i` is the walk from the next non-empty entry: skipping
      empty entries does nothing else. */
  lemma {:induction false} SkipEmpty<T>(queue: seq<Option<T>>, resumes: (nat, T) -> bool, i: nat)
    requires i <= |queue|
    ensures Step(queue, resumes, i) == Step(queue, resumes, NextEntry(queue, i))
    decreases |queue| - i
  {
    if i < |queue| && queue[i].None? {
      SkipEmpty(queue, resumes, i + 1);
    }
  }
}

=== FILE: components.dfy ===
/** Component flattening and async component resolution
    (`src/util/resolve-components.js`): one-level array flattening, the walk
    over every outlet of every matched record, and the guard that waits for
    async component factories, counting the ones still pending and passing
    only the first failure on. */
module Components {
  import opened Wrappers
  import opened Dict
  import opened Types

  // ------------------------------------------------------------ flatten

  /** A value handed to `Array.prototype.concat`: a non-array is appended as
      itself, an array is spread one level. */
  datatype Spread<T> = Item(x: T) | Items(xs: seq<T>)

  /** What one value contributes to a concatenation. */
  function Elements<T>(p: Spread<T>): (r: seq<T>)
    ensures p.Item? ==> r == [p.x]
    ensures p.Items? ==> r == p.xs
  {
    match p
    case Item(x) => [x]
    case Items(xs) => xs
  }

  /** `flatten(arr)`: `[].concat(...arr)`. */
  function Flatten<T>(arr: seq<Spread<T>>): seq<T>
  {
    if |arr| == 0 then [] else Flatten(arr[..|arr| - 1]) + Elements(arr[|arr| - 1])
  }

  /** Flattening is a homomorphism from concatenation to concatenation, and
      a single value contributes exactly its elements: together these say
      that `flatten` spreads one level and keeps the order. */
  lemma {:induction false} FlattenAppend<T>(a: seq<Spread<T>>, b: seq<Spread<T>>)
    ensures Flatten(a + b) == Flatten(a) + Flatten(b)
    decreases |b|
  {
    if |b| > 0 {
      var init := b[..|b| - 1];
      assert (a + b)[..|a + b| - 1] == a + init;
      FlattenAppend(a, init);
    } else {
      assert a + b == a;
    }
  }

  /** A single value flattens to its elements. */
  lemma FlattenOne<T>(p: Spread<T>)
    ensures Flatten([p]) == Elements(p)
  {
    assert [p][..0] == [];
  }

  /** The number of elements a concatenation holds. */
  function SpreadSize<T>(arr: seq<Spread<T>>): nat
  {
    if |arr| == 0 then 0 else SpreadSize(arr[..|arr| - 1]) + |Elements(arr[|arr| - 1])|
  }

  /** The flattened array holds the elements of every value. */
  lemma {:induction false} FlattenLength<T>(arr: seq<Spread<T>>)
    ensures |Flatten(arr)| == SpreadSize(arr)
    decreases |arr|
  {
    if |arr| > 0 {
      FlattenLength(arr[..|arr| - 1]);
    }
  }

  // ------------------------------------------------ flatMapComponents

  /** `Object.keys(m.components).map(key => fn(m.components[key], m, key))`:
      one result per outlet, in key order. */
  function PerRecord<R>(m: RouteRecord, f: (Component, RouteRecord, string) -> R): (r: seq<R>)
    ensures |r| == |m.components|
  {
    seq(|m.components|, k requires 0 <= k < |m.components| => f(m.components[k].1, m, m.components[k].0))
  }

  /** `flatMapComponents(matched, fn)`: the per-outlet results of every
      record, records in order. */
  function FlatMapComponents<R>(records: seq<RouteRecord>, f: (Component, RouteRecord, string) -> R): seq<R>
  {
    Flatten(seq(|records|, i requires 0 <= i < |records| => Items(PerRecord(records[i], f))))
  }

  /** The number of outlets of the records. */
  function OutletCount(records: seq<RouteRecord>): nat
  {
    if |records| == 0 then 0 else OutletCount(records[..|records| - 1]) + |records[|records| - 1].components|
  }

  /** `flatMapComponents` over one more record appends that record's
      results: records are visited in order, outlets in key order, and each
      result is `fn` of that outlet. */
  lemma FlatMapSnoc<R>(records: seq<RouteRecord>, m: RouteRecord, f: (Component, RouteRecord, string) -> R)
    ensures FlatMapComponents(records + [m], f) == FlatMapComponents(records, f) + PerRecord(m, f)
    ensures forall k :: 0 <= k < |m.components| ==>
      PerRecord(m, f)[k] == f(m.components[k].1, m, m.components[k].0)
  {
    var all := records + [m];
    var arr := seq(|all|, i requires 0 <= i < |all| => Items(PerRecord(all[i], f)));
    var init := seq(|records|, i requires 0 <= i < |records| => Items(PerRecord(records[i], f)));
    assert arr[..|arr| - 1] == init;
  }

  /** No records, no results. */
  lemma FlatMapEmpty<R>(f: (Component, RouteRecord, string) -> R)
    ensures FlatMapComponents([], f) == []
  {
  }

  /** One result per outlet. */
  lemma {:induction false} FlatMapLength<R>(records: seq<RouteRecord>, f: (Component, RouteRecord, string) -> R)
    ensures |FlatMapComponents(records, f)| == OutletCount(records)
    decreases |records|
  {
    if |records| > 0 {
      var init := records[..|records| - 1];
      FlatMapLength(init, f);
      assert init + [records[|records| - 1]] == records;
      FlatMapSnoc(init, records[|records| - 1], f);
    }
  }

  // ------------------------------------------------------ async factories

  /** Where an async factory sits: the record (by identity) and the outlet
      key. */
  type Slot = (nat, string)

  /** A function without `cid` is an async factory. */
  predicate IsFactory(def: Component) {
    def.Factory?
  }

  /** The factories among the records' outlets, in `flatMapComponents`
      order. */
  function FactorySlots(records: seq<RouteRecord>): seq<Slot>
  {
    Flatten(FlatMapComponents(records, (def: Component, m: RouteRecord, key: string) =>
      if IsFactory(def) then Items([(m.id, key)]) else Items([])))
  }

  /** A resolved value: a definition, or an ES module whose `default` export
      is the definition. */
  datatype Module = Plain(def: Component) | EsModule(default: Component)

  /** The definition stored for a resolved value: the `default` export of an
      ES module, otherwise the value itself. */
  function Unwrap(m: Module): (c: Component)
    ensures m.EsModule? ==> c == m.default
    ensures m.Plain? ==> c == m.def
  {
    match m
    case Plain(d) => d
    case EsModule(d) => d
  }

  /** A rejection reason: an `Error` object or any other value (shown by its
      string form). */
  datatype Reason = ErrorReason(err: nat) | OtherReason(text: string)

  /** An error handed to `next`: the rejection's own `Error`, or the one
      built from the message `Failed to resolve async component <key>:
      <reason>`; or the `TypeError` of reading a property of `null`. */
  datatype Failure = Given(err: nat) | Wrapped(key: string, reason: string) | NullAccess

  /** `isError(reason) ? reason : new Error(msg)`. */
  function FailureOf(key: string, reason: Reason): (f: Failure)
    ensures reason.ErrorReason? <==> f.Given?
    ensures reason.ErrorReason? ==> f == Given(reason.err)
    ensures reason.OtherReason? ==> f == Wrapped(key, reason.text)
  {
    match reason
    case ErrorReason(e) => Given(e)
    case OtherReason(t) => Wrapped(key, t)
  }

  /** A call of the guard's `next`: with no argument, or with an error. */
  datatype Signal = Proceed | Fail(failure: Failure)

  /** A call a factory makes (or, for a rejection, the promise it returned
      makes): `resolve(value)` or `reject(reason)`.  A factory that throws
      is a `reject` of the thrown value. */
  datatype Settlement = Resolves(m: Module) | Rejects(reason: Reason)

  /** The guard's closure state: the `pending` counter, the first `error`,
      the `called` flag of every factory's `once`-wrapped `resolve` and
      `reject`, the components written back (by slot), and the calls of
      `next` so far. */
  datatype Resolution = Resolution(
    pending: int,
    error: Option<Failure>,
    resolveCalled: seq<bool>,
    rejectCalled: seq<bool>,
    store: map<Slot, Component>,
    signals: seq<Signal>)

  /** The flags of `n` wrappers, none called yet. */
  function Fresh(n: nat): (flags: seq<bool>)
    ensures |flags| == n && forall k :: 0 <= k < n ==> !flags[k]
  {
    seq(n, _ => false)
  }

  /** Factory `k` settles once more.  A `resolve` whose wrapper already ran
      does nothing; otherwise the unwrapped definition replaces the factory
      at its slot, `pending` drops, and at zero `next()` is called.  A
      `reject` whose wrapper already ran does nothing; otherwise the first
      rejection of all becomes the error and `next(error)` is called. */
  function Settle(slots: seq<Slot>, s: Resolution, k: nat, o: Settlement): Resolution
    requires |s.resolveCalled| == |s.rejectCalled| == |slots| && k < |slots|
  {
    match o
    case Resolves(m) =>
      if s.resolveCalled[k] then s
      else
        var s1 := s.(resolveCalled := s.resolveCalled[k := true],
                     store := s.store[slots[k] := Unwrap(m)],
                     pending := s.pending - 1);
        if s1.pending <= 0 then s1.(signals := s1.signals + [Proceed]) else s1
    case Rejects(r) =>
      if s.rejectCalled[k] then s
      else
        var s1 := s.(rejectCalled := s.rejectCalled[k := true]);
        if s1.error.None? then
          var f := FailureOf(slots[k].1, r);
          s1.(error := Some(f), signals := s1.signals + [Fail(f)])
        else s1
  }

  /** Factory `k` settling several times in a row. */
  function SettleAll(slots: seq<Slot>, s: Resolution, k: nat, os: seq<Settlement>): (r: Resolution)
    requires |s.resolveCalled| == |s.rejectCalled| == |slots| && k < |slots|
    ensures |r.resolveCalled| == |r.rejectCalled| == |slots|
    decreases |os|
  {
    if |os| == 0 then s else SettleAll(slots, Settle(slots, s, k, os[0]), k, os[1..])
  }

  /** Settlements that arrive after the guard returned, each naming its
      factory; a name that is no factory is no call at all. */
  function SettleLater(slots: seq<Slot>, s: Resolution, later: seq<(nat, Settlement)>): (r: Resolution)
    requires |s.resolveCalled| == |s.rejectCalled| == |slots|
    ensures |r.resolveCalled| == |r.rejectCalled| == |slots|
    decreases |later|
  {
    if |later| == 0 then s
    else
      var s1 := if later[0].0 < |slots| then Settle(slots, s, later[0].0, later[0].1) else s;
      SettleLater(slots, s1, later[1..])
  }

  /** The guard's loop over the factories from `k` on, as written: each one
      bumps `pending` and is then called, settling synchronously as
      `sync[k]` says before the next one is counted. */
  function StartFrom(slots: seq<Slot>, sync: seq<seq<Settlement>>, s: Resolution, k: nat): (r: Resolution)
    requires |s.resolveCalled| == |s.rejectCalled| == |slots| && k <= |slots|
    ensures |r.resolveCalled| == |r.rejectCalled| == |slots|
    decreases |slots| - k
  {
    if k == |slots| then s
    else
      var os := if k < |sync| then sync[k] else [];
      StartFrom(slots, sync, SettleAll(slots, s.(pending := s.pending + 1), k, os), k + 1)
  }

  /** The closure state before the loop. */
  function Initial(n: nat, store: map<Slot, Component>): (s: Resolution)
    ensures |s.resolveCalled| == |s.rejectCalled| == n
  {
    Resolution(0, None, Fresh(n), Fresh(n), store, [])
  }

  /** `resolveAsyncComponents(matched)` invoked as a guard, as written: the
      loop over the factories, `next()` at once when there are none, then
      the settlements that arrive later. */
  function ResolveAsync(records: seq<RouteRecord>, store: map<Slot, Component>,
                        sync: seq<seq<Settlement>>, later: seq<(nat, Settlement)>): Resolution
  {
    var slots := FactorySlots(records);
    var started := StartFrom(slots, sync, Initial(|slots|, store), 0);
    var s := if |slots| == 0 then started.(signals := started.signals + [Proceed]) else started;
    SettleLater(slots, s, later)
  }

  /** The same guard with every factory counted before any is called, so
      that no synchronous `resolve` can bring `pending` to zero while
      factories are still to be counted. */
  function ResolveAsyncCounted(records: seq<RouteRecord>, store: map<Slot, Component>,
                               sync: seq<seq<Settlement>>, later: seq<(nat, Settlement)>): Resolution
  {
    var slots := FactorySlots(records);
    var counted := Initial(|slots|, store).(pending := |slots|);
    var started := StartCounted(slots, sync, counted, 0);
    var s := if |slots| == 0 then started.(signals := started.signals + [Proceed]) else started;
    SettleLater(slots, s, later)
  }

  /** The loop of the counted variant: every factory called in order. */
  function StartCounted(slots: seq<Slot>, sync: seq<seq<Settlement>>, s: Resolution, k: nat): (r: Resolution)
    requires |s.resolveCalled| == |s.rejectCalled| == |slots| && k <= |slots|
    ensures |r.resolveCalled| == |r.rejectCalled| == |slots|
    decreases |slots| - k
  {
    if k == |slots| then s
    else
      var os := if k < |sync| then sync[k] else [];
      StartCounted(slots, sync, SettleAll(slots, s, k, os), k + 1)
  }

  // ---------------------------------------------------------- properties

  /** The number of wrappers already called. */
  function Called(flags: seq<bool>): (n: nat)
    ensures n <= |flags|
  {
    if |flags| == 0 then 0 else Called(flags[..|flags| - 1]) + (if flags[|flags| - 1] then 1 else 0)
  }

  /** Setting one more flag counts one more call. */
  lemma {:induction false} CalledSet(flags: seq<bool>, k: nat)
    requires k < |flags| && !flags[k]
    ensures Called(flags[k := true]) == Called(flags) + 1
    decreases |flags|
  {
    var n := |flags| - 1;
    var g := flags[k := true];
    if k < n {
      assert g[..n] == flags[..n][k := true];
      CalledSet(flags[..n], k);
    } else {
      assert g[..n] == flags[..n];
    }
  }

  /** All wrappers called exactly when every flag is set. */
  lemma {:induction false} CalledAll(flags: seq<bool>)
    ensures Called(flags) == |flags| <==> forall k :: 0 <= k < |flags| ==> flags[k]
    decreases |flags|
  {
    if |flags| > 0 {
      var n := |flags| - 1;
      CalledAll(flags[..n]);
      if Called(flags) == |flags| {
        forall k | 0 <= k < |flags| ensures flags[k] {
          if k < n {
            assert flags[..n][k] == flags[k];
          }
        }
      }
      if forall k :: 0 <= k < |flags| ==> flags[k] {
        assert forall k :: 0 <= k < n ==> flags[..n][k];
      }
    }
  }

  /** The number of `next()` calls among the signals. */
  function Proceeds(signals: seq<Signal>): nat
  {
    if |signals| == 0 then 0 else Proceeds(signals[..|signals| - 1]) + (if signals[|signals| - 1].Proceed? then 1 else 0)
  }

  /** The number of `next(error)` calls among the signals. */
  function Fails(signals: seq<Signal>): nat
  {
    if |signals| == 0 then 0 else Fails(signals[..|signals| - 1]) + (if signals[|signals| - 1].Fail? then 1 else 0)
  }

  /** Appending one signal adds it to its count. */
  lemma CountSnoc(signals: seq<Signal>, x: Signal)
    ensures Proceeds(signals + [x]) == Proceeds(signals) + (if x.Proceed? then 1 else 0)
    ensures Fails(signals + [x]) == Fails(signals) + (if x.Fail? then 1 else 0)
  {
    assert (signals + [x])[..|signals|] == signals;
  }

  /** The error protocol: `next(error)` was called exactly once when an
      error was recorded (with that error, as the last failure) and never
      otherwise. */
  ghost predicate ErrorsOnce(s: Resolution) {
    && (s.error.None? ==> Fails(s.signals) == 0)
    && (s.error.Some? ==> Fails(s.signals) == 1 && Fail(s.error.value) in s.signals)
  }

  /** The counting protocol, once every factory has been counted: `pending`
      is the number of factories whose `resolve` has not run yet, and
      `next()` has been called once if all of them resolved and never
      before. */
  ghost predicate Counting(n: nat, s: Resolution) {
    && |s.resolveCalled| == n
    && s.pending == n - Called(s.resolveCalled)
    && Proceeds(s.signals) == (if Called(s.resolveCalled) == n then 1 else 0)
  }

  /** Each wrapper takes effect at most once: a second `resolve` (or
      `reject`) of the same factory changes nothing. */
  lemma OnceTakesEffectOnce(slots: seq<Slot>, s: Resolution, k: nat, first: Settlement, again: Settlement)
    requires |s.resolveCalled| == |s.rejectCalled| == |slots| && k < |slots|
    requires first.Resolves? == again.Resolves?
    ensures var s1 := Settle(slots, s, k, first);
      |s1.resolveCalled| == |s1.rejectCalled| == |slots| && Settle(slots, s1, k, again) == s1
  {
  }

  /** One settlement keeps the error protocol: only the first effective
      rejection calls `next(error)`, with the rejection's own error or a
      wrapping one. */
  lemma SettleErrors(slots: seq<Slot>, s: Resolution, k: nat, o: Settlement)
    requires |s.resolveCalled| == |s.rejectCalled| == |slots| && k < |slots|
    requires ErrorsOnce(s)
    ensures var r := Settle(slots, s, k, o);
      && ErrorsOnce(r)
      && (s.error.Some? ==> r.error == s.error)
      && (s.error.None? && o.Rejects? && !s.rejectCalled[k] ==> r.error == Some(FailureOf(slots[k].1, o.reason)))
  {
    var r := Settle(slots, s, k, o);
    if o.Resolves? && !s.resolveCalled[k] && r != s {
      var s1 := s.(resolveCalled := s.resolveCalled[k := true], store := s.store[slots[k] := Unwrap(o.m)], pending := s.pending - 1);
      CountSnoc(s1.signals, Proceed);
    } else if o.Rejects? && !s.rejectCalled[k] && s.error.None? {
      CountSnoc(s.signals, Fail(FailureOf(slots[k].1, o.reason)));
    }
  }

  /** One settlement keeps the counting protocol: `next()` is called when
      the last outstanding factory resolves, and only then. */
  lemma SettleCounts(slots: seq<Slot>, s: Resolution, k: nat, o: Settlement)
    requires |s.resolveCalled| == |s.rejectCalled| == |slots| && k < |slots|
    requires Counting(|slots|, s)
    ensures Counting(|slots|, Settle(slots, s, k, o))
  {
    if o.Resolves? && !s.resolveCalled[k] {
      CalledSet(s.resolveCalled, k);
      var s1 := s.(resolveCalled := s.resolveCalled[k := true], store := s.store[slots[k] := Unwrap(o.m)], pending := s.pending - 1);
      CountSnoc(s1.signals, Proceed);
    } else if o.Rejects? && !s.rejectCalled[k] && s.error.None? {
      CountSnoc(s.signals, Fail(FailureOf(slots[k].1, o.reason)));
    }
  }

  /** A first `resolve` of factory `k` writes the unwrapped definition at
      its slot and nowhere else. */
  lemma SettleStores(slots: seq<Slot>, s: Resolution, k: nat, m: Module)
    requires |s.resolveCalled| == |s.rejectCalled| == |slots| && k < |slots|
    requires !s.resolveCalled[k]
    ensures var r := Settle(slots, s, k, Resolves(m));
      && r.store[slots[k]] == Unwrap(m)
      && (forall slot :: slot != slots[k] && slot in s.store ==> slot in r.store && r.store[slot] == s.store[slot])
      && r.resolveCalled[k]
  {
  }

  /** Repeated settlements of one factory keep both protocols. */
  lemma {:induction false} SettleAllKeeps(slots: seq<Slot>, s: Resolution, k: nat, os: seq<Settlement>)
    requires |s.resolveCalled| == |s.rejectCalled| == |slots| && k < |slots|
    requires ErrorsOnce(s)
    ensures ErrorsOnce(SettleAll(slots, s, k, os))
    ensures Counting(|slots|, s) ==> Counting(|slots|, SettleAll(slots, s, k, os))
    decreases |os|
  {
    if |os| > 0 {
      SettleErrors(slots, s, k, os[0]);
      if Counting(|slots|, s) {
        SettleCounts(slots, s, k, os[0]);
      }
      SettleAllKeeps(slots, Settle(slots, s, k, os[0]), k, os[1..]);
    }
  }

  /** Later settlements keep both protocols. */
  lemma {:induction false} SettleLaterKeeps(slots: seq<Slot>, s: Resolution, later: seq<(nat, Settlement)>)
    requires |s.resolveCalled| == |s.rejectCalled| == |slots|
    requires ErrorsOnce(s)
    ensures ErrorsOnce(SettleLater(slots, s, later))
    ensures Counting(|slots|, s) ==> Counting(|slots|, SettleLater(slots, s, later))
    decreases |later|
  {
    if |later| > 0 {
      var s1 := if later[0].0 < |slots| then Settle(slots, s, later[0].0, later[0].1) else s;
      if later[0].0 < |slots| {
        SettleErrors(slots, s, later[0].0, later[0].1);
        if Counting(|slots|, s) {
          SettleCounts(slots, s, later[0].0, later[0].1);
        }
      }
      SettleLaterKeeps(slots, s1, later[1..]);
    }
  }

  /** The counted loop keeps both protocols. */
  lemma {:induction false} StartCountedKeeps(slots: seq<Slot>, sync: seq<seq<Settlement>>, s: Resolution, k: nat)
    requires |s.resolveCalled| == |s.rejectCalled| == |slots| && k <= |slots|
    requires ErrorsOnce(s) && Counting(|slots|, s)
    ensures ErrorsOnce(StartCounted(slots, sync, s, k)) && Counting(|slots|, StartCounted(slots, sync, s, k))
    decreases |slots| - k
  {
    if k < |slots| {
      var os := if k < |sync| then sync[k] else [];
      SettleAllKeeps(slots, s, k, os);
      StartCountedKeeps(slots, sync, SettleAll(slots, s, k, os), k + 1);
    }
  }

  /** The as-written loop without synchronous settlements only counts. */
  lemma {:induction false} StartQuiet(slots: seq<Slot>, sync: seq<seq<Settlement>>, s: Resolution, k: nat)
    requires |s.resolveCalled| == |s.rejectCalled| == |slots| && k <= |slots|
    requires forall j :: 0 <= j < |sync| ==> sync[j] == []
    ensures StartFrom(slots, sync, s, k) == s.(pending := s.pending + (|slots| - k))
    decreases |slots| - k
  {
    if k < |slots| {
      StartQuiet(slots, sync, s.(pending := s.pending + 1), k + 1);
    }
  }

  /** The starting state has not resolved, failed or signalled anything. */
  lemma InitialProtocols(n: nat, store: map<Slot, Component>)
    ensures ErrorsOnce(Initial(n, store))
    ensures Called(Initial(n, store).resolveCalled) == 0
  {
    var flags := Fresh(n);
    CalledNone(flags);
  }

  /** No flag set, no call counted. */
  lemma {:induction false} CalledNone(flags: seq<bool>)
    requires forall k :: 0 <= k < |flags| ==> !flags[k]
    ensures Called(flags) == 0
    decreases |flags|
  {
    if |flags| > 0 {
      CalledNone(flags[..|flags| - 1]);
    }
  }

  /** Without async factories the guard calls `next()` exactly once, with
      no argument, whatever happens later. */
  lemma NoFactories(records: seq<RouteRecord>, store: map<Slot, Component>,
                    sync: seq<seq<Settlement>>, later: seq<(nat, Settlement)>)
    requires FactorySlots(records) == []
    ensures ResolveAsync(records, store, sync, later).signals == [Proceed]
  {
    var slots := FactorySlots(records);
    var started := StartFrom(slots, sync, Initial(0, store), 0);
    assert started == Initial(0, store);
    assert started.signals + [Proceed] == [Proceed];
    NoSettlement(slots, Initial(0, store).(signals := [Proceed]), later);
  }

  /** With no factories every later settlement names no factory. */
  lemma {:induction false} NoSettlement(slots: seq<Slot>, s: Resolution, later: seq<(nat, Settlement)>)
    requires |slots| == 0 && |s.resolveCalled| == |s.rejectCalled| == 0
    ensures SettleLater(slots, s, later) == s
    decreases |later|
  {
    if |later| > 0 {
      NoSettlement(slots, s, later[1..]);
    }
  }

  /** The corrected guard keeps both protocols for every course of
      settlements: `next()` is called once all factories have resolved and
      never before, never twice, and `next(error)` at most once, with the
      first rejection. */
  lemma CountedResolution(records: seq<RouteRecord>, store: map<Slot, Component>,
                          sync: seq<seq<Settlement>>, later: seq<(nat, Settlement)>)
    ensures var r := ResolveAsyncCounted(records, store, sync, later);
      var n := |FactorySlots(records)|;
      && Proceeds(r.signals) <= 1
      && (Proceeds(r.signals) == 1 <==> forall k :: 0 <= k < n ==> r.resolveCalled[k])
      && Fails(r.signals) <= 1
      && (r.error.Some? ==> Fail(r.error.value) in r.signals)
  {
    var slots := FactorySlots(records);
    var n := |slots|;
    var counted := Initial(n, store).(pending := n);
    InitialProtocols(n, store);
    var started := StartCounted(slots, sync, counted, 0);
    if n > 0 {
      StartCountedKeeps(slots, sync, counted, 0);
    } else {
      assert started == counted;
    }
    var s := if n == 0 then started.(signals := started.signals + [Proceed]) else started;
    if n == 0 {
      CountSnoc(started.signals, Proceed);
      CalledAll(started.resolveCalled);
    }
    SettleLaterKeeps(slots, s, later);
    var r := SettleLater(slots, s, later);
    CalledAll(r.resolveCalled);
  }

  /** As written, without synchronous settlements the guard keeps both
      protocols too: the counter only goes wrong when a factory settles
      while the loop is still counting. */
  lemma QuietResolution(records: seq<RouteRecord>, store: map<Slot, Component>,
                        sync: seq<seq<Settlement>>, later: seq<(nat, Settlement)>)
    requires forall j :: 0 <= j < |sync| ==> sync[j] == []
    ensures var r := ResolveAsync(records, store, sync, later);
      var n := |FactorySlots(records)|;
      && Proceeds(r.signals) <= 1
      && (Proceeds(r.signals) == 1 <==> forall k :: 0 <= k < n ==> r.resolveCalled[k])
      && Fails(r.signals) <= 1
  {
    var slots := FactorySlots(records);
    var n := |slots|;
    InitialProtocols(n, store);
    StartQuiet(slots, sync, Initial(n, store), 0);
    var started := StartFrom(slots, sync, Initial(n, store), 0);
    assert started == Initial(n, store).(pending := n);
    var s := if n == 0 then started.(signals := started.signals + [Proceed]) else started;
    if n == 0 {
      CountSnoc(started.signals, Proceed);
      CalledAll(started.resolveCalled);
    }
    SettleLaterKeeps(slots, s, later);
    CalledAll(SettleLater(slots, s, later).resolveCalled);
  }

  /** As written, a factory that resolves synchronously while a second one
      is still to be counted brings `pending` to zero early: `next()` is
      called before the second factory has resolved, and again when it
      does. */
  lemma EarlyProceed(records: seq<RouteRecord>, store: map<Slot, Component>, a: Module, b: Module)
    requires |FactorySlots(records)| == 2
    ensures var started := ResolveAsync(records, store, [[Resolves(a)], []], []);
      started.signals == [Proceed] && !started.resolveCalled[1]
    ensures ResolveAsync(records, store, [[Resolves(a)], []], [(1, Resolves(b))]).signals == [Proceed, Proceed]
  {
    var slots := FactorySlots(records);
    var s0 := Initial(2, store);
    var s1 := Settle(slots, s0.(pending := 1), 0, Resolves(a));
    assert SettleAll(slots, s0.(pending := 1), 0, [Resolves(a)]) == s1;
    assert s1.signals == [Proceed] && s1.pending == 0;
    var s2 := s1.(pending := 1);
    assert SettleAll(slots, s2, 1, []) == s2;
    var sync := [[Resolves(a)], []];
    assert StartFrom(slots, sync, s2, 2) == s2;
    assert StartFrom(slots, sync, s1, 1) == s2;
    assert StartFrom(slots, sync, s0, 0) == StartFrom(slots, sync, s1, 1);
    var s3 := Settle(slots, s2, 1, Resolves(b));
    assert s3.signals == [Proceed, Proceed];
    var later := [(1, Resolves(b))];
    assert SettleLater(slots, s3, later[1..]) == s3;
    assert SettleLater(slots, s2, later) == s3;
  }
}

=== FILE: dict.dfy ===
/** Insertion-ordered dictionaries with string keys: the model of a plain
    JavaScript object used as a map (key order as inserted, `for … in`,
    assignment that keeps the position of an existing key). */
module Dict {
  import opened Wrappers

  /** Every key occurs at most once. */
  ghost predicate DistinctKeys<V>(d: seq<(string, V)>) {
    forall i, j :: 0 <= i < j < |d| ==> d[i].0 != d[j].0
  }

  type Dict<V> = d: seq<(string, V)> | DistinctKeys(d) witness []

  /** `Object.keys(d)`, taken in insertion order. */
  function Keys<V>(d: Dict<V>): (ks: seq<string>)
    ensures |ks| == |d|
    ensures forall i :: 0 <= i < |d| ==> ks[i] == d[i].0
  {
    seq(|d|, i requires 0 <= i < |d| => d[i].0)
  }

  /** `k in d`. */
  predicate Has<V>(d: Dict<V>, k: string) {
    exists i :: 0 <= i < |d| && d[i].0 == k
  }

  /** Position of key `k`, or -1. */
  function IndexOfKey<V>(d: seq<(string, V)>, k: string): (r: int)
    ensures -1 <= r < |d|
    ensures r >= 0 ==> d[r].0 == k
    ensures r == -1 ==> forall i :: 0 <= i < |d| ==> d[i].0 != k
  {
    if |d| == 0 then -1
    else if d[|d| - 1].0 == k then |d| - 1
    else IndexOfKey(d[..|d| - 1], k)
  }

  /** The names a plain object inherits from `Object.prototype`.  In
      JavaScript `d[k]` and `k in d` see them even when `d` has no such own
      key; this module models own keys only. */
  const ObjectPrototypeNames: set<string> := {
    "constructor", "hasOwnProperty", "isPrototypeOf", "propertyIsEnumerable",
    "toLocaleString", "toString", "valueOf", "__proto__",
    "__defineGetter__", "__defineSetter__", "__lookupGetter__", "__lookupSetter__"}

  /** `d[k]`, with `None` for a missing key. */
  function Get<V>(d: Dict<V>, k: string): (r: Option<V>)
    ensures r.Some? <==> Has(d, k)
    ensures forall i :: 0 <= i < |d| && d[i].0 == k ==> r == Some(d[i].1)
  {
    var i := IndexOfKey(d, k);
    if i < 0 then None else Some(d[i].1)
  }

  /** `d[k] = v`: overwrite in place when present, otherwise append. */
  function Put<V>(d: Dict<V>, k: string, v: V): (r: Dict<V>)
    ensures Get(r, k) == Some(v)
    ensures forall k' :: k' != k ==> Get(r, k') == Get(d, k')
    ensures Has(d, k) ==> Keys(r) == Keys(d)
    ensures !Has(d, k) ==> Keys(r) == Keys(d) + [k]
  {
    var i := IndexOfKey(d, k);
    if i >= 0 then
      var r := d[i := (k, v)];
      assert forall j :: 0 <= j < |r| ==> r[j].0 == d[j].0;
      assert Keys(r) == Keys(d);
      r
    else
      var r := d + [(k, v)];
      assert Keys(r) == Keys(d) + [k];
      r
  }

  /** `delete d[k]`. */
  function Delete<V>(d: Dict<V>, k: string): (r: Dict<V>)
    ensures Get(r, k) == None
    ensures forall k' :: k' != k ==> Get(r, k') == Get(d, k')
    ensures forall i :: 0 <= i < |r| ==> Has(d, r[i].0)
  {
    if |d| == 0 then []
    else
      var rest := Delete(d[1..], k);
      GetCons(d);
      if d[0].0 == k then rest
      else
        var r := [d[0]] + rest;
        assert r[1..] == rest;
        assert forall i :: 0 <= i < |rest| ==> Has(d[1..], rest[i].0);
        assert forall i :: 0 <= i < |rest| ==> rest[i].0 != d[0].0;
        GetCons(r);
        r
  }

  /** Looking a key up in a non-empty dictionary: first entry or the rest. */
  lemma GetCons<V>(d: Dict<V>)
    requires |d| > 0
    ensures forall k :: Get(d, k) == (if d[0].0 == k then Some(d[0].1) else Get(d[1..], k))
  {
    forall k ensures Get(d, k) == (if d[0].0 == k then Some(d[0].1) else Get(d[1..], k)) {
      if d[0].0 != k {
        if Has(d, k) {
          var i :| 0 <= i < |d| && d[i].0 == k;
          assert d[1..][i - 1].0 == k;
        }
        if Has(d[1..], k) {
          var i :| 0 <= i < |d[1..]| && d[1..][i].0 == k;
          assert d[i + 1].0 == k;
        }
      }
    }
  }

  /** Looking a key up in a non-empty dictionary: last entry or the rest. */
  lemma GetSnoc<V>(d: Dict<V>)
    requires |d| > 0
    ensures forall k :: Get(d, k) == (if d[|d| - 1].0 == k then Some(d[|d| - 1].1) else Get(d[..|d| - 1], k))
    ensures forall k :: Has(d, k) <==> (Has(d[..|d| - 1], k) || k == d[|d| - 1].0)
  {
    var n := |d| - 1;
    forall k ensures Get(d, k) == (if d[n].0 == k then Some(d[n].1) else Get(d[..n], k)) {
      if d[n].0 != k {
        if Has(d, k) {
          var i :| 0 <= i < |d| && d[i].0 == k;
          assert d[..n][i].0 == k;
        }
      }
    }
    forall k ensures Has(d, k) <==> (Has(d[..n], k) || k == d[n].0) {
      if Has(d[..n], k) {
        var i :| 0 <= i < n && d[..n][i].0 == k;
        assert d[i].0 == k;
      }
    }
  }

  /** The unordered view of a dictionary. */
  function ToMap<V>(d: Dict<V>): (m: map<string, V>)
    ensures forall k :: k in m <==> Has(d, k)
    ensures forall k :: k in m ==> Get(d, k) == Some(m[k])
  {
    if |d| == 0 then map[]
    else
      var m := ToMap(d[..|d| - 1])[d[|d| - 1].0 := d[|d| - 1].1];
      GetSnoc(d);
      m
  }

  /** `for (const key in b) a[key] = b[key]`: every key of `b` is written into
      `a` in `b`'s order. */
  function Assign<V>(a: Dict<V>, b: Dict<V>): (r: Dict<V>)
    ensures forall k :: Get(r, k) == (if Has(b, k) then Get(b, k) else Get(a, k))
    decreases |b|
  {
    if |b| == 0 then a
    else
      var last := b[|b| - 1];
      var prev := Assign(a, b[..|b| - 1]);
      var r := Put(prev, last.0, last.1);
      GetSnoc(b);
      r
  }

  /** The dictionary with the single entry `k: v`. */
  function Singleton<V>(k: string, v: V): (r: Dict<V>)
    ensures Keys(r) == [k] && Get(r, k) == Some(v)
  {
    [(k, v)]
  }

  /** Applying `f` to every value keeps keys and order. */
  function MapValues<V, W>(d: Dict<V>, f: V -> W): (r: Dict<W>)
    ensures Keys(r) == Keys(d)
    ensures forall i :: 0 <= i < |d| ==> r[i] == (d[i].0, f(d[i].1))
  {
    var r := seq(|d|, i requires 0 <= i < |d| => (d[i].0, f(d[i].1)));
    assert forall i :: 0 <= i < |r| ==> r[i].0 == d[i].0;
    r
  }

  /** Two dictionaries with the same keys in the same order and the same
      lookups are equal. */
  lemma Extensionality<V>(a: Dict<V>, b: Dict<V>)
    requires Keys(a) == Keys(b)
    requires forall k :: Get(a, k) == Get(b, k)
    ensures a == b
  {
    assert |a| == |b|;
    forall i | 0 <= i < |a| ensures a[i] == b[i] {
      assert a[i].0 == Keys(a)[i] == Keys(b)[i] == b[i].0;
      assert Get(a, a[i].0) == Some(a[i].1);
      assert Get(b, b[i].0) == Some(b[i].1);
    }
  }
}

=== FILE: guards.dfy ===
/** The pure parts of the transition engine (`src/history/base.js`): the
    split of the matched records into updated, deactivated and activated
    ones, the extraction of in-component guards, the order of the two guard
    queues, the reading of the value a guard passes to `next`, and the
    normalisation of the base path. */
module Guards {
  import opened Wrappers
  import opened Strings
  import opened Dict
  import opened Types
  import opened Components
  import opened View

  // -------------------------------------------------------- resolveQueue

  /** The records of the current and the next route at position `i` are the
      same object. */
  predicate SameAt(current: seq<RouteRecord>, next: seq<RouteRecord>, i: nat) {
    i < |current| && i < |next| && current[i].id == next[i].id
  }

  /** The loop of `resolveQueue` from `i`: the first position below the
      longer length where the records differ (a missing record differs from
      any record). */
  function FirstDifference(current: seq<RouteRecord>, next: seq<RouteRecord>, i: nat): nat
    requires i <= |current| || i <= |next|
    decreases (if |current| > |next| then |current| else |next|) - i
  {
    if i >= |current| && i >= |next| then i
    else if !SameAt(current, next, i) then i
    else FirstDifference(current, next, i + 1)
  }

  /** The loop stops at the longest common prefix of identical records. */
  lemma {:induction false} FirstDifferenceFacts(current: seq<RouteRecord>, next: seq<RouteRecord>, i: nat)
    requires i <= |current| && i <= |next|
    requires forall k :: 0 <= k < i ==> current[k].id == next[k].id
    ensures var d := FirstDifference(current, next, i);
      && i <= d <= |current| && d <= |next|
      && (forall k :: 0 <= k < d ==> current[k].id == next[k].id)
      && (d == |current| || d == |next| || current[d].id != next[d].id)
    decreases (if |current| > |next| then |current| else |next|) - i
  {
    if SameAt(current, next, i) {
      FirstDifferenceFacts(current, next, i + 1);
    }
  }

  /** The three lists `resolveQueue` returns. */
  datatype QueueSplit = QueueSplit(updated: seq<RouteRecord>, activated: seq<RouteRecord>, deactivated: seq<RouteRecord>)

  /** `resolveQueue(current, next)`. */
  function ResolveQueue(current: seq<RouteRecord>, next: seq<RouteRecord>): QueueSplit
  {
    var i := FirstDifference(current, next, 0);
    var cut := if i <= |next| then i else |next|;
    var drop := if i <= |current| then i else |current|;
    QueueSplit(next[..cut], next[cut..], current[drop..])
  }

  /** The split: `updated` and `activated` make up the next records, and
      `updated` is the longest run of records the current route shares
      (by identity) from the root; what follows in the current route is
      `deactivated`. */
  lemma ResolveQueueFacts(current: seq<RouteRecord>, next: seq<RouteRecord>)
    ensures var q := ResolveQueue(current, next);
      var i := |q.updated|;
      && q.updated + q.activated == next
      && i <= |current| && q.deactivated == current[i..]
      && (forall k :: 0 <= k < i ==> current[k].id == next[k].id)
      && (i == |current| || i == |next| || current[i].id != next[i].id)
  {
    FirstDifferenceFacts(current, next, 0);
  }

  /** Two routes on the same branch: navigating from a parent to its child
      activates only the child and deactivates nothing. */
  lemma DescendOne(parent: seq<RouteRecord>, child: RouteRecord)
    ensures ResolveQueue(parent, parent + [child]) == QueueSplit(parent, [child], [])
  {
    ResolveQueueFacts(parent, parent + [child]);
  }

  // ------------------------------------------------------ guard extraction

  /** A queue entry: an in-component leave or update guard bound to its
      instance, a global hook (`beforeEach`, `beforeResolve`), a record's
      `beforeEnter`, the async component resolver, or an in-component enter
      guard of an outlet. */
  datatype Guard =
    | Bound(hook: FnId, instance: nat)
    | Global(hook: FnId)
    | RecordEnter(hook: FnId)
    | Resolver
    | Enter(hook: FnId, record: nat, key: string)

  /** The in-component guard options. */
  datatype HookName = Leave | Update | EnterHook

  /** `extractGuard(def, key)`: the merged option of a definition; an
      absent component extends to a definition without it. */
  function HooksOf(def: Component, which: HookName): Option<seq<FnId>>
  {
    match def
    case Definition(_, _, leave, update, enter) =>
      (match which case Leave => leave case Update => update case EnterHook => enter)
    case _ => None
  }

  /** `bindGuard` for leave and update guards (nothing without an
      instance) and the enter binding (always a guard). */
  function Bind(which: HookName, hook: FnId, record: RouteRecord, key: string, instances: Instances): (g: Option<Guard>)
    ensures which == EnterHook ==> g == Some(Enter(hook, record.id, key))
    ensures which != EnterHook ==> (g.Some? <==> (record.id, key) in instances)
    ensures which != EnterHook && g.Some? ==> g.value == Bound(hook, instances[(record.id, key)])
  {
    if which == EnterHook then Some(Enter(hook, record.id, key))
    else if (record.id, key) in instances then Some(Bound(hook, instances[(record.id, key)]))
    else None
  }

  /** The per-outlet result of the extraction callback: the bound list when
      the option is present, `undefined` otherwise. */
  function OutletGuards(which: HookName, instances: Instances, def: Component, m: RouteRecord, key: string): Spread<Option<Guard>>
  {
    match HooksOf(def, which)
    case None => Item(None)
    case Some(hooks) => Items(seq(|hooks|, i requires 0 <= i < |hooks| => Bind(which, hooks[i], m, key, instances)))
  }

  /** The per-outlet results, in `flatMapComponents` order. */
  function Groups(records: seq<RouteRecord>, which: HookName, instances: Instances): seq<Spread<Option<Guard>>>
  {
    FlatMapComponents(records, (def: Component, m: RouteRecord, key: string) => OutletGuards(which, instances, def, m, key))
  }

  /** The reverse of a sequence. */
  function Reverse<T>(s: seq<T>): (r: seq<T>)
    ensures |r| == |s|
  {
    if |s| == 0 then [] else [s[|s| - 1]] + Reverse(s[..|s| - 1])
  }

  /** Reversing a concatenation reverses the order of the parts. */
  lemma {:induction false} ReverseAppend<T>(a: seq<T>, b: seq<T>)
    ensures Reverse(a + b) == Reverse(b) + Reverse(a)
    decreases |b|
  {
    if |b| == 0 {
      assert a + b == a;
    } else {
      var init := b[..|b| - 1];
      assert (a + b)[..|a + b| - 1] == a + init;
      ReverseAppend(a, init);
    }
  }

  /** `extractGuards(records, name, bind, reverse)`: the per-outlet results,
      reversed for leave guards, then spread one level. */
  function ExtractGuards(records: seq<RouteRecord>, which: HookName, instances: Instances, reverse: bool): seq<Option<Guard>>
  {
    var groups := Groups(records, which, instances);
    Flatten(if reverse then Reverse(groups) else groups)
  }

  /** The guards one record contributes, outlet by outlet. */
  function RecordGuards(m: RouteRecord, which: HookName, instances: Instances): seq<Spread<Option<Guard>>>
  {
    PerRecord(m, (def: Component, m': RouteRecord, key: string) => OutletGuards(which, instances, def, m', key))
  }

  /** Leave guards run deepest record first (the outlets of a record in
      reverse key order, each outlet's own list in its order); update and
      enter guards run root first. */
  lemma ExtractSnoc(records: seq<RouteRecord>, m: RouteRecord, which: HookName, instances: Instances)
    ensures ExtractGuards(records + [m], which, instances, true) ==
      Flatten(Reverse(RecordGuards(m, which, instances))) + ExtractGuards(records, which, instances, true)
    ensures ExtractGuards(records + [m], which, instances, false) ==
      ExtractGuards(records, which, instances, false) + Flatten(RecordGuards(m, which, instances))
  {
    var f := (def: Component, m': RouteRecord, key: string) => OutletGuards(which, instances, def, m', key);
    FlatMapSnoc(records, m, f);
    var groups := Groups(records, which, instances);
    var mine := RecordGuards(m, which, instances);
    ReverseAppend(groups, mine);
    FlattenAppend(Reverse(mine), Reverse(groups));
    FlattenAppend(groups, mine);
  }

  /** An element of a flattened array comes from one of the values. */
  lemma {:induction false} FlattenMember<T>(arr: seq<Spread<T>>, x: T)
    requires x in Flatten(arr)
    ensures exists i :: 0 <= i < |arr| && x in Elements(arr[i])
    decreases |arr|
  {
    var n := |arr| - 1;
    if x in Flatten(arr[..n]) {
      FlattenMember(arr[..n], x);
      var i :| 0 <= i < n && x in Elements(arr[..n][i]);
      assert arr[..n][i] == arr[i];
    } else {
      assert x in Elements(arr[n]);
    }
  }

  /** The element of a reversed sequence at `k` is the original's element
      counted from the end. */
  function ReverseIndex<T>(s: seq<T>, k: nat): (j: nat)
    requires k < |s|
    ensures j < |s| && Reverse(s)[k] == s[j]
    decreases |s|
  {
    if k == 0 then |s| - 1 else ReverseIndex(s[..|s| - 1], k - 1)
  }

  /** Every result of `flatMapComponents` is the callback's result for some
      outlet of some record. */
  lemma {:induction false} FlatMapOrigin<R>(records: seq<RouteRecord>, f: (Component, RouteRecord, string) -> R, j: nat)
    requires j < |FlatMapComponents(records, f)|
    ensures exists r, k :: (0 <= r < |records| && 0 <= k < |records[r].components| &&
      FlatMapComponents(records, f)[j] == f(records[r].components[k].1, records[r], records[r].components[k].0))
    decreases |records|
  {
    var n := |records| - 1;
    var init := records[..n];
    assert init + [records[n]] == records;
    FlatMapSnoc(init, records[n], f);
    var head := FlatMapComponents(init, f);
    if j < |head| {
      FlatMapOrigin(init, f, j);
      var r, k :| 0 <= r < |init| && 0 <= k < |init[r].components| &&
        head[j] == f(init[r].components[k].1, init[r], init[r].components[k].0);
      assert init[r] == records[r];
    } else {
      var k := j - |head|;
      assert FlatMapComponents(records, f)[j] == PerRecord(records[n], f)[k];
    }
  }

  /** What an entry extracted from one outlet can be: never the resolver,
      and for leave and update options only a guard bound to an instance
      the outlet map holds. */
  predicate Extracted(which: HookName, instances: Instances, x: Option<Guard>) {
    && x != Some(Resolver)
    && (which != EnterHook && x.Some? ==> x.value.Bound? && x.value.instance in instances.Values)
  }

  /** Every entry of one outlet's result is `Extracted`. */
  lemma OutletExtracted(which: HookName, instances: Instances, def: Component, m: RouteRecord, key: string, x: Option<Guard>)
    requires x in Elements(OutletGuards(which, instances, def, m, key))
    ensures Extracted(which, instances, x)
  {
    match HooksOf(def, which)
    case None =>
    case Some(hooks) =>
      var s := seq(|hooks|, i requires 0 <= i < |hooks| => Bind(which, hooks[i], m, key, instances));
      var i :| 0 <= i < |s| && s[i] == x;
      assert x == Bind(which, hooks[i], m, key, instances);
  }

  /** Every entry `extractGuards` returns is `Extracted`. */
  lemma ExtractedAll(records: seq<RouteRecord>, which: HookName, instances: Instances, reverse: bool, x: Option<Guard>)
    requires x in ExtractGuards(records, which, instances, reverse)
    ensures Extracted(which, instances, x)
  {
    var groups := Groups(records, which, instances);
    var f := (def: Component, m: RouteRecord, key: string) => OutletGuards(which, instances, def, m, key);
    var arr := if reverse then Reverse(groups) else groups;
    FlattenMember(arr, x);
    var k :| 0 <= k < |arr| && x in Elements(arr[k]);
    var j := if reverse then ReverseIndex(groups, k) else k;
    assert arr[k] == groups[j];
    FlatMapOrigin(records, f, j);
    var r, c :| 0 <= r < |records| && 0 <= c < |records[r].components| &&
      groups[j] == f(records[r].components[c].1, records[r], records[r].components[c].0);
    OutletExtracted(which, instances, records[r].components[c].1, records[r], records[r].components[c].0, x);
  }

  /** Leave and update guards exist only for outlets with a registered
      instance: every guard extracted from those options is bound to an
      instance the outlet map holds. */
  lemma BoundToInstances(records: seq<RouteRecord>, which: HookName, instances: Instances, reverse: bool)
    requires which != EnterHook
    ensures forall g: Guard :: Some(g) in ExtractGuards(records, which, instances, reverse) ==>
      g.Bound? && g.instance in instances.Values
  {
    forall g: Guard | Some(g) in ExtractGuards(records, which, instances, reverse)
      ensures g.Bound? && g.instance in instances.Values
    {
      ExtractedAll(records, which, instances, reverse, Some(g));
    }
  }

  // ------------------------------------------------------------ queues

  /** The global hooks as queue entries. */
  function Globals(hooks: seq<FnId>): (q: seq<Option<Guard>>)
    ensures |q| == |hooks| && forall i :: 0 <= i < |hooks| ==> q[i] == Some(Global(hooks[i]))
  {
    seq(|hooks|, i requires 0 <= i < |hooks| => Some(Global(hooks[i])))
  }

  /** `activated.map(m => m.beforeEnter)`. */
  function BeforeEnters(activated: seq<RouteRecord>): (q: seq<Option<Guard>>)
    ensures |q| == |activated|
    ensures forall i :: 0 <= i < |activated| ==>
      q[i] == (if activated[i].beforeEnter.Some? then Some(RecordEnter(activated[i].beforeEnter.value)) else None)
  {
    seq(|activated|, i requires 0 <= i < |activated| =>
      if activated[i].beforeEnter.Some? then Some(RecordEnter(activated[i].beforeEnter.value)) else None)
  }

  /** The guards of the first queue before the resolver: leave guards of
      the deactivated records, `beforeEach` hooks, update guards of the
      updated records, and `beforeEnter` of the activated records. */
  function Checks(split: QueueSplit, before: seq<FnId>, instances: Instances): seq<Option<Guard>>
  {
    ExtractGuards(split.deactivated, Leave, instances, true)
      + Globals(before)
      + ExtractGuards(split.updated, Update, instances, false)
      + BeforeEnters(split.activated)
  }

  /** The first queue of `confirmTransition`: the checks, then the async
      component resolver. */
  function FirstQueue(split: QueueSplit, before: seq<FnId>, instances: Instances): seq<Option<Guard>>
  {
    Checks(split, before, instances) + [Some(Resolver)]
  }

  /** The second queue, built once the first one has run through: enter
      guards of the activated records, then `beforeResolve` hooks. */
  function SecondQueue(activated: seq<RouteRecord>, resolveHooks: seq<FnId>, instances: Instances): seq<Option<Guard>>
  {
    ExtractGuards(activated, EnterHook, instances, false) + Globals(resolveHooks)
  }

  /** The resolver comes last in the first queue and nowhere else, so the
      first queue always has a non-empty entry. */
  lemma ResolverLast(split: QueueSplit, before: seq<FnId>, instances: Instances)
    ensures var q := FirstQueue(split, before, instances);
      && q[|q| - 1] == Some(Resolver)
      && Some(Resolver) !in q[..|q| - 1]
  {
    var leave := ExtractGuards(split.deactivated, Leave, instances, true);
    var g := Globals(before);
    var update := ExtractGuards(split.updated, Update, instances, false);
    var b := BeforeEnters(split.activated);
    var c := Checks(split, before, instances);
    var q := FirstQueue(split, before, instances);
    assert q[..|q| - 1] == c;
    if Some(Resolver) in leave {
      ExtractedAll(split.deactivated, Leave, instances, true, Some(Resolver));
    }
    if Some(Resolver) in update {
      ExtractedAll(split.updated, Update, instances, false, Some(Resolver));
    }
    assert Some(Resolver) !in g;
    assert Some(Resolver) !in b;
    assert c == leave + g + update + b;
  }

  /** The order of the checks: the leave guards come first, the
      `beforeEach` hooks right after them in registration order, then the
      update guards, and the activated records' `beforeEnter` last. */
  lemma ChecksOrder(split: QueueSplit, before: seq<FnId>, instances: Instances)
    ensures var c := Checks(split, before, instances);
      var leave := ExtractGuards(split.deactivated, Leave, instances, true);
      var update := ExtractGuards(split.updated, Update, instances, false);
      var u := |leave| + |before|;
      && |c| == u + |update| + |split.activated|
      && c[..|leave|] == leave
      && c[|leave|..u] == Globals(before)
      && c[u..u + |update|] == update
      && c[u + |update|..] == BeforeEnters(split.activated)
  {
    var leave := ExtractGuards(split.deactivated, Leave, instances, true);
    var update := ExtractGuards(split.updated, Update, instances, false);
    Quarters(leave, Globals(before), update, BeforeEnters(split.activated));
  }

  /** The four parts of a concatenation are found where their lengths
      place them. */
  lemma Quarters<T>(a: seq<T>, b: seq<T>, c: seq<T>, d: seq<T>)
    ensures var x := a + b + c + d;
      && |x| == |a| + |b| + |c| + |d|
      && x[..|a|] == a
      && x[|a|..|a| + |b|] == b
      && x[|a| + |b|..|a| + |b| + |c|] == c
      && x[|a| + |b| + |c|..] == d
  {
    var x := a + b + c + d;
    assert x[..|a|] == a;
    assert x[|a|..|a| + |b|] == b;
    assert x[|a| + |b|..|a| + |b| + |c|] == c;
    assert x[|a| + |b| + |c|..] == d;
  }

  // ------------------------------------------------------- next(value)

  /** The value a guard passes to `next` (or throws): nothing, `null`, a
      boolean, an `Error`, a string, a location object (with whether its
      `path` and `name` properties are strings), a function, or any other
      value with its truthiness. */
  datatype NextValue =
    | NoValue
    | NullValue
    | BoolValue(b: bool)
    | ErrorValue(failure: Failure)
    | StringValue(s: string)
    | ObjectValue(loc: Location, pathIsString: bool, nameIsString: bool)
    | FunctionValue(fid: FnId)
    | OtherValue(truthy: bool)

  /** `isError(value)`. */
  predicate IsError(v: NextValue) {
    v.ErrorValue?
  }

  /** JavaScript truthiness of the value. */
  predicate Truthy(v: NextValue) {
    match v
    case NoValue => false
    case NullValue => false
    case BoolValue(b) => b
    case StringValue(s) => s != ""
    case OtherValue(t) => t
    case _ => true
  }

  /** What the guard's `next` callback does with a value: abort with it,
      abort and navigate elsewhere, or carry on. */
  datatype Decision = Stop(err: NextValue) | Reroute(target: RawLocation, replace: bool) | Continue

  /** The callback passed to a guard: `false` or an `Error` abort with it;
      a string, or an object whose `path` or `name` is a string, redirects
      (replacing when the object says so); anything else proceeds.  `null`
      passes the `typeof to === 'object'` test, so reading its `path`
      throws a `TypeError`, which the guard's `try` turns into an abort
      with that error. */
  function Decide(v: NextValue): Decision
  {
    match v
    case BoolValue(false) => Stop(v)
    case ErrorValue(_) => Stop(v)
    case NullValue => Stop(ErrorValue(NullAccess))
    case StringValue(s) => Reroute(RawString(s), false)
    case ObjectValue(loc, p, n) => if p || n then Reroute(RawObject(loc), loc.replace) else Continue
    case _ => Continue
  }

  /** Each reading of `next`'s value, both ways: it aborts exactly on
      `false`, on errors and on `null`, carrying the value (for `null`, the
      `TypeError`), so every abort carries `false` or an error; it
      redirects exactly on strings and on objects with a string `path` or
      `name`, replacing only for such an object with `replace` set; it
      proceeds on everything else, including `undefined`, `true` and
      functions. */
  lemma DecideCases(v: NextValue)
    ensures Decide(v).Stop? <==> v == BoolValue(false) || IsError(v) || v == NullValue
    ensures Decide(v).Stop? ==> Decide(v).err == (if v == NullValue then ErrorValue(NullAccess) else v)
    ensures Decide(v).Stop? ==> Decide(v).err == BoolValue(false) || IsError(Decide(v).err)
    ensures Decide(v).Reroute? <==> v.StringValue? || (v.ObjectValue? && (v.pathIsString || v.nameIsString))
    ensures Decide(v).Reroute? && Decide(v).replace ==> v.ObjectValue? && v.loc.replace
    ensures v.StringValue? ==> Decide(v) == Reroute(RawString(v.s), false)
    ensures v == NoValue || v == BoolValue(true) || v.FunctionValue? ==> Decide(v) == Continue
  {
  }

  // ----------------------------------------------------- normalizeBase

  /** `normalizeBase(base)` outside a browser: a missing base is `/`; a
      leading `/` is ensured and one trailing `/` removed. */
  function NormalizeBase(base: string): string
  {
    var b := if base == "" then "/" else base;
    var lead := if b[0] != '/' then "/" + b else b;
    if lead[|lead| - 1] == '/' then lead[..|lead| - 1] else lead
  }

  /** The normalised base is empty or starts with `/`; it is the base with
      a `/` put in front when missing and one trailing `/` dropped, so a
      missing base and `/` both give the empty base. */
  lemma NormalizeBaseFacts(base: string)
    ensures var r := NormalizeBase(base);
      && (r == "" || r[0] == '/')
      && (base == "" || base == "/" ==> r == "")
      && (base != "" && base[0] == '/' ==> r == base || r + "/" == base)
      && (base != "" && base[0] != '/' ==> "/" + base == r || "/" + base == r + "/")
  {
  }

  /** Examples: `app` becomes `/app`, `/app/` becomes `/app`, and `//`
      becomes `/`. */
  lemma NormalizeBaseExamples()
    ensures NormalizeBase("app") == "/app"
    ensures NormalizeBase("/app/") == "/app"
    ensures NormalizeBase("//") == "/"
  {
    assert ("/" + "app")[..4] == "/app";
  }
}

=== FILE: history.dfy ===
/** The transition engine (`src/history/base.js`) with the in-memory
    history (`src/history/abstract.js`), as a state machine.  Everything a
    guard or callback does asynchronously arrives as an event: a guard
    calling `next` or throwing is `Resumed`.  Calls the engine makes into
    user code are appended, in order, to the state's effect log. */
module History {
  import opened Wrappers
  import opened Types
  import opened RouteOps
  import opened Guards
  import View
  import opened AsyncQueue

  /** A route object together with its identity: navigations compare
      routes by object (`this.pending !== route`), so every matched route
      carries the serial number it was created under. */
  datatype Tagged = Tagged(serial: nat, route: Route)

  /** Which entry point started a transition; it decides what happens on
      completion. */
  datatype Kind = PushKind | ReplaceKind | PlainKind | GoKind(target: nat)

  /** A transition waiting on the guard at `at` of its current queue:
      the first queue until `entering`, then the second one. */
  datatype Run = Run(
    to: Tagged,
    from: Tagged,
    kind: Kind,
    onComplete: Option<FnId>,
    onAbort: Option<FnId>,
    entering: bool,
    queue: seq<Option<Guard>>,
    at: nat,
    activated: seq<RouteRecord>)

  /** A call into user code, or the engine's own `updateRoute`. */
  datatype Effect =
    | Invoked(run: nat, guard: Guard, to: nat, from: nat)
    | ErrorCb(hook: FnId, err: NextValue)
    | AbortCb(hook: FnId, err: NextValue)
    | CompleteCb(hook: FnId, route: nat)
    | Updated(route: nat, prev: nat)
    | Listened(route: nat)
    | AfterHook(hook: FnId, route: nat, prev: nat)
    | ReadyCb(hook: FnId, arg: Option<nat>)
    | ReadyErrorCb(hook: FnId, err: NextValue)
    | MatchThrew

  /** The history object: the base fields, the abstract history's stack
      and index, the transitions in flight, the router-view instances and
      resolved async components records hold, and the log. */
  datatype State = State(
    current: Tagged,
    pending: Option<nat>,
    ready: bool,
    readyCbs: seq<FnId>,
    readyErrorCbs: seq<FnId>,
    errorCbs: seq<FnId>,
    listening: bool,
    stack: seq<Tagged>,
    index: int,
    runs: map<nat, Run>,
    nextSerial: nat,
    nextRun: nat,
    instances: View.Instances,
    store: map<(nat, string), Component>,
    log: seq<Effect>)

  /** The router's hook lists. */
  datatype Hooks = Hooks(before: seq<FnId>, resolve: seq<FnId>, after: seq<FnId>)

  /** What the engine needs from the router: `router.match` (`None` when it
      throws) and the hook lists as they are at the time of the event. */
  datatype Env = Env(matcher: (RawLocation, Route) -> Option<Route>, hooks: Hooks)

  /** What a guard does with its `next` callback: call it with a value, or
      throw. */
  datatype Act = Next(v: NextValue) | Throw(v: NextValue)

  /** The calls the history reacts to. */
  datatype Event =
    | PushTo(raw: RawLocation, onComplete: Option<FnId>, onAbort: Option<FnId>)
    | ReplaceWith(raw: RawLocation, onComplete: Option<FnId>, onAbort: Option<FnId>)
    | TransitionTo(raw: RawLocation, onComplete: Option<FnId>, onAbort: Option<FnId>)
    | GoBy(n: int)
    | Resumed(run: nat, act: Act)
    | ReadyHook(cb: FnId, errorCb: Option<FnId>)
    | ErrorHook(cb: FnId)
    | Listen
    | Registered(slot: (nat, string), vm: nat, val: Option<nat>)
    | Prepatched(slot: (nat, string), instance: Option<nat>)
    | ComponentResolved(slot: (nat, string), def: Component)

  /** A freshly constructed abstract history: at `START`, nothing pending,
      not ready, an empty stack at index -1. */
  function Initial(): (s: State)
    ensures s.current.route.isStart && s.pending.None? && !s.ready && s.stack == [] && s.index == -1
    ensures s.runs == map[] && s.log == []
  {
    State(Tagged(0, Start), None, false, [], [], [], false, [], -1, map[], 1, 0, map[], map[], [])
  }

  // ------------------------------------------------------------ helpers

  /** Every error callback with the error, in registration order. */
  function ErrorCalls(hooks: seq<FnId>, err: NextValue): (r: seq<Effect>)
    ensures |r| == |hooks| && forall i :: 0 <= i < |hooks| ==> r[i] == ErrorCb(hooks[i], err)
  {
    seq(|hooks|, i requires 0 <= i < |hooks| => ErrorCb(hooks[i], err))
  }

  /** Every ready-error callback with the reason, in registration order. */
  function ReadyErrorCalls(hooks: seq<FnId>, err: NextValue): (r: seq<Effect>)
    ensures |r| == |hooks| && forall i :: 0 <= i < |hooks| ==> r[i] == ReadyErrorCb(hooks[i], err)
  {
    seq(|hooks|, i requires 0 <= i < |hooks| => ReadyErrorCb(hooks[i], err))
  }

  /** Every ready callback with its argument, in registration order. */
  function ReadyCalls(hooks: seq<FnId>, arg: Option<nat>): (r: seq<Effect>)
    ensures |r| == |hooks| && forall i :: 0 <= i < |hooks| ==> r[i] == ReadyCb(hooks[i], arg)
  {
    seq(|hooks|, i requires 0 <= i < |hooks| => ReadyCb(hooks[i], arg))
  }

  /** Every after hook with the new and the previous route, in
      registration order. */
  function AfterCalls(hooks: seq<FnId>, route: nat, prev: nat): (r: seq<Effect>)
    ensures |r| == |hooks| && forall i :: 0 <= i < |hooks| ==> r[i] == AfterHook(hooks[i], route, prev)
  {
    seq(|hooks|, i requires 0 <= i < |hooks| => AfterHook(hooks[i], route, prev))
  }

  /** `stack.slice(0, end)`: a negative end counts from the back. */
  function SliceTo<T>(s: seq<T>, end: int): (r: seq<T>)
    ensures 0 <= end <= |s| ==> r == s[..end]
    ensures end > |s| ==> r == s
    ensures end < 0 ==> r == s[..if |s| + end < 0 then 0 else |s| + end]
  {
    if end < 0 then s[..if |s| + end < 0 then 0 else |s| + end]
    else if end > |s| then s
    else s[..end]
  }

  /** A record with the async components resolved so far written into its
      outlets (`match.components[key] = resolvedDef`). */
  function Resolved(m: RouteRecord, store: map<(nat, string), Component>): (r: RouteRecord)
    ensures r.id == m.id && r.beforeEnter == m.beforeEnter
    ensures |r.components| == |m.components|
    ensures forall k :: 0 <= k < |m.components| ==> r.components[k].0 == m.components[k].0
  {
    var cs := m.components;
    var d := seq(|cs|, k requires 0 <= k < |cs| =>
      (cs[k].0, if (m.id, cs[k].0) in store then store[(m.id, cs[k].0)] else cs[k].1));
    assert forall k :: 0 <= k < |cs| ==> d[k].0 == cs[k].0;
    m.(components := d)
  }

  /** Every record with its resolved components. */
  function Overlaid(records: seq<RouteRecord>, store: map<(nat, string), Component>): (r: seq<RouteRecord>)
    ensures |r| == |records| && forall i :: 0 <= i < |records| ==> r[i] == Resolved(records[i], store)
  {
    seq(|records|, i requires 0 <= i < |records| => Resolved(records[i], store))
  }

  // ------------------------------------------------------------ the engine

  /** The calls of the `abort(err)` of `confirmTransition` followed by the
      caller's `onAbort`: error callbacks get an `Error`; `push`, `replace`
      and `transitionTo` then call the user's `onAbort` and, for a truthy
      reason before the first completion, the ready-error callbacks; `go`
      passes no `onAbort`. */
  function AbortCalls(s: State, kind: Kind, onAbort: Option<FnId>, err: NextValue): seq<Effect>
  {
    var errors := if IsError(err) then ErrorCalls(s.errorCbs, err) else [];
    var user := if !kind.GoKind? && onAbort.Some? then [AbortCb(onAbort.value, err)] else [];
    var rest := if !kind.GoKind? && Truthy(err) && !s.ready then ReadyErrorCalls(s.readyErrorCbs, err) else [];
    errors + user + rest
  }

  /** Aborting: the calls above, and a truthy reason outside `go` marks
      the history ready. */
  function Abort(s: State, kind: Kind, onAbort: Option<FnId>, err: NextValue): State
  {
    s.(ready := s.ready || (!kind.GoKind? && Truthy(err)), log := s.log + AbortCalls(s, kind, onAbort, err))
  }

  /** The calls of `updateRoute(route)`: the update itself, the listener
      when there is one, and every after hook with the route and the one
      it replaces. */
  function UpdateCalls(prev: Tagged, listening: bool, after: seq<FnId>, to: Tagged): seq<Effect>
  {
    var heard := if listening then [Listened(to.serial)] else [];
    [Updated(to.serial, prev.serial)] + heard + AfterCalls(after, to.serial, prev.serial)
  }

  /** `updateRoute(route)`: the route becomes current. */
  function UpdateRoute(s: State, after: seq<FnId>, to: Tagged): State
  {
    s.(current := to, log := s.log + UpdateCalls(s.current, s.listening, after, to))
  }

  /** The stack and index once the entry point's completion has run: `go`
      moves the index to its target, `push` cuts the stack after the index
      and appends the route, moving the index onto it, `replace` cuts the
      stack before the index and appends the route. */
  function Moved(stack: seq<Tagged>, index: int, kind: Kind, to: Tagged): (seq<Tagged>, int)
  {
    match kind
    case GoKind(t) => (stack, t)
    case PushKind => (SliceTo(stack, index + 1) + [to], index + 1)
    case ReplaceKind => (SliceTo(stack, index) + [to], index)
    case PlainKind => (stack, index)
  }

  /** The calls after `updateRoute` on completion: for all but `go`, the
      user's `onComplete` with the route, then, on the first completion,
      the ready callbacks with the route. */
  function CompleteCalls(s: State, run: Run): seq<Effect>
  {
    if run.kind.GoKind? then []
    else
      var user := if run.onComplete.Some? then [CompleteCb(run.onComplete.value, run.to.serial)] else [];
      user + (if s.ready then [] else ReadyCalls(s.readyCbs, Some(run.to.serial)))
  }

  /** The end of the second queue once the pending check has passed:
      nothing is pending any more, `updateRoute` runs, the history moves
      as the entry point says, and the completion calls follow; all but
      `go` mark the history ready. */
  function Complete(s: State, env: Env, run: Run): State
  {
    var u := UpdateRoute(s.(pending := None), env.hooks.after, run.to);
    var moved := Moved(s.stack, s.index, run.kind, run.to);
    u.(stack := moved.0, index := moved.1, ready := s.ready || !run.kind.GoKind?, log := u.log + CompleteCalls(s, run))
  }

  /** The iterator reaching the guard at `j`: a transition that is no
      longer pending aborts; otherwise the guard is called with the target
      and the route current when the transition started, and the run waits
      for it. */
  function Visit(s: State, id: nat, run: Run, j: nat): State
    requires j < |run.queue| && run.queue[j].Some?
  {
    if s.pending != Some(run.to.serial) then Abort(s, run.kind, run.onAbort, NoValue)
    else s.(runs := s.runs[id := run.(at := j)],
            log := s.log + [Invoked(id, run.queue[j].value, run.to.serial, run.from.serial)])
  }

  /** The last callback of the second queue: abort when no longer pending,
      complete otherwise. */
  function Finish(s: State, env: Env, run: Run): State
  {
    if s.pending != Some(run.to.serial) then Abort(s, run.kind, run.onAbort, NoValue)
    else Complete(s, env, run)
  }

  /** `step(i)` of the run's current queue: the next non-empty entry is
      visited; at the end of the first queue the second is built (enter
      guards of the activated records as resolved by now, then the
      `beforeResolve` hooks) and walked; at the end of the second the
      transition finishes. */
  function Walk(s: State, env: Env, id: nat, run: Run, i: nat): State
    requires i <= |run.queue|
    decreases if run.entering then 0 else 1
  {
    var j := NextEntry(run.queue, i);
    if j < |run.queue| then Visit(s, id, run, j)
    else if !run.entering then
      var second := SecondQueue(Overlaid(run.activated, s.store), env.hooks.resolve, s.instances);
      Walk(s, env, id, run.(entering := true, queue := second, at := 0), 0)
    else Finish(s, env, run)
  }

  /** `confirmTransition(route, onComplete, onAbort)`: the same route with
      as many matched records aborts at once without a reason; otherwise
      the route becomes pending and the first queue starts. */
  function Confirm(s: State, env: Env, to: Tagged, kind: Kind, onComplete: Option<FnId>, onAbort: Option<FnId>): State
  {
    var current := s.current;
    if IsSameRoute(to.route, Some(current.route)) && |to.route.matched| == |current.route.matched| then
      Abort(s, kind, onAbort, NoValue)
    else
      var split := ResolveQueue(Overlaid(current.route.matched, s.store), Overlaid(to.route.matched, s.store));
      Begin(s, env, to, kind, onComplete, onAbort, FirstQueue(split, env.hooks.before, s.instances), split.activated)
  }

  /** A transition starting on its first queue: the route becomes pending
      and the walk begins at the first entry. */
  function Begin(s: State, env: Env, to: Tagged, kind: Kind, onComplete: Option<FnId>, onAbort: Option<FnId>,
                 queue: seq<Option<Guard>>, activated: seq<RouteRecord>): State
  {
    var run := Run(to, s.current, kind, onComplete, onAbort, false, queue, 0, activated);
    Walk(s.(pending := Some(to.serial), nextRun := s.nextRun + 1), env, s.nextRun, run, 0)
  }

  /** `transitionTo(location, ...)` once `router.match` has run against
      the current route: a throwing matcher (`None`) stops here; otherwise
      the new route object is confirmed. */
  function Navigate(s: State, env: Env, kind: Kind, found: Option<Route>, onComplete: Option<FnId>, onAbort: Option<FnId>): State
  {
    match found
    case None => s.(log := s.log + [MatchThrew])
    case Some(route) =>
      Confirm(s.(nextSerial := s.nextSerial + 1), env, Tagged(s.nextSerial, route), kind, onComplete, onAbort)
  }

  /** The abstract history's `go(n)`: a target outside the stack does
      nothing; otherwise the stored route object is confirmed. */
  function GoTo(s: State, env: Env, n: int): State
  {
    var target := s.index + n;
    if target < 0 || target >= |s.stack| then s
    else Confirm(s, env, s.stack[target], GoKind(target), None, None)
  }

  /** A guard of a waiting run acting: the run stops waiting and reacts.
      A run not waiting (finished, or never started) ignores it. */
  function Resume(s: State, env: Env, id: nat, act: Act): State
  {
    if id !in s.runs then s
    else React(s.(runs := s.runs - {id}), env, id, s.runs[id], act)
  }

  /** The reaction of a run taken off the waiting list: a throw aborts
      with the thrown value; a call of `next` goes as its value decides. */
  function React(s: State, env: Env, id: nat, run: Run, act: Act): State
  {
    match act
    case Throw(v) => Abort(s, run.kind, run.onAbort, v)
    case Next(v) => Carry(s, env, id, run, Decide(v))
  }

  /** Carrying out what `next` decided: a stop aborts with the value; a
      redirect aborts without a reason and starts a `push` or `replace`
      matched against the current route; anything else moves on to the
      following entry. */
  function Carry(s: State, env: Env, id: nat, run: Run, d: Decision): State
  {
    match d
    case Stop(err) => Abort(s, run.kind, run.onAbort, err)
    case Reroute(target, replace) =>
      var a := Abort(s, run.kind, run.onAbort, NoValue);
      Navigate(a, env, if replace then ReplaceKind else PushKind, env.matcher(target, a.current.route), None, None)
    case Continue => if run.at < |run.queue| then Walk(s, env, id, run, run.at + 1) else s
  }

  /** `onReady(cb, errorCb)`: once ready, `cb` is called at once without
      a route; before, both callbacks wait for the first completion or
      failure. */
  function OnReady(s: State, cb: FnId, errorCb: Option<FnId>): State
  {
    if s.ready then s.(log := s.log + [ReadyCb(cb, None)])
    else s.(readyCbs := s.readyCbs + [cb],
            readyErrorCbs := s.readyErrorCbs + (if errorCb.Some? then [errorCb.value] else []))
  }

  /** The history's reaction to one call. */
  function Step(s: State, env: Env, e: Event): State
  {
    match e
    case PushTo(raw, c, a) => Navigate(s, env, PushKind, env.matcher(raw, s.current.route), c, a)
    case ReplaceWith(raw, c, a) => Navigate(s, env, ReplaceKind, env.matcher(raw, s.current.route), c, a)
    case TransitionTo(raw, c, a) => Navigate(s, env, PlainKind, env.matcher(raw, s.current.route), c, a)
    case GoBy(n) => GoTo(s, env, n)
    case Resumed(id, act) => Resume(s, env, id, act)
    case ReadyHook(cb, errorCb) => OnReady(s, cb, errorCb)
    case ErrorHook(cb) => s.(errorCbs := s.errorCbs + [cb])
    case Listen => s.(listening := true)
    case Registered(slot, vm, val) => s.(instances := View.RegisterInstance(s.instances, slot, vm, val))
    case Prepatched(slot, instance) => s.(instances := View.Prepatch(s.instances, slot, instance))
    case ComponentResolved(slot, def) => s.(store := s.store[slot := def])
  }

  /** The events one after the other. */
  function Replay(s: State, env: Env, events: seq<Event>): State
    decreases |events|
  {
    if |events| == 0 then s else Replay(Step(s, env, events[0]), env, events[1..])
  }

  /** `getCurrentLocation()`: the full path of the top of the stack, `/`
      when empty. */
  function CurrentLocation(s: State): string
  {
    if |s.stack| == 0 then "/" else s.stack[|s.stack| - 1].route.fullPath
  }
}

=== FILE: history_cases.dfy ===
/** The abstract history's entry points case by case: what a completed
    `push`, `replace` or `go` does to the stack and index, that a new
    transition never completes before its first guard has answered, and
    that a repeated or stale transition aborts without a reason and
    without touching the history. */
module HistoryCases {
  import opened Wrappers
  import opened Types
  import opened RouteOps
  import opened Guards
  import opened AsyncQueue
  import opened History
  import HistoryProps

  // ------------------------------------------------------------ the stack

  /** A completed `push` drops every entry after the index, puts the route
      on top and moves the index onto it. */
  lemma PushMoves(stack: seq<Tagged>, index: int, to: Tagged)
    requires -1 <= index < |stack|
    ensures var m := Moved(stack, index, PushKind, to);
      && m.0 == stack[..index + 1] + [to]
      && m.1 == index + 1
      && |m.0| == m.1 + 1 && m.0[m.1] == to
  {
  }

  /** A completed `replace` at an entry of the stack drops that entry and
      every one after it, puts the route on top and keeps the index, which
      now points at the route. */
  lemma ReplaceMoves(stack: seq<Tagged>, index: int, to: Tagged)
    requires 0 <= index < |stack|
    ensures var m := Moved(stack, index, ReplaceKind, to);
      && m.0 == stack[..index] + [to]
      && m.1 == index
      && |m.0| == index + 1 && m.0[index] == to
  {
  }

  /** `stack.slice(0, -1)`: a `replace` before the first `push` drops the
      last entry (if any) and leaves the index at -1, below the route it
      just stored. */
  lemma ReplaceBeforeFirst(stack: seq<Tagged>, to: Tagged)
    ensures var m := Moved(stack, -1, ReplaceKind, to);
      && m.0 == (if |stack| == 0 then [] else stack[..|stack| - 1]) + [to]
      && m.1 == -1
  {
  }

  /** From a fresh history, a completed `replace` stores its route with
      the index still at -1, and a completed `push` after it overwrites
      that route instead of stacking on it. */
  lemma ReplaceThenPush(a: Tagged, b: Tagged)
    ensures var m := Moved([], -1, ReplaceKind, a);
      && m == ([a], -1)
      && Moved(m.0, m.1, PushKind, b) == ([b], 0)
  {
    var none: seq<Tagged> := [];
    assert SliceTo(none, -1) == none;
    assert Moved(none, -1, ReplaceKind, a) == (none + [a], -1);
    assert none + [a] == [a];
    assert SliceTo([a], 0) == none;
    assert Moved([a], -1, PushKind, b) == (none + [b], 0);
    assert none + [b] == [b];
  }

  // ------------------------------------------------------------ completion

  /** The last callback of the second queue while the route is still
      pending completes the transition. */
  lemma Finished(s: State, env: Env, run: Run)
    requires s.pending == Some(run.to.serial)
    ensures Finish(s, env, run) == Complete(s, env, run)
  {
  }

  /** A `push` that completes: the route is current and on top of the
      stack, the forward entries are gone, the index points at the route,
      `getCurrentLocation` is its full path, nothing is pending and the
      history is ready. */
  lemma PushCompletes(s: State, env: Env, run: Run)
    requires run.kind == PushKind && s.pending == Some(run.to.serial)
    requires -1 <= s.index < |s.stack|
    ensures var r := Finish(s, env, run);
      && r.current == run.to && r.pending.None? && r.ready
      && r.stack == s.stack[..s.index + 1] + [run.to]
      && r.index == s.index + 1 && r.stack[r.index] == run.to
      && CurrentLocation(r) == run.to.route.fullPath
  {
    Finished(s, env, run);
    HistoryProps.CompleteFacts(s, env, run);
    PushMoves(s.stack, s.index, run.to);
  }

  /** A `replace` that completes at an entry of the stack: the route is
      current and takes the place of the entry at the index, every entry
      after it is gone, the index is unchanged, `getCurrentLocation` is the
      route's full path, nothing is pending and the history is ready. */
  lemma ReplaceCompletes(s: State, env: Env, run: Run)
    requires run.kind == ReplaceKind && s.pending == Some(run.to.serial)
    requires 0 <= s.index < |s.stack|
    ensures var r := Finish(s, env, run);
      && r.current == run.to && r.pending.None? && r.ready
      && r.stack == s.stack[..s.index] + [run.to]
      && r.index == s.index && r.stack[r.index] == run.to
      && CurrentLocation(r) == run.to.route.fullPath
  {
    Finished(s, env, run);
    HistoryProps.CompleteFacts(s, env, run);
    ReplaceMoves(s.stack, s.index, run.to);
  }

  /** A `go` that completes: the stack is unchanged, the index moves to
      the target, the stored route is current, readiness is unchanged, and
      the only calls are the route update, the listener and the after
      hooks. */
  lemma GoCompletes(s: State, env: Env, run: Run)
    requires run.kind.GoKind? && s.pending == Some(run.to.serial)
    ensures var r := Finish(s, env, run);
      && r.current == run.to && r.pending.None? && r.ready == s.ready
      && r.stack == s.stack && r.index == run.kind.target
      && |s.log| < |r.log| && r.log[..|s.log|] == s.log
      && r.log[|s.log|] == Updated(run.to.serial, s.current.serial)
      && forall k :: |s.log| < k < |r.log| ==> r.log[k].Listened? || r.log[k].AfterHook?
  {
    Finished(s, env, run);
    HistoryProps.CompleteFacts(s, env, run);
    GoLog(s, env, run);
    UpdateCallsShape(s.current, s.listening, env.hooks.after, run.to);
    UpdateOnly(s.log, UpdateCalls(s.current, s.listening, env.hooks.after, run.to));
  }

  /** The log of a completed `go`: the calls of `updateRoute` and nothing
      after them. */
  lemma GoLog(s: State, env: Env, run: Run)
    requires run.kind.GoKind?
    ensures Complete(s, env, run).log == s.log + UpdateCalls(s.current, s.listening, env.hooks.after, run.to)
  {
  }

  /** Past the route update, the calls of `updateRoute` are the listener
      and the after hooks. */
  lemma UpdateOnly(log: seq<Effect>, calls: seq<Effect>)
    requires |calls| > 0 && forall k :: 0 < k < |calls| ==> calls[k].Listened? || calls[k].AfterHook?
    ensures var r := log + calls;
      && |log| < |r| && r[..|log|] == log && r[|log|] == calls[0]
      && forall k :: |log| < k < |r| ==> r[k].Listened? || r[k].AfterHook?
  {
    var r := log + calls;
    assert r[..|log|] == log;
    forall k | |log| < k < |r| ensures r[k].Listened? || r[k].AfterHook? {
      assert r[k] == calls[k - |log|];
    }
  }

  /** Past the route update, `updateRoute` calls only the listener and
      the after hooks. */
  lemma UpdateCallsShape(prev: Tagged, listening: bool, after: seq<FnId>, to: Tagged)
    ensures var calls := UpdateCalls(prev, listening, after, to);
      && |calls| > 0 && calls[0] == Updated(to.serial, prev.serial)
      && forall k :: 0 < k < |calls| ==> calls[k].Listened? || calls[k].AfterHook?
  {
    var hooks := AfterCalls(after, to.serial, prev.serial);
    var head := if listening then [Updated(to.serial, prev.serial), Listened(to.serial)] else [Updated(to.serial, prev.serial)];
    var calls := UpdateCalls(prev, listening, after, to);
    assert calls == head + hooks;
    forall k | 0 < k < |calls| ensures calls[k].Listened? || calls[k].AfterHook? {
      if k >= |head| {
        assert calls[k] == hooks[k - |head|];
      }
    }
  }

  /** `transitionTo` without an entry point that completes leaves the stack
      and the index as they were. */
  lemma PlainCompletes(s: State, env: Env, run: Run)
    requires run.kind == PlainKind && s.pending == Some(run.to.serial)
    ensures var r := Finish(s, env, run);
      && r.current == run.to && r.pending.None? && r.ready
      && r.stack == s.stack && r.index == s.index
  {
    Finished(s, env, run);
    HistoryProps.CompleteFacts(s, env, run);
  }

  // ------------------------------------------------------------ onReady

  /** `onReady` on a ready history calls the callback at once, without a
      route, and registers nothing. */
  lemma ReadyNow(s: State, cb: FnId, errorCb: Option<FnId>)
    requires s.ready
    ensures OnReady(s, cb, errorCb) == s.(log := s.log + [ReadyCb(cb, None)])
  {
  }

  /** `onReady` before readiness calls nothing and queues the callback
      (and the error callback, when given) behind those already waiting. */
  lemma ReadyLater(s: State, cb: FnId, errorCb: Option<FnId>)
    requires !s.ready
    ensures var r := OnReady(s, cb, errorCb);
      && r.log == s.log
      && r.readyCbs == s.readyCbs + [cb]
      && (errorCb.None? ==> r.readyErrorCbs == s.readyErrorCbs)
      && (errorCb.Some? ==> r.readyErrorCbs == s.readyErrorCbs + [errorCb.value])
      && r == s.(readyCbs := r.readyCbs, readyErrorCbs := r.readyErrorCbs)
  {
  }

  // ------------------------------------------------------------ silent aborts

  /** The calls of an abort without a reason: only the caller's `onAbort`,
      with nothing, and only outside `go`. */
  function Silent(kind: Kind, onAbort: Option<FnId>): seq<Effect>
  {
    if !kind.GoKind? && onAbort.Some? then [AbortCb(onAbort.value, NoValue)] else []
  }

  /** `abort()` calls no error callback and no ready-error callback, does
      not reach readiness, and changes nothing but the log. */
  lemma SilentAbort(s: State, kind: Kind, onAbort: Option<FnId>)
    ensures Abort(s, kind, onAbort, NoValue) == s.(log := s.log + Silent(kind, onAbort))
  {
    assert !IsError(NoValue) && !Truthy(NoValue);
    assert AbortCalls(s, kind, onAbort, NoValue) == Silent(kind, onAbort);
  }

  /** Confirming a route equal to the current one, with as many matched
      records, aborts at once without a reason: nothing becomes pending,
      no guard runs, and only the caller's `onAbort` is called. */
  lemma SameRouteAborts(s: State, env: Env, to: Tagged, kind: Kind, onComplete: Option<FnId>, onAbort: Option<FnId>)
    requires IsSameRoute(to.route, Some(s.current.route)) && |to.route.matched| == |s.current.route.matched|
    ensures Confirm(s, env, to, kind, onComplete, onAbort) == s.(log := s.log + Silent(kind, onAbort))
  {
    SilentAbort(s, kind, onAbort);
  }

  /** A guard reached after another transition has become pending is not
      called: the run aborts without a reason and the history is left as
      it was. */
  lemma StaleVisitAborts(s: State, id: nat, run: Run, j: nat)
    requires j < |run.queue| && run.queue[j].Some? && s.pending != Some(run.to.serial)
    ensures Visit(s, id, run, j) == s.(log := s.log + Silent(run.kind, run.onAbort))
  {
    SilentAbort(s, run.kind, run.onAbort);
  }

  /** A run reaching the end of its queues after another transition has
      become pending never completes: it aborts without a reason, and
      `onComplete`, `updateRoute` and the ready callbacks are not called. */
  lemma StaleFinishAborts(s: State, env: Env, run: Run)
    requires s.pending != Some(run.to.serial)
    ensures Finish(s, env, run) == s.(log := s.log + Silent(run.kind, run.onAbort))
  {
    SilentAbort(s, run.kind, run.onAbort);
  }

  // ------------------------------------------------------------ no completion before a guard

  /** `r` is `s` with a transition to `to` started and waiting on its
      first guard: the route is pending, the current route, stack, index and
      readiness are untouched, the run is stored under the next run number,
      and the only call is that of a guard with the route and the current
      route. */
  ghost predicate WaitsOnFirst(s: State, to: Tagged, r: State) {
    && r.pending == Some(to.serial)
    && r.current == s.current && r.stack == s.stack && r.index == s.index && r.ready == s.ready
    && r.nextRun == s.nextRun + 1
    && s.nextRun in r.runs && r.runs == s.runs[s.nextRun := r.runs[s.nextRun]]
    && r.runs[s.nextRun].to == to && r.runs[s.nextRun].from == s.current && !r.runs[s.nextRun].entering
    && |r.log| == |s.log| + 1 && r.log[..|s.log|] == s.log
    && r.log[|s.log|].Invoked? && r.log[|s.log|].run == s.nextRun
    && r.log[|s.log|].to == to.serial && r.log[|s.log|].from == s.current.serial
  }

  /** A queue whose last entry is present has a first present entry. */
  lemma FirstEntry<T>(queue: seq<Option<T>>)
    requires |queue| > 0 && queue[|queue| - 1].Some?
    ensures NextEntry(queue, 0) < |queue|
  {
  }

  /** The walk calls the next present entry when there is one. */
  lemma WalkVisits(s: State, env: Env, id: nat, run: Run, i: nat)
    requires i <= |run.queue| && NextEntry(run.queue, i) < |run.queue|
    ensures Walk(s, env, id, run, i) == Visit(s, id, run, NextEntry(run.queue, i))
  {
  }

  /** A transition starting on a queue whose last entry is present waits
      on the first present entry. */
  lemma BeginWaits(s: State, env: Env, to: Tagged, kind: Kind, onComplete: Option<FnId>, onAbort: Option<FnId>,
                   queue: seq<Option<Guard>>, activated: seq<RouteRecord>)
    requires |queue| > 0 && queue[|queue| - 1].Some?
    ensures WaitsOnFirst(s, to, Begin(s, env, to, kind, onComplete, onAbort, queue, activated))
  {
    var run := Run(to, s.current, kind, onComplete, onAbort, false, queue, 0, activated);
    var s' := s.(pending := Some(to.serial), nextRun := s.nextRun + 1);
    HistoryProps.Begun(s, env, to, kind, onComplete, onAbort, queue, activated);
    FirstEntry(queue);
    WalkVisits(s', env, s.nextRun, run, 0);
  }

  /** The first queue of a transition to a route other than the current
      one. */
  lemma Confirmed(s: State, env: Env, to: Tagged, kind: Kind, onComplete: Option<FnId>, onAbort: Option<FnId>)
    requires !(IsSameRoute(to.route, Some(s.current.route)) && |to.route.matched| == |s.current.route.matched|)
    ensures var split := ResolveQueue(Overlaid(s.current.route.matched, s.store), Overlaid(to.route.matched, s.store));
      Confirm(s, env, to, kind, onComplete, onAbort) ==
        Begin(s, env, to, kind, onComplete, onAbort, FirstQueue(split, env.hooks.before, s.instances), split.activated)
  {
  }

  /** In this model a guard's answer is always a separate `Resumed` event,
      so confirming a route other than the current one ends the call at
      the first guard of the first queue (there is always one: the
      async-component resolver closes that queue), with the history
      unchanged but for the pending route, the stored run and that guard's
      call.  This is a fact about the model's granularity, not about the
      program: there a guard (the resolver too, when no component is
      asynchronous) may call `next` before returning, and an exception
      raised by what that call runs at once (a throwing match after a
      redirect, a throwing callback) reaches the guard's `try` and aborts
      a second time.  The model records the call as a later `Resumed`
      event and has no second abort. */
  lemma ConfirmWaits(s: State, env: Env, to: Tagged, kind: Kind, onComplete: Option<FnId>, onAbort: Option<FnId>)
    requires !(IsSameRoute(to.route, Some(s.current.route)) && |to.route.matched| == |s.current.route.matched|)
    ensures WaitsOnFirst(s, to, Confirm(s, env, to, kind, onComplete, onAbort))
  {
    var split := ResolveQueue(Overlaid(s.current.route.matched, s.store), Overlaid(to.route.matched, s.store));
    var queue := FirstQueue(split, env.hooks.before, s.instances);
    Confirmed(s, env, to, kind, onComplete, onAbort);
    ResolverLast(split, env.hooks.before, s.instances);
    BeginWaits(s, env, to, kind, onComplete, onAbort, queue, split.activated);
  }
}

=== FILE: history_props.dfy ===
/** Properties of the transition engine: the log only grows, readiness is
    reached once and its callbacks fire only then, the history changes only
    through `updateRoute`, and the abstract history's index always points
    into its stack. */
module HistoryProps {
  import opened Wrappers
  import opened Types
  import opened RouteOps
  import opened Guards
  import AsyncQueue
  import opened History

  // ------------------------------------------------------------ predicates

  /** `r`'s log continues `s`'s. */
  ghost predicate Extends(s: State, r: State) {
    |s.log| <= |r.log| && r.log[..|s.log|] == s.log
  }

  /** An effect that belongs to reaching readiness: a ready callback called
      with the route, or a ready-error callback. */
  predicate FiresReady(e: Effect) {
    (e.ReadyCb? && e.arg.Some?) || e.ReadyErrorCb?
  }

  /** No readiness effect from position `from` on. */
  ghost predicate Quiet(log: seq<Effect>, from: nat) {
    forall k :: from <= k < |log| ==> !FiresReady(log[k])
  }

  /** `updateRoute` ran between `s` and `r`. */
  ghost predicate UpdatedSince(s: State, r: State) {
    exists k :: |s.log| <= k < |r.log| && r.log[k].Updated?
  }

  /** What every reaction keeps: the log grows; readiness is never lost and,
      once reached, its callbacks never fire again; they fire only on the
      way to readiness; and the current route, the stack and the index
      change only through `updateRoute`. */
  ghost predicate Follows(s: State, r: State) {
    && Extends(s, r)
    && (s.ready ==> r.ready && Quiet(r.log, |s.log|))
    && (!Quiet(r.log, |s.log|) ==> r.ready)
    && (!UpdatedSince(s, r) ==> r.current == s.current && r.stack == s.stack && r.index == s.index)
  }

  /** The serials on the stack. */
  ghost function Serials(stack: seq<Tagged>): set<nat> {
    set k | 0 <= k < |stack| :: stack[k].serial
  }

  /** No route object appears twice on the stack. */
  ghost predicate Distinct(stack: seq<Tagged>) {
    forall i, j :: 0 <= i < j < |stack| ==> stack[i].serial != stack[j].serial
  }

  /** A `go` run targets the position its route object still holds, unless
      that object has left the stack. */
  ghost predicate GoOk(stack: seq<Tagged>, run: Run) {
    run.kind.GoKind? ==>
      (run.kind.target < |stack| && stack[run.kind.target].serial == run.to.serial) || run.to.serial !in Serials(stack)
  }

  /** The coherence of the history with the transitions in flight: the
      index is within the stack (or -1), stack entries are distinct and
      older than the next serial, a route pushed or replaced is not yet on
      the stack and belongs to no other run, a `go` run's target matches
      the stack, and a pending route that is not on the stack is no `go`
      run's. */
  ghost predicate Valid(s: State) {
    && -1 <= s.index < |s.stack|
    && Distinct(s.stack)
    && (forall k :: 0 <= k < |s.stack| ==> s.stack[k].serial < s.nextSerial)
    && (forall id :: id in s.runs ==> id < s.nextRun && s.runs[id].to.serial < s.nextSerial && GoOk(s.stack, s.runs[id]))
    && (forall id :: id in s.runs && !s.runs[id].kind.GoKind? ==> s.runs[id].to.serial !in Serials(s.stack))
    && (forall a, b :: a in s.runs && b in s.runs && a != b && !s.runs[a].kind.GoKind? ==>
          s.runs[a].to.serial != s.runs[b].to.serial)
    && (s.pending.Some? ==> s.pending.value < s.nextSerial)
    && (s.pending.Some? && s.pending.value !in Serials(s.stack) ==>
          forall id :: id in s.runs && s.runs[id].kind.GoKind? ==> s.runs[id].to.serial != s.pending.value)
  }

  /** Every stored run waits on a present entry of its queue. */
  ghost predicate Waiting(s: State) {
    forall id :: id in s.runs ==> s.runs[id].at < |s.runs[id].queue| && s.runs[id].queue[s.runs[id].at].Some?
  }

  /** `r` is a coherent successor of `s`. */
  ghost predicate Keeps(s: State, r: State) {
    Valid(r) && Waiting(r) && Follows(s, r)
  }

  /** `s` with `run` in flight under `id`. */
  function With(s: State, id: nat, run: Run): State {
    s.(runs := s.runs[id := run])
  }

  // ------------------------------------------------------------ composition

  /** `Follows` composes. */
  lemma FollowsTrans(a: State, b: State, c: State)
    requires Follows(a, b) && Follows(b, c)
    ensures Follows(a, c)
  {
    assert c.log[..|a.log|] == c.log[..|b.log|][..|a.log|];
    forall k | |a.log| <= k < |b.log| ensures c.log[k] == b.log[k] {
      assert c.log[..|b.log|][k] == c.log[k];
    }
    if UpdatedSince(a, b) {
      var k :| |a.log| <= k < |b.log| && b.log[k].Updated?;
      assert c.log[k].Updated?;
    }
    if UpdatedSince(b, c) {
      var k :| |b.log| <= k < |c.log| && c.log[k].Updated?;
      assert |a.log| <= k;
    }
    if !Quiet(b.log, |a.log|) {
      var k :| |a.log| <= k < |b.log| && FiresReady(b.log[k]);
      assert FiresReady(c.log[k]);
    }
    if !Quiet(c.log, |a.log|) {
      var k :| |a.log| <= k < |c.log| && FiresReady(c.log[k]);
      if k < |b.log| {
        assert FiresReady(b.log[k]);
      }
    }
  }

  /** A state that only appends entries that are neither readiness effects
      nor route updates, and keeps ready, current, stack and index,
      follows. */
  lemma AppendFollows(s: State, r: State, extra: seq<Effect>)
    requires r.log == s.log + extra
    requires forall k :: 0 <= k < |extra| ==> !FiresReady(extra[k])
    requires r.ready == s.ready && r.current == s.current && r.stack == s.stack && r.index == s.index
    ensures Follows(s, r)
  {
    assert r.log[..|s.log|] == s.log;
    forall k | |s.log| <= k < |r.log| ensures !FiresReady(r.log[k]) {
      assert r.log[k] == extra[k - |s.log|];
    }
  }

  // ------------------------------------------------------------ validity helpers

  /** Validity does not depend on where a run waits, only on its target
      and kind. */
  lemma ValidRetarget(s: State, id: nat, run: Run, run': Run)
    requires Valid(With(s, id, run))
    requires run'.to == run.to && run'.kind == run.kind
    ensures Valid(With(s, id, run'))
  {
    var a := With(s, id, run);
    var b := With(s, id, run');
    assert forall x :: x in b.runs ==> b.runs[x].to == a.runs[x].to && b.runs[x].kind == a.runs[x].kind;
  }

  /** Dropping a run keeps validity. */
  lemma ValidDrop(s: State, id: nat, run: Run)
    requires Valid(With(s, id, run)) && id !in s.runs
    ensures Valid(s)
  {
    var a := With(s, id, run);
    assert forall x :: x in s.runs ==> x in a.runs && a.runs[x] == s.runs[x];
  }

  /** Everything but the log and readiness kept: validity and waiting kept. */
  lemma ValidLogOnly(s: State, r: State)
    requires Valid(s) && Waiting(s)
    requires r == s.(ready := r.ready, log := r.log)
    ensures Valid(r) && Waiting(r)
  {
  }

  // ------------------------------------------------------------ abort

  /** The calls of an abort: the error callbacks first, with the error and
      only for an error; the user's `onAbort` only when given and not for
      `go`; readiness effects only on a truthy reason outside `go` before
      readiness; never a route update, a guard or a completion. */
  lemma AbortCallsFacts(s: State, kind: Kind, onAbort: Option<FnId>, err: NextValue)
    ensures var calls := AbortCalls(s, kind, onAbort, err);
      && (IsError(err) ==> |s.errorCbs| <= |calls| && forall i :: 0 <= i < |s.errorCbs| ==> calls[i] == ErrorCb(s.errorCbs[i], err))
      && (forall k :: 0 <= k < |calls| ==> !calls[k].Updated? && !calls[k].Invoked? && !calls[k].CompleteCb?)
      && (forall k :: 0 <= k < |calls| && FiresReady(calls[k]) ==> !s.ready && !kind.GoKind? && Truthy(err))
      && (forall k :: 0 <= k < |calls| && calls[k].ErrorCb? ==> IsError(err))
      && (forall k :: 0 <= k < |calls| && calls[k].AbortCb? ==> !kind.GoKind? && onAbort == Some(calls[k].hook) && calls[k].err == err)
  {
    var errors := if IsError(err) then ErrorCalls(s.errorCbs, err) else [];
    var user := if !kind.GoKind? && onAbort.Some? then [AbortCb(onAbort.value, err)] else [];
    var rest := if !kind.GoKind? && Truthy(err) && !s.ready then ReadyErrorCalls(s.readyErrorCbs, err) else [];
    var calls := AbortCalls(s, kind, onAbort, err);
    assert calls == errors + user + rest;
    forall k | 0 <= k < |calls|
      ensures !calls[k].Updated? && !calls[k].Invoked? && !calls[k].CompleteCb?
      ensures FiresReady(calls[k]) ==> !s.ready && !kind.GoKind? && Truthy(err)
      ensures calls[k].ErrorCb? ==> IsError(err)
      ensures calls[k].AbortCb? ==> !kind.GoKind? && onAbort == Some(calls[k].hook) && calls[k].err == err
    {
      if k < |errors| {
        assert calls[k] == errors[k];
      } else if k < |errors| + |user| {
        assert calls[k] == user[k - |errors|];
      } else {
        assert calls[k] == rest[k - |errors| - |user|];
      }
    }
  }

  /** The calls of an abort, in order: every error callback with the error
      when it is an `Error`, then the user's `onAbort` with the reason when
      given outside `go`, then, on a truthy reason outside `go` before
      readiness, every ready-error callback with the reason, in
      registration order, as the last calls; nothing else. */
  lemma AbortCallsOrder(s: State, kind: Kind, onAbort: Option<FnId>, err: NextValue)
    ensures var calls := AbortCalls(s, kind, onAbort, err);
      var e := if IsError(err) then |s.errorCbs| else 0;
      var u := if !kind.GoKind? && onAbort.Some? then 1 else 0;
      var fire := !kind.GoKind? && Truthy(err) && !s.ready;
      && |calls| == e + u + (if fire then |s.readyErrorCbs| else 0)
      && calls[..e] == (if IsError(err) then ErrorCalls(s.errorCbs, err) else [])
      && (u == 1 ==> calls[e] == AbortCb(onAbort.value, err))
      && calls[e + u..] == (if fire then ReadyErrorCalls(s.readyErrorCbs, err) else [])
  {
    var a := if IsError(err) then ErrorCalls(s.errorCbs, err) else [];
    var b := if !kind.GoKind? && onAbort.Some? then [AbortCb(onAbort.value, err)] else [];
    var c := if !kind.GoKind? && Truthy(err) && !s.ready then ReadyErrorCalls(s.readyErrorCbs, err) else [];
    Thirds(a, b, c);
  }

  /** Where the three parts of a concatenation sit. */
  lemma Thirds<T>(a: seq<T>, b: seq<T>, c: seq<T>)
    ensures var x := a + b + c;
      && |x| == |a| + |b| + |c|
      && x[..|a|] == a
      && x[|a|..|a| + |b|] == b
      && x[|a| + |b|..] == c
  {
    var x := a + b + c;
    assert x[..|a|] == a;
    assert x[|a|..|a| + |b|] == b;
    assert x[|a| + |b|..] == c;
  }

  /** An abort keeps everything but readiness and the log, follows, and
      reaches readiness exactly on a truthy reason outside `go`. */
  lemma AbortFacts(s: State, kind: Kind, onAbort: Option<FnId>, err: NextValue)
    ensures var r := Abort(s, kind, onAbort, err);
      && r == s.(ready := r.ready, log := r.log)
      && Follows(s, r)
      && (r.ready <==> s.ready || (!kind.GoKind? && Truthy(err)))
      && (forall k :: |s.log| <= k < |r.log| ==> !r.log[k].Updated? && !r.log[k].Invoked? && !r.log[k].CompleteCb?)
  {
    var r := Abort(s, kind, onAbort, err);
    var calls := AbortCalls(s, kind, onAbort, err);
    AbortCallsFacts(s, kind, onAbort, err);
    assert r.log[..|s.log|] == s.log;
    forall k | |s.log| <= k < |r.log|
      ensures r.log[k] == calls[k - |s.log|]
    {
    }
  }

  // ------------------------------------------------------------ completion

  /** The calls of `updateRoute`: the update first, then the listener when
      there is one, then every after hook with the new and the previous
      route, in registration order; no readiness effect. */
  lemma UpdateCallsFacts(prev: Tagged, listening: bool, after: seq<FnId>, to: Tagged)
    ensures var calls := UpdateCalls(prev, listening, after, to);
      var heard := if listening then 1 else 0;
      && |calls| == 1 + heard + |after|
      && calls[0] == Updated(to.serial, prev.serial)
      && (listening ==> calls[1] == Listened(to.serial))
      && (forall i :: 0 <= i < |after| ==> calls[1 + heard + i] == AfterHook(after[i], to.serial, prev.serial))
      && (forall k :: 0 <= k < |calls| ==> !FiresReady(calls[k]))
  {
    var hooks := AfterCalls(after, to.serial, prev.serial);
    var head := if listening then [Updated(to.serial, prev.serial), Listened(to.serial)] else [Updated(to.serial, prev.serial)];
    var calls := UpdateCalls(prev, listening, after, to);
    assert calls == head + hooks;
    AfterHooksQuiet(hooks);
  }

  /** After hooks are no readiness effects. */
  lemma AfterHooksQuiet(calls: seq<Effect>)
    requires forall k :: 0 <= k < |calls| ==> calls[k].AfterHook?
    ensures forall k :: 0 <= k < |calls| ==> !FiresReady(calls[k])
  {
  }

  /** The completion calls fire readiness effects only on the first
      completion, and never for `go`. */
  lemma CompleteCallsFacts(s: State, run: Run)
    ensures var calls := CompleteCalls(s, run);
      forall k :: 0 <= k < |calls| && FiresReady(calls[k]) ==> !s.ready && !run.kind.GoKind?
  {
    if !run.kind.GoKind? {
      var user := if run.onComplete.Some? then [CompleteCb(run.onComplete.value, run.to.serial)] else [];
      var ready := if s.ready then [] else ReadyCalls(s.readyCbs, Some(run.to.serial));
      var calls := CompleteCalls(s, run);
      assert calls == user + ready;
      forall k | 0 <= k < |calls| && FiresReady(calls[k]) ensures !s.ready {
        if k >= |user| {
          assert calls[k] == ready[k - |user|];
        }
      }
    }
  }

  /** On completion of all but `go`, the user's `onComplete` comes first,
      then, on the first completion only, every ready callback with the
      route, in registration order; nothing else. */
  lemma CompleteCallsOrder(s: State, run: Run)
    requires !run.kind.GoKind?
    ensures var calls := CompleteCalls(s, run);
      var u := if run.onComplete.Some? then 1 else 0;
      && |calls| == u + (if s.ready then 0 else |s.readyCbs|)
      && (u == 1 ==> calls[0] == CompleteCb(run.onComplete.value, run.to.serial))
      && calls[u..] == (if s.ready then [] else ReadyCalls(s.readyCbs, Some(run.to.serial)))
  {
    var user := if run.onComplete.Some? then [CompleteCb(run.onComplete.value, run.to.serial)] else [];
    var ready := if s.ready then [] else ReadyCalls(s.readyCbs, Some(run.to.serial));
    assert CompleteCalls(s, run) == user + ready;
    assert (user + ready)[|user|..] == ready;
  }

  /** Appending calls follows when readiness is kept, readiness effects
      come only with reaching readiness, and the history is unchanged unless
      a route update is among the calls. */
  lemma GrowFollows(s: State, r: State, calls: seq<Effect>)
    requires r.log == s.log + calls
    requires s.ready ==> r.ready
    requires forall k :: 0 <= k < |calls| && FiresReady(calls[k]) ==> !s.ready && r.ready
    requires (exists k :: 0 <= k < |calls| && calls[k].Updated?) ||
             (r.current == s.current && r.stack == s.stack && r.index == s.index)
    ensures Follows(s, r)
  {
    assert r.log[..|s.log|] == s.log;
    forall k | |s.log| <= k < |r.log| ensures r.log[k] == calls[k - |s.log|] {
    }
    if exists k :: 0 <= k < |calls| && calls[k].Updated? {
      var k :| 0 <= k < |calls| && calls[k].Updated?;
      assert r.log[|s.log| + k].Updated?;
    }
  }

  /** Completion: the route is current, nothing is pending, the runs are
      untouched, the history moved as the entry point says and `updateRoute`
      ran first; all but `go` leave the history ready. */
  lemma CompleteFacts(s: State, env: Env, run: Run)
    ensures var r := Complete(s, env, run);
      && r.current == run.to && r.pending.None? && r.runs == s.runs
      && (r.stack, r.index) == Moved(s.stack, s.index, run.kind, run.to)
      && r.ready == (s.ready || !run.kind.GoKind?)
      && r.log[|s.log|] == Updated(run.to.serial, s.current.serial)
  {
    UpdateCallsFacts(s.current, s.listening, env.hooks.after, run.to);
  }

  /** Completion follows. */
  lemma CompleteFollows(s: State, env: Env, run: Run)
    ensures Follows(s, Complete(s, env, run))
  {
    var updates := UpdateCalls(s.current, s.listening, env.hooks.after, run.to);
    var calls := CompleteCalls(s, run);
    var r := Complete(s, env, run);
    UpdateCallsFacts(s.current, s.listening, env.hooks.after, run.to);
    CompleteLog(s, run, updates, calls);
    assert r.log == s.log + (updates + calls);
    assert (updates + calls)[0].Updated?;
    GrowFollows(s, r, updates + calls);
  }

  /** The calls of a completion fire readiness effects only on the way to
      readiness, and start with the route update. */
  lemma CompleteLog(s: State, run: Run, updates: seq<Effect>, calls: seq<Effect>)
    requires |updates| > 0 && updates[0].Updated? && forall k :: 0 <= k < |updates| ==> !FiresReady(updates[k])
    requires calls == CompleteCalls(s, run)
    ensures (updates + calls)[0].Updated?
    ensures forall k :: 0 <= k < |updates + calls| && FiresReady((updates + calls)[k]) ==> !s.ready && !run.kind.GoKind?
  {
    CompleteCallsFacts(s, run);
    var all := updates + calls;
    forall k | 0 <= k < |all| && FiresReady(all[k]) ensures !s.ready && !run.kind.GoKind? {
      if k >= |updates| {
        assert all[k] == calls[k - |updates|];
      }
    }
  }

  // ------------------------------------------------------------ validity of completion

  /** Cutting the stack at `e` and appending the route of a finished
      `push` or `replace` keeps the history coherent: the route is new to
      the stack and to every other run, and a `go` run whose target is cut
      off no longer finds its route on the stack. */
  lemma CutAndAppend(s: State, id: nat, run: Run, e: nat, index: int)
    requires Valid(With(s, id, run)) && id !in s.runs && !run.kind.GoKind?
    requires e <= |s.stack| && -1 <= index <= e
    ensures Valid(s.(stack := s.stack[..e] + [run.to], index := index, pending := None))
  {
    var w := With(s, id, run);
    var stack := s.stack[..e] + [run.to];
    var r := s.(stack := stack, index := index, pending := None);
    var x := run.to.serial;
    assert id in w.runs && w.runs[id] == run;
    assert x !in Serials(s.stack);
    forall b | b in s.runs ensures s.runs[b].to.serial != x {
      assert b in w.runs && w.runs[b] == s.runs[b] && b != id;
    }
    forall k | 0 <= k < |stack| ensures stack[k].serial in Serials(s.stack) || stack[k].serial == x {
      if k < e {
        assert stack[k] == s.stack[k];
      }
    }
    forall i, j | 0 <= i < j < |stack| ensures stack[i].serial != stack[j].serial {
      assert stack[i] == s.stack[i];
      if j < e {
        assert stack[j] == s.stack[j];
      } else {
        assert s.stack[i].serial in Serials(s.stack);
      }
    }
    forall b | b in s.runs ensures GoOk(stack, s.runs[b]) {
      var rb := s.runs[b];
      assert b in w.runs && w.runs[b] == rb;
      if rb.kind.GoKind? && rb.to.serial in Serials(stack) {
        var k :| 0 <= k < |stack| && stack[k].serial == rb.to.serial;
        assert k < e && stack[k] == s.stack[k];
        var t := rb.kind.target;
        assert s.stack[k].serial in Serials(s.stack);
        assert t < |s.stack| && s.stack[t].serial == rb.to.serial;
        assert t == k;
      }
    }
    forall b | b in s.runs && !s.runs[b].kind.GoKind? ensures s.runs[b].to.serial !in Serials(stack) {
      assert b in w.runs && w.runs[b] == s.runs[b];
    }
    forall a, b | a in r.runs && b in r.runs && a != b && !r.runs[a].kind.GoKind?
      ensures r.runs[a].to.serial != r.runs[b].to.serial
    {
      assert a in w.runs && b in w.runs && w.runs[a] == s.runs[a] && w.runs[b] == s.runs[b];
    }
    forall b | b in r.runs ensures b < r.nextRun && r.runs[b].to.serial < r.nextSerial {
      assert b in w.runs && w.runs[b] == s.runs[b];
    }
    assert x < s.nextSerial;
  }

  /** Validity reads only the stack, the index, the runs, the pending
      route and the counters. */
  lemma ValidSameCore(s: State, r: State)
    requires Valid(s) && Waiting(s)
    requires r.stack == s.stack && r.index == s.index && r.runs == s.runs && r.pending == s.pending
    requires r.nextSerial == s.nextSerial && r.nextRun == s.nextRun
    ensures Valid(r) && Waiting(r)
  {
  }

  /** Moving the index within the stack and clearing the pending route
      keep validity. */
  lemma ValidMoveIndex(s: State, t: int)
    requires Valid(s) && Waiting(s) && -1 <= t < |s.stack|
    ensures Valid(s.(pending := None, index := t)) && Waiting(s.(pending := None, index := t))
  {
  }

  /** A `go` that passed the pending check targets a position inside the
      stack holding its route. */
  lemma GoTargetInStack(s: State, id: nat, run: Run)
    requires Valid(With(s, id, run)) && run.kind.GoKind?
    requires s.pending == Some(run.to.serial)
    ensures run.kind.target < |s.stack| && s.stack[run.kind.target].serial == run.to.serial
  {
    var w := With(s, id, run);
    assert id in w.runs && w.runs[id] == run;
  }

  /** A completion that passed the pending check keeps the history
      coherent; in particular a `go` lands inside the stack. */
  lemma CompleteValid(s: State, env: Env, id: nat, run: Run)
    requires Valid(With(s, id, run)) && Waiting(s) && id !in s.runs
    requires s.pending == Some(run.to.serial)
    ensures Valid(Complete(s, env, run)) && Waiting(Complete(s, env, run))
  {
    if run.kind.GoKind? {
      CompleteGoValid(s, env, id, run);
    } else if run.kind.PlainKind? {
      CompletePlainValid(s, env, id, run);
    } else {
      CompleteMovedValid(s, env, id, run);
    }
  }

  /** A completed `go` only moves the index to its target. */
  lemma CompleteGoValid(s: State, env: Env, id: nat, run: Run)
    requires Valid(With(s, id, run)) && Waiting(s) && id !in s.runs
    requires s.pending == Some(run.to.serial) && run.kind.GoKind?
    ensures Valid(Complete(s, env, run)) && Waiting(Complete(s, env, run))
  {
    CompleteFacts(s, env, run);
    ValidDrop(s, id, run);
    GoTargetInStack(s, id, run);
    ValidMoveIndex(s, run.kind.target);
    ValidSameCore(s.(pending := None, index := run.kind.target), Complete(s, env, run));
  }

  /** A completed plain transition leaves the stack alone. */
  lemma CompletePlainValid(s: State, env: Env, id: nat, run: Run)
    requires Valid(With(s, id, run)) && Waiting(s) && id !in s.runs
    requires s.pending == Some(run.to.serial) && run.kind.PlainKind?
    ensures Valid(Complete(s, env, run)) && Waiting(Complete(s, env, run))
  {
    CompleteFacts(s, env, run);
    ValidDrop(s, id, run);
    ValidMoveIndex(s, s.index);
    ValidSameCore(s.(pending := None, index := s.index), Complete(s, env, run));
  }

  /** A completed push or replace cuts the stack and appends the route. */
  lemma CompleteMovedValid(s: State, env: Env, id: nat, run: Run)
    requires Valid(With(s, id, run)) && Waiting(s) && id !in s.runs
    requires s.pending == Some(run.to.serial) && (run.kind.PushKind? || run.kind.ReplaceKind?)
    ensures Valid(Complete(s, env, run)) && Waiting(Complete(s, env, run))
  {
    CompleteFacts(s, env, run);
    ValidDrop(s, id, run);
    var m := Moved(s.stack, s.index, run.kind, run.to);
    var e := if run.kind.PushKind? then s.index + 1
             else if s.index >= 0 then s.index else if |s.stack| == 0 then 0 else |s.stack| - 1;
    assert SliceTo(s.stack, if run.kind.PushKind? then s.index + 1 else s.index) == s.stack[..e];
    CutAndAppend(s, id, run, e, m.1);
    ValidSameCore(s.(stack := s.stack[..e] + [run.to], index := m.1, pending := None), Complete(s, env, run));
  }

  // ------------------------------------------------------------ walking the queues

  /** A run in flight under `id`, about to be stored again or dropped. */
  ghost predicate InFlight(s: State, id: nat, run: Run) {
    Valid(With(s, id, run)) && Waiting(s) && id !in s.runs
  }

  /** Aborting a run in flight keeps validity and follows. */
  lemma AbortKeeps(s: State, id: nat, run: Run, err: NextValue)
    requires InFlight(s, id, run)
    ensures var r := Abort(s, run.kind, run.onAbort, err);
      Keeps(s, r)
  {
    AbortFacts(s, run.kind, run.onAbort, err);
    ValidDrop(s, id, run);
    ValidLogOnly(s, Abort(s, run.kind, run.onAbort, err));
  }

  /** Reaching a guard keeps validity and follows. */
  lemma VisitKeeps(s: State, id: nat, run: Run, j: nat)
    requires InFlight(s, id, run) && j < |run.queue| && run.queue[j].Some?
    ensures var r := Visit(s, id, run, j);
      Keeps(s, r)
  {
    var r := Visit(s, id, run, j);
    if s.pending != Some(run.to.serial) {
      AbortKeeps(s, id, run, NoValue);
    } else {
      ValidRetarget(s, id, run, run.(at := j));
      AppendFollows(s, r, [Invoked(id, run.queue[j].value, run.to.serial, run.from.serial)]);
    }
  }

  /** Finishing keeps validity and follows. */
  lemma FinishKeeps(s: State, env: Env, id: nat, run: Run)
    requires InFlight(s, id, run)
    ensures var r := Finish(s, env, run);
      Keeps(s, r)
  {
    if s.pending != Some(run.to.serial) {
      AbortKeeps(s, id, run, NoValue);
    } else {
      CompleteValid(s, env, id, run);
      CompleteFollows(s, env, run);
    }
  }

  /** A step of the queue walk keeps validity and follows. */
  lemma WalkKeeps(s: State, env: Env, id: nat, run: Run, i: nat)
    requires InFlight(s, id, run) && i <= |run.queue|
    ensures Keeps(s, Walk(s, env, id, run, i))
    decreases if run.entering then 0 else 1
  {
    var j := AsyncQueue.NextEntry(run.queue, i);
    if j < |run.queue| {
      VisitKeeps(s, id, run, j);
    } else if !run.entering {
      var second := SecondQueue(Overlaid(run.activated, s.store), env.hooks.resolve, s.instances);
      var next := run.(entering := true, queue := second, at := 0);
      ValidRetarget(s, id, run, next);
      WalkKeeps(s, env, id, next, 0);
    } else {
      FinishKeeps(s, env, id, run);
    }
  }

  // ------------------------------------------------------------ entry points

  /** A state follows itself. */
  lemma FollowsRefl(s: State)
    ensures Follows(s, s)
  {
    assert s.log[..|s.log|] == s.log;
  }

  /** The route a new transition confirms: a `go` target is the route object
      at its position of the stack; any other route is new to the stack and
      to every run. */
  ghost predicate Confirmable(s: State, to: Tagged, kind: Kind) {
    && to.serial < s.nextSerial
    && (kind.GoKind? ==> kind.target < |s.stack| && s.stack[kind.target].serial == to.serial)
    && (!kind.GoKind? ==> to.serial !in Serials(s.stack) && forall id :: id in s.runs ==> s.runs[id].to.serial != to.serial)
  }

  /** Starting a run for a confirmable route keeps validity. */
  lemma StartValid(s: State, to: Tagged, run: Run)
    requires Valid(s) && Waiting(s) && Confirmable(s, to, run.kind) && run.to == to
    ensures InFlight(s.(pending := Some(to.serial), nextRun := s.nextRun + 1), s.nextRun, run)
  {
    var s' := s.(pending := Some(to.serial), nextRun := s.nextRun + 1);
    var w := With(s', s.nextRun, run);
    assert s.nextRun !in s.runs;
    if run.kind.GoKind? {
      assert to.serial in Serials(s.stack);
    }
    forall a, b | a in w.runs && b in w.runs && a != b && !w.runs[a].kind.GoKind?
      ensures w.runs[a].to.serial != w.runs[b].to.serial
    {
      if b == s.nextRun && run.kind.GoKind? {
        assert w.runs[a] == s.runs[a];
        assert to.serial in Serials(s.stack);
      }
    }
  }

  /** `confirmTransition` keeps validity and follows. */
  lemma ConfirmKeeps(s: State, env: Env, to: Tagged, kind: Kind, onComplete: Option<FnId>, onAbort: Option<FnId>)
    requires Valid(s) && Waiting(s) && Confirmable(s, to, kind)
    ensures var r := Confirm(s, env, to, kind, onComplete, onAbort);
      Keeps(s, r)
  {
    var current := s.current;
    if IsSameRoute(to.route, Some(current.route)) && |to.route.matched| == |current.route.matched| {
      var a := Abort(s, kind, onAbort, NoValue);
      AbortFacts(s, kind, onAbort, NoValue);
      ValidLogOnly(s, a);
    } else {
      var split := ResolveQueue(Overlaid(current.route.matched, s.store), Overlaid(to.route.matched, s.store));
      BeginKeeps(s, env, to, kind, onComplete, onAbort, FirstQueue(split, env.hooks.before, s.instances), split.activated);
    }
  }

  /** Starting a transition on any queue keeps validity and follows. */
  lemma BeginKeeps(s: State, env: Env, to: Tagged, kind: Kind, onComplete: Option<FnId>, onAbort: Option<FnId>,
                   queue: seq<Option<Guard>>, activated: seq<RouteRecord>)
    requires Valid(s) && Waiting(s) && Confirmable(s, to, kind)
    ensures Keeps(s, Begin(s, env, to, kind, onComplete, onAbort, queue, activated))
  {
    var run := Run(to, s.current, kind, onComplete, onAbort, false, queue, 0, activated);
    Begun(s, env, to, kind, onComplete, onAbort, queue, activated);
    StartKept(s, env, run);
  }

  /** A transition begins by becoming pending, under the next run number,
      and walking its queue from the first entry. */
  lemma Begun(s: State, env: Env, to: Tagged, kind: Kind, onComplete: Option<FnId>, onAbort: Option<FnId>,
              queue: seq<Option<Guard>>, activated: seq<RouteRecord>)
    ensures Begin(s, env, to, kind, onComplete, onAbort, queue, activated) ==
      Walk(s.(pending := Some(to.serial), nextRun := s.nextRun + 1), env, s.nextRun,
           Run(to, s.current, kind, onComplete, onAbort, false, queue, 0, activated), 0)
  {
  }

  /** Walking a new run from its first entry, as a fact about any state. */
  lemma StartKept(s: State, env: Env, run: Run)
    ensures Valid(s) && Waiting(s) && Confirmable(s, run.to, run.kind) ==>
      Keeps(s, Walk(s.(pending := Some(run.to.serial), nextRun := s.nextRun + 1), env, s.nextRun, run, 0))
  {
    if Valid(s) && Waiting(s) && Confirmable(s, run.to, run.kind) {
      var s' := s.(pending := Some(run.to.serial), nextRun := s.nextRun + 1);
      StartValid(s, run.to, run);
      WalkKeeps(s', env, s.nextRun, run, 0);
      AppendFollows(s, s', []);
      KeepsVia(s, s', Walk(s', env, s.nextRun, run, 0));
    }
  }


  /** A successor of a successor. */
  lemma KeepsVia(s: State, m: State, r: State)
    requires Follows(s, m) && Keeps(m, r)
    ensures Keeps(s, r)
  {
    FollowsTrans(s, m, r);
  }


  /** `transitionTo` keeps validity and follows. */
  lemma NavigateKeeps(s: State, env: Env, kind: Kind, found: Option<Route>, onComplete: Option<FnId>, onAbort: Option<FnId>)
    requires Valid(s) && Waiting(s) && !kind.GoKind?
    ensures Keeps(s, Navigate(s, env, kind, found, onComplete, onAbort))
  {
    match found
    case None => ThrewKeeps(s, env, kind, onComplete, onAbort);
    case Some(route) => MatchedKeeps(s, env, kind, route, onComplete, onAbort);
  }

  /** A throwing matcher only logs the throw. */
  lemma Threw(s: State, env: Env, kind: Kind, onComplete: Option<FnId>, onAbort: Option<FnId>)
    ensures Navigate(s, env, kind, None, onComplete, onAbort) == s.(log := s.log + [MatchThrew])
  {
  }

  /** A matched location is confirmed as a new route object. */
  lemma Matched(s: State, env: Env, kind: Kind, route: Route, onComplete: Option<FnId>, onAbort: Option<FnId>)
    ensures Navigate(s, env, kind, Some(route), onComplete, onAbort) ==
      Confirm(s.(nextSerial := s.nextSerial + 1), env, Tagged(s.nextSerial, route), kind, onComplete, onAbort)
  {
  }

  /** A throwing matcher keeps validity and follows. */
  lemma ThrewKeeps(s: State, env: Env, kind: Kind, onComplete: Option<FnId>, onAbort: Option<FnId>)
    requires Valid(s) && Waiting(s)
    ensures Keeps(s, Navigate(s, env, kind, None, onComplete, onAbort))
  {
    Threw(s, env, kind, onComplete, onAbort);
    AppendFollows(s, s.(log := s.log + [MatchThrew]), [MatchThrew]);
  }

  /** Confirming a freshly matched route object keeps validity and
      follows. */
  lemma MatchedKeeps(s: State, env: Env, kind: Kind, route: Route, onComplete: Option<FnId>, onAbort: Option<FnId>)
    requires Valid(s) && Waiting(s) && !kind.GoKind?
    ensures Keeps(s, Navigate(s, env, kind, Some(route), onComplete, onAbort))
  {
    Matched(s, env, kind, route, onComplete, onAbort);
    FreshKeeps(s, env, route, kind, onComplete, onAbort);
  }

  /** Confirming a freshly matched route object keeps validity and
      follows. */
  lemma FreshKeeps(s: State, env: Env, route: Route, kind: Kind, onComplete: Option<FnId>, onAbort: Option<FnId>)
    ensures Valid(s) && Waiting(s) && !kind.GoKind? ==>
      Keeps(s, Confirm(s.(nextSerial := s.nextSerial + 1), env, Tagged(s.nextSerial, route), kind, onComplete, onAbort))
  {
    if Valid(s) && Waiting(s) && !kind.GoKind? {
      var s' := s.(nextSerial := s.nextSerial + 1);
      var to := Tagged(s.nextSerial, route);
      assert to.serial !in Serials(s.stack);
      ConfirmKeeps(s', env, to, kind, onComplete, onAbort);
      FollowsRefl(s);
      assert Follows(s, s');
      FollowsTrans(s, s', Confirm(s', env, to, kind, onComplete, onAbort));
    }
  }

  /** `go(n)` keeps validity and follows. */
  lemma GoToKeeps(s: State, env: Env, n: int)
    requires Valid(s) && Waiting(s)
    ensures Keeps(s, GoTo(s, env, n))
  {
    if s.index + n < 0 || s.index + n >= |s.stack| {
      GoOutOfRange(s, env, n);
      FollowsRefl(s);
    } else {
      var t: nat := s.index + n;
      var c := Confirm(s, env, s.stack[t], GoKind(t), None, None);
      StoredKeeps(s, env, t);
      GoInRange(s, env, n);
      assert Keeps(s, c);
    }
  }

  /** `go(n)` to a position outside the stack changes nothing. */
  lemma GoOutOfRange(s: State, env: Env, n: int)
    requires s.index + n < 0 || s.index + n >= |s.stack|
    ensures GoTo(s, env, n) == s
  {
  }

  /** `go(n)` to a position of the stack confirms the route object stored
      there, as a `go` to that position. */
  lemma GoInRange(s: State, env: Env, n: int)
    requires 0 <= s.index + n < |s.stack|
    ensures GoTo(s, env, n) == Confirm(s, env, s.stack[s.index + n], GoKind(s.index + n), None, None)
  {
  }

  /** Confirming the route object stored at a position of the stack keeps
      validity and follows. */
  lemma StoredKeeps(s: State, env: Env, target: nat)
    ensures Valid(s) && Waiting(s) && target < |s.stack| ==>
      Keeps(s, Confirm(s, env, s.stack[target], GoKind(target), None, None))
  {
    if Valid(s) && Waiting(s) && target < |s.stack| {
      ConfirmKeeps(s, env, s.stack[target], GoKind(target), None, None);
    }
  }

  /** A guard acting keeps validity and follows. */
  lemma ResumeKeeps(s: State, env: Env, id: nat, act: Act)
    requires Valid(s) && Waiting(s)
    ensures Keeps(s, Resume(s, env, id, act))
  {
    if id in s.runs {
      TakingKeeps(s, env, id, act);
    } else {
      Ignored(s, env, id, act);
      FollowsRefl(s);
    }
  }

  /** A run that is not waiting (finished, aborted, or never started)
      ignores its guard's `next`: nothing changes. */
  lemma Ignored(s: State, env: Env, id: nat, act: Act)
    requires id !in s.runs
    ensures Resume(s, env, id, act) == s
  {
  }

  /** A waiting run is taken off the waiting list and reacts. */
  lemma Taking(s: State, env: Env, id: nat, act: Act)
    requires id in s.runs
    ensures Resume(s, env, id, act) == React(s.(runs := s.runs - {id}), env, id, s.runs[id], act)
  {
  }

  /** A waiting run acting keeps validity and follows. */
  lemma TakingKeeps(s: State, env: Env, id: nat, act: Act)
    requires Valid(s) && Waiting(s) && id in s.runs
    ensures Keeps(s, Resume(s, env, id, act))
  {
    Taking(s, env, id, act);
    TakenReacts(s, env, id, act);
  }

  /** The reaction of a run taken off a valid history keeps validity and
      follows. */
  lemma TakenReacts(s: State, env: Env, id: nat, act: Act)
    ensures Valid(s) && Waiting(s) && id in s.runs ==>
      Keeps(s, React(s.(runs := s.runs - {id}), env, id, s.runs[id], act))
  {
    if Valid(s) && Waiting(s) && id in s.runs {
      var s1 := s.(runs := s.runs - {id});
      Taken(s, id);
      ReactKeeps(s1, env, id, s.runs[id], act);
      KeepsVia(s, s1, React(s1, env, id, s.runs[id], act));
    }
  }

  /** Taking a run off the waiting list leaves it in flight. */
  lemma Taken(s: State, id: nat)
    requires Valid(s) && Waiting(s) && id in s.runs
    ensures var s1 := s.(runs := s.runs - {id});
      InFlight(s1, id, s.runs[id]) && Follows(s, s1)
  {
    var s1 := s.(runs := s.runs - {id});
    assert With(s1, id, s.runs[id]) == s;
    FollowsRefl(s);
  }

  /** A guard that throws aborts its transition with the thrown value. */
  lemma Thrown(s: State, env: Env, id: nat, run: Run, v: NextValue)
    ensures React(s, env, id, run, Throw(v)) == Abort(s, run.kind, run.onAbort, v)
  {
  }

  /** A guard calling `next(v)` has the transition do what `v` decides. */
  lemma Called(s: State, env: Env, id: nat, run: Run, v: NextValue)
    ensures React(s, env, id, run, Next(v)) == Carry(s, env, id, run, Decide(v))
  {
  }

  /** The reaction of a run taken off the waiting list keeps validity and
      follows. */
  lemma ReactKeeps(s: State, env: Env, id: nat, run: Run, act: Act)
    requires InFlight(s, id, run)
    ensures Keeps(s, React(s, env, id, run, act))
  {
    match act
    case Throw(v) =>
      Thrown(s, env, id, run, v);
      AbortKept(s, id, run, v);
    case Next(v) =>
      Called(s, env, id, run, v);
      CarryKept(s, env, id, run, Decide(v));
  }

  /** Aborting, as a fact about any state. */
  lemma AbortKept(s: State, id: nat, run: Run, err: NextValue)
    ensures InFlight(s, id, run) ==> Keeps(s, Abort(s, run.kind, run.onAbort, err))
  {
    if InFlight(s, id, run) {
      AbortKeeps(s, id, run, err);
    }
  }

  /** Carrying out a decision, as a fact about any state. */
  lemma CarryKept(s: State, env: Env, id: nat, run: Run, d: Decision)
    ensures InFlight(s, id, run) ==> Keeps(s, Carry(s, env, id, run, d))
  {
    if InFlight(s, id, run) {
      CarryKeeps(s, env, id, run, d);
    }
  }

  /** `next(false)` or `next(error)` aborts with the value. */
  lemma Stopped(s: State, env: Env, id: nat, run: Run, err: NextValue)
    ensures Carry(s, env, id, run, Stop(err)) == Abort(s, run.kind, run.onAbort, err)
  {
  }

  /** A redirect aborts the transition without a reason and starts a new
      one, matched against the route still current. */
  lemma Rerouted(s: State, env: Env, id: nat, run: Run, target: RawLocation, replace: bool)
    ensures var a := Abort(s, run.kind, run.onAbort, NoValue);
      Carry(s, env, id, run, Reroute(target, replace)) ==
      Navigate(a, env, if replace then ReplaceKind else PushKind, env.matcher(target, a.current.route), None, None)
  {
  }

  /** Anything else moves on from the guard the run waits on. */
  lemma Continued(s: State, env: Env, id: nat, run: Run)
    requires run.at < |run.queue|
    ensures Carry(s, env, id, run, Continue) == Walk(s, env, id, run, run.at + 1)
  {
  }

  /** Carrying out a decision keeps validity and follows. */
  lemma CarryKeeps(s: State, env: Env, id: nat, run: Run, d: Decision)
    requires InFlight(s, id, run)
    ensures Keeps(s, Carry(s, env, id, run, d))
  {
    match d
    case Stop(err) =>
      Stopped(s, env, id, run, err);
      AbortKept(s, id, run, err);
    case Reroute(target, replace) =>
      Rerouted(s, env, id, run, target, replace);
      RerouteKept(s, env, id, run, replace, target);
    case Continue =>
      ContinueKeeps(s, env, id, run);
  }

  /** Moving on keeps validity and follows. */
  lemma ContinueKeeps(s: State, env: Env, id: nat, run: Run)
    requires InFlight(s, id, run)
    ensures Keeps(s, Carry(s, env, id, run, Continue))
  {
    if run.at < |run.queue| {
      ContinueWalks(s, env, id, run);
    } else {
      ContinueAtEnd(s, env, id, run);
    }
  }

  /** A guard that lets a run go on walks the rest of its queue. */
  lemma ContinueWalks(s: State, env: Env, id: nat, run: Run)
    requires InFlight(s, id, run) && run.at < |run.queue|
    ensures Keeps(s, Carry(s, env, id, run, Continue))
  {
    WalkKept(s, env, id, run, run.at + 1);
    Continued(s, env, id, run);
  }

  /** Past the end of its queue, going on leaves the history as it is. */
  lemma ContinueAtEnd(s: State, env: Env, id: nat, run: Run)
    requires InFlight(s, id, run) && run.at >= |run.queue|
    ensures Keeps(s, Carry(s, env, id, run, Continue))
  {
    ValidDrop(s, id, run);
    FollowsRefl(s);
  }

  /** Walking on, as a fact about any state. */
  lemma WalkKept(s: State, env: Env, id: nat, run: Run, i: nat)
    requires i <= |run.queue|
    ensures InFlight(s, id, run) ==> Keeps(s, Walk(s, env, id, run, i))
  {
    if InFlight(s, id, run) {
      WalkKeeps(s, env, id, run, i);
    }
  }

  /** A redirect out of a guard keeps validity and follows. */
  lemma RerouteKept(s: State, env: Env, id: nat, run: Run, replace: bool, target: RawLocation)
    ensures var a := Abort(s, run.kind, run.onAbort, NoValue);
      InFlight(s, id, run) ==>
      Keeps(s, Navigate(a, env, if replace then ReplaceKind else PushKind, env.matcher(target, a.current.route), None, None))
  {
    if InFlight(s, id, run) {
      var a := Abort(s, run.kind, run.onAbort, NoValue);
      var kind := if replace then ReplaceKind else PushKind;
      AbortKeeps(s, id, run, NoValue);
      NavigateKeeps(a, env, kind, env.matcher(target, a.current.route), None, None);
      KeepsVia(s, a, Navigate(a, env, kind, env.matcher(target, a.current.route), None, None));
    }
  }

  /** Every reaction keeps validity and follows. */
  lemma StepKeeps(s: State, env: Env, e: Event)
    requires Valid(s) && Waiting(s)
    ensures var r := Step(s, env, e);
      Keeps(s, r)
  {
    if e.PushTo? || e.ReplaceWith? || e.TransitionTo? {
      StepNavigateKeeps(s, env, e);
    } else if e.GoBy? || e.Resumed? {
      StepMovesKeeps(s, env, e);
    } else {
      StepHookKeeps(s, env, e);
    }
  }

  /** A `push`, `replace` or `transitionTo` keeps validity and follows. */
  lemma StepNavigateKeeps(s: State, env: Env, e: Event)
    requires Valid(s) && Waiting(s) && (e.PushTo? || e.ReplaceWith? || e.TransitionTo?)
    ensures Keeps(s, Step(s, env, e))
  {
    var kind := if e.PushTo? then PushKind else if e.ReplaceWith? then ReplaceKind else PlainKind;
    NavigateKeeps(s, env, kind, env.matcher(e.raw, s.current.route), e.onComplete, e.onAbort);
  }

  /** A `go`, or a guard acting, keeps validity and follows. */
  lemma StepMovesKeeps(s: State, env: Env, e: Event)
    requires Valid(s) && Waiting(s) && (e.GoBy? || e.Resumed?)
    ensures Keeps(s, Step(s, env, e))
  {
    if e.GoBy? {
      GoToKeeps(s, env, e.n);
    } else {
      ResumeKeeps(s, env, e.run, e.act);
    }
  }

  /** Registering a callback, listening, and the view's bookkeeping only
      append to the log, at most a `ready` callback. */
  lemma StepHookKeeps(s: State, env: Env, e: Event)
    requires Valid(s) && Waiting(s)
    requires !(e.PushTo? || e.ReplaceWith? || e.TransitionTo? || e.GoBy? || e.Resumed?)
    ensures Keeps(s, Step(s, env, e))
  {
    if e.ReadyHook? && s.ready {
      AppendFollows(s, Step(s, env, e), [ReadyCb(e.cb, None)]);
    } else {
      AppendFollows(s, Step(s, env, e), []);
    }
  }


  /** The fresh history is valid. */
  lemma InitialValid()
    ensures Valid(Initial()) && Waiting(Initial())
  {
  }

  /** Any sequence of calls keeps validity and follows. */
  lemma {:induction false} ReplayKeeps(s: State, env: Env, events: seq<Event>)
    requires Valid(s) && Waiting(s)
    ensures var r := Replay(s, env, events);
      Keeps(s, r)
    decreases |events|
  {
    if |events| == 0 {
      FollowsRefl(s);
    } else {
      var m := Step(s, env, events[0]);
      StepKeeps(s, env, events[0]);
      ReplayKeeps(m, env, events[1..]);
      FollowsTrans(s, m, Replay(m, env, events[1..]));
    }
  }

  /** Whatever the calls, the abstract history's index stays within its
      stack (or at -1 before the first entry). */
  lemma IndexInStack(env: Env, events: seq<Event>)
    ensures var r := Replay(Initial(), env, events);
      -1 <= r.index < |r.stack|
  {
    InitialValid();
    ReplayKeeps(Initial(), env, events);
  }

  /** Readiness is reached at most once: from a ready state no further
      call fires a ready or ready-error callback, and readiness is never
      lost. */
  lemma ReadyOnce(s: State, env: Env, events: seq<Event>)
    requires Valid(s) && Waiting(s) && s.ready
    ensures var r := Replay(s, env, events);
      r.ready && forall k :: |s.log| <= k < |r.log| ==> !FiresReady(r.log[k])
  {
    ReplayKeeps(s, env, events);
  }
}

=== FILE: location.dfy ===
/** The location normaliser (`src/util/location.js`): a raw target (a
    string or a location object) becomes a location the matcher can use,
    resolved against the current route. */
module LocationOps {
  import opened Wrappers
  import opened Strings
  import opened Dict
  import opened Query
  import opened Types
  import Path

  /** `typeof raw === 'string' ? { path: raw } : raw`. */
  function AsLocation(raw: RawLocation): (l: Location)
    ensures raw.RawString? ==> l == PathLocation(raw.s)
    ensures raw.RawObject? ==> l == raw.loc
  {
    match raw
    case RawString(s) => PathLocation(s)
    case RawObject(loc) => loc
  }

  /** A location the normaliser hands back unchanged: it has a name or is
      marked normalised. */
  predicate Final(l: Location) {
    l.name != "" || l.normalized
  }

  /** The relative-params branch: the target has params but no path, and
      there is a current route.  The merged params are the current ones
      with the target's written over them; a named current route passes its
      name on, otherwise the deepest matched record's path is filled. */
  function RelativeParams(e: PatternEngine, next: Location, current: Route): (r: Location)
    requires next.params.Some?
    ensures r.normalized
    ensures var merged := Assign(Assign([], current.params), next.params.value);
      && (forall k :: Get(merged, k) == if Has(next.params.value, k) then Get(next.params.value, k) else Get(current.params, k))
      && (current.name != "" ==> r == next.(normalized := true, name := current.name, params := Some(merged)))
      && (current.name == "" && |current.matched| > 0 ==>
            r == next.(normalized := true, path := FillParams(e, current.matched[|current.matched| - 1].path, merged)))
      && (current.name == "" && |current.matched| == 0 ==> r == next.(normalized := true))
  {
    var merged := Assign(Assign([], current.params), next.params.value);
    var marked := next.(normalized := true);
    if current.name != "" then marked.(name := current.name, params := Some(merged))
    else if |current.matched| > 0 then
      marked.(path := FillParams(e, current.matched[|current.matched| - 1].path, merged))
    else marked
  }

  /** The path the path branch resolves to: the parsed path against the
      current route's path (or `/`), or that base itself when the parsed
      path is empty. */
  function BasePath(current: Option<Route>): (b: string)
    ensures b != ""
    ensures current.Some? && current.value.path != "" ==> b == current.value.path
    ensures !(current.Some? && current.value.path != "") ==> b == "/"
  {
    if current.Some? && current.value.path != "" then current.value.path else "/"
  }

  /** The hash of the path branch: the explicit one, else the parsed one,
      with a `#` put in front when missing. */
  function ResolveHash(explicit: string, parsed: string): (h: string)
    ensures h == "" || h[0] == '#'
    ensures h == "" <==> explicit == "" && parsed == ""
    ensures explicit != "" && explicit[0] == '#' ==> h == explicit
    ensures explicit != "" && explicit[0] != '#' ==> h == "#" + explicit
    ensures explicit == "" && parsed != "" && parsed[0] == '#' ==> h == parsed
  {
    var h := if explicit != "" then explicit else parsed;
    if h != "" && h[0] != '#' then "#" + h else h
  }

  /** The path branch: `{ _normalized: true, path, query, hash }`, nothing
      else carried over. */
  function PathBranch(c: Codec, next: Location, current: Option<Route>, append: bool): (r: Location)
    ensures r.normalized && r.name == "" && r.params.None? && !r.append && !r.replace
    ensures var parsed := Path.ParsePath(next.path);
      && (parsed.path == "" ==> r.path == BasePath(current))
      && (parsed.path != "" ==> r.path == Path.ResolvePath(parsed.path, BasePath(current), append || next.append))
      && r.hash == ResolveHash(next.hash, parsed.hash)
      && r.query == Overlay(ParseQuery(c, parsed.query), next.query)
  {
    var parsed := Path.ParsePath(next.path);
    var base := BasePath(current);
    var path := if parsed.path != "" then Path.ResolvePath(parsed.path, base, append || next.append) else base;
    var query := ResolveQuery(c, parsed.query, next.query);
    Location("", path, ResolveHash(next.hash, parsed.hash), query, None, false, false, true)
  }

  /** `normalizeLocation(raw, current, append)`. */
  function NormalizeLocation(c: Codec, e: PatternEngine, raw: RawLocation, current: Option<Route>, append: bool): (r: Location)
    ensures Final(r)
    ensures Final(AsLocation(raw)) ==> r == AsLocation(raw)
    ensures var next := AsLocation(raw);
      !Final(next) && next.path == "" && next.params.Some? && current.Some? ==>
        r == RelativeParams(e, next, current.value)
    ensures var next := AsLocation(raw);
      !Final(next) && !(next.path == "" && next.params.Some? && current.Some?) ==>
        r == PathBranch(c, next, current, append)
  {
    var next := AsLocation(raw);
    if Final(next) then next
    else if next.path == "" && next.params.Some? && current.Some? then RelativeParams(e, next, current.value)
    else PathBranch(c, next, current, append)
  }

  /** Normalising is idempotent: a normalised location comes back unchanged
      whatever the current route and the append flag. */
  lemma NormalizeIdempotent(c: Codec, e: PatternEngine, raw: RawLocation, current: Option<Route>, append: bool,
                            current2: Option<Route>, append2: bool)
    ensures var once := NormalizeLocation(c, e, raw, current, append);
      NormalizeLocation(c, e, RawObject(once), current2, append2) == once
  {
  }

  /** A string target is normalised by the path branch: its path, query and
      hash come from parsing the string. */
  lemma StringTarget(c: Codec, e: PatternEngine, s: string, current: Option<Route>, append: bool)
    ensures NormalizeLocation(c, e, RawString(s), current, append) == PathBranch(c, PathLocation(s), current, append)
  {
  }

  /** An absolute string target without query or hash normalises to itself
      with an empty query and hash, whatever the current route. */
  lemma AbsolutePathTarget(c: Codec, e: PatternEngine, s: string, current: Option<Route>, append: bool)
    requires |s| > 0 && s[0] == '/' && NoChar(s, '?') && NoChar(s, '#')
    ensures var r := NormalizeLocation(c, e, RawString(s), current, append);
      r.path == s && r.hash == "" && r.query == [] && r.normalized
  {
    Path.ParsePathOfParts(s, "", "", false);
    assert s + "" == s;
    var r := NormalizeLocation(c, e, RawString(s), current, append);
    assert StripLead(Trim("")) == "";
    assert r.query == Assign([], []);
  }
}

=== FILE: matcher.dfy ===
/** The matcher (`src/create-matcher.js`): a raw target resolved against the
    route map to a route, following the redirects and aliases of the
    records it lands on. */
module Matcher {
  import opened Wrappers
  import opened Dict
  import opened Query
  import opened Types
  import opened RouteOps
  import opened LocationOps
  import RouteMap
  import Path

  /** What the matcher calls into: the URI codec, the pattern library and
      the user functions behind dynamic redirects. */
  datatype Env = Env(c: Codec, e: PatternEngine, redirectFn: (FnId, Route) -> RedirectTarget)

  // ------------------------------------------------------------ matchRoute

  /** The value a capture stores: a string capture decoded (`None` when the
      decoder throws), an unmatched group `undefined`. */
  function CaptureValue(c: Codec, cap: Option<string>): (v: Option<Scalar>)
  {
    match cap
    case None => Some(Undef)
    case Some(s) => if c.decode(s).Some? then Some(Str(c.decode(s).value)) else None
  }

  /** How many captures are stored under a key: those with a key at the
      same index. */
  function Bound(keys: seq<ParamKey>, caps: seq<Option<string>>): (n: nat)
    ensures n <= |keys| && n <= |caps|
    ensures n == |keys| || n == |caps|
  {
    if |keys| < |caps| then |keys| else |caps|
  }

  /** Capture `i` is the last stored one under its key name. */
  predicate LastKey(keys: seq<ParamKey>, n: nat, i: nat)
    requires i < n <= |keys|
  {
    forall j :: i < j < n ==> keys[j].name != keys[i].name
  }

  /** The loop of `matchRoute` from capture `j` on: each capture decoded in
      turn, stored under the key at its index when there is one. */
  function StoreCaptures(c: Codec, keys: seq<ParamKey>, caps: seq<Option<string>>, j: nat, params: Params): Option<Params>
    requires j <= |caps|
    decreases |caps| - j
  {
    if j == |caps| then Some(params)
    else match CaptureValue(c, caps[j])
      case None => None
      case Some(v) => StoreCaptures(c, keys, caps, j + 1, if j < |keys| then Put(params, keys[j].name, v) else params)
  }

  /** A capture that decodes hands the loop on to the next one, with some
      params object. */
  lemma StoreStep(c: Codec, keys: seq<ParamKey>, caps: seq<Option<string>>, j: nat, params: Params)
      returns (next: Params)
    requires j < |caps| && CaptureValue(c, caps[j]).Some?
    ensures StoreCaptures(c, keys, caps, j, params) == StoreCaptures(c, keys, caps, j + 1, next)
  {
    next := if j < |keys| then Put(params, keys[j].name, CaptureValue(c, caps[j]).value) else params;
  }

  /** Some capture from `j` on fails to decode. */
  ghost predicate Undecodable(c: Codec, caps: seq<Option<string>>, j: nat) {
    exists i :: j <= i < |caps| && CaptureValue(c, caps[i]).None?
  }

  /** A capture that decodes leaves the question to the later ones. */
  lemma UndecodableLater(c: Codec, caps: seq<Option<string>>, j: nat)
    requires j < |caps| && CaptureValue(c, caps[j]).Some?
    ensures Undecodable(c, caps, j) <==> Undecodable(c, caps, j + 1)
  {
    if Undecodable(c, caps, j) {
      var i :| j <= i < |caps| && CaptureValue(c, caps[i]).None?;
      assert j + 1 <= i;
    }
  }

  /** The loop fails exactly when some capture fails to decode. */
  lemma {:induction false} StoreFails(c: Codec, keys: seq<ParamKey>, caps: seq<Option<string>>, j: nat, params: Params)
    requires j <= |caps|
    ensures StoreCaptures(c, keys, caps, j, params).None? ==> exists i :: j <= i < |caps| && CaptureValue(c, caps[i]).None?
    ensures (exists i :: j <= i < |caps| && CaptureValue(c, caps[i]).None?) ==> StoreCaptures(c, keys, caps, j, params).None?
    decreases |caps| - j
  {
    if j < |caps| {
      if CaptureValue(c, caps[j]).Some? {
        var next := StoreStep(c, keys, caps, j, params);
        StoreFails(c, keys, caps, j + 1, next);
        UndecodableLater(c, caps, j);
      } else {
        assert StoreCaptures(c, keys, caps, j, params).None?;
        assert j <= j < |caps| && CaptureValue(c, caps[j]).None?;
      }
    }
  }

  /** A name no stored capture is keyed by keeps its value. */
  lemma {:induction false} StoreKeeps(c: Codec, keys: seq<ParamKey>, caps: seq<Option<string>>, j: nat, params: Params, k: string)
    requires j <= |caps|
    requires forall i :: j <= i < Bound(keys, caps) ==> keys[i].name != k
    ensures var r := StoreCaptures(c, keys, caps, j, params); r.Some? ==> Get(r.value, k) == Get(params, k)
    decreases |caps| - j
  {
    if j < |caps| && CaptureValue(c, caps[j]).Some? {
      StoreKeeps(c, keys, caps, j + 1, if j < |keys| then Put(params, keys[j].name, CaptureValue(c, caps[j]).value) else params, k);
    }
  }

  /** A key name holds the value of the last capture stored under it. */
  lemma {:induction false} StoreLast(c: Codec, keys: seq<ParamKey>, caps: seq<Option<string>>, j: nat, params: Params, i: nat)
    requires j <= i < Bound(keys, caps) && LastKey(keys, Bound(keys, caps), i)
    ensures var r := StoreCaptures(c, keys, caps, j, params); r.Some? ==> Get(r.value, keys[i].name) == CaptureValue(c, caps[i])
    decreases |caps| - j
  {
    if CaptureValue(c, caps[j]).Some? {
      var next := Put(params, keys[j].name, CaptureValue(c, caps[j]).value);
      if j < i {
        StoreLast(c, keys, caps, j + 1, next, i);
      } else {
        StoreKeeps(c, keys, caps, j + 1, next, keys[i].name);
      }
    }
  }

  /** The result of `matchRoute` on a fresh params object. */
  datatype RouteMatch = NoMatch | Matched(params: Params) | DecodeError

  /** `matchRoute(regex, path, params)`: no match, the params with the
      captures stored, or the decoder's exception. */
  function MatchRoute(c: Codec, e: PatternEngine, regex: Pattern, path: string, params: Params): RouteMatch
  {
    match e.exec(regex, path)
    case None => NoMatch
    case Some(caps) =>
      match StoreCaptures(c, e.keys(regex), caps, 0, params)
      case None => DecodeError
      case Some(p) => Matched(p)
  }

  /** A path matches exactly when the pattern does; the match throws
      exactly when some capture fails to decode; otherwise every key name
      holds its last capture, decoded, and every other name keeps its
      value. */
  lemma MatchRouteFacts(c: Codec, e: PatternEngine, regex: Pattern, path: string, params: Params)
    ensures var r := MatchRoute(c, e, regex, path, params);
      r.NoMatch? <==> e.exec(regex, path).None?
    ensures var r := MatchRoute(c, e, regex, path, params); var caps := e.exec(regex, path);
      r.DecodeError? <==> caps.Some? && exists i :: 0 <= i < |caps.value| && CaptureValue(c, caps.value[i]).None?
    ensures var r := MatchRoute(c, e, regex, path, params);
      r.Matched? ==> var caps := e.exec(regex, path).value; var keys := e.keys(regex);
      && (forall k :: (forall i :: 0 <= i < Bound(keys, caps) ==> keys[i].name != k) ==> Get(r.params, k) == Get(params, k))
      && (forall i :: 0 <= i < Bound(keys, caps) && LastKey(keys, Bound(keys, caps), i) ==>
            Get(r.params, keys[i].name) == CaptureValue(c, caps[i]))
  {
    if e.exec(regex, path).Some? {
      var caps := e.exec(regex, path).value;
      var keys := e.keys(regex);
      StoreFails(c, keys, caps, 0, params);
      forall k | forall i :: 0 <= i < Bound(keys, caps) ==> keys[i].name != k {
        StoreKeeps(c, keys, caps, 0, params, k);
      }
      forall i | 0 <= i < Bound(keys, caps) && LastKey(keys, Bound(keys, caps), i) {
        StoreLast(c, keys, caps, 0, params, i);
      }
    }
  }

  // ------------------------------------------------------------- path scan

  /** The outcome of the scan over the path list. */
  datatype Scan = NotFound | Found(index: nat, record: RouteRecord, params: Params) | ScanThrew

  /** Entry `j` of the path list has a record whose pattern does not match. */
  predicate Misses(env: Env, m: RouteMap.RouteMap, path: string, j: nat)
    requires j < |m.pathList|
  {
    m.pathList[j] in m.pathMap && MatchRoute(env.c, env.e, m.pathMap[m.pathList[j]].regex, path, []).NoMatch?
  }

  /** Entry `j` of the path list throws: it has no record, or its match
      fails to decode. */
  predicate Throws(env: Env, m: RouteMap.RouteMap, path: string, j: nat)
    requires j < |m.pathList|
  {
    m.pathList[j] !in m.pathMap || MatchRoute(env.c, env.e, m.pathMap[m.pathList[j]].regex, path, []).DecodeError?
  }

  /** The loop of the path branch from entry `i` on: the first entry whose
      pattern matches wins. */
  function FirstMatch(env: Env, m: RouteMap.RouteMap, path: string, i: nat): Scan
    decreases |m.pathList| - i
  {
    if i >= |m.pathList| then NotFound
    else if m.pathList[i] !in m.pathMap then ScanThrew
    else match MatchRoute(env.c, env.e, m.pathMap[m.pathList[i]].regex, path, [])
      case NoMatch => FirstMatch(env, m, path, i + 1)
      case DecodeError => ScanThrew
      case Matched(p) => Found(i, m.pathMap[m.pathList[i]], p)
  }

  /** The scan finds the first entry that matches, after entries that all
      miss; it finds nothing only when every entry misses; it throws only
      at an entry that throws, after entries that all miss. */
  lemma {:induction false} FirstMatchFacts(env: Env, m: RouteMap.RouteMap, path: string, i: nat)
    ensures var r := FirstMatch(env, m, path, i);
      r.Found? ==>
      && i <= r.index < |m.pathList| && m.pathList[r.index] in m.pathMap
      && r.record == m.pathMap[m.pathList[r.index]]
      && MatchRoute(env.c, env.e, r.record.regex, path, []) == Matched(r.params)
      && (forall j :: i <= j < r.index ==> Misses(env, m, path, j))
    ensures var r := FirstMatch(env, m, path, i);
      r.NotFound? ==> forall j :: i <= j < |m.pathList| ==> Misses(env, m, path, j)
    ensures var r := FirstMatch(env, m, path, i);
      r.ScanThrew? ==> exists j :: (i <= j < |m.pathList| && Throws(env, m, path, j) &&
        (forall j' :: i <= j' < j ==> Misses(env, m, path, j')))
    decreases |m.pathList| - i
  {
    if i < |m.pathList| {
      if m.pathList[i] !in m.pathMap {
        assert Throws(env, m, path, i);
      } else {
        var mr := MatchRoute(env.c, env.e, m.pathMap[m.pathList[i]].regex, path, []);
        if mr.NoMatch? {
          assert Misses(env, m, path, i);
          FirstMatchFacts(env, m, path, i + 1);
        } else if mr.DecodeError? {
          assert Throws(env, m, path, i);
        }
      }
    }
  }

  // ---------------------------------------------------------- named params

  /** The names of the required (non-optional) keys of a pattern. */
  function RequiredNames(keys: seq<ParamKey>): (r: seq<string>)
    ensures forall n :: n in r <==> exists i :: 0 <= i < |keys| && !keys[i].optional && keys[i].name == n
  {
    if |keys| == 0 then []
    else
      var rest := RequiredNames(keys[1..]);
      assert forall i :: 0 < i < |keys| ==> keys[i] == keys[1..][i - 1];
      (if keys[0].optional then [] else [keys[0].name]) + rest
  }

  /** The loop over the current route's params: each one copied when the
      target lacks it and it names a required key. */
  function Inherit(params: Params, cur: Params, names: seq<string>): Params
    decreases |cur|
  {
    if |cur| == 0 then params
    else
      var k := cur[0].0;
      Inherit(if !Has(params, k) && k in names then Put(params, k, cur[0].1) else params, cur[1..], names)
  }

  /** Only required params missing from the target are taken from the
      current route; the target's own params win. */
  lemma {:induction false} InheritFacts(params: Params, cur: Params, names: seq<string>)
    ensures forall k :: (Get(Inherit(params, cur, names), k) ==
      if Has(params, k) || k !in names then Get(params, k) else Get(cur, k))
    decreases |cur|
  {
    if |cur| > 0 {
      var k0 := cur[0].0;
      var next := if !Has(params, k0) && k0 in names then Put(params, k0, cur[0].1) else params;
      InheritFacts(next, cur[1..], names);
      GetCons(cur);
    }
  }

  /** The params of a named target: its own (or `{}`), completed from the
      current route. */
  function NamedParams(e: PatternEngine, record: RouteRecord, location: Location, current: Option<Route>): (p: Params)
    ensures var given := location.params.GetOr([]);
      forall k :: (Get(p, k) ==
        if Has(given, k) || current.None? || k !in RequiredNames(e.keys(record.regex)) then Get(given, k)
        else Get(current.value.params, k))
  {
    var given := location.params.GetOr([]);
    if current.Some? then
      InheritFacts(given, current.value.params, RequiredNames(e.keys(record.regex)));
      Inherit(given, current.value.params, RequiredNames(e.keys(record.regex)))
    else given
  }

  /** `resolveRecordPath(path, record)`: the path resolved against the
      parent's path (or `/`), appending. */
  function ResolveRecordPath(path: string, record: RouteRecord): (r: string)
    ensures |path| > 0 && path[0] == '/' ==> r == path
    ensures !(|path| > 0 && path[0] in {'/', '?', '#'}) ==> r == "" || r[0] == '/'
  {
    Path.ResolvePath(path, if record.parent.Some? then record.parent.value.path else "/", true)
  }

  // ----------------------------------------------------------------- match

  /** `match(raw, currentRoute, redirectedFrom)`: the target normalised
      against the current route, then matched. */
  function Match(env: Env, m: RouteMap.RouteMap, raw: RawLocation, current: Option<Route>,
                 redirectedFrom: Option<Location>, fuel: nat): Outcome
  {
    MatchLocation(env, m, NormalizeLocation(env.c, env.e, raw, current, false), current, redirectedFrom, fuel)
  }

  /** A target marked normalised (or named) is matched as it stands,
      whatever the current route. */
  lemma NormalisedTarget(env: Env, m: RouteMap.RouteMap, l: Location, current: Option<Route>,
                         redirectedFrom: Option<Location>, fuel: nat)
    requires l.normalized || l.name != ""
    ensures Match(env, m, RawObject(l), current, redirectedFrom, fuel) == MatchLocation(env, m, l, current, redirectedFrom, fuel)
  {
  }

  /** The location of a named target with its record: the params
      completed, the path filled from the record's path. */
  function NamedLocation(e: PatternEngine, record: RouteRecord, location: Location, current: Option<Route>): (l: Location)
    ensures l.params.Some?
  {
    var params := NamedParams(e, record, location, current);
    location.(params := Some(params), path := FillParams(e, record.path, params))
  }

  /** The body of `match` after normalisation: by name, else by path, else
      nothing matched.  The re-matches of redirects and aliases enter here
      directly: their targets are marked normalised, which normalisation
      hands back unchanged (`NormalisedTarget`). */
  function MatchLocation(env: Env, m: RouteMap.RouteMap, location: Location, current: Option<Route>,
                         redirectedFrom: Option<Location>, fuel: nat): Outcome
    decreases fuel, 2
  {
    if location.name != "" then
      if location.name !in m.nameMap then Done(CreateRoute(env.c, None, location, None))
      else
        var record := m.nameMap[location.name];
        CreateRouteFor(env, m, Some(record), NamedLocation(env.e, record, location, current), redirectedFrom, fuel)
    else if location.path != "" then
      match FirstMatch(env, m, location.path, 0)
      case Found(_, record, params) => CreateRouteFor(env, m, Some(record), location.(params := Some(params)), redirectedFrom, fuel)
      case NotFound => Done(CreateRoute(env.c, None, location.(params := Some([])), None))
      case ScanThrew => Thrown
    else Done(CreateRoute(env.c, None, location, None))
  }

  /** `_createRoute(record, location, redirectedFrom)`: a redirect first,
      then an alias, else the route itself. */
  function CreateRouteFor(env: Env, m: RouteMap.RouteMap, record: Option<RouteRecord>, location: Location,
                          redirectedFrom: Option<Location>, fuel: nat): Outcome
    decreases fuel, 1
  {
    if record.Some? && HasRedirect(record.value.redirect) then
      Redirect(env, m, record.value, if redirectedFrom.Some? then redirectedFrom.value else location, fuel)
    else if record.Some? && record.value.matchAs != "" then Alias(env, m, record.value, location, fuel)
    else Done(CreateRoute(env.c, record, location, redirectedFrom))
  }

  /** The redirect target of a record: the static one, or the user
      function's answer for the route the record would produce.  An absent
      option behaves like a value that is not an object. */
  function RedirectTargetOf(env: Env, record: RouteRecord, location: Location): RedirectTarget
  {
    match record.redirect
    case NoRedirect => ROther
    case Static(t) => t
    case Dynamic(fid) => env.redirectFn(fid, CreateRoute(env.c, Some(record), location, None))
  }

  /** A string target is the object `{ path }`. */
  function AsObject(t: RedirectTarget): (r: RedirectTarget)
    ensures !r.RString?
    ensures t.RString? ==> r == RObject("", t.s, None, None, None)
    ensures !t.RString? ==> r == t
  {
    if t.RString? then RObject("", t.s, None, None, None) else t
  }

  /** `redirect(record, location)`: the record's target re-matched with
      the original location as `redirectedFrom`. */
  function Redirect(env: Env, m: RouteMap.RouteMap, record: RouteRecord, location: Location, fuel: nat): Outcome
    decreases fuel, 0
  {
    if fuel == 0 then Exhausted
    else RedirectTo(env, m, record, location, AsObject(RedirectTargetOf(env, record, location)), fuel - 1)
  }

  /** The re-match of a redirect target: query, hash and params come from
      the location unless the target has them as own properties; a name
      wins over a path; a target with neither, or one that is not an
      object, matches nothing. */
  function RedirectTo(env: Env, m: RouteMap.RouteMap, record: RouteRecord, location: Location,
                      target: RedirectTarget, fuel: nat): Outcome
    decreases fuel, 3
  {
    match target
    case RObject(name, path, q, h, p) =>
      var query := q.GetOr(location.query);
      var hash := h.GetOr(location.hash);
      var params := if p.Some? then p else location.params;
      if name != "" then
        MatchLocation(env, m, Location(name, "", hash, query, params, false, false, true), None, Some(location), fuel)
      else if path != "" then
        MatchLocation(env, m, RedirectPathLocation(env.e, record, path, hash, query, params), None, Some(location), fuel)
      else Done(CreateRoute(env.c, None, location, None))
    case _ => Done(CreateRoute(env.c, None, location, None))
  }

  /** The location a path target is re-matched at: the path resolved
      against the record's parent, filled with the params, and marked
      normalised, with no name and no params of its own. */
  function RedirectPathLocation(e: PatternEngine, record: RouteRecord, path: string, hash: string,
                                query: Query, params: Option<Params>): (l: Location)
    ensures l.normalized && l.name == "" && l.params.None? && l.hash == hash && l.query == query
    ensures l.path == FillParams(e, ResolveRecordPath(path, record), params.GetOr([]))
  {
    Location("", FillParams(e, ResolveRecordPath(path, record), params.GetOr([])), hash, query, None, false, false, true)
  }

  /** `alias(record, location, matchAs)`: the filled `matchAs` path matched
      afresh, the route then built on the alias's own location. */
  function Alias(env: Env, m: RouteMap.RouteMap, record: RouteRecord, location: Location, fuel: nat): Outcome
    decreases fuel, 0
  {
    if fuel == 0 then Exhausted
    else AliasOf(env, m, location, MatchLocation(env, m, AliasTarget(env.e, record, location), None, None, fuel - 1), fuel - 1)
  }

  /** The target `alias` matches: `{ _normalized: true, path }` with the
      record's `matchAs` filled from the location's params. */
  function AliasTarget(e: PatternEngine, record: RouteRecord, location: Location): (l: Location)
    ensures l.normalized && l.name == "" && l.params.None? && l.query == [] && l.hash == ""
    ensures l.path == FillParams(e, record.matchAs, location.params.GetOr([]))
  {
    Location("", FillParams(e, record.matchAs, location.params.GetOr([])), "", [], None, false, false, true)
  }

  /** With fuel left, an alias is its second half applied to the match of
      its target. */
  lemma AliasStep(env: Env, m: RouteMap.RouteMap, record: RouteRecord, location: Location, fuel: nat)
    requires fuel > 0
    ensures Alias(env, m, record, location, fuel) ==
      AliasOf(env, m, location, MatchLocation(env, m, AliasTarget(env.e, record, location), None, None, fuel - 1), fuel - 1)
  {
  }

  /** The second half of `alias`: the route is built from the deepest
      record of the aliased match and its params. */
  function AliasOf(env: Env, m: RouteMap.RouteMap, location: Location, aliased: Outcome, fuel: nat): Outcome
    decreases fuel, 2
  {
    match aliased
    case Done(r) =>
      CreateRouteFor(env, m, if |r.matched| > 0 then Some(r.matched[|r.matched| - 1]) else None,
        location.(params := Some(r.params)), None, fuel)
    case Thrown => Thrown
    case Exhausted => Exhausted
  }

  // ------------------------------------------------------- settled routes

  /** Every route a match produces is settled, and when the match was
      itself a redirect's re-match it reports no location but the one the
      redirect started from. */
  lemma MatchSettles(env: Env, m: RouteMap.RouteMap, raw: RawLocation, current: Option<Route>,
                     redirectedFrom: Option<Location>, fuel: nat)
    ensures var o := Match(env, m, raw, current, redirectedFrom, fuel);
      SettledOutcome(env.c, o, redirectedFrom)
  {
    MatchLocationSettles(env, m, NormalizeLocation(env.c, env.e, raw, current, false), current, redirectedFrom, fuel);
  }

  /** The same after normalisation. */
  lemma {:induction false} MatchLocationSettles(env: Env, m: RouteMap.RouteMap, location: Location, current: Option<Route>,
                                                redirectedFrom: Option<Location>, fuel: nat)
    ensures var o := MatchLocation(env, m, location, current, redirectedFrom, fuel);
      SettledOutcome(env.c, o, redirectedFrom)
    decreases fuel, 2
  {
    if location.name != "" {
      if location.name in m.nameMap {
        var record := m.nameMap[location.name];
        CreateRouteForSettles(env, m, Some(record), NamedLocation(env.e, record, location, current), redirectedFrom, fuel);
      }
    } else if location.path != "" {
      match FirstMatch(env, m, location.path, 0)
      case Found(_, record, params) =>
        CreateRouteForSettles(env, m, Some(record), location.(params := Some(params)), redirectedFrom, fuel);
      case NotFound =>
      case ScanThrew =>
    }
  }

  /** `_createRoute` hands out settled routes; what it reports as
      `redirectedFrom` is the location it was given for that. */
  lemma {:induction false} CreateRouteForSettles(env: Env, m: RouteMap.RouteMap, record: Option<RouteRecord>,
                                                 location: Location, redirectedFrom: Option<Location>, fuel: nat)
    ensures var o := CreateRouteFor(env, m, record, location, redirectedFrom, fuel);
      SettledOutcome(env.c, o, redirectedFrom)
    decreases fuel, 1
  {
    if record.Some? && HasRedirect(record.value.redirect) {
      RedirectSettles(env, m, record.value, if redirectedFrom.Some? then redirectedFrom.value else location, fuel);
    } else if record.Some? && record.value.matchAs != "" {
      AliasSettles(env, m, record.value, location, fuel);
    }
  }

  /** A redirect hands out settled routes that report the location it
      started from, if anything. */
  lemma RedirectSettles(env: Env, m: RouteMap.RouteMap, record: RouteRecord, location: Location, fuel: nat)
    ensures var o := Redirect(env, m, record, location, fuel);
      SettledOutcome(env.c, o, Some(location))
    decreases fuel, 0
  {
    if fuel > 0 {
      var target := RedirectUnfolds(env, m, record, location, fuel);
      var o := RedirectTo(env, m, record, location, target, fuel - 1);
      RedirectToSettles(env, m, record, location, target, fuel - 1);
      SettledVia(env.c, Redirect(env, m, record, location, fuel), o, Some(location));
    }
  }

  /** Settledness without a redirect report carries over to an equal
      outcome. */
  lemma PlainVia(c: Codec, o: Outcome, o': Outcome)
    requires o == o' && SettledOutcome(c, o', None) && (o'.Done? ==> o'.route.redirectedFrom.None?)
    ensures SettledOutcome(c, o, None) && (o.Done? ==> o.route.redirectedFrom.None?)
  {
  }

  /** Settledness carries over to an equal outcome. */
  lemma SettledVia(c: Codec, o: Outcome, o': Outcome, from: Option<Location>)
    requires o == o' && SettledOutcome(c, o', from)
    ensures SettledOutcome(c, o, from)
  {
  }

  /** With fuel left, a redirect is the re-match of the record's target. */
  lemma RedirectUnfolds(env: Env, m: RouteMap.RouteMap, record: RouteRecord, location: Location, fuel: nat)
      returns (target: RedirectTarget)
    requires fuel > 0
    ensures Redirect(env, m, record, location, fuel) == RedirectTo(env, m, record, location, target, fuel - 1)
  {
    target := AsObject(RedirectTargetOf(env, record, location));
  }

  /** The same for the re-match of a given target. */
  lemma {:induction false} RedirectToSettles(env: Env, m: RouteMap.RouteMap, record: RouteRecord, location: Location,
                                             target: RedirectTarget, fuel: nat)
    ensures var o := RedirectTo(env, m, record, location, target, fuel);
      SettledOutcome(env.c, o, Some(location))
    decreases fuel, 3
  {
    match target
    case RObject(name, path, q, h, p) =>
      var query := q.GetOr(location.query);
      var hash := h.GetOr(location.hash);
      var params := if p.Some? then p else location.params;
      if name != "" {
        MatchLocationSettles(env, m, Location(name, "", hash, query, params, false, false, true), None, Some(location), fuel);
      } else if path != "" {
        MatchLocationSettles(env, m, RedirectPathLocation(env.e, record, path, hash, query, params), None, Some(location), fuel);
      }
    case _ =>
  }

  /** An alias hands out settled routes that report no redirect. */
  lemma AliasSettles(env: Env, m: RouteMap.RouteMap, record: RouteRecord, location: Location, fuel: nat)
    ensures var o := Alias(env, m, record, location, fuel);
      SettledOutcome(env.c, o, None) && (o.Done? ==> o.route.redirectedFrom.None?)
    decreases fuel, 0, 1
  {
    if fuel > 0 {
      var inner := AliasInner(env, m, record, location, fuel);
      AliasOfSettles(env, m, location, inner, fuel - 1);
      PlainVia(env.c, Alias(env, m, record, location, fuel), AliasOf(env, m, location, inner, fuel - 1));
    }
  }

  /** With fuel left, an alias is built on a settled match of its target. */
  lemma AliasInner(env: Env, m: RouteMap.RouteMap, record: RouteRecord, location: Location, fuel: nat)
      returns (inner: Outcome)
    requires fuel > 0
    ensures Alias(env, m, record, location, fuel) == AliasOf(env, m, location, inner, fuel - 1)
    ensures SettledOutcome(env.c, inner, None)
    decreases fuel, 0, 0
  {
    var target := AliasTarget(env.e, record, location);
    inner := MatchLocation(env, m, target, None, None, fuel - 1);
    MatchLocationSettles(env, m, target, None, None, fuel - 1);
    AliasStep(env, m, record, location, fuel);
  }

  /** Built on a settled route, the alias's route is `createRoute` of the
      same deepest record, so it is settled too. */
  lemma AliasOfSettles(env: Env, m: RouteMap.RouteMap, location: Location, aliased: Outcome, fuel: nat)
    requires SettledOutcome(env.c, aliased, None)
    ensures var o := AliasOf(env, m, location, aliased, fuel);
      SettledOutcome(env.c, o, None) && (o.Done? ==> o.route.redirectedFrom.None?)
  {
  }

  // ------------------------------------------------------ what match does

  /** `_createRoute` on a terminal record (or none) is `createRoute`. */
  lemma TerminalCreates(env: Env, m: RouteMap.RouteMap, record: Option<RouteRecord>, location: Location,
                        redirectedFrom: Option<Location>, fuel: nat)
    requires record.None? || Terminal(record.value)
    ensures CreateRouteFor(env, m, record, location, redirectedFrom, fuel) == Done(CreateRoute(env.c, record, location, redirectedFrom))
    ensures record.Some? ==> CreateRoute(env.c, record, location, redirectedFrom).matched == FormatMatch(record.value)
  {
    if record.Some? {
      ChainUnique(CreateRoute(env.c, record, location, redirectedFrom).matched);
    }
  }


  /** A target whose name is unknown, a target with neither name nor path,
      and a path no record matches all give a route with nothing matched,
      built on the normalised location, with no `redirectedFrom`. */
  lemma Unmatched(env: Env, m: RouteMap.RouteMap, raw: RawLocation, current: Option<Route>,
                  redirectedFrom: Option<Location>, fuel: nat)
    requires var l := NormalizeLocation(env.c, env.e, raw, current, false);
      || (l.name != "" && l.name !in m.nameMap)
      || (l.name == "" && l.path == "")
      || (l.name == "" && l.path != "" && forall j :: 0 <= j < |m.pathList| ==> Misses(env, m, l.path, j))
    ensures var l := NormalizeLocation(env.c, env.e, raw, current, false);
      var o := Match(env, m, raw, current, redirectedFrom, fuel);
      && o.Done? && o.route.matched == [] && o.route.redirectedFrom.None?
      && o.route.name == l.name && o.route.path == (if l.path == "" then "/" else l.path)
      && o.route.query == l.query && o.route.hash == l.hash
  {
    var l := NormalizeLocation(env.c, env.e, raw, current, false);
    if l.name == "" && l.path != "" {
      FirstMatchNone(env, m, l.path, 0);
    }
    assert Match(env, m, raw, current, redirectedFrom, fuel) == MatchLocation(env, m, l, current, redirectedFrom, fuel);
  }

  /** The scan finds nothing when every entry misses. */
  lemma {:induction false} FirstMatchNone(env: Env, m: RouteMap.RouteMap, path: string, from: nat)
    requires forall j :: from <= j < |m.pathList| ==> Misses(env, m, path, j)
    ensures FirstMatch(env, m, path, from) == NotFound
    decreases |m.pathList| - from
  {
    if from < |m.pathList| {
      assert Misses(env, m, path, from);
      FirstMatchNone(env, m, path, from + 1);
    }
  }

  /** A named target with a terminal record: the route of that record,
      with the target's params completed by the required params of the
      current route, and the path filled from them. */
  lemma NamedTarget(env: Env, m: RouteMap.RouteMap, raw: RawLocation, current: Option<Route>,
                    redirectedFrom: Option<Location>, fuel: nat)
    requires var l := NormalizeLocation(env.c, env.e, raw, current, false);
      l.name != "" && l.name in m.nameMap && Terminal(m.nameMap[l.name])
    ensures var l := NormalizeLocation(env.c, env.e, raw, current, false);
      NamedRoute(env, m, l, current, redirectedFrom, Match(env, m, raw, current, redirectedFrom, fuel))
  {
    var l := NormalizeLocation(env.c, env.e, raw, current, false);
    NamedMatch(env, m, l, current, redirectedFrom, fuel);
  }

  /** What a match of the named location `l` with a terminal record gives. */
  ghost predicate NamedRoute(env: Env, m: RouteMap.RouteMap, l: Location, current: Option<Route>,
                       redirectedFrom: Option<Location>, o: Outcome)
    requires l.name in m.nameMap
  {
    var record := m.nameMap[l.name];
    var given := l.params.GetOr([]);
    && o.Done? && o.route.matched == FormatMatch(record) && o.route.name == l.name
    && (forall k :: (Get(o.route.params, k) ==
          if Has(given, k) || current.None? || k !in RequiredNames(env.e.keys(record.regex)) then Get(given, k)
          else Get(current.value.params, k)))
    && var filled := FillParams(env.e, record.path, o.route.params);
    && o.route.path == (if filled == "" then "/" else filled)
    && o.route.query == l.query && o.route.hash == l.hash
    && (o.route.redirectedFrom.Some? <==> redirectedFrom.Some?)
    && (redirectedFrom.Some? ==> o.route.redirectedFrom == Some(FullPath(env.c, redirectedFrom.value)))
  }

  /** The same after normalisation. */
  lemma NamedMatch(env: Env, m: RouteMap.RouteMap, l: Location, current: Option<Route>,
                   redirectedFrom: Option<Location>, fuel: nat)
    requires l.name != "" && l.name in m.nameMap && Terminal(m.nameMap[l.name])
    ensures NamedRoute(env, m, l, current, redirectedFrom, MatchLocation(env, m, l, current, redirectedFrom, fuel))
  {
    var record := m.nameMap[l.name];
    var named := NamedLocation(env.e, record, l, current);
    assert MatchLocation(env, m, l, current, redirectedFrom, fuel) == CreateRouteFor(env, m, Some(record), named, redirectedFrom, fuel);
    TerminalCreates(env, m, Some(record), named, redirectedFrom, fuel);
  }

  /** The scan finds entry `i` when every earlier entry misses and entry
      `i` matches. */
  lemma {:induction false} FirstMatchAt(env: Env, m: RouteMap.RouteMap, path: string, from: nat, i: nat, p: Params)
    requires from <= i < |m.pathList| && m.pathList[i] in m.pathMap
    requires forall j :: from <= j < i ==> Misses(env, m, path, j)
    requires MatchRoute(env.c, env.e, m.pathMap[m.pathList[i]].regex, path, []) == Matched(p)
    ensures FirstMatch(env, m, path, from) == Found(i, m.pathMap[m.pathList[i]], p)
    decreases i - from
  {
    if from < i {
      FirstMatchSkips(env, m, path, from);
      FirstMatchAt(env, m, path, from + 1, i, p);
    } else {
      FirstMatchStops(env, m, path, i, p);
    }
  }

  /** An entry that misses hands the scan on to the next one. */
  lemma FirstMatchSkips(env: Env, m: RouteMap.RouteMap, path: string, j: nat)
    requires j < |m.pathList| && Misses(env, m, path, j)
    ensures FirstMatch(env, m, path, j) == FirstMatch(env, m, path, j + 1)
  {
  }

  /** An entry that matches ends the scan with itself. */
  lemma FirstMatchStops(env: Env, m: RouteMap.RouteMap, path: string, i: nat, p: Params)
    requires i < |m.pathList| && m.pathList[i] in m.pathMap
    requires MatchRoute(env.c, env.e, m.pathMap[m.pathList[i]].regex, path, []) == Matched(p)
    ensures FirstMatch(env, m, path, i) == Found(i, m.pathMap[m.pathList[i]], p)
  {
  }

  /** A path target is matched by the first record in path-list order
      whose pattern matches; when that record is terminal the route is
      its route, with the params its captures gave. */
  lemma PathTarget(env: Env, m: RouteMap.RouteMap, raw: RawLocation, current: Option<Route>,
                   redirectedFrom: Option<Location>, fuel: nat, i: nat)
    requires i < |m.pathList| && m.pathList[i] in m.pathMap
    requires var l := NormalizeLocation(env.c, env.e, raw, current, false);
      && l.name == "" && l.path != ""
      && (forall j :: 0 <= j < i ==> Misses(env, m, l.path, j))
      && MatchRoute(env.c, env.e, m.pathMap[m.pathList[i]].regex, l.path, []).Matched?
      && Terminal(m.pathMap[m.pathList[i]])
    ensures var l := NormalizeLocation(env.c, env.e, raw, current, false);
      var record := m.pathMap[m.pathList[i]];
      var o := Match(env, m, raw, current, redirectedFrom, fuel);
      && o.Done? && o.route.matched == FormatMatch(record)
      && o.route.params == MatchRoute(env.c, env.e, record.regex, l.path, []).params
      && o.route.path == l.path && o.route.query == l.query && o.route.hash == l.hash
      && (o.route.redirectedFrom.Some? <==> redirectedFrom.Some?)
  {
    var l := NormalizeLocation(env.c, env.e, raw, current, false);
    FirstMatchAt(env, m, l.path, 0, i, MatchRoute(env.c, env.e, m.pathMap[m.pathList[i]].regex, l.path, []).params);
    PathBranchCreates(env, m, l, current, redirectedFrom, fuel);
    assert Match(env, m, raw, current, redirectedFrom, fuel) == MatchLocation(env, m, l, current, redirectedFrom, fuel);
  }

  /** The path branch on a found terminal record is `createRoute` of it. */
  lemma PathBranchCreates(env: Env, m: RouteMap.RouteMap, l: Location, current: Option<Route>,
                          redirectedFrom: Option<Location>, fuel: nat)
    requires l.name == "" && l.path != ""
    requires var scan := FirstMatch(env, m, l.path, 0); scan.Found? && Terminal(scan.record)
    ensures var scan := FirstMatch(env, m, l.path, 0);
      MatchLocation(env, m, l, current, redirectedFrom, fuel) ==
        Done(CreateRoute(env.c, Some(scan.record), l.(params := Some(scan.params)), redirectedFrom))
  {
    var scan := FirstMatch(env, m, l.path, 0);
    TerminalCreates(env, m, Some(scan.record), l.(params := Some(scan.params)), redirectedFrom, fuel);
  }

  /** An alias renders exactly the records and params of the route its
      filled `matchAs` path matches, on the alias's own path, query and
      hash, with no `redirectedFrom`. */
  lemma AliasedRoute(env: Env, m: RouteMap.RouteMap, record: RouteRecord, location: Location, fuel: nat)
    requires fuel > 0
    requires MatchLocation(env, m, AliasTarget(env.e, record, location), None, None, fuel - 1).Done?
    ensures var inner := MatchLocation(env, m, AliasTarget(env.e, record, location), None, None, fuel - 1).route;
      var o := Alias(env, m, record, location, fuel);
      && o.Done? && o.route.matched == inner.matched && o.route.params == inner.params
      && o.route.path == (if location.path == "" then "/" else location.path)
      && o.route.query == location.query && o.route.hash == location.hash
      && o.route.redirectedFrom.None?
  {
    var target := AliasTarget(env.e, record, location);
    var inner := MatchLocation(env, m, target, None, None, fuel - 1);
    MatchLocationSettles(env, m, target, None, None, fuel - 1);
    AliasOfRoute(env, m, location, inner, fuel - 1);
    AliasStep(env, m, record, location, fuel);
  }

  /** The second half of an alias on a settled route. */
  lemma AliasOfRoute(env: Env, m: RouteMap.RouteMap, location: Location, aliased: Outcome, fuel: nat)
    requires aliased.Done? && Settled(env.c, aliased.route)
    ensures var inner := aliased.route;
      var o := AliasOf(env, m, location, aliased, fuel);
      && o.Done? && o.route.matched == inner.matched && o.route.params == inner.params
      && o.route.path == (if location.path == "" then "/" else location.path)
      && o.route.query == location.query && o.route.hash == location.hash
      && o.route.redirectedFrom.None?
  {
    var inner := aliased.route;
    var rec := if |inner.matched| > 0 then Some(inner.matched[|inner.matched| - 1]) else None;
    TerminalCreates(env, m, rec, location.(params := Some(inner.params)), None, fuel);
    if |inner.matched| > 0 {
      ChainUnique(inner.matched);
    }
  }

  /** A redirect whose target is not an object, or an object with neither
      name nor path, gives a route with nothing matched on the location it
      was given. */
  lemma InvalidRedirect(env: Env, m: RouteMap.RouteMap, record: RouteRecord, location: Location, fuel: nat)
    requires fuel > 0
    requires var t := RedirectTargetOf(env, record, location);
      t.ROther? || (t.RObject? && t.name == "" && t.path == "") || t == RString("")
    ensures var o := Redirect(env, m, record, location, fuel);
      && o.Done? && o.route.matched == [] && o.route.redirectedFrom.None?
      && o.route.path == (if location.path == "" then "/" else location.path)
  {
  }

  /** A string target is the path target `{ path }`: resolved against the
      parent record, filled with the location's params and re-matched with
      the location's query and hash. */
  lemma StringRedirect(env: Env, m: RouteMap.RouteMap, record: RouteRecord, location: Location, s: string, fuel: nat)
    requires record.redirect == Static(RString(s)) && s != "" && fuel > 0
    ensures Redirect(env, m, record, location, fuel) ==
      MatchLocation(env, m, RedirectPathLocation(env.e, record, s, location.hash, location.query, location.params),
                    None, Some(location), fuel - 1)
  {
  }

  /** A redirect to a known named route with a terminal record lands on
      that record, reports the location the redirect started from, and
      keeps the location's query and hash unless the target gives its
      own. */
  lemma NamedRedirect(env: Env, m: RouteMap.RouteMap, record: RouteRecord, location: Location, fuel: nat)
    requires fuel > 0
    requires var t := AsObject(RedirectTargetOf(env, record, location));
      t.RObject? && t.name != "" && t.name in m.nameMap && Terminal(m.nameMap[t.name])
    ensures var t := AsObject(RedirectTargetOf(env, record, location));
      var o := Redirect(env, m, record, location, fuel);
      && o.Done? && o.route.matched == FormatMatch(m.nameMap[t.name]) && o.route.name == t.name
      && o.route.query == t.query.GetOr(location.query) && o.route.hash == t.hash.GetOr(location.hash)
      && o.route.redirectedFrom == Some(FullPath(env.c, location))
  {
    var t := AsObject(RedirectTargetOf(env, record, location));
    var params := if t.params.Some? then t.params else location.params;
    var l := Location(t.name, "", t.hash.GetOr(location.hash), t.query.GetOr(location.query), params, false, false, true);
    assert Redirect(env, m, record, location, fuel) == MatchLocation(env, m, l, None, Some(location), fuel - 1);
    NamedMatch(env, m, l, None, Some(location), fuel - 1);
  }

  // ------------------------------------------------------------------ fuel

  /** More fuel changes nothing once a match has finished. */
  lemma MatchMoreFuel(env: Env, m: RouteMap.RouteMap, raw: RawLocation, current: Option<Route>,
                      redirectedFrom: Option<Location>, fuel: nat)
    ensures var o := Match(env, m, raw, current, redirectedFrom, fuel);
      !o.Exhausted? ==> Match(env, m, raw, current, redirectedFrom, fuel + 1) == o
  {
    MatchLocationMoreFuel(env, m, NormalizeLocation(env.c, env.e, raw, current, false), current, redirectedFrom, fuel);
  }

  lemma {:induction false} MatchLocationMoreFuel(env: Env, m: RouteMap.RouteMap, location: Location, current: Option<Route>,
                                                 redirectedFrom: Option<Location>, fuel: nat)
    ensures var o := MatchLocation(env, m, location, current, redirectedFrom, fuel);
      !o.Exhausted? ==> MatchLocation(env, m, location, current, redirectedFrom, fuel + 1) == o
    decreases fuel, 2
  {
    if location.name != "" {
      if location.name in m.nameMap {
        var record := m.nameMap[location.name];
        CreateRouteForMoreFuel(env, m, Some(record), NamedLocation(env.e, record, location, current), redirectedFrom, fuel);
      }
    } else if location.path != "" {
      match FirstMatch(env, m, location.path, 0)
      case Found(_, record, params) =>
        CreateRouteForMoreFuel(env, m, Some(record), location.(params := Some(params)), redirectedFrom, fuel);
      case NotFound =>
      case ScanThrew =>
    }
  }

  lemma {:induction false} CreateRouteForMoreFuel(env: Env, m: RouteMap.RouteMap, record: Option<RouteRecord>,
                                                  location: Location, redirectedFrom: Option<Location>, fuel: nat)
    ensures var o := CreateRouteFor(env, m, record, location, redirectedFrom, fuel);
      !o.Exhausted? ==> CreateRouteFor(env, m, record, location, redirectedFrom, fuel + 1) == o
    decreases fuel, 1
  {
    if record.Some? && HasRedirect(record.value.redirect) {
      RedirectMoreFuel(env, m, record.value, if redirectedFrom.Some? then redirectedFrom.value else location, fuel);
    } else if record.Some? && record.value.matchAs != "" {
      AliasMoreFuel(env, m, record.value, location, fuel);
    }
  }

  lemma {:induction false} RedirectMoreFuel(env: Env, m: RouteMap.RouteMap, record: RouteRecord, location: Location, fuel: nat)
    ensures var o := Redirect(env, m, record, location, fuel);
      !o.Exhausted? ==> Redirect(env, m, record, location, fuel + 1) == o
    decreases fuel, 0
  {
    if fuel > 0 {
      RedirectToMoreFuel(env, m, record, location, AsObject(RedirectTargetOf(env, record, location)), fuel - 1);
    }
  }

  lemma {:induction false} RedirectToMoreFuel(env: Env, m: RouteMap.RouteMap, record: RouteRecord, location: Location,
                                              target: RedirectTarget, fuel: nat)
    ensures var o := RedirectTo(env, m, record, location, target, fuel);
      !o.Exhausted? ==> RedirectTo(env, m, record, location, target, fuel + 1) == o
    decreases fuel, 3
  {
    match target
    case RObject(name, path, q, h, p) =>
      var query := q.GetOr(location.query);
      var hash := h.GetOr(location.hash);
      var params := if p.Some? then p else location.params;
      if name != "" {
        MatchLocationMoreFuel(env, m, Location(name, "", hash, query, params, false, false, true), None, Some(location), fuel);
      } else if path != "" {
        MatchLocationMoreFuel(env, m, RedirectPathLocation(env.e, record, path, hash, query, params), None, Some(location), fuel);
      }
    case _ =>
  }

  lemma {:induction false} AliasMoreFuel(env: Env, m: RouteMap.RouteMap, record: RouteRecord, location: Location, fuel: nat)
    ensures var o := Alias(env, m, record, location, fuel);
      !o.Exhausted? ==> Alias(env, m, record, location, fuel + 1) == o
    decreases fuel, 0
  {
    if fuel > 0 {
      var target := AliasTarget(env.e, record, location);
      var inner := MatchLocation(env, m, target, None, None, fuel - 1);
      AliasStep(env, m, record, location, fuel);
      AliasStep(env, m, record, location, fuel + 1);
      if !inner.Exhausted? {
        MatchLocationMoreFuel(env, m, target, None, None, fuel - 1);
        AliasOfMoreFuel(env, m, location, inner, fuel - 1);
      }
    }
  }

  lemma {:induction false} AliasOfMoreFuel(env: Env, m: RouteMap.RouteMap, location: Location, aliased: Outcome, fuel: nat)
    ensures var o := AliasOf(env, m, location, aliased, fuel);
      !o.Exhausted? ==> AliasOf(env, m, location, aliased, fuel + 1) == o
    decreases fuel, 2
  {
    if aliased.Done? {
      var r := aliased.route;
      CreateRouteForMoreFuel(env, m, if |r.matched| > 0 then Some(r.matched[|r.matched| - 1]) else None,
        location.(params := Some(r.params)), None, fuel);
    }
  }

  /** Fuel only bounds the chain of redirects and aliases: a match that
      finishes gives the same result with any larger amount. */
  lemma {:induction false} FuelIrrelevant(env: Env, m: RouteMap.RouteMap, raw: RawLocation, current: Option<Route>,
                                          redirectedFrom: Option<Location>, fuel: nat, more: nat)
    requires fuel <= more
    ensures var o := Match(env, m, raw, current, redirectedFrom, fuel);
      !o.Exhausted? ==> Match(env, m, raw, current, redirectedFrom, more) == o
    decreases more - fuel
  {
    if fuel < more {
      MatchMoreFuel(env, m, raw, current, redirectedFrom, fuel);
      FuelIrrelevant(env, m, raw, current, redirectedFrom, fuel + 1, more);
    }
  }

  // ------------------------------------------------------------- building

  /** `createMatcher(routes)`: the route map built from nothing. */
  method CreateMatcher(routes: seq<RouteMap.RouteConfig>) returns (m: RouteMap.RouteMap)
    ensures RouteMap.Good(m)
    ensures forall i, j :: 0 <= i < j < |m.pathList| && m.pathList[i] == "*" ==> m.pathList[j] == "*"
    ensures m.pathMap == RouteMap.AddAll(RouteMap.Empty, routes).pathMap
    ensures m.nameMap == RouteMap.AddAll(RouteMap.Empty, routes).nameMap
  {
    m := RouteMap.CreateRouteMap(routes, RouteMap.Empty);
  }

  /** `addRoutes(routes)`: the map extended in place; what was there stays. */
  method AddRoutes(m: RouteMap.RouteMap, routes: seq<RouteMap.RouteConfig>) returns (r: RouteMap.RouteMap)
    requires RouteMap.Good(m)
    ensures RouteMap.Good(r)
    ensures forall p :: p in m.pathMap ==> p in r.pathMap && r.pathMap[p] == m.pathMap[p]
    ensures forall n :: n in m.nameMap ==> n in r.nameMap && r.nameMap[n] == m.nameMap[n]
    ensures forall i, j :: 0 <= i < j < |r.pathList| && r.pathList[i] == "*" ==> r.pathList[j] == "*"
  {
    r := RouteMap.CreateRouteMap(routes, m);
  }
}

=== FILE: path.dfy ===
/** Path utilities of `src/util/path.js`: relative resolution, splitting a
    location string into path, query and hash, and collapsing `//`. */
module Path {
  import opened Strings

  /** One step of the segment walk: `..` pops (a pop of an empty stack does
      nothing), `.` is skipped, anything else (including `""`) is pushed. */
  function Step(stack: seq<string>, segment: string): (r: seq<string>)
    ensures segment == ".." && |stack| > 0 ==> r == stack[..|stack| - 1]
    ensures segment == ".." && |stack| == 0 ==> r == []
    ensures segment == "." ==> r == stack
    ensures segment != ".." && segment != "." ==> r == stack + [segment]
  {
    if segment == ".." then (if |stack| > 0 then stack[..|stack| - 1] else [])
    else if segment == "." then stack
    else stack + [segment]
  }

  /** Walks all segments left to right. */
  function Walk(stack: seq<string>, segments: seq<string>): seq<string>
    decreases |segments|
  {
    if |segments| == 0 then stack else Walk(Step(stack, segments[0]), segments[1..])
  }

  /** The directory stack `resolvePath` starts from: the `/`-separated
      segments of `base`, minus the last one unless appending to a base that
      does not end in `/`. */
  function BaseStack(base: string, append: bool): (r: seq<string>)
    ensures var parts := Split(base, '/');
      var last := parts[|parts| - 1];
      && (append && last != "" ==> Join(r, '/') == base)
      && (!(append && last != "") && |parts| >= 2 ==> Join(r, '/') + ['/'] + last == base)
      && (!(append && last != "") && |parts| == 1 ==> r == [])
  {
    var parts := Split(base, '/');
    DropLast(parts, append)
  }

  /** The segments kept from a split base: all of them, or all but the
      last. */
  function DropLast(parts: seq<string>, append: bool): (r: seq<string>)
    requires |parts| >= 1
    ensures var last := parts[|parts| - 1];
      && (append && last != "" ==> r == parts)
      && (!(append && last != "") && |parts| >= 2 ==> Join(r, '/') + ['/'] + last == Join(parts, '/'))
      && (!(append && last != "") && |parts| == 1 ==> r == [])
  {
    var n := |parts|;
    if append && parts[n - 1] != "" then parts
    else if n >= 2 then
      JoinInit(parts, '/');
      parts[..n - 1]
    else []
  }

  /** Joining all but the last part and then the last part after one more
      separator is joining all the parts. */
  lemma JoinInit(parts: seq<string>, c: char)
    requires |parts| >= 2
    ensures Join(parts[..|parts| - 1], c) + [c] + parts[|parts| - 1] == Join(parts, c)
  {
    var n := |parts|;
    assert parts == parts[..n - 1] + [parts[n - 1]];
    JoinAppend(parts[..n - 1], [parts[n - 1]], c);
  }

  /** `resolvePath(relative, base, append)`. */
  function ResolvePath(relative: string, base: string, append: bool): (r: string)
    ensures |relative| > 0 && relative[0] == '/' ==> r == relative
    ensures |relative| > 0 && (relative[0] == '?' || relative[0] == '#') ==> r == base + relative
    ensures !(|relative| > 0 && relative[0] in {'/', '?', '#'}) ==> r == "" || r[0] == '/'
  {
    if |relative| > 0 && relative[0] == '/' then relative
    else if |relative| > 0 && (relative[0] == '?' || relative[0] == '#') then base + relative
    else ResolveSegments(relative, base, append)
  }

  /** The segment walk of `resolvePath`, for a relative path that starts with
      none of `/`, `?`, `#` (so the source's strip of one leading `/` does
      nothing): the result is rooted. */
  function ResolveSegments(relative: string, base: string, append: bool): (r: string)
    ensures r == "" || r[0] == '/'
  {
    var stack := Walk(BaseStack(base, append), Split(relative, '/'));
    var rooted := if |stack| == 0 || stack[0] != "" then [""] + stack else stack;
    RootedJoin(rooted);
    Join(rooted, '/')
  }

  /** A stack whose first segment is empty joins to `""` or to a string that
      starts with `/`. */
  lemma RootedJoin(stack: seq<string>)
    requires |stack| > 0 && stack[0] == ""
    ensures var r := Join(stack, '/'); r == "" || r[0] == '/'
  {
    if |stack| > 1 {
      assert Join(stack, '/') == "" + ['/'] + Join(stack[1..], '/');
    }
  }

  /** The worked example: `../sibling` against `/a/b/c` without appending. */
  lemma ResolveSiblingExample()
    ensures ResolvePath("../sibling", "/a/b/c", false) == "/a/sibling"
  {
    ResolveRelative("../sibling", "/a/b/c", false);
    SegmentsExample();
  }

  /** A relative path starting with none of `/`, `?`, `#` goes through the
      segment walk. */
  lemma ResolveRelative(relative: string, base: string, append: bool)
    requires |relative| > 0 && relative[0] != '/' && relative[0] != '?' && relative[0] != '#'
    ensures ResolvePath(relative, base, append) == ResolveSegments(relative, base, append)
  {
  }

  lemma SegmentsExample()
    ensures ResolveSegments("../sibling", "/a/b/c", false) == "/a/sibling"
  {
    BaseExample();
    RelativeExample();
    WalkExample();
    JoinExample();
  }

  lemma JoinExample()
    ensures Join(["", "a", "sibling"], '/') == "/a/sibling"
  {
    var rooted: seq<string> := ["", "a", "sibling"];
    assert Join(rooted[2..], '/') == "sibling";
    assert Join(rooted[1..], '/') == "a/sibling";
  }

  lemma WalkExample()
    ensures Walk(["", "a", "b"], ["..", "sibling"]) == ["", "a", "sibling"]
  {
    var segs: seq<string> := ["..", "sibling"];
    assert Step(["", "a", "b"], "..") == ["", "a"];
    assert segs[1..] == ["sibling"];
    assert Walk(["", "a", "b"], segs) == Walk(["", "a"], ["sibling"]);
    assert Walk(["", "a"], ["sibling"]) == Walk(["", "a", "sibling"], []);
  }

  lemma BaseExample()
    ensures BaseStack("/a/b/c", false) == ["", "a", "b"]
  {
    var parts := ["", "a", "b", "c"];
    assert Join(parts[3..], '/') == "c";
    assert Join(parts[2..], '/') == "b/c";
    assert Join(parts[1..], '/') == "a/b/c";
    assert Join(parts, '/') == "/a/b/c";
    SplitJoin(parts, '/');
  }

  lemma RelativeExample()
    ensures Split("../sibling", '/') == ["..", "sibling"]
  {
    assert Join(["..", "sibling"], '/') == "../sibling";
    SplitJoin(["..", "sibling"], '/');
  }

  /** The three parts of a location string. */
  datatype ParsedPath = ParsedPath(path: string, query: string, hash: string)

  /** `parsePath(s)`: the hash starts at the first `#`, the query sits
      between the first `?` before the hash and the hash (without the `?`),
      and the path is what precedes both. */
  function ParsePath(s: string): (r: ParsedPath)
    ensures NoChar(r.path, '#') && NoChar(r.path, '?')
    ensures r.hash == "" || r.hash[0] == '#'
    ensures NoChar(r.query, '#')
    ensures s == r.path + r.hash || s == r.path + "?" + r.query + r.hash
    ensures r.query != "" ==> s == r.path + "?" + r.query + r.hash
    ensures NoChar(s, '#') ==> r.hash == ""
    ensures NoChar(s, '#') && NoChar(s, '?') ==> r == ParsedPath(s, "", "")
  {
    var (rest, hash) := CutAt(s, '#');
    var (path, query) := SplitQuery(rest);
    if query == "" then
      ParsedPath(path, "", hash)
    else
      Regroup(path, "?", query, hash);
      ParsedPath(path, query, hash)
  }

  /** The part of a `#`-free string before its first `?`, and the part
      after it. */
  function SplitQuery(rest: string): (r: (string, string))
    requires NoChar(rest, '#')
    ensures NoChar(r.0, '#') && NoChar(r.0, '?') && NoChar(r.1, '#')
    ensures rest == r.0 || rest == r.0 + "?" + r.1
    ensures r.1 != "" ==> rest == r.0 + "?" + r.1
    ensures NoChar(rest, '?') ==> r == (rest, "")
  {
    var (path, tail) := CutAt(rest, '?');
    NoCharParts(path, tail, '#');
    if tail == "" then
      assert rest == path;
      (path, "")
    else
      assert tail == "?" + tail[1..];
      NoCharParts("?", tail[1..], '#');
      (path, tail[1..])
  }

  /** `parsePath` inverts the assembly of a path, a query and a hash: the
      path free of `?` and `#`, the query free of `#`, the hash empty or
      starting with `#`.  With an empty query the `?` may be present or
      not. */
  lemma ParsePathOfParts(p: string, q: string, h: string, withQuery: bool)
    requires NoChar(p, '#') && NoChar(p, '?') && NoChar(q, '#')
    requires h == "" || h[0] == '#'
    requires !withQuery ==> q == ""
    ensures ParsePath(if withQuery then p + "?" + q + h else p + h) == ParsedPath(p, q, h)
  {
    var rest := if withQuery then p + "?" + q else p;
    SplitQueryOf(p, q, withQuery);
    CutAtOf(rest, h, '#');
  }

  /** Splitting a path, a `?` and a query at the `?` gives back the path
      and the query. */
  lemma SplitQueryOf(p: string, q: string, withQuery: bool)
    requires NoChar(p, '#') && NoChar(p, '?') && NoChar(q, '#')
    requires !withQuery ==> q == ""
    ensures var rest := if withQuery then p + "?" + q else p;
      NoChar(rest, '#') && SplitQuery(rest) == (p, q)
  {
    if withQuery {
      NoCharJoin("?", q, '#');
      NoCharJoin(p, "?" + q, '#');
      CutAtOf(p, "?" + q, '?');
      assert ("?" + q)[1..] == q;
      assert p + "?" + q == p + ("?" + q);
    } else {
      CutAtOf(p, "", '?');
      assert p + "" == p;
    }
  }

  /** `s.replace(/\/\//g, '/')`: every `//`, scanning left to right without
      overlap, becomes `/`. */
  function CleanPath(s: string): (r: string)
    ensures |r| <= |s|
  {
    if |s| >= 2 && s[0] == '/' && s[1] == '/' then "/" + CleanPath(s[2..])
    else if |s| == 0 then ""
    else [s[0]] + CleanPath(s[1..])
  }

  /** `s` contains no `//`. */
  predicate NoDoubleSlash(s: string) {
    forall i :: 0 <= i < |s| - 1 ==> !(s[i] == '/' && s[i + 1] == '/')
  }

  /** The characters other than `/`, in order. */
  function NonSlash(s: string): string {
    if |s| == 0 then "" else (if s[0] == '/' then "" else [s[0]]) + NonSlash(s[1..])
  }

  /** `cleanPath` keeps every other character in place, leaves a string
      without `//` alone, and removes no single `/`: a result of equal length
      means nothing was replaced. */
  lemma {:induction false} CleanPathFacts(s: string)
    ensures NonSlash(CleanPath(s)) == NonSlash(s)
    ensures NoDoubleSlash(s) ==> CleanPath(s) == s
    ensures |s| > 0 ==> |CleanPath(s)| > 0 && CleanPath(s)[0] == s[0]
  {
    if |s| >= 2 && s[0] == '/' && s[1] == '/' {
      CleanPathFacts(s[2..]);
      assert NonSlash(s) == NonSlash(s[1..]);
      assert NonSlash(s[1..]) == NonSlash(s[2..]);
      assert NonSlash("/" + CleanPath(s[2..])) == NonSlash(CleanPath(s[2..])) by {
        assert ("/" + CleanPath(s[2..]))[1..] == CleanPath(s[2..]);
      }
    } else if |s| == 0 {
    } else {
      CleanPathFacts(s[1..]);
      assert ([s[0]] + CleanPath(s[1..]))[1..] == CleanPath(s[1..]);
      assert NoDoubleSlash(s) ==> NoDoubleSlash(s[1..]);
    }
  }

  /** When `s` has no run of three slashes, `cleanPath` leaves no `//`. */
  lemma {:induction false} CleanPathRemovesDoubles(s: string)
    requires forall i :: 0 <= i < |s| - 2 ==> !(s[i] == '/' && s[i + 1] == '/' && s[i + 2] == '/')
    ensures NoDoubleSlash(CleanPath(s))
  {
    if |s| >= 2 && s[0] == '/' && s[1] == '/' {
      CleanPathRemovesDoubles(s[2..]);
      CleanPathFacts(s[2..]);
      var t := CleanPath(s[2..]);
      assert |s| > 2 ==> s[2] != '/';
      assert |t| > 0 ==> t[0] != '/';
      assert ("/" + t)[1..] == t;
    } else if |s| == 0 {
    } else {
      CleanPathRemovesDoubles(s[1..]);
      CleanPathFacts(s[1..]);
      var t := CleanPath(s[1..]);
      assert ([s[0]] + t)[1..] == t;
      if |s| >= 2 && s[0] == '/' {
        assert s[1] != '/';
      }
    }
  }

  /** `cleanPath` is not idempotent: `///` becomes `//`, which becomes `/`. */
  lemma CleanPathNotIdempotent()
    ensures CleanPath("///") == "//"
    ensures CleanPath(CleanPath("///")) == "/"
  {
    assert "///"[2..] == "/";
    assert CleanPath("/") == "/" by { assert "/"[1..] == ""; }
    assert "//"[2..] == "";
  }
}

=== FILE: query.dfy ===
/** The query-string codec of `src/util/query.js`: parsing `a=1&b&b=2` into
    an ordered multi-valued dictionary and serialising it back.  The URI
    component encoder and decoder are an abstract pair (`Codec`). */
module Query {
  import opened Wrappers
  import opened Strings
  import opened Dict

  /** A JavaScript value that can sit in a query or params slot. */
  datatype Scalar = Str(s: string) | Null | Undef

  /** A query value: one scalar, or an array of them. */
  datatype QValue = Single(v: Scalar) | Multi(items: seq<Scalar>)

  type Query = Dict<QValue>

  /** The encoder (`encodeURIComponent` plus the source's reserved-character
      fix-ups) and the decoder (`decodeURIComponent`; `None` when it throws). */
  datatype Codec = Codec(encode: string -> string, decode: string -> Option<string>)

  /** The characters an encoded component never contains. */
  predicate Reserved(ch: char) {
    ch == '&' || ch == '=' || ch == '+' || ch == '?' || ch == '#' || IsSpace(ch)
  }

  /** What the round trip needs of the codec: decoding inverts encoding, an
      encoded component holds no reserved character, and only the empty
      string encodes to the empty string. */
  ghost predicate Sound(c: Codec) {
    && (forall s :: c.decode(c.encode(s)) == Some(s))
    && (forall s :: forall i :: 0 <= i < |c.encode(s)| ==> !Reserved(c.encode(s)[i]))
    && (forall s :: |s| > 0 ==> |c.encode(s)| > 0)
  }

  // ---------------------------------------------------------------- parsing

  /** Removes exactly one leading `?`, `#` or `&`. */
  function StripLead(s: string): (r: string)
    ensures |s| > 0 && s[0] in {'?', '#', '&'} ==> r == s[1..]
    ensures !(|s| > 0 && s[0] in {'?', '#', '&'}) ==> r == s
  {
    if |s| > 0 && (s[0] == '?' || s[0] == '#' || s[0] == '&') then s[1..] else s
  }

  /** One `key=value` segment: `+` becomes a space, the key is what precedes
      the first `=`, the value everything after it (`null` without `=`);
      `None` when decoding either throws. */
  function ParsePair(c: Codec, param: string): (r: Option<(string, Scalar)>)
    ensures var p := ReplaceChar(param, '+', ' ');
      var i := IndexOf(p, '=');
      && (i < 0 ==> r == (if c.decode(p).Some? then Some((c.decode(p).value, Null)) else None))
      && (i >= 0 ==> r == (if c.decode(p[..i]).Some? && c.decode(p[i + 1..]).Some?
                           then Some((c.decode(p[..i]).value, Str(c.decode(p[i + 1..]).value)))
                           else None))
  {
    var p := ReplaceChar(param, '+', ' ');
    var parts := Split(p, '=');
    SplitAtFirst(p, '=');
    var key := c.decode(parts[0]);
    if key.None? then None
    else if |parts| > 1 then
      var val := c.decode(Join(parts[1..], '='));
      if val.None? then None else Some((key.value, Str(val.value)))
    else Some((key.value, Null))
  }

  /** Splitting at the first occurrence of the separator. */
  lemma SplitAtFirst(s: string, ch: char)
    ensures var i := IndexOf(s, ch); var parts := Split(s, ch);
      && (i < 0 ==> parts == [s])
      && (i >= 0 ==> |parts| > 1 && parts[0] == s[..i] && Join(parts[1..], ch) == s[i + 1..])
  {
    var i := IndexOf(s, ch);
    if i >= 0 {
      assert s == s[..i] + [ch] + s[i + 1..];
      SplitPrefix(s[..i], s[i + 1..], ch);
    }
  }

  /** Records one more occurrence of `key`: a first occurrence is stored as
      is, a second turns the entry into a two-element array, later ones are
      appended; the key keeps its original position. */
  function AddValue(res: Query, key: string, val: Scalar): (r: Query)
    ensures !Has(res, key) ==> r == res + [(key, Single(val))]
    ensures var e := Get(res, key); e.Some? && e.value.Single? ==> Get(r, key) == Some(Multi([e.value.v, val]))
    ensures var e := Get(res, key); e.Some? && e.value.Multi? ==> Get(r, key) == Some(Multi(e.value.items + [val]))
    ensures Has(res, key) ==> Keys(r) == Keys(res)
    ensures forall k :: k != key ==> Get(r, k) == Get(res, k)
  {
    var existing: Option<QValue> := Get(res, key);
    if existing.None? then Put(res, key, Single(val))
    else match existing.value
      case Multi(items) => Put(res, key, Multi(items + [val]))
      case Single(prev) => Put(res, key, Multi([prev, val]))
  }

  /** Folds the segments into the dictionary, left to right. */
  function ParseSegments(c: Codec, res: Query, params: seq<string>): Option<Query>
    decreases |params|
  {
    if |params| == 0 then Some(res)
    else match ParsePair(c, params[0])
      case None => None
      case Some(kv) => ParseSegments(c, AddValue(res, kv.0, kv.1), params[1..])
  }

  /** `parseQuery(query)`: trim, drop one leading `?`/`#`/`&`, split on `&`.
      `None` models the exception a malformed escape raises. */
  function ParseQuery(c: Codec, query: string): (r: Option<Query>)
  {
    var q := StripLead(Trim(query));
    if q == "" then Some([]) else ParseSegments(c, [], Split(q, '&'))
  }

  /** `resolveQuery(query, extraQuery)`: the parsed query (or `{}` when the
      parse throws) with every extra key written over it. */
  function ResolveQuery(c: Codec, query: string, extra: Query): (r: Query)
  {
    Overlay(ParseQuery(c, query), extra)
  }

  /** The extra keys written over a parse result, `{}` for a throw. */
  function Overlay(parsed: Option<Query>, extra: Query): (r: Query)
    ensures forall k :: Get(r, k) ==
              if Has(extra, k) then Get(extra, k)
              else if parsed.Some? then Get(parsed.value, k)
              else None
  {
    Assign(parsed.GetOr([]), extra)
  }

  // ------------------------------------------------------------ serialising

  /** One array element or scalar rendered against its key. */
  function Pair(c: Codec, key: string, item: Scalar): string
  {
    match item
    case Null => c.encode(key)
    case Str(s) => c.encode(key) + "=" + c.encode(s)
    case Undef => ""
  }

  /** The pairs of an array value: `undefined` elements are skipped. */
  function ArrayPairs(c: Codec, key: string, items: seq<Scalar>): (r: seq<string>)
    ensures (forall i :: 0 <= i < |items| ==> !items[i].Undef?) ==>
      |r| == |items| && forall i :: 0 <= i < |items| ==> r[i] == Pair(c, key, items[i])
  {
    if |items| == 0 then []
    else (if items[0].Undef? then [] else [Pair(c, key, items[0])]) + ArrayPairs(c, key, items[1..])
  }

  /** The rendering of one entry (`""` for an `undefined` value). */
  function Render(c: Codec, key: string, v: QValue): string
  {
    match v
    case Single(s) => Pair(c, key, s)
    case Multi(items) => Join(ArrayPairs(c, key, items), '&')
  }

  /** The non-empty renderings, in key order. */
  function Rendered(c: Codec, q: Query): (r: seq<string>)
    ensures forall i :: 0 <= i < |r| ==> |r[i]| > 0
    ensures |r| <= |q|
  {
    if |q| == 0 then []
    else
      var x := Render(c, q[0].0, q[0].1);
      (if |x| > 0 then [x] else []) + Rendered(c, q[1..])
  }

  /** `stringifyQuery(obj)`: `?` followed by the `&`-joined non-empty
      renderings, or `""` when none survives. */
  function StringifyQuery(c: Codec, q: Query): (r: string)
    ensures Rendered(c, q) == [] ==> r == ""
    ensures Rendered(c, q) != [] ==> r == "?" + Join(Rendered(c, q), '&')
  {
    var parts := Rendered(c, q);
    JoinNonEmpty(parts);
    var res := Join(parts, '&');
    if res == "" then "" else "?" + res
  }

  /** A join of non-empty parts is empty exactly when there are no parts. */
  lemma JoinNonEmpty(parts: seq<string>)
    requires forall i :: 0 <= i < |parts| ==> |parts[i]| > 0
    ensures (Join(parts, '&') == "") <==> (parts == [])
  {
    if |parts| > 0 {
      assert |parts[0]| > 0;
      if |parts| > 1 {
        assert Join(parts, '&') == parts[0] + ['&'] + Join(parts[1..], '&');
      }
    }
  }
}

=== FILE: query_round_trip.dfy ===
/** The round trip of the query codec: with a sound codec, parsing the
    serialisation of a dictionary whose keys are non-empty and not inherited
    from `Object.prototype`, and whose values
    are strings, `null`s or arrays of at least two of them gives the
    dictionary back; a one-element array comes back as a plain value. */
module QueryRoundTrip {
  import opened Wrappers
  import opened Strings
  import opened Dict
  import opened Query

  /** A value the codec reproduces exactly. */
  predicate GoodValue(v: QValue) {
    match v
    case Single(s) => !s.Undef?
    case Multi(items) => |items| >= 2 && forall i :: 0 <= i < |items| ==> !items[i].Undef?
  }

  /** Non-empty own keys that no plain object inherits, and reproducible
      values. */
  predicate RoundTrippable(q: Query) {
    forall i :: 0 <= i < |q| ==> q[i].0 != "" && q[i].0 !in ObjectPrototypeNames && GoodValue(q[i].1)
  }

  /** No white space, `+`, `?` or `#` (but `&` and `=` allowed). */
  predicate Plain(s: string) {
    forall i :: 0 <= i < |s| ==> !IsSpace(s[i]) && s[i] != '+' && s[i] != '?' && s[i] != '#'
  }

  /** The pairs an entry contributes to the serialisation. */
  function EntryPairs(c: Codec, key: string, v: QValue): seq<string> {
    match v
    case Single(s) => [Pair(c, key, s)]
    case Multi(items) => ArrayPairs(c, key, items)
  }

  /** All pairs of the serialisation, in order. */
  function AllPairs(c: Codec, q: Query): seq<string> {
    if |q| == 0 then [] else EntryPairs(c, q[0].0, q[0].1) + AllPairs(c, q[1..])
  }

  /** An encoded component is plain and free of `&` and `=`. */
  lemma EncodedShape(c: Codec, x: string)
    requires Sound(c)
    ensures var e := c.encode(x); Plain(e) && NoChar(e, '&') && NoChar(e, '=')
    ensures |x| > 0 ==> |c.encode(x)| > 0
  {
    var e := c.encode(x);
    assert forall i :: 0 <= i < |e| ==> !Reserved(e[i]);
  }

  /** A rendered pair is non-empty, plain and free of `&`. */
  lemma PairShape(c: Codec, key: string, item: Scalar)
    requires Sound(c) && key != "" && !item.Undef?
    ensures var p := Pair(c, key, item);
      |p| > 0 && Plain(p) && NoChar(p, '&')
  {
    var ek := c.encode(key);
    EncodedShape(c, key);
    if item.Str? {
      var ev := c.encode(item.s);
      EncodedShape(c, item.s);
      var p := ek + "=" + ev;
      assert forall i :: 0 <= i < |ek| ==> p[i] == ek[i];
      assert p[|ek|] == '=';
      assert forall i :: |ek| < i < |p| ==> p[i] == ev[i - |ek| - 1];
    }
  }

  /** Parsing a rendered pair recovers the key and the element. */
  lemma ParsePairOfPair(c: Codec, key: string, item: Scalar)
    requires Sound(c) && !item.Undef?
    ensures ParsePair(c, Pair(c, key, item)) == Some((key, item))
  {
    var ek := c.encode(key);
    var p := Pair(c, key, item);
    var q := ReplaceChar(p, '+', ' ');
    PairPlainish(c, key, item);
    if item.Str? {
      var ev := c.encode(item.s);
      assert p == ek + "=" + ev;
      assert q == p;
      EncodedShape(c, key);
      EncodedShape(c, item.s);
      assert q[..|ek|] == ek;
      IndexOfAt(q, '=', |ek|);
      assert q[|ek| + 1..] == ev;
      assert c.decode(ek) == Some(key);
      assert c.decode(ev) == Some(item.s);
    } else {
      EncodedShape(c, key);
      assert p == ek;
      assert q == p;
      assert c.decode(ek) == Some(key);
    }
  }

  /** A rendered pair holds no `+`, so replacing `+` leaves it alone. */
  lemma PairPlainish(c: Codec, key: string, item: Scalar)
    requires Sound(c) && !item.Undef?
    ensures ReplaceChar(Pair(c, key, item), '+', ' ') == Pair(c, key, item)
  {
    var p := Pair(c, key, item);
    var ek := c.encode(key);
    EncodedShape(c, key);
    if item.Str? {
      EncodedShape(c, item.s);
      var ev := c.encode(item.s);
      assert forall i :: 0 <= i < |ek| ==> p[i] == ek[i];
      assert forall i :: |ek| < i < |p| ==> p[i] == ev[i - |ek| - 1];
    }
    assert forall i :: 0 <= i < |p| ==> p[i] != '+';
  }

  /** Joining plain parts with `&` gives a plain string. */
  lemma {:induction false} JoinPlain(parts: seq<string>)
    requires forall i :: 0 <= i < |parts| ==> Plain(parts[i])
    ensures Plain(Join(parts, '&'))
  {
    if |parts| > 1 {
      JoinPlain(parts[1..]);
      var a := parts[0];
      var b := Join(parts[1..], '&');
      var j := a + ['&'] + b;
      assert forall i :: 0 <= i < |j| ==> j[i] == (if i < |a| then a[i] else if i == |a| then '&' else b[i - |a| - 1]);
    }
  }

  /** Non-empty, plain, `&`-free pairs. */
  predicate GoodPairs(ps: seq<string>) {
    forall i :: 0 <= i < |ps| ==> |ps[i]| > 0 && Plain(ps[i]) && NoChar(ps[i], '&')
  }

  /** The pairs of a reproducible array value are good. */
  lemma {:induction false} ArrayPairsShape(c: Codec, key: string, items: seq<Scalar>)
    requires Sound(c) && key != ""
    requires forall i :: 0 <= i < |items| ==> !items[i].Undef?
    ensures GoodPairs(ArrayPairs(c, key, items))
  {
    var ps := ArrayPairs(c, key, items);
    forall i | 0 <= i < |ps| ensures |ps[i]| > 0 && Plain(ps[i]) && NoChar(ps[i], '&') {
      PairShape(c, key, items[i]);
    }
  }

  /** The pairs of a reproducible entry are good and there is at least one. */
  lemma EntryPairsShape(c: Codec, key: string, v: QValue)
    requires Sound(c) && key != "" && GoodValue(v)
    ensures GoodPairs(EntryPairs(c, key, v)) && |EntryPairs(c, key, v)| > 0
  {
    match v
    case Single(s) => PairShape(c, key, s);
    case Multi(items) => ArrayPairsShape(c, key, items);
  }

  /** Every pair of a round-trippable dictionary is good; there is at least
      one pair per entry. */
  lemma {:induction false} AllPairsShape(c: Codec, q: Query)
    requires Sound(c) && RoundTrippable(q)
    ensures GoodPairs(AllPairs(c, q))
    ensures |q| > 0 ==> |AllPairs(c, q)| > 0
  {
    if |q| > 0 {
      var e := EntryPairs(c, q[0].0, q[0].1);
      var r := AllPairs(c, q[1..]);
      assert GoodPairs(e) && |e| > 0 by { EntryPairsShape(c, q[0].0, q[0].1); }
      assert GoodPairs(r) by {
        assert RoundTrippable(q[1..]);
        AllPairsShape(c, q[1..]);
      }
      assert AllPairs(c, q) == e + r;
      GoodPairsAppend(e, r);
    }
  }

  lemma GoodPairsAppend(a: seq<string>, b: seq<string>)
    requires GoodPairs(a) && GoodPairs(b)
    ensures GoodPairs(a + b)
  {
    assert forall i :: 0 <= i < |a + b| ==> (a + b)[i] == (if i < |a| then a[i] else b[i - |a|]);
  }

  /** The serialisation is `?` followed by the `&`-join of all pairs. */
  lemma {:induction false} RenderedJoin(c: Codec, q: Query)
    requires Sound(c) && RoundTrippable(q) && |q| > 0
    ensures |Rendered(c, q)| > 0
    ensures Join(Rendered(c, q), '&') == Join(AllPairs(c, q), '&')
  {
    var e := EntryPairs(c, q[0].0, q[0].1);
    var x := Render(c, q[0].0, q[0].1);
    assert x == Join(e, '&');
    EntryPairsShape(c, q[0].0, q[0].1);
    JoinNonEmptyPairs(e);
    assert |x| > 0;
    assert Rendered(c, q) == [x] + Rendered(c, q[1..]);
    if |q| > 1 {
      RenderedJoin(c, q[1..]);
      JoinCons(x, Rendered(c, q[1..]), '&');
      JoinAppend(e, AllPairs(c, q[1..]), '&');
    } else {
      assert Rendered(c, q[1..]) == [];
      assert AllPairs(c, q[1..]) == [];
      assert AllPairs(c, q) == e;
      assert Rendered(c, q) == [x];
    }
  }

  /** A join of a non-empty list whose first part is non-empty is non-empty. */
  lemma JoinNonEmptyPairs(ps: seq<string>)
    requires |ps| > 0 && |ps[0]| > 0
    ensures |Join(ps, '&')| > 0
  {
    if |ps| > 1 {
      assert Join(ps, '&') == ps[0] + ['&'] + Join(ps[1..], '&');
    }
  }

  /** Folding a concatenation is folding the halves in turn. */
  lemma {:induction false} ParseSegmentsAppend(c: Codec, acc: Query, a: seq<string>, b: seq<string>)
    ensures ParseSegments(c, acc, a + b) ==
      (match ParseSegments(c, acc, a)
       case None => None
       case Some(mid) => ParseSegments(c, mid, b))
    decreases |a|
  {
    if |a| == 0 {
      assert a + b == b;
    } else {
      assert (a + b)[0] == a[0];
      assert (a + b)[1..] == a[1..] + b;
      var kv := ParsePair(c, a[0]);
      if kv.Some? {
        ParseSegmentsAppend(c, AddValue(acc, kv.value.0, kv.value.1), a[1..], b);
      }
    }
  }

  /** Writing a new value over the last entry keeps the order. */
  lemma PutLast(acc: Query, key: string, v: QValue, w: QValue)
    requires !Has(acc, key)
    ensures DistinctKeys(acc + [(key, v)]) && DistinctKeys(acc + [(key, w)])
    ensures Put(acc + [(key, v)], key, w) == acc + [(key, w)]
  {
    var d: Query := acc + [(key, v)];
    var e: Query := acc + [(key, w)];
    assert Keys(d) == Keys(acc) + [key];
    assert d[|d| - 1].0 == key;
    assert Has(d, key);
    assert Keys(e) == Keys(d);
    GetSnoc(d);
    GetSnoc(e);
    assert d[..|d| - 1] == acc && e[..|e| - 1] == acc;
    Extensionality(Put(d, key, w), e);
  }

  /** The value stored under the last key of a dictionary. */
  lemma GetLast(acc: Query, key: string, v: QValue)
    requires !Has(acc, key)
    ensures DistinctKeys(acc + [(key, v)])
    ensures var d: Query := acc + [(key, v)]; Get(d, key) == Some(v)
  {
    PutLast(acc, key, v, v);
    var d: Query := acc + [(key, v)];
    assert d[|d| - 1] == (key, v);
  }

  /** A repeated key after a plain value turns the last entry into a pair. */
  lemma AddOntoSingle(acc: Query, key: string, prev: Scalar, x: Scalar)
    requires !Has(acc, key)
    ensures DistinctKeys(acc + [(key, Single(prev))])
    ensures AddValue(acc + [(key, Single(prev))], key, x) == acc + [(key, Multi([prev, x]))]
  {
    GetLast(acc, key, Single(prev));
    PutLast(acc, key, Single(prev), Multi([prev, x]));
  }

  /** A repeated key after an array appends to the last entry. */
  lemma AddOntoMulti(acc: Query, key: string, xs: seq<Scalar>, x: Scalar)
    requires !Has(acc, key)
    ensures DistinctKeys(acc + [(key, Multi(xs))])
    ensures AddValue(acc + [(key, Multi(xs))], key, x) == acc + [(key, Multi(xs + [x]))]
  {
    GetLast(acc, key, Multi(xs));
    PutLast(acc, key, Multi(xs), Multi(xs + [x]));
  }

  /** One step of the fold. */
  lemma ParseCons(c: Codec, acc: Query, ps: seq<string>, key: string, x: Scalar)
    requires |ps| > 0 && ParsePair(c, ps[0]) == Some((key, x))
    ensures ParseSegments(c, acc, ps) == ParseSegments(c, AddValue(acc, key, x), ps[1..])
  {
  }

  /** Every element of `items` survives its own rendering and parsing. */
  predicate ParsesBack(c: Codec, key: string, items: seq<Scalar>) {
    forall i :: 0 <= i < |items| ==> ParsePair(c, Pair(c, key, items[i])) == Some((key, items[i]))
  }

  /** With a sound codec every defined element parses back. */
  lemma ParsesBackSound(c: Codec, key: string, items: seq<Scalar>)
    requires Sound(c)
    requires forall i :: 0 <= i < |items| ==> !items[i].Undef?
    ensures ParsesBack(c, key, items)
  {
    forall i | 0 <= i < |items| ensures ParsePair(c, Pair(c, key, items[i])) == Some((key, items[i])) {
      ParsePairOfPair(c, key, items[i]);
    }
  }

  /** The tail of an array folds onto the array entry already present. */
  lemma {:induction false} ParseArrayTail(c: Codec, acc: Query, key: string, xs: seq<Scalar>, rest: seq<Scalar>)
    requires !Has(acc, key)
    requires forall i :: 0 <= i < |rest| ==> !rest[i].Undef?
    requires ParsesBack(c, key, rest)
    ensures DistinctKeys(acc + [(key, Multi(xs))])
    ensures ParseSegments(c, acc + [(key, Multi(xs))], ArrayPairs(c, key, rest)) == Some(acc + [(key, Multi(xs + rest))])
    decreases |rest|
  {
    AddOntoMulti(acc, key, xs, Null);
    if |rest| == 0 {
      assert xs + rest == xs;
    } else {
      var ps := ArrayPairs(c, key, rest);
      assert ps[0] == Pair(c, key, rest[0]) && ps[1..] == ArrayPairs(c, key, rest[1..]);
      AddOntoMulti(acc, key, xs, rest[0]);
      ParseCons(c, acc + [(key, Multi(xs))], ps, key, rest[0]);
      assert ParsesBack(c, key, rest[1..]) by {
        assert forall i :: 0 <= i < |rest[1..]| ==> rest[1..][i] == rest[i + 1];
      }
      ParseArrayTail(c, acc, key, xs + [rest[0]], rest[1..]);
      MoveHead(xs, rest);
    }
  }

  /** Moving the head of `rest` to the end of `xs` keeps the concatenation. */
  lemma MoveHead<T>(xs: seq<T>, rest: seq<T>)
    requires |rest| > 0
    ensures xs + [rest[0]] + rest[1..] == xs + rest
  {
  }

  /** `[p] + rest` folds as `p` followed by `rest`. */
  lemma ParseConsPair(c: Codec, acc: Query, p: string, rest: seq<string>, key: string, x: Scalar)
    requires ParsePair(c, p) == Some((key, x))
    ensures ParseSegments(c, acc, [p] + rest) == ParseSegments(c, AddValue(acc, key, x), rest)
  {
    assert ([p] + rest)[1..] == rest;
  }

  /** A defined first element contributes exactly one pair. */
  lemma ArrayPairsCons(c: Codec, key: string, items: seq<Scalar>)
    requires |items| > 0 && !items[0].Undef?
    ensures ArrayPairs(c, key, items) == [Pair(c, key, items[0])] + ArrayPairs(c, key, items[1..])
  {
  }

  /** The tail of a sequence of defined elements is defined. */
  lemma DefinedTail(items: seq<Scalar>)
    requires |items| > 0 && forall i :: 0 <= i < |items| ==> !items[i].Undef?
    ensures forall i :: 0 <= i < |items[1..]| ==> !items[1..][i].Undef?
  {
  }

  /** The first two elements and the rest make up the sequence. */
  lemma TwoAndRest<T>(items: seq<T>)
    requires |items| >= 2
    ensures [items[0], items[1..][0]] + items[1..][1..] == items
  {
  }

  /** An array entry of at least two elements folds onto a dictionary
      lacking its key: a plain value first, then a pair, then appends. */
  lemma ParseMulti(c: Codec, acc: Query, key: string, items: seq<Scalar>)
    requires Sound(c) && !Has(acc, key) && GoodValue(Multi(items))
    ensures DistinctKeys(acc + [(key, Multi(items))])
    ensures ParseSegments(c, acc, ArrayPairs(c, key, items)) == Some(acc + [(key, Multi(items))])
  {
    GetLast(acc, key, Multi(items));
    var a0 := items[0];
    var more := items[1..];
    DefinedTail(items);
    var a1 := more[0];
    var tail := more[1..];
    DefinedTail(more);
    ArrayPairsCons(c, key, items);
    ArrayPairsCons(c, key, more);
    ParsePairOfPair(c, key, a0);
    ParsePairOfPair(c, key, a1);
    ParseConsPair(c, acc, Pair(c, key, a0), ArrayPairs(c, key, more), key, a0);
    AddOntoSingle(acc, key, a0, a1);
    ParseConsPair(c, acc + [(key, Single(a0))], Pair(c, key, a1), ArrayPairs(c, key, tail), key, a1);
    ParsesBackSound(c, key, tail);
    ParseArrayTail(c, acc, key, [a0, a1], tail);
    TwoAndRest(items);
  }

  /** One reproducible entry folds onto a dictionary lacking its key. */
  lemma ParseEntry(c: Codec, acc: Query, key: string, v: QValue)
    requires Sound(c) && !Has(acc, key) && GoodValue(v)
    ensures DistinctKeys(acc + [(key, v)])
    ensures ParseSegments(c, acc, EntryPairs(c, key, v)) == Some(acc + [(key, v)])
  {
    GetLast(acc, key, v);
    match v
    case Single(s) =>
      ParsePairOfPair(c, key, s);
      ParseConsPair(c, acc, Pair(c, key, s), [], key, s);
      assert [Pair(c, key, s)] + [] == [Pair(c, key, s)];
    case Multi(items) =>
      ParseMulti(c, acc, key, items);
  }

  /** The keys of the rest of a dictionary are absent from a prefix extended
      by its first entry. */
  lemma FreshTail(acc: Query, q: Query)
    requires |q| > 0
    requires forall i :: 0 <= i < |q| ==> !Has(acc, q[i].0)
    ensures DistinctKeys(acc + [q[0]])
    ensures var acc': Query := acc + [q[0]]; forall i :: 0 <= i < |q[1..]| ==> !Has(acc', q[1..][i].0)
  {
    GetLast(acc, q[0].0, q[0].1);
    var acc': Query := acc + [q[0]];
    GetSnoc(acc');
    assert acc'[..|acc'| - 1] == acc;
    forall i | 0 <= i < |q[1..]| ensures !Has(acc', q[1..][i].0) {
      assert q[1..][i].0 == q[i + 1].0 != q[0].0;
    }
  }

  /** All entries fold, in order, onto a dictionary lacking their keys. */
  lemma {:induction false} ParseAll(c: Codec, acc: Query, q: Query)
    requires Sound(c) && RoundTrippable(q)
    requires forall i :: 0 <= i < |q| ==> !Has(acc, q[i].0)
    ensures DistinctKeys(acc + q)
    ensures ParseSegments(c, acc, AllPairs(c, q)) == Some(acc + q)
    decreases |q|
  {
    if |q| == 0 {
      assert acc + q == acc;
    } else {
      var k := q[0].0;
      FreshTail(acc, q);
      var acc': Query := acc + [q[0]];
      assert RoundTrippable(q[1..]);
      ParseAll(c, acc', q[1..]);
      ParseEntry(c, acc, k, q[0].1);
      ParseSegmentsAppend(c, acc, EntryPairs(c, k, q[0].1), AllPairs(c, q[1..]));
      MoveHead(acc, q);
    }
  }

  /** Round trip: `parseQuery(stringifyQuery(q))` is `q` again. */
  lemma RoundTrip(c: Codec, q: Query)
    requires Sound(c) && RoundTrippable(q)
    ensures ParseQuery(c, StringifyQuery(c, q)) == Some(q)
  {
    if |q| == 0 {
      assert Rendered(c, q) == [];
      assert Trim("") == "";
    } else {
      RoundTripNonEmpty(c, q);
    }
  }

  /** The round trip of a query with at least one entry. */
  lemma RoundTripNonEmpty(c: Codec, q: Query)
    requires Sound(c) && RoundTrippable(q) && |q| > 0
    ensures ParseQuery(c, StringifyQuery(c, q)) == Some(q)
  {
    PreparedParse(c, q);
    ParseAll(c, [], q);
    assert [] + q == q;
  }

  /** Parsing the serialisation folds exactly the pairs it was made of. */
  lemma PreparedParse(c: Codec, q: Query)
    requires Sound(c) && RoundTrippable(q) && |q| > 0
    ensures ParseQuery(c, StringifyQuery(c, q)) == ParseSegments(c, [], AllPairs(c, q))
  {
    var ps := AllPairs(c, q);
    Prepared(c, q);
    AllPairsShape(c, q);
    SplitJoin(ps, '&');
  }

  /** Trimming the serialisation and dropping its `?` leaves the non-empty
      `&`-join of the pairs. */
  lemma Prepared(c: Codec, q: Query)
    requires Sound(c) && RoundTrippable(q) && |q| > 0
    ensures var j := Join(AllPairs(c, q), '&');
      j != "" && StripLead(Trim(StringifyQuery(c, q))) == j
  {
    RenderedJoin(c, q);
    AllPairsShape(c, q);
    var ps := AllPairs(c, q);
    JoinPlain(ps);
    JoinNonEmptyPairs(ps);
    TrimQuestion(Join(ps, '&'));
  }

  /** A `?` in front of a plain string is left alone by `trim` and removed
      by the leading-character strip. */
  lemma TrimQuestion(j: string)
    requires Plain(j)
    ensures StripLead(Trim("?" + j)) == j
  {
    var s := "?" + j;
    assert NoSpace(s) by {
      assert forall i :: 1 <= i < |s| ==> s[i] == j[i - 1];
    }
    assert Trim(s) == s;
  }

  /** A one-element array does not survive: it comes back as a plain value. */
  lemma SingletonArrayCollapses(c: Codec, key: string, s: string)
    requires Sound(c) && key != "" && key !in ObjectPrototypeNames
    ensures ParseQuery(c, StringifyQuery(c, [(key, Multi([Str(s)]))])) == Some([(key, Single(Str(s)))])
  {
    var single: Query := [(key, Single(Str(s)))];
    var multi: Query := [(key, Multi([Str(s)]))];
    assert ArrayPairs(c, key, [Str(s)]) == [Pair(c, key, Str(s))];
    assert Render(c, key, Multi([Str(s)])) == Render(c, key, Single(Str(s)));
    assert Rendered(c, multi) == Rendered(c, single);
    assert StringifyQuery(c, multi) == StringifyQuery(c, single);
    RoundTrip(c, single);
  }
}

=== FILE: route.dfy ===
/** Route construction and comparison (`src/util/route.js`): the immutable
    route object, its root-first chain of matched records, its full path,
    and the equality and inclusion tests the transition engine and links
    rely on. */
module RouteOps {
  import opened Wrappers
  import opened Strings
  import opened Dict
  import opened Query
  import opened Types
  import Path

  // ------------------------------------------------------------- chains

  /** Root first, each element the parent of the next, the first without
      a parent. */
  predicate IsChain(s: seq<RouteRecord>) {
    && (|s| > 0 ==> s[0].parent.None?)
    && (forall i :: 0 < i < |s| ==> s[i].parent == Some(s[i - 1]))
  }

  /** `formatMatch(record)`: the record and its ancestors, root first. */
  function FormatMatch(record: RouteRecord): (r: seq<RouteRecord>)
    ensures |r| > 0 && r[|r| - 1] == record
    ensures IsChain(r)
    decreases record
  {
    match record.parent
    case None => [record]
    case Some(p) =>
      var up := FormatMatch(p);
      assert forall i :: 0 < i < |up| ==> (up + [record])[i] == up[i];
      up + [record]
  }

  /** A chain is determined by its last element: it is `formatMatch` of it. */
  lemma {:induction false} ChainUnique(s: seq<RouteRecord>)
    requires |s| > 0 && IsChain(s)
    ensures s == FormatMatch(s[|s| - 1])
    decreases |s|
  {
    var last := s[|s| - 1];
    if |s| == 1 {
      assert last.parent.None?;
    } else {
      var init := s[..|s| - 1];
      forall i | 0 < i < |init| ensures init[i].parent == Some(init[i - 1]) {
        assert init[i] == s[i] && init[i - 1] == s[i - 1];
      }
      ChainUnique(init);
      assert last.parent == Some(init[|init| - 1]);
      assert s == init + [last];
    }
  }

  // ---------------------------------------------------------- full path

  /** `getFullPath(location)`: the path (or `/`), the serialised query and
      the hash. */
  function FullPath(c: Codec, l: Location): string
  {
    (if l.path == "" then "/" else l.path) + StringifyQuery(c, l.query) + l.hash
  }

  /** The relations between the fields of a route that `createRoute`
      establishes: a non-empty path, a full path made of the path, the
      serialised query and the hash, and a root-first matched chain. */
  predicate WellFormed(c: Codec, r: Route) {
    && r.path != ""
    && r.fullPath == r.path + StringifyQuery(c, r.query) + r.hash
    && IsChain(r.matched)
  }

  /** `createRoute(record, location, redirectedFrom)`. */
  function CreateRoute(c: Codec, record: Option<RouteRecord>, l: Location, redirectedFrom: Option<Location>): (r: Route)
    ensures !r.isStart && WellFormed(c, r)
    ensures r.matched == [] <==> record.None?
    ensures record.Some? ==> r.matched[|r.matched| - 1] == record.value
    ensures r.path == (if l.path == "" then "/" else l.path) && r.hash == l.hash
    ensures r.query == l.query && r.params == l.params.GetOr([])
    ensures r.name == (if l.name != "" then l.name else if record.Some? then record.value.name else "")
    ensures r.redirectedFrom.Some? <==> redirectedFrom.Some?
    ensures redirectedFrom.Some? ==> r.redirectedFrom.value == FullPath(c, redirectedFrom.value)
  {
    Route(
      false,
      if l.name != "" then l.name else if record.Some? then record.value.name else "",
      if record.Some? then record.value.meta else None,
      if l.path == "" then "/" else l.path,
      l.hash,
      l.query,
      l.params.GetOr([]),
      FullPath(c, l),
      if record.Some? then FormatMatch(record.value) else [],
      if redirectedFrom.Some? then Some(FullPath(c, redirectedFrom.value)) else None)
  }

  /** `START`: the route that stands for "nowhere yet". */
  const Start: Route := Route(true, "", None, "/", "", [], [], "/", [], None)

  /** `START` has the shape of `createRoute(null, { path: '/' })`. */
  lemma StartShape(c: Codec)
    ensures WellFormed(c, Start)
    ensures Start == CreateRoute(c, None, PathLocation("/"), None).(isStart := true)
  {
    assert Rendered(c, []) == [];
  }

  /** The full path of a route splits back into its path, the query
      string and the hash, provided the path holds no `?` or `#` and the
      hash is empty or starts with `#`. */
  lemma FullPathSplits(c: Codec, r: Route)
    requires Sound(c) && WellFormed(c, r)
    requires NoChar(r.path, '?') && NoChar(r.path, '#')
    requires r.hash == "" || r.hash[0] == '#'
    ensures var p := Path.ParsePath(r.fullPath);
      p.path == r.path && p.hash == r.hash
      && (StringifyQuery(c, r.query) == "" ==> p.query == "")
      && (StringifyQuery(c, r.query) != "" ==> "?" + p.query == StringifyQuery(c, r.query))
  {
    var sq := StringifyQuery(c, r.query);
    if sq == "" {
      Path.ParsePathOfParts(r.path, "", r.hash, false);
      assert r.fullPath == r.path + r.hash;
    } else {
      var body := Join(Rendered(c, r.query), '&');
      QueryNoHash(c, r.query);
      SplitWithQuery(r.path, body, r.hash);
    }
  }

  /** `path + ('?' + body) + hash` parses back into its three parts. */
  lemma SplitWithQuery(path: string, body: string, hash: string)
    requires NoChar(path, '?') && NoChar(path, '#') && NoChar(body, '#')
    requires hash == "" || hash[0] == '#'
    ensures Path.ParsePath(path + ("?" + body) + hash) == Path.ParsedPath(path, body, hash)
  {
    Path.ParsePathOfParts(path, body, hash, true);
    Regroup(path, "?", body, hash);
  }

  /** The serialised query never holds `#`. */
  lemma QueryNoHash(c: Codec, q: Query)
    requires Sound(c)
    ensures NoChar(Join(Rendered(c, q), '&'), '#')
  {
    RenderedNoHash(c, q);
    JoinNoChar(Rendered(c, q), '&', '#');
  }

  /** No rendering holds `#`. */
  lemma {:induction false} RenderedNoHash(c: Codec, q: Query)
    requires Sound(c)
    ensures forall i :: 0 <= i < |Rendered(c, q)| ==> NoChar(Rendered(c, q)[i], '#')
  {
    if |q| > 0 {
      RenderedNoHash(c, q[1..]);
      var x := Render(c, q[0].0, q[0].1);
      RenderNoHash(c, q[0].0, q[0].1);
      var rs := (if |x| > 0 then [x] else []) + Rendered(c, q[1..]);
      assert Rendered(c, q) == rs;
      assert forall i :: 0 <= i < |rs| ==> rs[i] == (if |x| > 0 && i == 0 then x else Rendered(c, q[1..])[i - (if |x| > 0 then 1 else 0)]);
    }
  }

  /** One entry's rendering holds no `#`. */
  lemma RenderNoHash(c: Codec, key: string, v: QValue)
    requires Sound(c)
    ensures NoChar(Render(c, key, v), '#')
  {
    match v
    case Single(s) => PairNoHash(c, key, s);
    case Multi(items) =>
      var ps := ArrayPairs(c, key, items);
      ArrayPairsNoHash(c, key, items);
      JoinNoChar(ps, '&', '#');
  }

  /** The pairs of an array hold no `#`. */
  lemma {:induction false} ArrayPairsNoHash(c: Codec, key: string, items: seq<Scalar>)
    requires Sound(c)
    ensures forall i :: 0 <= i < |ArrayPairs(c, key, items)| ==> NoChar(ArrayPairs(c, key, items)[i], '#')
  {
    if |items| > 0 {
      ArrayPairsNoHash(c, key, items[1..]);
      PairNoHash(c, key, items[0]);
      var head := if items[0].Undef? then [] else [Pair(c, key, items[0])];
      var ps := head + ArrayPairs(c, key, items[1..]);
      assert ArrayPairs(c, key, items) == ps;
      assert forall i :: 0 <= i < |ps| ==> ps[i] == (if i < |head| then head[i] else ArrayPairs(c, key, items[1..])[i - |head|]);
    }
  }

  /** One rendered pair holds no `#`. */
  lemma PairNoHash(c: Codec, key: string, item: Scalar)
    requires Sound(c)
    ensures NoChar(Pair(c, key, item), '#')
  {
    var ek := c.encode(key);
    assert forall i :: 0 <= i < |ek| ==> !Reserved(ek[i]);
    if item.Str? {
      var ev := c.encode(item.s);
      assert forall i :: 0 <= i < |ev| ==> !Reserved(ev[i]);
      var p := ek + "=" + ev;
      assert forall i :: 0 <= i < |p| ==> p[i] == (if i < |ek| then ek[i] else if i == |ek| then '=' else ev[i - |ek| - 1]);
    }
  }

  /** Joining parts free of a character with a different separator gives a
      string free of it. */
  lemma {:induction false} JoinNoChar(parts: seq<string>, sep: char, ch: char)
    requires sep != ch
    requires forall i :: 0 <= i < |parts| ==> NoChar(parts[i], ch)
    ensures NoChar(Join(parts, sep), ch)
  {
    if |parts| > 1 {
      JoinNoChar(parts[1..], sep, ch);
      var a := parts[0];
      var b := Join(parts[1..], sep);
      var j := a + [sep] + b;
      assert forall i :: 0 <= i < |j| ==> j[i] == (if i < |a| then a[i] else if i == |a| then sep else b[i - |a| - 1]);
    }
  }

  // ----------------------------------------------------------- equality

  /** `String(v)` of a scalar. */
  function ScalarString(v: Scalar): string {
    match v
    case Str(s) => s
    case Null => "null"
    case Undef => "undefined"
  }

  /** An array element inside `Array.prototype.join`: `null` and
      `undefined` become empty. */
  function ElementString(v: Scalar): string {
    if v.Str? then v.s else ""
  }

  /** `String(v)` of a query value; an array joins its elements with `,`. */
  function ValueString(v: QValue): string {
    match v
    case Single(s) => ScalarString(s)
    case Multi(items) => Join(seq(|items|, i requires 0 <= i < |items| => ElementString(items[i])), ',')
  }

  /** `typeof v === 'object'`: `null` and arrays. */
  predicate IsObject(v: QValue) {
    v.Multi? || v == Single(Null)
  }

  /** The comparison of two values inside `isObjectEqual`: two objects are
      compared recursively (`null` only equals `null`; arrays element by
      element, by string), anything else by `String`. */
  predicate ValueEqual(a: QValue, b: QValue) {
    if IsObject(a) && IsObject(b) then
      if a == Single(Null) || b == Single(Null) then a == b
      else |a.items| == |b.items| && forall i :: 0 <= i < |a.items| ==> ScalarString(a.items[i]) == ScalarString(b.items[i])
    else ValueString(a) == ValueString(b)
  }

  /** `b[key]`, with `undefined` for a missing key. */
  function Lookup(b: Query, key: string): QValue {
    Get(b, key).GetOr(Single(Undef))
  }

  /** `isObjectEqual(a, b)` as written: equal key counts, and every key of
      `a` holds an equal value in `b`, where a key missing from `b` reads as
      `undefined`.  The keys of `b` are never consulted. */
  predicate ObjectEqualAsWritten(a: Query, b: Query) {
    |a| == |b| && forall i :: 0 <= i < |a| ==> ValueEqual(a[i].1, Lookup(b, a[i].0))
  }

  /** Evidently intended: the same keys, and equal values under each. */
  predicate ObjectEqual(a: Query, b: Query) {
    |a| == |b| && forall i :: 0 <= i < |a| ==> Has(b, a[i].0) && ValueEqual(a[i].1, Lookup(b, a[i].0))
  }

  /** The as-written test confuses a missing key with the string
      `'undefined'`, and is not symmetric. */
  lemma ObjectEqualAsWrittenCounterexample()
    ensures ObjectEqualAsWritten([("x", Single(Str("undefined")))], [("y", Single(Str("1")))])
    ensures !ObjectEqualAsWritten([("y", Single(Str("1")))], [("x", Single(Str("undefined")))])
    ensures !ObjectEqual([("x", Single(Str("undefined")))], [("y", Single(Str("1")))])
  {
    var a: Query := [("x", Single(Str("undefined")))];
    var b: Query := [("y", Single(Str("1")))];
    assert !Has(b, "x");
    assert !Has(a, "y");
    assert Lookup(b, "x") == Single(Undef);
    assert Lookup(a, "y") == Single(Undef);
  }

  /** The value comparison is reflexive and symmetric. */
  lemma ValueEqualFacts(a: QValue, b: QValue)
    ensures ValueEqual(a, a)
    ensures ValueEqual(a, b) ==> ValueEqual(b, a)
  {
  }

  /** The corrected test is reflexive. */
  lemma ObjectEqualReflexive(a: Query)
    ensures ObjectEqual(a, a)
  {
    forall i | 0 <= i < |a| ensures Has(a, a[i].0) && ValueEqual(a[i].1, Lookup(a, a[i].0)) {
      assert Get(a, a[i].0) == Some(a[i].1);
      ValueEqualFacts(a[i].1, a[i].1);
    }
  }

  /** The keys of a dictionary, as a set, have as many elements as it has
      entries. */
  lemma {:induction false} KeySetSize<V>(d: Dict<V>)
    ensures |set i | 0 <= i < |d| :: d[i].0| == |d|
    decreases |d|
  {
    if |d| > 0 {
      var init: Dict<V> := d[..|d| - 1];
      KeySetSize(init);
      KeySetSnoc(d);
    }
  }

  /** The key set grows by the last key, which the shorter dictionary does
      not hold. */
  lemma KeySetSnoc<V>(d: Dict<V>)
    requires |d| > 0
    ensures var init := d[..|d| - 1];
      && (set i | 0 <= i < |d| :: d[i].0) == (set i | 0 <= i < |init| :: init[i].0) + {d[|d| - 1].0}
      && d[|d| - 1].0 !in (set i | 0 <= i < |init| :: init[i].0)
  {
    var init := d[..|d| - 1];
    var s := set i | 0 <= i < |init| :: init[i].0;
    var t := set i | 0 <= i < |d| :: d[i].0;
    forall k | k in t ensures k in s + {d[|d| - 1].0} {
      var i :| 0 <= i < |d| && d[i].0 == k;
      if i < |d| - 1 { assert init[i].0 == k; }
    }
  }

  /** Two dictionaries of equal size, the keys of the first all present in
      the second, have the same keys. */
  lemma SameKeys<V, W>(a: Dict<V>, b: Dict<W>)
    requires |a| == |b|
    requires forall i :: 0 <= i < |a| ==> Has(b, a[i].0)
    ensures forall i :: 0 <= i < |b| ==> Has(a, b[i].0)
  {
    var sa := set i | 0 <= i < |a| :: a[i].0;
    var sb := set i | 0 <= i < |b| :: b[i].0;
    KeySetSize(a);
    KeySetSize(b);
    assert sa <= sb by {
      forall k | k in sa ensures k in sb {
        var i :| 0 <= i < |a| && a[i].0 == k;
        assert Has(b, k);
      }
    }
    assert sa == sb by {
      if sa != sb {
        assert sa < sb;
        SubsetSmaller(sa, sb);
      }
    }
    forall i | 0 <= i < |b| ensures Has(a, b[i].0) {
      assert b[i].0 in sb;
      var j :| 0 <= j < |a| && a[j].0 == b[i].0;
    }
  }

  /** A proper subset is smaller. */
  lemma SubsetSmaller<T>(a: set<T>, b: set<T>)
    requires a < b
    ensures |a| < |b|
  {
    var x :| x in b && x !in a;
    assert a <= b - {x};
    SubsetNotLarger(a, b - {x});
  }

  /** A subset is not larger. */
  lemma {:induction false} SubsetNotLarger<T>(a: set<T>, b: set<T>)
    requires a <= b
    ensures |a| <= |b|
    decreases |a|
  {
    if a != {} {
      var x :| x in a;
      SubsetNotLarger(a - {x}, b - {x});
    }
  }

  /** The corrected test is symmetric. */
  lemma ObjectEqualSymmetric(a: Query, b: Query)
    requires ObjectEqual(a, b)
    ensures ObjectEqual(b, a)
  {
    SameKeys(a, b);
    forall i | 0 <= i < |b| ensures Has(a, b[i].0) && ValueEqual(b[i].1, Lookup(a, b[i].0)) {
      var k := b[i].0;
      var j :| 0 <= j < |a| && a[j].0 == k;
      assert Get(a, k) == Some(a[j].1);
      assert Get(b, k) == Some(b[i].1);
      ValueEqualFacts(a[j].1, b[i].1);
    }
  }

  /** Under the corrected test, every key of either side is a key of the
      other. */
  lemma ObjectEqualKeys(a: Query, b: Query)
    requires ObjectEqual(a, b)
    ensures forall i :: 0 <= i < |a| ==> Has(b, a[i].0)
    ensures forall i :: 0 <= i < |b| ==> Has(a, b[i].0)
  {
    SameKeys(a, b);
  }

  // ------------------------------------------------------ route equality

  /** `path.replace(/\/?$/, '')`: drops one trailing `/`. */
  function StripTrailingSlash(p: string): (r: string)
    ensures p == r || p == r + "/"
    ensures |r| > 0 ==> r[|r| - 1] != '/' || p == r + "/"
  {
    if |p| > 0 && p[|p| - 1] == '/' then p[..|p| - 1] else p
  }

  /** `path.replace(/\/?$/, '/')`: exactly one trailing `/` added or kept. */
  function EnsureTrailingSlash(p: string): (r: string)
    ensures |r| > 0 && r[|r| - 1] == '/'
    ensures p == r || p + "/" == r
  {
    StripTrailingSlash(p) + "/"
  }

  /** `isSameRoute(a, b)`: against `START` only `START` itself; two routes
      with paths by path (modulo one trailing slash), hash and query; two
      named routes by name, hash, query and params; otherwise false.  The
      queries and params are compared by `isObjectEqual` as written. */
  predicate IsSameRoute(a: Route, b: Option<Route>) {
    if b.Some? && b.value.isStart then a.isStart
    else if b.None? then false
    else if a.path != "" && b.value.path != "" then
      && StripTrailingSlash(a.path) == StripTrailingSlash(b.value.path)
      && a.hash == b.value.hash
      && ObjectEqualAsWritten(a.query, b.value.query)
    else if a.name != "" && b.value.name != "" then
      && a.name == b.value.name
      && a.hash == b.value.hash
      && ObjectEqualAsWritten(a.query, b.value.query)
      && ObjectEqualAsWritten(ParamsAsQuery(a.params), ParamsAsQuery(b.value.params))
    else false
  }

  /** `isSameRoute` as evidently intended: the same tests, with the
      corrected object comparison. */
  predicate IsSameRouteIntended(a: Route, b: Option<Route>) {
    if b.Some? && b.value.isStart then a.isStart
    else if b.None? then false
    else if a.path != "" && b.value.path != "" then
      && StripTrailingSlash(a.path) == StripTrailingSlash(b.value.path)
      && a.hash == b.value.hash
      && ObjectEqual(a.query, b.value.query)
    else if a.name != "" && b.value.name != "" then
      && a.name == b.value.name
      && a.hash == b.value.hash
      && ObjectEqual(a.query, b.value.query)
      && ObjectEqual(ParamsAsQuery(a.params), ParamsAsQuery(b.value.params))
    else false
  }

  /** The intended test only ever narrows the one as written. */
  lemma SameRouteIntendedNarrows(a: Route, b: Option<Route>)
    ensures IsSameRouteIntended(a, b) ==> IsSameRoute(a, b)
  {
  }

  /** Every route with a path or a name is the same as itself, under both
      tests. */
  lemma SameRouteReflexive(a: Route)
    requires a.isStart || a.path != "" || a.name != ""
    ensures IsSameRouteIntended(a, Some(a)) && IsSameRoute(a, Some(a))
  {
    ObjectEqualReflexive(a.query);
    ObjectEqualReflexive(ParamsAsQuery(a.params));
  }

  /** Away from `START`, the intended route equality is symmetric. */
  lemma SameRouteSymmetric(a: Route, b: Route)
    requires !a.isStart && !b.isStart
    requires IsSameRouteIntended(a, Some(b))
    ensures IsSameRouteIntended(b, Some(a))
  {
    if a.path != "" && b.path != "" {
      ObjectEqualSymmetric(a.query, b.query);
    } else {
      ObjectEqualSymmetric(a.query, b.query);
      ObjectEqualSymmetric(ParamsAsQuery(a.params), ParamsAsQuery(b.params));
    }
  }

  /** As written, `isSameRoute` is not symmetric: a route whose query holds
      `x: 'undefined'` is the same as one whose query holds `y: '1'`, but
      not the other way round, and the intended test tells them apart. */
  lemma SameRouteAsWrittenCounterexample(a: Route, b: Route)
    requires !a.isStart && !b.isStart && a.path == b.path == "/p" && a.hash == b.hash
    requires a.query == [("x", Single(Str("undefined")))] && b.query == [("y", Single(Str("1")))]
    ensures IsSameRoute(a, Some(b)) && !IsSameRoute(b, Some(a))
    ensures !IsSameRouteIntended(a, Some(b))
  {
    ObjectEqualAsWrittenCounterexample();
  }

  /** `START` is compared by identity only on the right: a route shaped like
      `START` equals it on the left, but `START` on the right only equals
      itself. */
  lemma StartOnlyByIdentity(c: Codec)
    ensures var twin := CreateRoute(c, None, PathLocation("/"), None);
      IsSameRoute(Start, Some(twin)) && !IsSameRoute(twin, Some(Start))
  {
    var twin := CreateRoute(c, None, PathLocation("/"), None);
    assert twin.query == [];
  }

  // ----------------------------------------------------- route inclusion

  /** `queryIncludes(current, target)`: every key of the target is a key of
      the current query. */
  predicate QueryIncludes(current: Query, target: Query) {
    forall i :: 0 <= i < |target| ==> Has(current, target[i].0)
  }

  /** `isIncludedRoute(current, target)`: the target path (with one
      trailing slash) starts the current path (with one trailing slash),
      the hashes agree when the target has one, and the target's query keys
      are all present. */
  predicate IsIncludedRoute(current: Route, target: Route) {
    && IsPrefix(EnsureTrailingSlash(target.path), EnsureTrailingSlash(current.path))
    && (target.hash == "" || current.hash == target.hash)
    && QueryIncludes(current.query, target.query)
  }

  /** `s.indexOf(p) === 0`. */
  predicate IsPrefix(p: string, s: string) {
    |p| <= |s| && s[..|p|] == p
  }

  /** A route includes itself. */
  lemma IncludedReflexive(r: Route)
    ensures IsIncludedRoute(r, r)
  {
    forall i | 0 <= i < |r.query| ensures Has(r.query, r.query[i].0) {
    }
  }

  /** Two routes that are the same by path, under the intended test,
      include each other. */
  lemma SameRouteIncluded(a: Route, b: Route)
    requires !b.isStart && a.path != "" && b.path != ""
    requires IsSameRouteIntended(a, Some(b))
    ensures IsIncludedRoute(a, b) && IsIncludedRoute(b, a)
  {
    ObjectEqualKeys(a.query, b.query);
    assert EnsureTrailingSlash(a.path) == EnsureTrailingSlash(b.path);
  }

  // ------------------------------------------------------- settled routes

  /** A record `_createRoute` builds a route from directly. */
  predicate Terminal(record: RouteRecord) {
    !HasRedirect(record.redirect) && record.matchAs == ""
  }

  /** A route the matcher hands out: built by `createRoute`, and its
      deepest record neither redirects nor aliases. */
  predicate Settled(c: Codec, r: Route) {
    && !r.isStart && WellFormed(c, r)
    && (|r.matched| > 0 ==> Terminal(r.matched[|r.matched| - 1]))
  }

  /** `redirectedFrom` is absent or names the location `l`. */
  predicate ReportsFrom(c: Codec, r: Route, l: Location) {
    r.redirectedFrom.None? || r.redirectedFrom == Some(FullPath(c, l))
  }

  /** What a match produces: a route, an exception (a capture whose
      percent-encoding the decoder rejects, or a path-list entry without a
      record), or `Exhausted` when the chain of redirects and aliases
      outran the fuel the model was given. */
  datatype Outcome = Done(route: Route) | Thrown | Exhausted

  /** A finished match gives a settled route; when `from` is given, the
      route reports nothing but `from` as where it was redirected from. */
  predicate SettledOutcome(c: Codec, o: Outcome, from: Option<Location>) {
    o.Done? ==> Settled(c, o.route) && (from.Some? ==> ReportsFrom(c, o.route, from.value))
  }
}

=== FILE: route_map.dfy ===
/** The route-map builder (`src/create-route-map.js`): nested route
    configurations compiled into the three indexes the matcher reads — the
    ordered `pathList`, `pathMap` from path to record and `nameMap` from name
    to record.  Records get fresh ids in registration order; the pattern
    compiler is abstract (a record keeps its `Pattern`). */
module RouteMap {
  import opened Wrappers
  import opened Dict
  import opened Types
  import Path
  import RouteOps

  /** One route configuration.  A missing `children` or `alias` is the
      empty list (the builder treats both alike) and a single alias string a
      one-element list; `props` is `PUndef` when missing; `strict` and
      `sensitive` are the `pathToRegexpOptions`. */
  datatype RouteConfig = RouteConfig(
    path: string,
    name: string,
    component: Component,
    components: Option<Dict<Component>>,
    children: seq<RouteConfig>,
    alias: seq<string>,
    redirect: Redirect,
    beforeEnter: Option<FnId>,
    meta: Option<nat>,
    props: PropsOption,
    caseSensitive: Option<bool>,
    strict: bool,
    sensitive: bool)

  // ------------------------------------------------------------ measure

  /** Total size of a list of configurations. */
  function SizeList(cs: seq<RouteConfig>): nat
    decreases cs
  {
    if |cs| == 0 then 0 else Size(cs[0]) + SizeList(cs[1..])
  }

  /** The number of records a configuration can give rise to: itself, its
      children, and for every alias one more copy of itself and its
      children. */
  function Size(r: RouteConfig): (n: nat)
    decreases r
  {
    var sub := SizeList(r.children);
    1 + sub + AliasesSize(|r.alias|, sub)
  }

  /** The records `n` aliases give rise to, each a copy with children of
      total size `sub`. */
  function AliasesSize(n: nat, sub: nat): nat {
    if n == 0 then 0 else 1 + sub + AliasesSize(n - 1, sub)
  }

  // ------------------------------------------------------------ records

  /** `normalizePath(path, parent, strict)`: outside strict mode one trailing
      `/` goes; an absolute path or one without parent is kept; otherwise it
      is joined under the parent's path and `//` collapsed. */
  function NormalizePath(path: string, parent: Option<RouteRecord>, strict: bool): (r: string)
    ensures var p := if strict then path else RouteOps.StripTrailingSlash(path);
      && ((|p| > 0 && p[0] == '/') || parent.None? ==> r == p)
      && (!(|p| > 0 && p[0] == '/') && parent.Some? ==> r == Path.CleanPath(parent.value.path + "/" + p))
  {
    var p := if strict then path else RouteOps.StripTrailingSlash(path);
    if |p| > 0 && p[0] == '/' then p
    else if parent.None? then p
    else Path.CleanPath(parent.value.path + "/" + p)
  }

  /** A relative child path under a parent path free of `//` is simply
      appended after a `/`. */
  lemma NormalizeUnderParent(path: string, parent: RouteRecord, strict: bool)
    requires |path| > 0 && path[0] != '/' && path[|path| - 1] != '/'
    requires Path.NoDoubleSlash(parent.path + "/" + path)
    ensures NormalizePath(path, Some(parent), strict) == parent.path + "/" + path
  {
    Path.CleanPathFacts(parent.path + "/" + path);
  }

  /** `route.components || { default: route.component }`. */
  function ComponentsOf(route: RouteConfig): (d: Dict<Component>)
    ensures route.components.Some? ==> d == route.components.value
    ensures route.components.None? ==> Keys(d) == ["default"] && Get(d, "default") == Some(route.component)
  {
    if route.components.Some? then route.components.value else Singleton("default", route.component)
  }

  /** The record's `props`: empty when the option is missing or `null`, as
      given with `components`, otherwise the props of the default outlet. */
  function PropsOf(route: RouteConfig): (p: RecordProps)
    ensures route.props.PUndef? || route.props.PNull? ==> p == PerOutlet([])
    ensures !(route.props.PUndef? || route.props.PNull?) && route.components.Some? ==> p == AsGiven(route.props)
    ensures !(route.props.PUndef? || route.props.PNull?) && route.components.None? ==>
      p.PerOutlet? && Keys(p.d) == ["default"] && Get(p.d, "default") == Some(route.props)
  {
    if route.props.PUndef? || route.props.PNull? then PerOutlet([])
    else if route.components.Some? then AsGiven(route.props)
    else PerOutlet(Singleton("default", route.props))
  }

  /** The record built for `route` under `parent`; `caseSensitive`, when a
      boolean, overrides the compiler's `sensitive` option. */
  function MakeRecord(route: RouteConfig, parent: Option<RouteRecord>, matchAs: string, id: nat): (r: RouteRecord)
    ensures r.id == id && r.path == NormalizePath(route.path, parent, route.strict)
    ensures r.regex.path == r.path && r.regex.strict == route.strict
    ensures r.regex.sensitive == route.caseSensitive.GetOr(route.sensitive)
    ensures r.name == route.name && r.parent == parent && r.matchAs == matchAs
    ensures r.components == ComponentsOf(route) && r.props == PropsOf(route)
    ensures r.redirect == route.redirect && r.beforeEnter == route.beforeEnter && r.meta == route.meta
  {
    var path := NormalizePath(route.path, parent, route.strict);
    var sensitive := if route.caseSensitive.Some? then route.caseSensitive.value else route.sensitive;
    RouteRecord(id, path, Pattern(path, route.strict, sensitive), ComponentsOf(route), route.name,
                parent, matchAs, route.redirect, route.beforeEnter, route.meta, PropsOf(route))
  }

  /** The configuration synthesised for one alias: the alias path and the
      original's children, nothing else. */
  function AliasConfig(path: string, children: seq<RouteConfig>): (c: RouteConfig)
    ensures c.path == path && c.children == children && c.name == "" && c.alias == []
    ensures c.redirect == NoRedirect && c.components.None? && c.component == Absent && c.props == PUndef
    ensures Size(c) == 1 + SizeList(children)
  {
    RouteConfig(path, "", Absent, None, children, [], NoRedirect, None, None, PUndef, None, false, false)
  }

  // ------------------------------------------------------------ indexes

  /** The three indexes, plus the next fresh record id. */
  datatype RouteMap = RouteMap(
    pathList: seq<string>,
    pathMap: map<string, RouteRecord>,
    nameMap: map<string, RouteRecord>,
    nextId: nat)

  /** The indexes a first build starts from. */
  const Empty: RouteMap := RouteMap([], map[], map[], 0)

  predicate Distinct(s: seq<string>) {
    forall i, j :: 0 <= i < j < |s| ==> s[i] != s[j]
  }

  /** The indexes agree: `pathList` lists the keys of `pathMap` once each,
      every record sits under its own path and name, and every id is below
      the next fresh one. */
  ghost predicate Good(m: RouteMap) {
    && Distinct(m.pathList)
    && (forall p :: p in m.pathMap <==> p in m.pathList)
    && (forall p :: p in m.pathMap ==> m.pathMap[p].path == p && m.pathMap[p].id < m.nextId)
    && (forall n :: n in m.nameMap ==> m.nameMap[n].name == n && m.nameMap[n].id < m.nextId)
  }

  /** `r` only adds to `m`: the old list is a prefix, old entries keep their
      records, and every new entry holds a record created after `m`. */
  ghost predicate Extends(m: RouteMap, r: RouteMap) {
    && m.nextId <= r.nextId
    && |m.pathList| <= |r.pathList| && r.pathList[..|m.pathList|] == m.pathList
    && (forall p :: p in m.pathMap ==> p in r.pathMap && r.pathMap[p] == m.pathMap[p])
    && (forall n :: n in m.nameMap ==> n in r.nameMap && r.nameMap[n] == m.nameMap[n])
    && (forall p :: p in r.pathMap && p !in m.pathMap ==> m.nextId <= r.pathMap[p].id)
    && (forall n :: n in r.nameMap && n !in m.nameMap ==> m.nextId <= r.nameMap[n].id)
  }

  /** What is indexed before an extension stays indexed. */
  lemma KeptIn(m: RouteMap, r: RouteMap, p: string, n: string)
    requires Extends(m, r)
    ensures p in m.pathMap ==> p in r.pathMap
    ensures n in m.nameMap ==> n in r.nameMap
  {
  }

  lemma ExtendsTrans(a: RouteMap, b: RouteMap, c: RouteMap)
    requires Extends(a, b) && Extends(b, c)
    ensures Extends(a, c)
  {
    assert c.pathList[..|a.pathList|] == c.pathList[..|b.pathList|][..|a.pathList|];
  }

  /** The last two steps of `addRouteRecord`: the path is added unless
      already present, the name (when non-empty) unless already present. */
  function Register(m: RouteMap, record: RouteRecord): (r: RouteMap)
    ensures r.nextId == m.nextId
    ensures record.path in r.pathMap
    ensures record.name != "" ==> record.name in r.nameMap
    ensures record.path !in m.pathMap ==>
      r.pathMap == m.pathMap[record.path := record] && r.pathList == m.pathList + [record.path]
    ensures record.path in m.pathMap ==> r.pathList == m.pathList && r.pathMap == m.pathMap
    ensures record.name != "" && record.name !in m.nameMap ==> r.nameMap == m.nameMap[record.name := record]
    ensures record.name == "" || record.name in m.nameMap ==> r.nameMap == m.nameMap
  {
    var m1 := if record.path in m.pathMap then m
              else m.(pathList := m.pathList + [record.path], pathMap := m.pathMap[record.path := record]);
    if record.name != "" && record.name !in m1.nameMap then m1.(nameMap := m1.nameMap[record.name := record]) else m1
  }

  /** Registering a record with an id already handed out keeps the
      indexes consistent. */
  lemma RegisterKeepsGood(m: RouteMap, record: RouteRecord)
    requires Good(m) && record.id < m.nextId
    ensures Good(Register(m, record))
  {
  }

  /** `addRouteRecord(…, route, parent, matchAs)`: children first, then the
      aliases, then the record itself; afterwards its path (and its name,
      when it has one) are indexed, by it or by an earlier registration. */
  function AddRouteRecord(m: RouteMap, route: RouteConfig, parent: Option<RouteRecord>, matchAs: string): (r: RouteMap)
    ensures m.nextId < r.nextId
    decreases Size(route), 1
  {
    Register(Descendants(m, route, parent, matchAs), MakeRecord(route, parent, matchAs, m.nextId))
  }

  /** After `addRouteRecord` the record's normalised path is indexed, and
      so is its name when it has one: by this record or an earlier one. */
  lemma RecordIndexed(m: RouteMap, route: RouteConfig, parent: Option<RouteRecord>, matchAs: string)
    ensures var r := AddRouteRecord(m, route, parent, matchAs);
      && NormalizePath(route.path, parent, route.strict) in r.pathMap
      && (route.name != "" ==> route.name in r.nameMap)
  {
  }

  /** The first steps of `addRouteRecord`: the new record takes the next
      id, then its children and its aliases are added, before it is
      registered itself. */
  function Descendants(m: RouteMap, route: RouteConfig, parent: Option<RouteRecord>, matchAs: string): (r: RouteMap)
    ensures m.nextId < r.nextId
    decreases Size(route), 0
  {
    var record := MakeRecord(route, parent, matchAs, m.nextId);
    var m1 := m.(nextId := m.nextId + 1);
    var m2 := AddChildren(m1, route.children, record, matchAs);
    AddAliases(m2, route.alias, route.children, parent, AliasMatchAs(record))
  }

  /** `record.path || '/'`, the `matchAs` of the record's aliases. */
  function AliasMatchAs(record: RouteRecord): (s: string)
    ensures s != ""
    ensures record.path != "" ==> s == record.path
  {
    if record.path != "" then record.path else "/"
  }

  /** `matchAs ? cleanPath(matchAs + '/' + child.path) : undefined`. */
  function ChildMatchAs(matchAs: string, child: RouteConfig): (s: string)
    ensures matchAs == "" <==> s == ""
  {
    if matchAs != "" then
      var joined := matchAs + "/" + child.path;
      Path.CleanPathFacts(joined);
      Path.CleanPath(joined)
    else ""
  }

  /** The children of `parent`, in order, each under the alias prefix when
      the parent itself is an alias. */
  function AddChildren(m: RouteMap, cs: seq<RouteConfig>, parent: RouteRecord, matchAs: string): (r: RouteMap)
    ensures m.nextId <= r.nextId
    decreases SizeList(cs), 2
  {
    if |cs| == 0 then m
    else
      var m1 := AddRouteRecord(m, cs[0], Some(parent), ChildMatchAs(matchAs, cs[0]));
      assert SizeList(cs[1..]) < SizeList(cs);
      AddChildren(m1, cs[1..], parent, matchAs)
  }

  /** One alias record per alias path: same parent and children as the
      original, `matchAs` the original's path (or `/`). */
  function AddAliases(m: RouteMap, aliases: seq<string>, children: seq<RouteConfig>,
                      parent: Option<RouteRecord>, matchAs: string): (r: RouteMap)
    ensures m.nextId <= r.nextId
    decreases AliasesSize(|aliases|, SizeList(children)), 2
  {
    if |aliases| == 0 then m
    else
      var m1 := AddRouteRecord(m, AliasConfig(aliases[0], children), parent, matchAs);
      AddAliases(m1, aliases[1..], children, parent, matchAs)
  }

  // The builder keeps the indexes consistent.

  lemma {:induction false} RecordKeepsGood(m: RouteMap, route: RouteConfig, parent: Option<RouteRecord>, matchAs: string)
    requires Good(m)
    ensures Good(AddRouteRecord(m, route, parent, matchAs))
    decreases Size(route), 1
  {
    DescendantsKeepGood(m, route, parent, matchAs);
    RegisterKeepsGood(Descendants(m, route, parent, matchAs), MakeRecord(route, parent, matchAs, m.nextId));
  }

  lemma {:induction false} DescendantsKeepGood(m: RouteMap, route: RouteConfig, parent: Option<RouteRecord>, matchAs: string)
    requires Good(m)
    ensures Good(Descendants(m, route, parent, matchAs))
    decreases Size(route), 0
  {
    var record := MakeRecord(route, parent, matchAs, m.nextId);
    var m1 := m.(nextId := m.nextId + 1);
    var m2 := AddChildren(m1, route.children, record, matchAs);
    assert Descendants(m, route, parent, matchAs) == AddAliases(m2, route.alias, route.children, parent, AliasMatchAs(record));
    BumpKeepsGood(m);
    ChildrenKeepGood(m1, route.children, record, matchAs);
    AliasesKeepGood(m2, route.alias, route.children, parent, AliasMatchAs(record));
  }

  /** Reserving an id keeps the indexes consistent. */
  lemma BumpKeepsGood(m: RouteMap)
    requires Good(m)
    ensures Good(m.(nextId := m.nextId + 1))
  {
  }

  lemma {:induction false} ChildrenKeepGood(m: RouteMap, cs: seq<RouteConfig>, parent: RouteRecord, matchAs: string)
    requires Good(m)
    ensures Good(AddChildren(m, cs, parent, matchAs))
    decreases SizeList(cs), 2
  {
    if |cs| > 0 {
      assert SizeList(cs[1..]) < SizeList(cs);
      var m1 := AddRouteRecord(m, cs[0], Some(parent), ChildMatchAs(matchAs, cs[0]));
      assert AddChildren(m, cs, parent, matchAs) == AddChildren(m1, cs[1..], parent, matchAs);
      RecordKeepsGood(m, cs[0], Some(parent), ChildMatchAs(matchAs, cs[0]));
      ChildrenKeepGood(m1, cs[1..], parent, matchAs);
    }
  }

  lemma {:induction false} AliasesKeepGood(m: RouteMap, aliases: seq<string>, children: seq<RouteConfig>,
                                           parent: Option<RouteRecord>, matchAs: string)
    requires Good(m)
    ensures Good(AddAliases(m, aliases, children, parent, matchAs))
    decreases AliasesSize(|aliases|, SizeList(children)), 2
  {
    if |aliases| > 0 {
      var m1 := AddRouteRecord(m, AliasConfig(aliases[0], children), parent, matchAs);
      assert AddAliases(m, aliases, children, parent, matchAs) == AddAliases(m1, aliases[1..], children, parent, matchAs);
      RecordKeepsGood(m, AliasConfig(aliases[0], children), parent, matchAs);
      AliasesKeepGood(m1, aliases[1..], children, parent, matchAs);
    }
  }

  // The builder only ever adds to the indexes.

  lemma {:induction false} RecordExtends(m: RouteMap, route: RouteConfig, parent: Option<RouteRecord>, matchAs: string)
    ensures Extends(m, AddRouteRecord(m, route, parent, matchAs))
    decreases Size(route), 1
  {
    var m3 := Descendants(m, route, parent, matchAs);
    DescendantsExtend(m, route, parent, matchAs);
    ExtendsTrans(m, m.(nextId := m.nextId + 1), m3);
    RegisterExtends(m, m3, MakeRecord(route, parent, matchAs, m.nextId));
  }

  /** Registering a record no older than `m` on top of an extension of `m`
      still extends `m`. */
  lemma RegisterExtends(m: RouteMap, m3: RouteMap, record: RouteRecord)
    requires Extends(m, m3) && m.nextId <= record.id
    ensures Extends(m, Register(m3, record))
  {
    var r := Register(m3, record);
    assert r.pathList[..|m3.pathList|] == m3.pathList;
    assert r.pathList[..|m.pathList|] == m3.pathList[..|m.pathList|];
  }

  lemma {:induction false} ChildrenExtend(m: RouteMap, cs: seq<RouteConfig>, parent: RouteRecord, matchAs: string)
    ensures Extends(m, AddChildren(m, cs, parent, matchAs))
    decreases SizeList(cs), 2
  {
    if |cs| > 0 {
      var m1 := AddRouteRecord(m, cs[0], Some(parent), ChildMatchAs(matchAs, cs[0]));
      RecordExtends(m, cs[0], Some(parent), ChildMatchAs(matchAs, cs[0]));
      assert SizeList(cs[1..]) < SizeList(cs);
      ChildrenExtend(m1, cs[1..], parent, matchAs);
      ExtendsTrans(m, m1, AddChildren(m1, cs[1..], parent, matchAs));
    }
  }

  lemma {:induction false} AliasesExtend(m: RouteMap, aliases: seq<string>, children: seq<RouteConfig>,
                                         parent: Option<RouteRecord>, matchAs: string)
    ensures Extends(m, AddAliases(m, aliases, children, parent, matchAs))
    decreases AliasesSize(|aliases|, SizeList(children)), 2
  {
    if |aliases| > 0 {
      var m1 := AddRouteRecord(m, AliasConfig(aliases[0], children), parent, matchAs);
      RecordExtends(m, AliasConfig(aliases[0], children), parent, matchAs);
      AliasesExtend(m1, aliases[1..], children, parent, matchAs);
      ExtendsTrans(m, m1, AddAliases(m1, aliases[1..], children, parent, matchAs));
    }
  }

  /** A record holds its own path exactly when nothing registered earlier
      (an old entry, one of its children or aliases) took it; when it does,
      its path is the last of the list, after all its descendants. */
  lemma RecordRegistered(m: RouteMap, route: RouteConfig, parent: Option<RouteRecord>, matchAs: string)
    requires Good(m)
    ensures var r := AddRouteRecord(m, route, parent, matchAs);
      var p := NormalizePath(route.path, parent, route.strict);
      r.pathMap[p].id == m.nextId ==>
        r.pathMap[p] == MakeRecord(route, parent, matchAs, m.nextId) && |r.pathList| > 0 && r.pathList[|r.pathList| - 1] == p
  {
    DescendantsExtend(m, route, parent, matchAs);
    RegisterWins(m, Descendants(m, route, parent, matchAs), MakeRecord(route, parent, matchAs, m.nextId));
  }

  lemma {:induction false} DescendantsExtend(m: RouteMap, route: RouteConfig, parent: Option<RouteRecord>, matchAs: string)
    ensures Extends(m.(nextId := m.nextId + 1), Descendants(m, route, parent, matchAs))
    decreases Size(route), 0
  {
    var record := MakeRecord(route, parent, matchAs, m.nextId);
    var m1 := m.(nextId := m.nextId + 1);
    var m2 := AddChildren(m1, route.children, record, matchAs);
    ChildrenExtend(m1, route.children, record, matchAs);
    AliasesExtend(m2, route.alias, route.children, parent, AliasMatchAs(record));
    ExtendsTrans(m1, m2, Descendants(m, route, parent, matchAs));
  }

  /** The record registered after its descendants holds its path only if
      none of them (nor an old entry) took it, and then it is last. */
  lemma RegisterWins(m: RouteMap, m3: RouteMap, record: RouteRecord)
    requires Good(m) && record.id == m.nextId
    requires Extends(m.(nextId := m.nextId + 1), m3)
    ensures var r := Register(m3, record);
      r.pathMap[record.path].id == m.nextId ==>
        r.pathMap[record.path] == record && |r.pathList| > 0 && r.pathList[|r.pathList| - 1] == record.path
  {
    if record.path in m3.pathMap {
      if record.path in m.pathMap {
        assert m3.pathMap[record.path] == m.pathMap[record.path];
      }
    }
  }

  /** `routes.forEach(route => addRouteRecord(…, route))`. */
  function AddAll(m: RouteMap, routes: seq<RouteConfig>): (r: RouteMap)
    ensures m.nextId <= r.nextId
    decreases |routes|
  {
    if |routes| == 0 then m else AddAll(AddRouteRecord(m, routes[0], None, ""), routes[1..])
  }

  lemma {:induction false} AddAllKeepsGood(m: RouteMap, routes: seq<RouteConfig>)
    requires Good(m)
    ensures Good(AddAll(m, routes))
    decreases |routes|
  {
    if |routes| > 0 {
      RecordKeepsGood(m, routes[0], None, "");
      AddAllKeepsGood(AddRouteRecord(m, routes[0], None, ""), routes[1..]);
    }
  }

  /** After a build every top-level route's path and name are indexed
      (by that route or by an earlier registration). */
  lemma {:induction false} AddAllIndexes(m: RouteMap, routes: seq<RouteConfig>, i: nat)
    requires i < |routes|
    ensures NormalizePath(routes[i].path, None, routes[i].strict) in AddAll(m, routes).pathMap
    ensures routes[i].name != "" ==> routes[i].name in AddAll(m, routes).nameMap
    decreases |routes|
  {
    var m1 := AddRouteRecord(m, routes[0], None, "");
    if i == 0 {
      RecordIndexed(m, routes[0], None, "");
      AddAllExtends(m1, routes[1..]);
      KeptIn(m1, AddAll(m1, routes[1..]), NormalizePath(routes[0].path, None, routes[0].strict), routes[0].name);
    } else {
      AddAllIndexes(m1, routes[1..], i - 1);
    }
  }

  lemma {:induction false} AddAllExtends(m: RouteMap, routes: seq<RouteConfig>)
    ensures Extends(m, AddAll(m, routes))
    decreases |routes|
  {
    if |routes| > 0 {
      var m1 := AddRouteRecord(m, routes[0], None, "");
      RecordExtends(m, routes[0], None, "");
      AddAllExtends(m1, routes[1..]);
      ExtendsTrans(m, m1, AddAll(m1, routes[1..]));
    }
  }

  // ---------------------------------------------------------- wildcards

  /** The entries other than `*`, in order. */
  function NonStar(s: seq<string>): (r: seq<string>)
    ensures forall i :: 0 <= i < |r| ==> r[i] != "*"
  {
    if |s| == 0 then [] else NonStar(s[..|s| - 1]) + (if s[|s| - 1] == "*" then [] else [s[|s| - 1]])
  }

  /** The `*` entries. */
  function Stars(s: seq<string>): (r: seq<string>)
    ensures forall i :: 0 <= i < |r| ==> r[i] == "*"
  {
    if |s| == 0 then [] else Stars(s[..|s| - 1]) + (if s[|s| - 1] == "*" then [s[|s| - 1]] else [])
  }

  /** The state of the final scan of `createRouteMap` after `k` original
      entries: the scanned non-`*` entries, then the unscanned ones, then the
      scanned `*` entries; `l` bounds the unscanned part. */
  predicate ScanState(list: seq<string>, res: seq<string>, i: nat, l: nat, k: nat) {
    && i <= l <= |res| == |list| && k <= |list| && l == i + (|list| - k)
    && res[..i] == NonStar(list[..k])
    && res[i..l] == list[k..]
    && res[l..] == Stars(list[..k])
  }

  /** A `*` under the cursor is spliced out and pushed to the end. */
  lemma ScanStar(list: seq<string>, res: seq<string>, i: nat, l: nat, k: nat)
    requires ScanState(list, res, i, l, k) && i < l && res[i] == "*"
    ensures ScanState(list, res[..i] + res[i + 1..] + [res[i]], i, l - 1, k + 1)
  {
    var next := res[..i] + res[i + 1..] + [res[i]];
    assert list[..k + 1][..k] == list[..k];
    assert list[k] == res[i];
    assert next[..i] == res[..i];
    assert next[i..l - 1] == res[i + 1..l];
    assert next[l - 1..] == res[l..] + [res[i]];
  }

  /** Any other entry under the cursor is kept and the cursor advances. */
  lemma ScanOther(list: seq<string>, res: seq<string>, i: nat, l: nat, k: nat)
    requires ScanState(list, res, i, l, k) && i < l && res[i] != "*"
    ensures ScanState(list, res, i + 1, l, k + 1)
  {
    assert list[..k + 1][..k] == list[..k];
    assert list[k] == res[i];
    assert res[..i + 1] == res[..i] + [res[i]];
  }

  /** The final loop of `createRouteMap`: each `*` met is spliced out and
      pushed to the end, and the scan bound shrinks, so every `*` ends up
      behind every other entry. */
  method MoveWildcards(list: seq<string>) returns (res: seq<string>)
    ensures res == NonStar(list) + Stars(list)
  {
    res := list;
    var i: nat := 0;
    var l: nat := |list|;
    ghost var k: nat := 0;
    while i < l
      invariant ScanState(list, res, i, l, k)
      decreases l - i
    {
      if res[i] == "*" {
        ScanStar(list, res, i, l, k);
        res := res[..i] + res[i + 1..] + [res[i]];
        l := l - 1;
      } else {
        ScanOther(list, res, i, l, k);
        i := i + 1;
      }
      k := k + 1;
    }
    assert list[..k] == list;
    assert res == res[..i] + res[l..];
  }

  /** After the move, no `*` precedes an entry that is not `*`. */
  lemma WildcardsLast(s: seq<string>)
    ensures var r := NonStar(s) + Stars(s);
      forall i, j :: 0 <= i < j < |r| && r[i] == "*" ==> r[j] == "*"
  {
  }

  /** The move is a permutation. */
  lemma {:induction false} MovePermutes(s: seq<string>)
    ensures multiset(NonStar(s) + Stars(s)) == multiset(s)
  {
    if |s| > 0 {
      MovePermutes(s[..|s| - 1]);
      MoveSnoc(s);
      PermutationStep(NonStar(s[..|s| - 1]), Stars(s[..|s| - 1]), s);
    }
  }

  /** The last entry lands at the end of its own group. */
  lemma MoveSnoc(s: seq<string>)
    requires |s| > 0
    ensures var init, x := s[..|s| - 1], s[|s| - 1];
      && (x == "*" ==> NonStar(s) + Stars(s) == (NonStar(init) + Stars(init)) + [x])
      && (x != "*" ==> NonStar(s) + Stars(s) == NonStar(init) + [x] + Stars(init))
  {
  }

  /** Appending the last element of `s` to a permutation of the rest, at
      the end or between its two parts, gives a permutation of `s`. */
  lemma PermutationStep<T>(a: seq<T>, b: seq<T>, s: seq<T>)
    requires |s| > 0 && multiset(a + b) == multiset(s[..|s| - 1])
    ensures multiset((a + b) + [s[|s| - 1]]) == multiset(s)
    ensures multiset(a + [s[|s| - 1]] + b) == multiset(s)
  {
    assert s == s[..|s| - 1] + [s[|s| - 1]];
  }

  /** Removing the stars distributes over concatenation. */
  lemma {:induction false} NonStarAppend(a: seq<string>, b: seq<string>)
    ensures NonStar(a + b) == NonStar(a) + NonStar(b)
    decreases |b|
  {
    if |b| > 0 {
      var bi := b[..|b| - 1];
      NonStarAppend(a, bi);
      assert (a + b)[..|a + b| - 1] == a + bi;
    } else {
      assert a + b == a;
    }
  }

  /** A list without stars is its own star-free part; a list of stars has
      none. */
  lemma {:induction false} NonStarFixed(s: seq<string>)
    ensures (forall i :: 0 <= i < |s| ==> s[i] != "*") ==> NonStar(s) == s
    ensures (forall i :: 0 <= i < |s| ==> s[i] == "*") ==> NonStar(s) == []
  {
    if |s| > 0 {
      NonStarFixed(s[..|s| - 1]);
      assert s == s[..|s| - 1] + [s[|s| - 1]];
    }
  }

  /** The other entries keep their relative order. */
  lemma MoveIsStable(s: seq<string>)
    ensures NonStar(NonStar(s) + Stars(s)) == NonStar(s)
  {
    NonStarAppend(NonStar(s), Stars(s));
    NonStarFixed(NonStar(s));
    NonStarFixed(Stars(s));
  }

  /** A list with each entry at most once holds each entry at most once
      when every element's count is at most one. */
  lemma {:induction false} DistinctCounts(s: seq<string>)
    ensures Distinct(s) <==> forall x :: multiset(s)[x] <= 1
  {
    if |s| > 0 {
      var init := s[..|s| - 1];
      var last := s[|s| - 1];
      DistinctCounts(init);
      assert s == init + [last];
      if Distinct(s) {
        assert Distinct(init);
        forall i | 0 <= i < |init| ensures init[i] != last {
          assert s[i] == init[i];
        }
        assert last !in init;
      }
      if forall x :: multiset(s)[x] <= 1 {
        forall x ensures multiset(init)[x] <= 1 {
          assert multiset(s)[x] == multiset(init)[x] + multiset([last])[x];
        }
        assert multiset(s)[last] == multiset(init)[last] + 1;
        assert last !in init;
        forall i, j | 0 <= i < j < |s| ensures s[i] != s[j] {
          if j < |s| - 1 {
            assert s[i] == init[i] && s[j] == init[j];
          } else {
            assert s[i] == init[i];
          }
        }
      }
    }
  }

  /** `createRouteMap(routes, oldPathList, oldPathMap, oldNameMap)`: every
      route added in order, then the wildcards moved to the end. */
  method CreateRouteMap(routes: seq<RouteConfig>, given: RouteMap) returns (r: RouteMap)
    requires Good(given)
    ensures Good(r)
    ensures var built := AddAll(given, routes);
      && r.pathMap == built.pathMap && r.nameMap == built.nameMap
      && multiset(r.pathList) == multiset(built.pathList)
      && NonStar(r.pathList) == NonStar(built.pathList)
    ensures forall i, j :: 0 <= i < j < |r.pathList| && r.pathList[i] == "*" ==> r.pathList[j] == "*"
    ensures forall p :: p in given.pathMap ==> p in r.pathMap && r.pathMap[p] == given.pathMap[p]
    ensures forall n :: n in given.nameMap ==> n in r.nameMap && r.nameMap[n] == given.nameMap[n]
  {
    var built := AddAll(given, routes);
    AddAllKeepsGood(given, routes);
    AddAllExtends(given, routes);
    var list := MoveWildcards(built.pathList);
    MovePermutes(built.pathList);
    MoveIsStable(built.pathList);
    WildcardsLast(built.pathList);
    MoveKeepsGood(built);
    r := built.(pathList := list);
  }

  /** Moving the wildcards keeps the indexes consistent. */
  lemma MoveKeepsGood(m: RouteMap)
    requires Good(m)
    ensures Good(m.(pathList := NonStar(m.pathList) + Stars(m.pathList)))
  {
    var list := NonStar(m.pathList) + Stars(m.pathList);
    MovePermutes(m.pathList);
    DistinctCounts(m.pathList);
    DistinctCounts(list);
    forall p ensures p in list <==> p in m.pathList {
      assert p in list <==> p in multiset(list);
    }
  }
}

=== FILE: router.dfy ===
/** The router facade (`src/index.js`) outside a browser, where the
    history is always the in-memory one: hook lists with removers,
    `createHref`, the choice of mode, `getMatchedComponents`, `resolve`,
    `addRoutes`, `init`, and the navigation methods, which hand over to
    the history with `router.match` as its matcher. */
module Router {
  import opened Wrappers
  import opened Dict
  import opened Types
  import opened LocationOps
  import Path
  import RouteMap
  import RouteOps
  import Matcher
  import Components
  import Guards
  import History
  import HistoryProps

  // ------------------------------------------------------------ hooks

  /** `list.indexOf(fn)`: the first position holding `fn`, -1 when none. */
  function IndexOf(list: seq<FnId>, fn: FnId): (i: int)
    ensures -1 <= i < |list|
    ensures i >= 0 ==> list[i] == fn && forall k :: 0 <= k < i ==> list[k] != fn
    ensures i == -1 <==> fn !in list
    decreases |list|
  {
    if |list| == 0 then -1
    else if list[0] == fn then 0
    else
      var j := IndexOf(list[1..], fn);
      if j == -1 then -1 else j + 1
  }

  /** `registerHook(list, fn)`: `list.push(fn)`. */
  function Register(list: seq<FnId>, fn: FnId): seq<FnId>
  {
    list + [fn]
  }

  /** The remover `registerHook` returns: the first occurrence of `fn` is
      spliced out; when `fn` is no longer listed nothing changes. */
  function Unregister(list: seq<FnId>, fn: FnId): (r: seq<FnId>)
    ensures fn !in list ==> r == list
    ensures fn in list ==> |r| == |list| - 1 && multiset(r) == multiset(list) - multiset{fn}
    ensures fn in list ==> exists i :: 0 <= i < |list| && list[i] == fn && fn !in list[..i] && r == list[..i] + list[i + 1..]
  {
    var i := IndexOf(list, fn);
    if i > -1 then
      assert list == list[..i] + [list[i]] + list[i + 1..];
      list[..i] + list[i + 1..]
    else list
  }

  /** The remover of a hook registered once undoes the registration. */
  lemma RegisterUndone(list: seq<FnId>, fn: FnId)
    requires fn !in list
    ensures Unregister(Register(list, fn), fn) == list
  {
    assert IndexOf(list + [fn], fn) == |list|;
  }

  /** A hook registered a second time: the remover takes out the earlier
      registration, and the later one stays at the end of the list. */
  lemma RegisterAgainUndone(list: seq<FnId>, fn: FnId)
    requires fn in list
    ensures Unregister(Register(list, fn), fn) == Unregister(list, fn) + [fn]
  {
    var i := IndexOf(list, fn);
    var longer := list + [fn];
    IndexOfPrefix(list, [fn], fn);
    assert IndexOf(longer, fn) == i;
    assert longer[..i] == list[..i];
    assert longer[i + 1..] == list[i + 1..] + [fn];
    assert Unregister(longer, fn) == longer[..i] + longer[i + 1..];
    assert Unregister(list, fn) == list[..i] + list[i + 1..];
  }

  /** The first occurrence in a list is the first occurrence in any
      extension of it. */
  lemma {:induction false} IndexOfPrefix(list: seq<FnId>, more: seq<FnId>, fn: FnId)
    requires fn in list
    ensures IndexOf(list + more, fn) == IndexOf(list, fn)
    decreases |list|
  {
    if list[0] != fn {
      assert (list + more)[1..] == list[1..] + more;
      IndexOfPrefix(list[1..], more, fn);
    }
  }

  /** Calling the remover again once the hook is gone changes nothing. */
  lemma RemoverTwice(list: seq<FnId>, fn: FnId)
    requires multiset(list)[fn] <= 1
    ensures Unregister(Unregister(list, fn), fn) == Unregister(list, fn)
  {
    var r: seq<FnId> := Unregister(list, fn);
    if fn in list {
      assert multiset(r)[fn] == 0;
    }
  }

  /** Which of the router's hook lists. */
  datatype HookList = BeforeEach | BeforeResolve | AfterEach

  /** The list a hook kind is kept in. */
  function ListOf(h: History.Hooks, which: HookList): seq<FnId>
  {
    match which
    case BeforeEach => h.before
    case BeforeResolve => h.resolve
    case AfterEach => h.after
  }

  /** `h` with the list of `which` replaced. */
  function WithList(h: History.Hooks, which: HookList, list: seq<FnId>): (r: History.Hooks)
    ensures ListOf(r, which) == list
    ensures forall other :: other != which ==> ListOf(r, other) == ListOf(h, other)
  {
    match which
    case BeforeEach => h.(before := list)
    case BeforeResolve => h.(resolve := list)
    case AfterEach => h.(after := list)
  }

  /** `beforeEach`, `beforeResolve`, `afterEach`. */
  function AddHook(h: History.Hooks, which: HookList, fn: FnId): History.Hooks
  {
    WithList(h, which, Register(ListOf(h, which), fn))
  }

  /** The remover returned by `beforeEach`, `beforeResolve`, `afterEach`. */
  function RemoveHook(h: History.Hooks, which: HookList, fn: FnId): History.Hooks
  {
    WithList(h, which, Unregister(ListOf(h, which), fn))
  }

  /** Registering and removing a hook touches its own list only, and the
      remover of a hook registered once gives the lists back. */
  lemma HookRoundTrip(h: History.Hooks, which: HookList, fn: FnId)
    requires fn !in ListOf(h, which)
    ensures forall other :: other != which ==> ListOf(AddHook(h, which, fn), other) == ListOf(h, other)
    ensures ListOf(AddHook(h, which, fn), which) == ListOf(h, which) + [fn]
    ensures RemoveHook(AddHook(h, which, fn), which, fn) == h
  {
    RegisterUndone(ListOf(h, which), fn);
  }

  // ------------------------------------------------------------ href

  /** `createHref(base, fullPath, mode)`: hash mode puts `#` in front; a
      base is joined with `/` and cleaned. */
  function CreateHref(base: string, fullPath: string, mode: string): string
  {
    var path := if mode == "hash" then "#" + fullPath else fullPath;
    if base != "" then Path.CleanPath(base + "/" + path) else path
  }

  /** Without a base the href is the path itself (after `#` in hash mode);
      with a base it starts like the base and, when the joined string has
      no `//`, it is that string. */
  lemma HrefFacts(base: string, fullPath: string, mode: string)
    ensures var path := if mode == "hash" then "#" + fullPath else fullPath;
      var href := CreateHref(base, fullPath, mode);
      && (base == "" ==> href == path)
      && (base != "" ==> |href| > 0 && href[0] == base[0])
      && (base != "" && Path.NoDoubleSlash(base + "/" + path) ==> href == base + "/" + path)
  {
    var path := if mode == "hash" then "#" + fullPath else fullPath;
    Path.CleanPathFacts(base + "/" + path);
  }

  /** Examples: a hash-mode href without base, and one with the base
      `/app`. */
  lemma HrefExamples()
    ensures CreateHref("", "/foo", "hash") == "#/foo"
    ensures CreateHref("/app", "/foo", "hash") == "/app/#/foo"
  {
    var s := "/app" + "/" + ("#" + "/foo");
    assert s == "/app/#/foo";
    Path.CleanPathFacts(s);
    assert Path.NoDoubleSlash(s) by {
      forall i | 0 <= i < |s| - 1 ensures !(s[i] == '/' && s[i + 1] == '/') {
        assert i in {0, 1, 2, 3, 4, 5, 6, 7, 8};
        if i == 4 {
          assert s[i + 1] == '#';
        } else if i == 6 {
          assert s[i + 1] == 'f';
        } else if i == 0 {
          assert s[i + 1] == 'a';
        } else {
          assert s[i] != '/';
        }
      }
    }
  }

  // ------------------------------------------------------------ mode

  /** The mode and the `fallback` flag the constructor settles on. */
  datatype ModeChoice = ModeChoice(mode: string, fallback: bool)

  /** The constructor's choice of mode: `options.mode || 'hash'`, `history`
      falls back to `hash` without `pushState` support unless
      `options.fallback === false`, and outside a browser the mode is always
      `abstract`.  `option` is `""` when missing; `fallbackOption` is
      `Some(false)` exactly when the option is `false`. */
  function SelectMode(option: string, fallbackOption: Option<bool>, supportsPushState: bool, inBrowser: bool): (c: ModeChoice)
    ensures !inBrowser ==> c.mode == "abstract"
    ensures inBrowser && option == "" ==> c.mode == "hash"
    ensures inBrowser && option == "history" ==>
      (c.mode == "history" <==> supportsPushState || fallbackOption == Some(false)) &&
      (c.mode != "history" ==> c.mode == "hash")
    ensures inBrowser && option != "" && option != "history" ==> c.mode == option
    ensures c.fallback <==> option == "history" && !supportsPushState && fallbackOption != Some(false)
  {
    var mode := if option == "" then "hash" else option;
    var fallback := mode == "history" && !supportsPushState && fallbackOption != Some(false);
    var chosen := if fallback then "hash" else mode;
    ModeChoice(if inBrowser then chosen else "abstract", fallback)
  }

  /** The choice is settled: choosing again from the chosen mode, under the
      same conditions, keeps it and needs no fallback; and a known mode
      option always leads to one of the three histories the router can
      build. */
  lemma SelectModeSettles(option: string, fallbackOption: Option<bool>, supportsPushState: bool, inBrowser: bool)
    ensures var c := SelectMode(option, fallbackOption, supportsPushState, inBrowser);
      var again := SelectMode(c.mode, fallbackOption, supportsPushState, inBrowser);
      && again.mode == c.mode && !again.fallback
      && (option in {"", "history", "hash", "abstract"} ==> c.mode in {"history", "hash", "abstract"})
  {
  }

  // ------------------------------------------------------------ matched components

  /** `Object.keys(d).map(key => d[key])`. */
  function Values(d: Dict<Component>): (r: seq<Component>)
    ensures |r| == |d| && forall k :: 0 <= k < |d| ==> r[k] == d[k].1
  {
    seq(|d|, k requires 0 <= k < |d| => d[k].1)
  }

  /** `[].concat.apply([], records.map(m => Object.keys(m.components).map(...)))`. */
  function OutletComponents(records: seq<RouteRecord>): seq<Component>
  {
    Components.Flatten(seq(|records|, i requires 0 <= i < |records| => Components.Items(Values(records[i].components))))
  }

  /** `getMatchedComponents` on a route: the components of every outlet of
      every matched record, read after the async components resolved so far
      were written into their records. */
  function MatchedComponents(route: Route, store: map<(nat, string), Component>): seq<Component>
  {
    OutletComponents(History.Overlaid(route.matched, store))
  }

  /** The component of an outlet. */
  function OutletOf(c: Component, m: RouteRecord, key: string): Component
  {
    c
  }

  /** The matched components are `flatMapComponents` with the component
      itself: one per outlet, records in order, outlets in key order. */
  lemma OutletComponentsAsFlatMap(records: seq<RouteRecord>)
    ensures OutletComponents(records) == Components.FlatMapComponents(records, OutletOf)
    ensures |OutletComponents(records)| == Components.OutletCount(records)
  {
    var a := seq(|records|, i requires 0 <= i < |records| => Components.Items(Values(records[i].components)));
    var b := seq(|records|, i requires 0 <= i < |records| => Components.Items(Components.PerRecord(records[i], OutletOf)));
    forall i | 0 <= i < |records| ensures a[i] == b[i] {
      assert Values(records[i].components) == Components.PerRecord(records[i], OutletOf);
    }
    assert a == b;
    Components.FlatMapLength(records, OutletOf);
  }

  /** One more matched record adds its outlets' components at the end, in
      key order; no record, no component. */
  lemma OutletComponentsSnoc(records: seq<RouteRecord>, m: RouteRecord)
    ensures OutletComponents([]) == []
    ensures OutletComponents(records + [m]) == OutletComponents(records) + Values(m.components)
  {
    OutletComponentsAsFlatMap(records);
    OutletComponentsAsFlatMap(records + [m]);
    Components.FlatMapSnoc(records, m, OutletOf);
    assert Components.PerRecord(m, OutletOf) == Values(m.components);
  }

  // ------------------------------------------------------------ the router

  /** The router: the apps it was handed, its mode and base, the route map
      behind its matcher with what the matcher needs, its hook lists, and
      its history. */
  datatype Router = Router(
    apps: seq<nat>,
    app: Option<nat>,
    mode: string,
    fallback: bool,
    base: string,
    routes: RouteMap.RouteMap,
    menv: Matcher.Env,
    fuel: nat,
    matcher: (RawLocation, Route) -> Option<Route>,
    hooks: History.Hooks,
    history: History.State)

  /** A settled match as the history sees it: a thrown error, or running
      out of redirect fuel, is `None`. */
  function Found(o: RouteOps.Outcome): (r: Option<Route>)
    ensures r.Some? <==> o.Done?
    ensures o.Done? ==> r.value == o.route
  {
    if o.Done? then Some(o.route) else None
  }

  /** `router.match(raw, current)` over a route map. */
  function MatcherOf(menv: Matcher.Env, routes: RouteMap.RouteMap, fuel: nat): (RawLocation, Route) -> Option<Route>
  {
    (raw: RawLocation, current: Route) => Found(Matcher.Match(menv, routes, raw, Some(current), None, fuel))
  }

  /** The router's `match` is the matcher over its current route map. */
  ghost predicate Coherent(r: Router) {
    r.matcher == MatcherOf(r.menv, r.routes, r.fuel)
  }

  /** In a coherent router, the match the history uses is the matcher's
      `match` against the given current route, a throw or exhausted
      redirect fuel being `None`. */
  lemma MatchOfCoherent(r: Router, raw: RawLocation, current: Route)
    requires Coherent(r)
    ensures var o := Matcher.Match(r.menv, r.routes, raw, Some(current), None, r.fuel);
      && (r.matcher(raw, current).Some? <==> o.Done?)
      && (o.Done? ==> r.matcher(raw, current).value == o.route)
  {
  }

  /** What the history needs from the router: its match and its hook
      lists. */
  function EnvOf(r: Router): History.Env
  {
    History.Env(r.matcher, r.hooks)
  }

  /** `new VueRouter(options)` outside a browser: no app yet, empty hook
      lists, the matcher built from `options.routes`, the mode settled on
      `abstract`, and a fresh in-memory history on the normalised base.
      Outside a browser `supportsPushState` is `false`. */
  method Create(routes: seq<RouteMap.RouteConfig>, modeOption: string, fallbackOption: Option<bool>,
                base: string, menv: Matcher.Env, fuel: nat) returns (r: Router)
    ensures r.apps == [] && r.app.None? && r.hooks == History.Hooks([], [], [])
    ensures r.mode == "abstract"
    ensures r.fallback <==> modeOption == "history" && fallbackOption != Some(false)
    ensures r.base == "" || r.base[0] == '/'
    ensures r.history == History.Initial()
    ensures Coherent(r) && RouteMap.Good(r.routes)
    ensures r.routes.pathMap == RouteMap.AddAll(RouteMap.Empty, routes).pathMap
    ensures r.routes.nameMap == RouteMap.AddAll(RouteMap.Empty, routes).nameMap
  {
    var m := Matcher.CreateMatcher(routes);
    var choice := SelectMode(modeOption, fallbackOption, false, false);
    Guards.NormalizeBaseFacts(base);
    r := Router([], None, choice.mode, choice.fallback, Guards.NormalizeBase(base), m, menv, fuel, MatcherOf(menv, m, fuel),
                History.Hooks([], [], []), History.Initial());
  }

  /** `router.init(app)`: every app is recorded; only the first one becomes
      the router's app and makes the history listen (`history.listen`).
      The in-memory history starts no transition here. */
  function Init(r: Router, app: nat): Router
  {
    var apps := r.apps + [app];
    if r.app.Some? then r.(apps := apps)
    else r.(apps := apps, app := Some(app), history := r.history.(listening := true))
  }

  /** `init` records the app; the first app is the one kept; the history
      only starts listening, and only on the first call. */
  lemma InitFacts(r: Router, app: nat)
    ensures var r' := Init(r, app);
      && r'.apps == r.apps + [app] && app in r'.apps
      && r'.app == (if r.app.Some? then r.app else Some(app))
      && r'.history == r.history.(listening := r'.history.listening)
      && (r'.history.listening <==> r.history.listening || r.app.None?)
      && r' == r.(apps := r'.apps, app := r'.app, history := r'.history)
  {
  }

  /** A second `init` changes nothing but the list of apps. */
  lemma InitOnce(r: Router, a: nat, b: nat)
    ensures var once := Init(r, a);
      Init(once, b) == once.(apps := r.apps + [a, b])
  {
    assert r.apps + [a] + [b] == r.apps + [a, b];
  }

  // ------------------------------------------------------------ navigation

  /** `history.transitionTo(raw, ...)` as `push`, `replace` or plain: the
      router's match runs against the current route. */
  function Navigate(r: Router, kind: History.Kind, raw: RawLocation, onComplete: Option<FnId>, onAbort: Option<FnId>): Router
    requires !kind.GoKind?
  {
    var h := r.history;
    r.(history := History.Navigate(h, EnvOf(r), kind, r.matcher(raw, h.current.route), onComplete, onAbort))
  }

  /** `router.push(location, onComplete, onAbort)`. */
  function Push(r: Router, raw: RawLocation, onComplete: Option<FnId>, onAbort: Option<FnId>): Router
  {
    Navigate(r, History.PushKind, raw, onComplete, onAbort)
  }

  /** `router.replace(location, onComplete, onAbort)`. */
  function Replace(r: Router, raw: RawLocation, onComplete: Option<FnId>, onAbort: Option<FnId>): Router
  {
    Navigate(r, History.ReplaceKind, raw, onComplete, onAbort)
  }

  /** `router.go(n)`. */
  function Go(r: Router, n: int): Router
  {
    r.(history := History.GoTo(r.history, EnvOf(r), n))
  }

  /** `router.back()`: `go(-1)`. */
  function Back(r: Router): Router
  {
    Go(r, -1)
  }

  /** `router.forward()`: `go(1)`. */
  function Forward(r: Router): Router
  {
    Go(r, 1)
  }

  /** `router.onReady(cb, errorCb)`. */
  function OnReady(r: Router, cb: FnId, errorCb: Option<FnId>): Router
  {
    r.(history := History.OnReady(r.history, cb, errorCb))
  }

  /** `router.onError(errorCb)`. */
  function OnError(r: Router, cb: FnId): Router
  {
    r.(history := r.history.(errorCbs := r.history.errorCbs + [cb]))
  }

  /** `router.currentRoute`. */
  function CurrentRoute(r: Router): Route
  {
    r.history.current.route
  }

  /** The router's `push`, `replace` and `transitionTo` are the history's
      reactions to those calls. */
  lemma NavigateIsStep(r: Router, raw: RawLocation, onComplete: Option<FnId>, onAbort: Option<FnId>)
    ensures Push(r, raw, onComplete, onAbort).history == History.Step(r.history, EnvOf(r), History.PushTo(raw, onComplete, onAbort))
    ensures Replace(r, raw, onComplete, onAbort).history == History.Step(r.history, EnvOf(r), History.ReplaceWith(raw, onComplete, onAbort))
  {
  }

  /** A navigation of the router keeps a coherent history coherent, and
      changes nothing but the history. */
  lemma NavigateKeeps(r: Router, kind: History.Kind, raw: RawLocation, onComplete: Option<FnId>, onAbort: Option<FnId>)
    requires !kind.GoKind? && HistoryProps.Valid(r.history) && HistoryProps.Waiting(r.history)
    ensures var r' := Navigate(r, kind, raw, onComplete, onAbort);
      HistoryProps.Keeps(r.history, r'.history) && r' == r.(history := r'.history)
  {
    var h := r.history;
    HistoryProps.NavigateKeeps(h, EnvOf(r), kind, r.matcher(raw, h.current.route), onComplete, onAbort);
  }

  /** `go` keeps a coherent history coherent, and changes nothing but the
      history. */
  lemma GoKeeps(r: Router, n: int)
    requires HistoryProps.Valid(r.history) && HistoryProps.Waiting(r.history)
    ensures HistoryProps.Keeps(r.history, Go(r, n).history) && Go(r, n) == r.(history := Go(r, n).history)
  {
    HistoryProps.GoToKeeps(r.history, EnvOf(r), n);
  }

  /** `back()` at the first entry (or before any) does nothing. */
  lemma BackAtStart(r: Router)
    requires r.history.index <= 0
    ensures Back(r) == r
  {
    HistoryProps.GoOutOfRange(r.history, EnvOf(r), -1);
  }

  /** `forward()` at the last entry does nothing. */
  lemma ForwardAtEnd(r: Router)
    requires r.history.index + 1 >= |r.history.stack|
    ensures Forward(r) == r
  {
    HistoryProps.GoOutOfRange(r.history, EnvOf(r), 1);
  }

  /** `back()` from a later entry confirms the route object stored just
      below the index, as a `go` to that position. */
  lemma BackToPrevious(r: Router)
    requires 0 < r.history.index < |r.history.stack|
    ensures var h := r.history;
      Back(r).history == History.Confirm(h, EnvOf(r), h.stack[h.index - 1], History.GoKind(h.index - 1), None, None)
  {
    HistoryProps.GoInRange(r.history, EnvOf(r), -1);
  }

  // ------------------------------------------------------------ resolve

  /** What `resolve` returns. */
  datatype Resolution = Resolution(location: Location, route: Route, href: string)

  /** `route.redirectedFrom || route.fullPath`. */
  function HrefPath(route: Route): string
  {
    if route.redirectedFrom.Some? && route.redirectedFrom.value != "" then route.redirectedFrom.value else route.fullPath
  }

  /** `router.resolve(to, current, append)`: the target normalised against
      `current` (or the history's route), matched against `current` as
      given, and its href built from where a redirect started, else from
      the route's full path.  `None` when the match throws. */
  function Resolve(r: Router, to: RawLocation, current: Option<Route>, append: bool): Option<Resolution>
  {
    var against := if current.Some? then current.value else r.history.current.route;
    var location := NormalizeLocation(r.menv.c, r.menv.e, to, Some(against), append);
    match Matcher.Match(r.menv, r.routes, RawObject(location), current, None, r.fuel)
    case Done(route) => Some(Resolution(location, route, CreateHref(r.base, HrefPath(route), r.mode)))
    case _ => None
  }

  /** The route `resolve` returns is the match of the normalised location
      as it stands (matching does not normalise it again), and the href
      comes from the redirect's start when there was a redirect. */
  lemma ResolveFacts(r: Router, to: RawLocation, current: Option<Route>, append: bool)
    ensures var against := if current.Some? then current.value else r.history.current.route;
      var location := NormalizeLocation(r.menv.c, r.menv.e, to, Some(against), append);
      var o := Matcher.MatchLocation(r.menv, r.routes, location, current, None, r.fuel);
      var res := Resolve(r, to, current, append);
      && (res.Some? <==> o.Done?)
      && (res.Some? ==> res.value.location == location && res.value.route == o.route)
      && (res.Some? && o.route.redirectedFrom.Some? && o.route.redirectedFrom.value != "" ==>
            res.value.href == CreateHref(r.base, o.route.redirectedFrom.value, r.mode))
      && (res.Some? && o.route.redirectedFrom.None? ==> res.value.href == CreateHref(r.base, o.route.fullPath, r.mode))
  {
    var against := if current.Some? then current.value else r.history.current.route;
    var location := NormalizeLocation(r.menv.c, r.menv.e, to, Some(against), append);
    NormalizeIdempotent(r.menv.c, r.menv.e, to, Some(against), append, current, false);
  }

  /** What `getMatchedComponents` is asked about: the current route, a
      route, or a target to resolve.  A missing or falsy `to` (such as
      `''`) asks about the current route; a value with `matched` is taken
      as a route. */
  datatype Target = CurrentTarget | RouteTarget(route: Route) | RawTarget(raw: RawLocation)

  /** `router.getMatchedComponents(to)`: `None` when resolving the target
      throws. */
  function GetMatchedComponents(r: Router, to: Target): Option<seq<Component>>
  {
    match to
    case CurrentTarget => Some(MatchedComponents(CurrentRoute(r), r.history.store))
    case RouteTarget(route) => Some(MatchedComponents(route, r.history.store))
    case RawTarget(raw) =>
      match Resolve(r, raw, None, false)
      case Some(res) => Some(MatchedComponents(res.route, r.history.store))
      case None => None
  }

  /** Without a target the components are those of the current route: one
      per outlet of its matched records (`START` has none), each the
      definition an async component resolved to once it has resolved. */
  lemma CurrentComponents(r: Router)
    ensures var cs := GetMatchedComponents(r, CurrentTarget);
      var records := History.Overlaid(CurrentRoute(r).matched, r.history.store);
      && cs.Some?
      && cs.value == Components.FlatMapComponents(records, OutletOf)
      && |cs.value| == Components.OutletCount(CurrentRoute(r).matched)
  {
    var records := History.Overlaid(CurrentRoute(r).matched, r.history.store);
    OutletComponentsAsFlatMap(records);
    OverlaidOutletCount(CurrentRoute(r).matched, r.history.store);
  }

  /** Writing resolved components into records keeps every outlet. */
  lemma {:induction false} OverlaidOutletCount(records: seq<RouteRecord>, store: map<(nat, string), Component>)
    ensures Components.OutletCount(History.Overlaid(records, store)) == Components.OutletCount(records)
    decreases |records|
  {
    if |records| > 0 {
      var n := |records|;
      var o := History.Overlaid(records, store);
      assert o[..n - 1] == History.Overlaid(records[..n - 1], store);
      OverlaidOutletCount(records[..n - 1], store);
    }
  }

  /** A value of one spread element is among the flattened values. */
  lemma {:induction false} FlattenHas<T>(arr: seq<Components.Spread<T>>, i: nat, x: T)
    requires i < |arr| && x in Components.Elements(arr[i])
    ensures x in Components.Flatten(arr)
    decreases |arr|
  {
    var n := |arr|;
    if i < n - 1 {
      assert arr[..n - 1][i] == arr[i];
      FlattenHas(arr[..n - 1], i, x);
    }
  }

  /** Once the async component of an outlet of the current route has
      resolved (`match.components[key] = resolvedDef`), the current route
      is unchanged and `getMatchedComponents` returns the resolved
      definition for that outlet. */
  lemma ResolvedComponentShown(r: Router, i: nat, k: nat, def: Component)
    requires i < |CurrentRoute(r).matched| && k < |CurrentRoute(r).matched[i].components|
    ensures var m := CurrentRoute(r).matched[i];
      var r' := r.(history := History.Step(r.history, EnvOf(r), History.ComponentResolved((m.id, m.components[k].0), def)));
      && CurrentRoute(r') == CurrentRoute(r)
      && History.Overlaid(CurrentRoute(r').matched, r'.history.store)[i].components[k] == (m.components[k].0, def)
      && def in GetMatchedComponents(r', CurrentTarget).value
  {
    var m := CurrentRoute(r).matched[i];
    var r' := r.(history := History.Step(r.history, EnvOf(r), History.ComponentResolved((m.id, m.components[k].0), def)));
    var records := History.Overlaid(CurrentRoute(r').matched, r'.history.store);
    assert records[i] == History.Resolved(m, r'.history.store);
    assert records[i].components[k] == (m.components[k].0, def);
    var arr := seq(|records|, j requires 0 <= j < |records| => Components.Items(Values(records[j].components)));
    assert Values(records[i].components)[k] == def;
    assert def in Components.Elements(arr[i]);
    FlattenHas(arr, i, def);
  }

  // ------------------------------------------------------------ addRoutes

  /** `router.addRoutes(routes)`: the matcher is extended, keeping every
      path and name it had; a history that has left `START` then
      transitions again to its current location with the new matcher. */
  method AddRoutes(r: Router, routes: seq<RouteMap.RouteConfig>) returns (r': Router)
    requires RouteMap.Good(r.routes)
    ensures RouteMap.Good(r'.routes) && Coherent(r')
    ensures forall p :: p in r.routes.pathMap ==> p in r'.routes.pathMap && r'.routes.pathMap[p] == r.routes.pathMap[p]
    ensures forall n :: n in r.routes.nameMap ==> n in r'.routes.nameMap && r'.routes.nameMap[n] == r.routes.nameMap[n]
    ensures var extended := r.(routes := r'.routes, matcher := r'.matcher);
      && (r.history.current.route.isStart ==> r' == extended)
      && (!r.history.current.route.isStart ==>
            r' == Navigate(extended, History.PlainKind, RawString(History.CurrentLocation(r.history)), None, None))
  {
    var m := Matcher.AddRoutes(r.routes, routes);
    r' := r.(routes := m, matcher := MatcherOf(r.menv, m, r.fuel));
    if !r.history.current.route.isStart {
      r' := Navigate(r', History.PlainKind, RawString(History.CurrentLocation(r.history)), None, None);
    }
  }
}

=== FILE: strings.dfy ===
/** String helpers with the semantics of the JavaScript built-ins the router
    relies on (`split`, `join`, `indexOf`, `trim`, global `replace`). */
module Strings {

  /** `c` occurs nowhere in `s`. */
  predicate NoChar(s: string, c: char) {
    forall i :: 0 <= i < |s| ==> s[i] != c
  }

  /** `s.split(c)`: always at least one part, no part contains `c`,
      and joining the parts again with `c` gives back `s`. */
  function Split(s: string, c: char): (parts: seq<string>)
    ensures |parts| >= 1
    ensures forall k :: 0 <= k < |parts| ==> NoChar(parts[k], c)
    ensures Join(parts, c) == s
    ensures NoChar(s, c) ==> parts == [s]
  {
    if |s| == 0 then [""]
    else if s[0] == c then
      var rest := Split(s[1..], c);
      JoinCons("", rest, c);
      assert s == [c] + s[1..];
      [""] + rest
    else
      var rest := Split(s[1..], c);
      var parts := [[s[0]] + rest[0]] + rest[1..];
      JoinHead(s[0], rest, c);
      assert s == [s[0]] + s[1..];
      parts
  }

  /** `parts.join(c)`. */
  function Join(parts: seq<string>, c: char): string
  {
    if |parts| == 0 then ""
    else if |parts| == 1 then parts[0]
    else parts[0] + [c] + Join(parts[1..], c)
  }

  /** Prepending one part adds the part and one separator. */
  lemma JoinCons(p: string, ps: seq<string>, c: char)
    requires |ps| >= 1
    ensures Join([p] + ps, c) == p + [c] + Join(ps, c)
  {
    assert ([p] + ps)[1..] == ps;
  }

  /** Extending the first part by one character extends the join by it. */
  lemma JoinHead(x: char, ps: seq<string>, c: char)
    requires |ps| >= 1
    ensures Join([[x] + ps[0]] + ps[1..], c) == [x] + Join(ps, c)
  {
    var qs := [[x] + ps[0]] + ps[1..];
    if |ps| > 1 {
      assert qs[1..] == ps[1..];
    }
  }

  /** Joining two non-empty lists of parts is joining each and gluing the
      results with one separator. */
  lemma {:induction false} JoinAppend(a: seq<string>, b: seq<string>, c: char)
    requires |a| >= 1 && |b| >= 1
    ensures Join(a + b, c) == Join(a, c) + [c] + Join(b, c)
  {
    if |a| == 1 {
      JoinCons(a[0], b, c);
    } else {
      assert (a + b)[1..] == a[1..] + b;
      JoinAppend(a[1..], b, c);
      assert (a + b)[0] == a[0];
    }
  }

  /** Splitting the join of parts that avoid the separator recovers them. */
  lemma {:induction false} SplitJoin(parts: seq<string>, c: char)
    requires |parts| >= 1
    requires forall k :: 0 <= k < |parts| ==> NoChar(parts[k], c)
    ensures Split(Join(parts, c), c) == parts
  {
    if |parts| == 1 {
    } else {
      SplitJoin(parts[1..], c);
      SplitPrefix(parts[0], Join(parts[1..], c), c);
    }
  }

  /** Splitting `p + c + rest` when `p` avoids `c` puts `p` first. */
  lemma {:induction false} SplitPrefix(p: string, rest: string, c: char)
    requires NoChar(p, c)
    ensures Split(p + [c] + rest, c) == [p] + Split(rest, c)
  {
    if |p| == 0 {
      assert p + [c] + rest == [c] + rest;
      assert ([c] + rest)[1..] == rest;
    } else {
      var s := p + [c] + rest;
      assert s[0] == p[0];
      assert s[1..] == p[1..] + [c] + rest;
      SplitPrefix(p[1..], rest, c);
      assert [p[0]] + p[1..] == p;
    }
  }

  /** `s.indexOf(c)`: the first position of `c`, or -1 when absent. */
  function IndexOf(s: string, c: char): (r: int)
    ensures -1 <= r < |s|
    ensures r == -1 <==> NoChar(s, c)
    ensures r >= 0 ==> s[r] == c && NoChar(s[..r], c)
  {
    if |s| == 0 then -1
    else if s[0] == c then 0
    else
      var r := IndexOf(s[1..], c);
      assert s[1..][..if r >= 0 then r else 0] == s[1..if r >= 0 then r + 1 else 1];
      if r == -1 then -1 else r + 1
  }

  /** `indexOf` finds the first occurrence: a position holding `c` with no
      `c` before it. */
  lemma IndexOfAt(s: string, c: char, k: int)
    requires 0 <= k < |s| && s[k] == c && NoChar(s[..k], c)
    ensures IndexOf(s, c) == k
  {
  }

  /** Concatenation regrouped. */
  lemma Regroup<T>(a: seq<T>, b: seq<T>, c: seq<T>, d: seq<T>)
    ensures a + (b + c) + d == a + b + c + d
  {
  }

  /** A string cut before the first `c`: the part free of `c`, then the
      rest (empty, or starting with `c`). */
  function CutAt(s: string, c: char): (r: (string, string))
    ensures NoChar(r.0, c)
    ensures r.1 == "" || r.1[0] == c
    ensures s == r.0 + r.1
    ensures NoChar(s, c) ==> r == (s, "")
  {
    var i := IndexOf(s, c);
    if i >= 0 then (s[..i], s[i..]) else (s, "")
  }

  /** Cutting a string assembled from a `c`-free part and a rest that is
      empty or starts with `c` gives back the two parts. */
  lemma CutAtOf(a: string, b: string, c: char)
    requires NoChar(a, c) && (b == "" || b[0] == c)
    ensures CutAt(a + b, c) == (a, b)
  {
    var s := a + b;
    if b != "" {
      assert s[..|a|] == a;
      IndexOfAt(s, c, |a|);
      assert s[|a|..] == b;
    } else {
      assert s == a;
    }
  }

  /** A concatenation without `c` has parts without `c`. */
  lemma NoCharParts(a: string, b: string, c: char)
    requires NoChar(a + b, c)
    ensures NoChar(a, c) && NoChar(b, c)
  {
    assert forall i :: 0 <= i < |a| ==> a[i] == (a + b)[i];
    assert forall i :: 0 <= i < |b| ==> b[i] == (a + b)[|a| + i];
  }

  /** Parts without `c` concatenate to a string without `c`. */
  lemma NoCharJoin(a: string, b: string, c: char)
    requires NoChar(a, c) && NoChar(b, c)
    ensures NoChar(a + b, c)
  {
  }

  /** The characters `String.prototype.trim` removes: the white space and
      line terminators of the ECMAScript grammar (tab, vertical tab, form
      feed, the byte order mark, line feed, carriage return, the line and
      paragraph separators, and every space separator of Unicode). */
  predicate IsSpace(c: char) {
    || c == '\t' || c == '\U{000B}' || c == '\U{000C}' || c == '\U{FEFF}'
    || c == '\n' || c == '\r' || c == '\U{2028}' || c == '\U{2029}'
    || c == ' ' || c == '\U{00A0}' || c == '\U{1680}' || ('\U{2000}' <= c <= '\U{200A}')
    || c == '\U{202F}' || c == '\U{205F}' || c == '\U{3000}'
  }

  /** No white space anywhere in `s`. */
  predicate NoSpace(s: string) {
    forall i :: 0 <= i < |s| ==> !IsSpace(s[i])
  }

  /** `r` sits in `s` from position `i`. */
  predicate InfixAt(r: string, s: string, i: nat) {
    i + |r| <= |s| && s[i..i + |r|] == r
  }

  /** `s.trim()`: the longest infix that neither starts nor ends with white space. */
  function Trim(s: string): (r: string)
    ensures |r| == 0 || (!IsSpace(r[0]) && !IsSpace(r[|r| - 1]))
    ensures NoSpace(s) ==> r == s
    ensures exists i: nat :: InfixAt(r, s, i) && Spaces(s[..i]) && Spaces(s[i + |r|..])
  {
    var t := TrimStart(s);
    var r := TrimEnd(t);
    TrimInfix(s, t, r);
    var i := |s| - |t|;
    assert Spaces(s[..i]);
    assert s[i + |r|..] == t[|r|..];
    assert Spaces(s[i + |r|..]);
    r
  }

  /** Every character is white space. */
  predicate Spaces(s: string) {
    forall i :: 0 <= i < |s| ==> IsSpace(s[i])
  }

  /** A prefix of a suffix is an infix. */
  lemma TrimInfix(s: string, t: string, r: string)
    requires |t| <= |s| && t == s[|s| - |t|..]
    requires |r| <= |t| && r == t[..|r|]
    ensures InfixAt(r, s, |s| - |t|)
  {
    var k := |s| - |t|;
    assert forall j :: 0 <= j < |r| ==> r[j] == s[k + j];
  }

  /** White space dropped from the front: a suffix of `s`. */
  function TrimStart(s: string): (r: string)
    ensures |r| == 0 || !IsSpace(r[0])
    ensures NoSpace(s) ==> r == s
    ensures |r| <= |s| && r == s[|s| - |r|..]
    ensures forall i :: 0 <= i < |s| - |r| ==> IsSpace(s[i])
  {
    if |s| > 0 && IsSpace(s[0]) then TrimStart(s[1..]) else s
  }

  /** White space dropped from the end: a prefix of `s`. */
  function TrimEnd(s: string): (r: string)
    ensures |r| == 0 || !IsSpace(r[|r| - 1])
    ensures NoSpace(s) ==> r == s
    ensures |r| <= |s| && r == s[..|r|]
    ensures |s| > 0 && !IsSpace(s[0]) && |r| > 0 ==> r[0] == s[0]
    ensures |s| > 0 && !IsSpace(s[0]) ==> |r| > 0
    ensures forall i :: |r| <= i < |s| ==> IsSpace(s[i])
  {
    if |s| > 0 && IsSpace(s[|s| - 1]) then TrimEnd(s[..|s| - 1]) else s
  }

  /** `s.replace(/a/g, b)` for a single character `a`: the length is kept
      and a string without `a` comes back unchanged. */
  function ReplaceChar(s: string, a: char, b: char): (r: string)
    ensures |r| == |s|
    ensures NoChar(s, a) ==> r == s
  {
    if |s| == 0 then "" else [if s[0] == a then b else s[0]] + ReplaceChar(s[1..], a, b)
  }

  /** Every `a` becomes `b`, every other character stays. */
  lemma {:induction false} ReplaceCharAt(s: string, a: char, b: char)
    ensures forall i :: 0 <= i < |s| ==> ReplaceChar(s, a, b)[i] == (if s[i] == a then b else s[i])
  {
    if |s| > 0 {
      ReplaceCharAt(s[1..], a, b);
    }
  }
}

=== FILE: types.dfy ===
/** The shared vocabulary of the router: route records, routes, locations,
    and the abstract stand-ins for the pieces the core only calls into (the
    path-to-regexp compiler, user functions such as guards, dynamic
    redirects and async component factories). */
module Types {
  import opened Wrappers
  import opened Dict
  import opened Query

  /** A params object: every value is a string, `null` or `undefined`. */
  type Params = Dict<Scalar>

  /** Params seen as a query, so that the two can be compared alike. */
  function ParamsAsQuery(p: Params): (q: Query)
    ensures Keys(q) == Keys(p)
    ensures forall i :: 0 <= i < |p| ==> q[i] == (p[i].0, Single(p[i].1))
  {
    MapValues(p, (v: Scalar) => Single(v))
  }

  // ----------------------------------------------------------- patterns

  /** A parameter of a compiled path pattern. */
  datatype ParamKey = ParamKey(name: string, optional: bool)

  /** The compiled regular expression of a record: the path and the two
      options handed to the compiler. */
  datatype Pattern = Pattern(path: string, strict: bool, sensitive: bool)

  /** The pattern library, abstract: the keys of a pattern, a match of a
      path against it (the captures after the whole match, `None` for an
      unmatched optional group), and the filler that builds a path from
      params (`None` when it throws, e.g. on a missing parameter). */
  datatype PatternEngine = PatternEngine(
    keys: Pattern -> seq<ParamKey>,
    exec: (Pattern, string) -> Option<seq<Option<string>>>,
    fill: (string, Params) -> Option<string>)

  /** `fillParams`: the filled path, or `''` when the filler throws. */
  function FillParams(e: PatternEngine, path: string, params: Params): (r: string)
    ensures e.fill(path, params).Some? ==> r == e.fill(path, params).value
    ensures e.fill(path, params).None? ==> r == ""
  {
    e.fill(path, params).GetOr("")
  }

  // --------------------------------------------------------- components

  /** User functions are opaque identities: guards, hooks, callbacks. */
  type FnId = nat

  /** A route component as the router sees it: a definition (its declared
      props and its in-component guards `beforeRouteLeave`,
      `beforeRouteUpdate`, `beforeRouteEnter`, each absent or a list once
      merged), an async factory (a function without `cid`), or nothing. */
  datatype Component =
    | Definition(cid: nat, props: Option<set<string>>,
                 leave: Option<seq<FnId>>, update: Option<seq<FnId>>, enter: Option<seq<FnId>>)
    | Factory(fid: FnId)
    | Absent

  /** A JavaScript value as it may appear in a `props` option: the props
      object of one outlet, an object of per-outlet options, a function of
      the route, a boolean, a string, or a number (falsy when it is `0` or
      `NaN`). */
  datatype PropsOption =
    | PUndef
    | PNull
    | PObject(obj: Dict<PropsOption>)
    | PFn(fid: FnId)
    | PBool(b: bool)
    | PStr(s: string)
    | PNumber(falsy: bool)

  /** A scalar param seen as a props value; distinct scalars stay
      distinct. */
  function ScalarProp(v: Scalar): (p: PropsOption)
    ensures v.Null? <==> p.PNull?
    ensures v.Undef? <==> p.PUndef?
    ensures v.Str? <==> p.PStr?
    ensures v.Str? ==> p == PStr(v.s)
  {
    match v
    case Str(s) => PStr(s)
    case Null => PNull
    case Undef => PUndef
  }

  /** The `props` field of a record: one option per outlet, or (when the
      config gave `components`) the configured value itself, indexed by
      outlet name like any JavaScript value. */
  datatype RecordProps = PerOutlet(d: Dict<PropsOption>) | AsGiven(p: PropsOption)

  // ---------------------------------------------------------- redirects

  /** A redirect target: a path string, an object whose own properties are
      the `Some` fields, or any other value. */
  datatype RedirectTarget =
    | RString(s: string)
    | RObject(name: string, path: string, query: Option<Query>, hash: Option<string>, params: Option<Params>)
    | ROther

  /** The `redirect` option of a record: absent (or falsy), a static target,
      or a user function from the route to a target. */
  datatype Redirect = NoRedirect | Static(target: RedirectTarget) | Dynamic(fid: FnId)

  /** `record.redirect` is truthy. */
  predicate HasRedirect(r: Redirect) {
    match r
    case NoRedirect => false
    case Static(t) => t != RString("")
    case Dynamic(_) => true
  }

  // ------------------------------------------------------------ records

  /** A route record.  `id` stands for object identity: two records are the
      same object exactly when their ids agree.  `matchAs` is `""` when
      absent (every value the builder stores there is non-empty). */
  datatype RouteRecord = RouteRecord(
    id: nat,
    path: string,
    regex: Pattern,
    components: Dict<Component>,
    name: string,
    parent: Option<RouteRecord>,
    matchAs: string,
    redirect: Redirect,
    beforeEnter: Option<FnId>,
    meta: Option<nat>,
    props: RecordProps)

  /** A navigation target.  Strings are `""` when absent; `params` is
      `None` when the property is missing (an empty object is truthy). */
  datatype Location = Location(
    name: string,
    path: string,
    hash: string,
    query: Query,
    params: Option<Params>,
    append: bool,
    replace: bool,
    normalized: bool)

  /** The location `{ path }`. */
  function PathLocation(path: string): (l: Location)
    ensures l.path == path && l.name == "" && !l.normalized && l.params.None?
  {
    Location("", path, "", [], None, false, false, false)
  }

  /** A raw navigation target: a string or a location object. */
  datatype RawLocation = RawString(s: string) | RawObject(loc: Location)

  /** A route.  `isStart` marks the one `START` object, compared by
      identity in the source. */
  datatype Route = Route(
    isStart: bool,
    name: string,
    meta: Option<nat>,
    path: string,
    hash: string,
    query: Query,
    params: Params,
    fullPath: string,
    matched: seq<RouteRecord>,
    redirectedFrom: Option<string>)
}

=== FILE: view.dfy ===
/** The data rules of the `<router-view>` component
    (`src/components/view.js`): which record an outlet shows, how the
    outlet's props are resolved and split between declared props and
    attributes, and how component instances are registered on records for
    the transition engine to find. */
module View {
  import opened Wrappers
  import opened Dict
  import opened Types

  // --------------------------------------------------------------- props

  /** A params object handed on as props: one entry per param. */
  function ParamsProps(params: Params): (p: PropsOption)
    ensures p.PObject? && Keys(p.obj) == Keys(params)
    ensures forall k :: Get(p.obj, k) == (if Has(params, k) then Some(ScalarProp(Get(params, k).value)) else None)
  {
    var d := MapValues(params, ScalarProp);
    forall k ensures Get(d, k) == (if Has(params, k) then Some(ScalarProp(Get(params, k).value)) else None) {
      if Has(params, k) {
        var i :| 0 <= i < |params| && params[i].0 == k;
        assert d[i] == (k, ScalarProp(params[i].1));
      }
    }
    PObject(d)
  }

  /** `resolveProps(route, config)`: `undefined` stays `undefined`, an object
      (or `null`) is passed as it is, a function is called with the route, a
      boolean passes the route's params when true; any other kind of value
      is refused with a warning and passes nothing. */
  function ResolveProps(route: Route, config: PropsOption, call: (FnId, Route) -> PropsOption): PropsOption
  {
    match config
    case PUndef => PUndef
    case PObject(_) => config
    case PNull => config
    case PFn(f) => call(f, route)
    case PBool(b) => if b then ParamsProps(route.params) else PUndef
    case PStr(_) => PUndef
    case PNumber(_) => PUndef
  }

  /** JavaScript truthiness of a props value: `0` and `NaN` are falsy like
      `undefined`, `null`, `false` and `''`; objects and functions are
      truthy. */
  predicate Truthy(p: PropsOption) {
    match p
    case PUndef => false
    case PNull => false
    case PBool(b) => b
    case PStr(s) => s != ""
    case PNumber(falsy) => !falsy
    case _ => true
  }

  /** `value[name]` for a props value: an object's own entry; every other
      kind of value has no such property. */
  function Property(p: PropsOption, name: string): (r: PropsOption)
    ensures !p.PObject? ==> r.PUndef?
  {
    if p.PObject? then Get(p.obj, name).GetOr(PUndef) else PUndef
  }

  /** `matched.props && matched.props[name]`: the record's props option for
      the outlet `name`; a falsy option given with `components` is itself
      the result. */
  function OutletProps(props: RecordProps, name: string): PropsOption
  {
    match props
    case PerOutlet(d) => Get(d, name).GetOr(PUndef)
    case AsGiven(p) => if Truthy(p) then Property(p, name) else p
  }

  /** The props the outlet `name` resolves for `route` at `record`. */
  function OutletResolved(route: Route, record: RouteRecord, name: string, call: (FnId, Route) -> PropsOption): PropsOption
  {
    ResolveProps(route, OutletProps(record.props, name), call)
  }

  /** What an outlet receives, by the kind of its props option: nothing for
      a missing option or any falsy or unsupported value, the route's params
      for `true`, a function's result for a function, and an object as it
      is. */
  lemma ResolvedByKind(route: Route, record: RouteRecord, name: string, call: (FnId, Route) -> PropsOption)
    ensures var config := OutletProps(record.props, name);
      var r := OutletResolved(route, record, name, call);
      && (config.PUndef? || config.PStr? || config.PNumber? || config == PBool(false) ==> r.PUndef?)
      && (config == PBool(true) ==> r == ParamsProps(route.params))
      && (config.PFn? ==> r == call(config.fid, route))
      && (config.PObject? || config.PNull? ==> r == config)
      && (r.PObject? ==> config.PObject? || config == PBool(true) || config.PFn?)
  {
  }

  /** A record built from a config with one `component` and `props: true`
      passes the route's params to its default outlet and nothing to an
      outlet of any other name. */
  lemma PropsTrueDefaultOutlet(route: Route, record: RouteRecord, name: string, call: (FnId, Route) -> PropsOption)
    requires record.props.PerOutlet? && Keys(record.props.d) == ["default"]
    requires Get(record.props.d, "default") == Some(PBool(true))
    ensures name == "default" ==> OutletResolved(route, record, name, call) == ParamsProps(route.params)
    ensures name != "default" ==> OutletResolved(route, record, name, call) == PUndef
  {
  }

  // --------------------------------------------------- props and attrs

  /** `key in component.props`, where a missing `props` declares nothing. */
  predicate Declared(declared: Option<set<string>>, key: string) {
    declared.Some? && key in declared.value
  }

  /** The loop over the cloned props: every key the component does not
      declare is written to `attrs` and deleted from the props. */
  function Split(keys: seq<string>, declared: Option<set<string>>,
                 props: Dict<PropsOption>, attrs: Dict<PropsOption>): (Dict<PropsOption>, Dict<PropsOption>)
    decreases |keys|
  {
    if |keys| == 0 then (props, attrs)
    else
      var k := keys[0];
      if Declared(declared, k) then Split(keys[1..], declared, props, attrs)
      else Split(keys[1..], declared, Delete(props, k), Put(attrs, k, Get(props, k).GetOr(PUndef)))
  }

  /** No key occurs twice. */
  predicate Unique(keys: seq<string>) {
    forall i, j :: 0 <= i < j < |keys| ==> keys[i] != keys[j]
  }

  /** Splitting along distinct present keys: a declared key keeps its prop,
      an undeclared one moves to `attrs` with its value, and every other key
      is left as it was on both sides. */
  lemma {:induction false} SplitFacts(keys: seq<string>, declared: Option<set<string>>,
                                      props: Dict<PropsOption>, attrs: Dict<PropsOption>)
    requires Unique(keys)
    requires forall i :: 0 <= i < |keys| ==> Has(props, keys[i])
    ensures var r := Split(keys, declared, props, attrs);
      forall x :: Get(r.0, x) == (if x in keys && !Declared(declared, x) then None else Get(props, x))
    ensures var r := Split(keys, declared, props, attrs);
      forall x :: Get(r.1, x) == (if x in keys && !Declared(declared, x) then Get(props, x) else Get(attrs, x))
    decreases |keys|
  {
    if |keys| > 0 {
      var k := keys[0];
      var rest := keys[1..];
      UniqueTail(keys, props);
      var r := Split(keys, declared, props, attrs);
      if Declared(declared, k) {
        SplitFacts(rest, declared, props, attrs);
      } else {
        var props' := Delete(props, k);
        var attrs' := Put(attrs, k, Get(props, k).GetOr(PUndef));
        assert forall i :: 0 <= i < |rest| ==> Has(props', rest[i]) by {
          forall i | 0 <= i < |rest| ensures Has(props', rest[i]) {
            assert Get(props', rest[i]) == Get(props, rest[i]);
          }
        }
        SplitFacts(rest, declared, props', attrs');
        assert r == Split(rest, declared, props', attrs');
        forall x ensures Get(r.0, x) == (if x in keys && !Declared(declared, x) then None else Get(props, x)) {
          if x != k {
            assert Get(props', x) == Get(props, x);
          }
        }
        forall x ensures Get(r.1, x) == (if x in keys && !Declared(declared, x) then Get(props, x) else Get(attrs, x)) {
          if x == k {
            assert x !in rest;
            assert Get(r.1, x) == Get(attrs', k);
          } else {
            assert Get(attrs', x) == Get(attrs, x);
            assert Get(props', x) == Get(props, x);
          }
        }
      }
    }
  }

  /** The keys after the first are distinct, present, and without the first. */
  lemma UniqueTail(keys: seq<string>, props: Dict<PropsOption>)
    requires Unique(keys) && |keys| > 0
    requires forall i :: 0 <= i < |keys| ==> Has(props, keys[i])
    ensures Unique(keys[1..]) && keys[0] !in keys[1..]
    ensures forall i :: 0 <= i < |keys| - 1 ==> Has(props, keys[1..][i])
    ensures forall x :: x in keys <==> x == keys[0] || x in keys[1..]
  {
    var rest := keys[1..];
    forall i | 0 <= i < |rest| ensures rest[i] != keys[0] && Has(props, rest[i]) {
      assert rest[i] == keys[i + 1];
    }
    assert keys == [keys[0]] + rest;
  }

  /** The props a truthy resolved value spreads into the clone: an object's
      entries; functions, `true` and numbers have no enumerable entries. */
  function Entries(p: PropsOption): Dict<PropsOption>
  {
    if p.PObject? then p.obj else []
  }

  /** The split of a truthy resolved props value against the component's
      declared props: the declared entries stay props, the rest are added
      to the outlet's existing attributes. */
  function SplitProps(resolved: PropsOption, declared: Option<set<string>>,
                      attrs: Dict<PropsOption>): (Dict<PropsOption>, Dict<PropsOption>)
  {
    var entries := Entries(resolved);
    Split(Keys(entries), declared, entries, attrs)
  }

  /** Every resolved prop lands in exactly one place: in the props when the
      component declares it, in the attributes otherwise; attributes the
      outlet had keep their values unless a moved prop overwrites them. */
  lemma SplitPropsFacts(resolved: PropsOption, declared: Option<set<string>>, attrs: Dict<PropsOption>)
    ensures var r := SplitProps(resolved, declared, attrs);
      var entries := Entries(resolved);
      && (forall x :: Get(r.0, x) == (if Declared(declared, x) then Get(entries, x) else None))
      && (forall x :: Get(r.1, x) == (if Has(entries, x) && !Declared(declared, x) then Get(entries, x) else Get(attrs, x)))
  {
    var entries := Entries(resolved);
    var keys := Keys(entries);
    forall i, j | 0 <= i < j < |keys| ensures keys[i] != keys[j] {
      assert keys[i] == entries[i].0 && keys[j] == entries[j].0;
    }
    forall i | 0 <= i < |keys| ensures Has(entries, keys[i]) {
      assert entries[i].0 == keys[i];
    }
    SplitFacts(keys, declared, entries, attrs);
    forall x ensures x in keys <==> Has(entries, x) {
      if Has(entries, x) {
        var i :| 0 <= i < |entries| && entries[i].0 == x;
        assert keys[i] == x;
      }
    }
  }

  // ------------------------------------------------------------ instances

  /** The instances registered on records, by record identity and outlet
      name; a missing entry is `undefined`. */
  type Instances = map<(nat, string), nat>

  /** `instances[slot] = value`, where `undefined` removes the entry. */
  function Store(instances: Instances, slot: (nat, string), value: Option<nat>): (r: Instances)
    ensures value.Some? ==> slot in r && r[slot] == value.value
    ensures value.None? ==> slot !in r
    ensures forall s :: s != slot ==> (s in r <==> s in instances) && (s in r ==> r[s] == instances[s])
  {
    if value.Some? then instances[slot := value.value] else instances - {slot}
  }

  /** `registerRouteInstance(vm, val)`: a registration (`val` given) is
      stored when the outlet does not already hold `vm`; an unregistration
      (`val` undefined) clears the outlet only when it holds `vm`. */
  function RegisterInstance(instances: Instances, slot: (nat, string), vm: nat, val: Option<nat>): Instances
  {
    var current := if slot in instances then Some(instances[slot]) else None;
    if (val.Some? && current != Some(vm)) || (val.None? && current == Some(vm)) then Store(instances, slot, val)
    else instances
  }

  /** After an instance registers itself it is the one the outlet holds,
      and nothing else changes. */
  lemma RegisterHolds(instances: Instances, slot: (nat, string), vm: nat)
    ensures var r := RegisterInstance(instances, slot, vm, Some(vm));
      && slot in r && r[slot] == vm
      && (forall s :: s != slot ==> (s in r <==> s in instances) && (s in r ==> r[s] == instances[s]))
  {
  }

  /** An instance unregistering clears the outlet only when the outlet
      still holds it: a newer instance registered meanwhile survives. */
  lemma UnregisterOwnOnly(instances: Instances, slot: (nat, string), vm: nat)
    ensures var r := RegisterInstance(instances, slot, vm, None);
      && (slot in instances && instances[slot] == vm ==> slot !in r)
      && (!(slot in instances && instances[slot] == vm) ==> r == instances)
  {
  }

  /** The late unregistration of an old instance after a new one took the
      outlet leaves the new one in place. */
  lemma NewerSurvives(instances: Instances, slot: (nat, string), stale: nat, newer: nat)
    requires stale != newer
    ensures var r := RegisterInstance(RegisterInstance(instances, slot, newer, Some(newer)), slot, stale, None);
      slot in r && r[slot] == newer
  {
  }

  /** The `prepatch` hook: the outlet holds the new vnode's instance,
      whatever it held before. */
  function Prepatch(instances: Instances, slot: (nat, string), instance: Option<nat>): (r: Instances)
    ensures instance.Some? ==> slot in r && r[slot] == instance.value
    ensures instance.None? ==> slot !in r
  {
    Store(instances, slot, instance)
  }

  // -------------------------------------------------------------- render

  /** A component between the outlet and the root: whether its vnode is a
      router view, and whether it is inactive (kept alive but switched
      off). */
  datatype Ancestor = Ancestor(routerView: bool, inactive: bool)

  /** The depth of the outlet: the number of router views above it. */
  function Depth(ancestors: seq<Ancestor>): (d: nat)
    ensures d <= |ancestors|
  {
    if |ancestors| == 0 then 0
    else Depth(ancestors[..|ancestors| - 1]) + (if ancestors[|ancestors| - 1].routerView then 1 else 0)
  }

  /** Which ancestors are router views, from the root down. */
  function ViewFlags(ancestors: seq<Ancestor>): seq<bool> {
    seq(|ancestors|, i requires 0 <= i < |ancestors| => ancestors[i].routerView)
  }

  /** The depth counts exactly the router views among the ancestors. */
  lemma {:induction false} DepthCountsViews(ancestors: seq<Ancestor>)
    ensures Depth(ancestors) == multiset(ViewFlags(ancestors))[true]
  {
    if |ancestors| > 0 {
      var n := |ancestors|;
      DepthCountsViews(ancestors[..n - 1]);
      assert ViewFlags(ancestors) == ViewFlags(ancestors[..n - 1]) + [ancestors[n - 1].routerView];
    }
  }

  /** Some ancestor is inactive. */
  predicate AnyInactive(ancestors: seq<Ancestor>) {
    exists i :: 0 <= i < |ancestors| && ancestors[i].inactive
  }

  /** What an outlet renders: the cached component of an inactive tree, an
      empty node, or a component with its data. */
  datatype Rendered =
    | Cached(previous: Option<Component>)
    | Empty
    | Shown(component: Component, record: RouteRecord, props: PropsOption, attrs: Dict<PropsOption>)

  /** The outcome of one render: what is shown and the outlet's cache
      entry afterwards (`None` for `null`). */
  datatype ViewResult = ViewResult(rendered: Rendered, cache: Option<Component>)

  /** The render function for the outlet `name`, its cache entry `cached`
      and the outlet's existing attributes.  The route's records must carry
      the async components resolved so far, written into their outlets, as
      the source reads `matched.components[name]` after the write-back.
      `None` when rendering throws: a truthy props value with an entry,
      for an outlet the record has no component for, reads `props` of
      `undefined`; without entries the loop never runs and nothing throws. */
  function Render(route: Route, name: string, ancestors: seq<Ancestor>, cached: Option<Component>,
                  attrs: Dict<PropsOption>, call: (FnId, Route) -> PropsOption): Option<ViewResult>
  {
    var depth := Depth(ancestors);
    if AnyInactive(ancestors) then Some(ViewResult(Cached(cached), cached))
    else if depth >= |route.matched| then Some(ViewResult(Empty, None))
    else
      var record := route.matched[depth];
      var component := Get(record.components, name).GetOr(Absent);
      var resolved := OutletResolved(route, record, name, call);
      if !Truthy(resolved) then Some(ViewResult(Shown(component, record, resolved, attrs), Some(component)))
      else if component.Absent? && |Entries(resolved)| > 0 then None
      else
        var declared := if component.Definition? then component.props else None;
        var split := SplitProps(resolved, declared, attrs);
        Some(ViewResult(Shown(component, record, PObject(split.0), split.1), Some(component)))
  }

  /** An active outlet shows the record at its depth: with none there it
      renders nothing and nulls its cache; otherwise it shows the record's
      component for its name and caches it. */
  lemma RenderAtDepth(route: Route, name: string, ancestors: seq<Ancestor>, cached: Option<Component>,
                      attrs: Dict<PropsOption>, call: (FnId, Route) -> PropsOption)
    requires !AnyInactive(ancestors)
    ensures var r := Render(route, name, ancestors, cached, attrs, call);
      var d := Depth(ancestors);
      && (d >= |route.matched| ==> r == Some(ViewResult(Empty, None)))
      && (d < |route.matched| && r.Some? ==>
            && r.value.rendered.Shown? && r.value.rendered.record == route.matched[d]
            && r.value.cache == Some(r.value.rendered.component)
            && (Has(route.matched[d].components, name) ==> Get(route.matched[d].components, name) == Some(r.value.rendered.component)))
  {
  }

  /** An inactive tree shows what the outlet cached and leaves the cache
      alone. */
  lemma RenderInactive(route: Route, name: string, ancestors: seq<Ancestor>, cached: Option<Component>,
                       attrs: Dict<PropsOption>, call: (FnId, Route) -> PropsOption)
    requires AnyInactive(ancestors)
    ensures Render(route, name, ancestors, cached, attrs, call) == Some(ViewResult(Cached(cached), cached))
  {
  }

  /** A falsy resolved props value (`false`, `''`, `0`, `NaN`, `null`,
      `undefined`) is handed on as it is, the attributes stay as they were,
      and this holds even for an outlet without a component. */
  lemma RenderFalsyProps(route: Route, name: string, ancestors: seq<Ancestor>, cached: Option<Component>,
                         attrs: Dict<PropsOption>, call: (FnId, Route) -> PropsOption)
    requires !AnyInactive(ancestors) && Depth(ancestors) < |route.matched|
    requires !Truthy(OutletResolved(route, route.matched[Depth(ancestors)], name, call))
    ensures var r := Render(route, name, ancestors, cached, attrs, call);
      var record := route.matched[Depth(ancestors)];
      var component := Get(record.components, name).GetOr(Absent);
      r == Some(ViewResult(Shown(component, record, OutletResolved(route, record, name, call), attrs), Some(component)))
  {
  }

  /** A truthy props value without entries (a function, `true`, a
      non-zero number, `{}`) leaves an empty props object and the
      attributes as they were, whether or not the outlet has a component. */
  lemma RenderNoEntries(route: Route, name: string, ancestors: seq<Ancestor>, cached: Option<Component>,
                        attrs: Dict<PropsOption>, call: (FnId, Route) -> PropsOption)
    requires !AnyInactive(ancestors) && Depth(ancestors) < |route.matched|
    requires Truthy(OutletResolved(route, route.matched[Depth(ancestors)], name, call))
    requires |Entries(OutletResolved(route, route.matched[Depth(ancestors)], name, call))| == 0
    ensures var r := Render(route, name, ancestors, cached, attrs, call);
      var record := route.matched[Depth(ancestors)];
      var component := Get(record.components, name).GetOr(Absent);
      r == Some(ViewResult(Shown(component, record, PObject([]), attrs), Some(component)))
  {
    var record := route.matched[Depth(ancestors)];
    var component := Get(record.components, name).GetOr(Absent);
    var declared := if component.Definition? then component.props else None;
    SplitPropsFacts(OutletResolved(route, record, name, call), declared, attrs);
  }

  /** Rendering throws exactly when an active outlet at a matched depth has
      no component and its truthy props value has an entry to look up. */
  lemma RenderThrows(route: Route, name: string, ancestors: seq<Ancestor>, cached: Option<Component>,
                     attrs: Dict<PropsOption>, call: (FnId, Route) -> PropsOption)
    ensures var d := Depth(ancestors);
      Render(route, name, ancestors, cached, attrs, call).None? <==>
        && !AnyInactive(ancestors) && d < |route.matched|
        && Get(route.matched[d].components, name).GetOr(Absent).Absent?
        && Truthy(OutletResolved(route, route.matched[d], name, call))
        && |Entries(OutletResolved(route, route.matched[d], name, call))| > 0
  {
  }

  /** A shown component with truthy props receives exactly its declared
      props; everything else it was given is in its attributes. */
  lemma RenderSplits(route: Route, name: string, ancestors: seq<Ancestor>, cached: Option<Component>,
                     attrs: Dict<PropsOption>, call: (FnId, Route) -> PropsOption)
    requires !AnyInactive(ancestors) && Depth(ancestors) < |route.matched|
    requires Truthy(OutletResolved(route, route.matched[Depth(ancestors)], name, call))
    ensures var r := Render(route, name, ancestors, cached, attrs, call);
      var resolved := OutletResolved(route, route.matched[Depth(ancestors)], name, call);
      r.Some? ==>
        var shown := r.value.rendered;
        var declared := if shown.component.Definition? then shown.component.props else None;
        && shown.Shown? && shown.props.PObject?
        && (forall x :: Get(shown.props.obj, x) == (if Declared(declared, x) then Get(Entries(resolved), x) else None))
        && (forall x :: Has(Entries(resolved), x) && !Declared(declared, x) ==> Get(shown.attrs, x) == Get(Entries(resolved), x))
  {
    var record := route.matched[Depth(ancestors)];
    var component := Get(record.components, name).GetOr(Absent);
    var declared := if component.Definition? then component.props else None;
    SplitPropsFacts(OutletResolved(route, record, name, call), declared, attrs);
  }
}

=== FILE: wrappers.dfy ===
/** Failure-compatible wrappers shared by every module of the model. */
module Wrappers {

  /** An optional value; `None` stands for JavaScript's `undefined`/`null`
      wherever the source only tests for presence. */
  datatype Option<+T> = None | Some(value: T) {

    /** The wrapped value, or `default` when absent. */
    function GetOr(default: T): T {
      match this
      case Some(v) => v
      case None => default
    }
  }
}
